=== FILE: README.md ===
# roman and yamlidator, modelled in Dafny

This project models the core of `roman`, the course-material build tool of
A+ LMS, together with its bundled YAML document library `yamlidator`. Every
piece is written as immutable datatypes and pure functions, and the
properties the code promises are proved about them.

- **Environment substitution** (`env_subst.dfy`, `env_dict.dfy`). This is the
  shell-like `${...}` expansion engine: plain references, `:-`, `:+`, `/` and
  `//`, replacement-pattern parsing, named layers of entries, and
  `get_combined`, which resolves every entry against the map built so far.
- **Project configuration** (`configuration.dfy`). Covers step lookup by
  index or by case-folded name, unique-name validation, adding and deleting
  steps, and the candidate configuration file names.
- **Engine and builder** (`builder.dfy`). Covers backend resolution, the
  backend's environment variables, and the prepare/build call sequence.
- **Observer** (`observer.dfy`). Covers the phase machine and the output line
  of the stream observer.
- **Docker backend** (`docker.dfy`). Covers the container run options, the
  prepare loop and the fail-fast build loop. The Docker client is a
  parameter.
- **Settings** (`settings.dfy`). Covers command-line argument names, group
  and argument inheritance, parser options and `update_from_namespace`.
- **yamlidator utilities**:
  - the boolean literal table (`booleans.dfy`);
  - versions (`versions.dfy`);
  - `recursive_update`, `OrderedDefaultDict` and the change-tracking
    dict/list views (`collections.dfy`);
  - the `json.dumps` text of values (`values.dfy`).
- **yamlidator documents** (`document.dfy`). Covers `find_ml`, the multi-level
  get/set/setdefault/delete operations, `find_type`, `mlset_cast`, and the
  choice of document by version.
- **yamlidator validator** (`validator.dfy`). Covers `format_path`,
  `get_version`, and the indexing of schema file names and remote
  references.
- **Error excerpts** (`error_render.dfy`). Covers the line window, the
  numbering and the caret of `render_lc`.
- **Packaging helpers** (`setup.dfy`). Covers requirement files, version-pinned
  core requirements, `get_version`, schema file recognition and
  `parse_rst_field`.

Shared helpers:
- `wrappers.dfy`: `Option` and `Result`;
- `text.dfy`: the Python string methods used, over `seq<char>`;
- `assoc.dfy`: insertion-ordered dictionaries as sequences of pairs.

## Model

| member | source | states |
|---|---|---|
| EnvSubst.TokenEnd | apluslms_roman/utils/env.py:19 | a `${...}` token starting at a position ends at the one place where `${`, a brace-free body of at least one character and `}` fit; there is at most one such place |
| EnvSubst.FindToken | apluslms_roman/utils/env.py:140 | the token found is the leftmost match of the token pattern; when none is found, no position holds a token |
| EnvSubst.FindSeparatorEarliest | apluslms_roman/utils/env.py:37-41 | no separator is found exactly when none of `:-`, `:+`, `//`, `/` occurs in the body; otherwise the chosen one starts no later than any other present, and on a tie it is listed no later in the table |
| EnvSubst.ParseReplacement | apluslms_roman/utils/env.py:89-92 | parsing fails exactly when the body has none of the four shapes (plain/plain, quoted/quoted, quoted/plain, plain/quoted) |
| EnvSubst.ParsePlain | apluslms_roman/utils/env.py:113-116 | a body with one slash and no quotes needed splits at that slash, and each half loses its surrounding quote characters (also lines 95-96) |
| EnvSubst.ParseQuotedLeft | apluslms_roman/utils/env.py:98-107 | when the plain shape does not fit, a quoted left side gives the regex, and the text after its slash gives the replacement (also lines 113-116) |
| EnvSubst.ParseQuotedRight | apluslms_roman/utils/env.py:108-116 | the last shape takes the regex from before the first slash, and the replacement from the leftmost quoted text anywhere in the body |
| EnvSubst.ToStr | apluslms_roman/utils/env.py:44-49 | `to_str` gives no text only for `None`; strings stay, and everything else becomes its JSON text |
| EnvSubst.GetDefined | apluslms_roman/utils/env.py:150 | `env.get` treats a stored `None` like a missing variable |
| EnvSubst.ExpandItems | apluslms_roman/utils/env.py:122-124 | a list is expanded element-wise, in place and in order; it fails exactly when some element fails |
| EnvSubst.ExpandFields | apluslms_roman/utils/env.py:125-127 | a mapping's values are expanded in place with their keys kept; it fails exactly when some value fails |
| EnvSubst.Update | apluslms_roman/utils/env.py:119-129 | `update` stores the expansion of a string, list or mapping under the key, or stores any other value as given; no other key changes |
| EnvSubstProps.FirstTokenAfter | apluslms_roman/utils/env.py:140-143 | in `pre${body}post` with no `$` in `pre`, the first token found is `${body}`, so inner tokens are resolved first |
| EnvSubstProps.OperatorBody | apluslms_roman/utils/env.py:144-149 | the body `name<op>arg` is not a plain reference; it selects `op` and splits into `name` and `arg` |
| EnvSubstProps.OperatorSelected | apluslms_roman/utils/env.py:37-41 | after an identifier, the separator written is the one selected, with `//` taking precedence over `/` |
| EnvSubstProps.UndefinedReference | apluslms_roman/utils/env.py:159-164 | a plain reference to an absent variable fails with "K references itself" when it names the key being defined, and "NAME hasn't been defined" otherwise |
| EnvSubstProps.WholeReference | apluslms_roman/utils/env.py:165-167 | a value that is exactly one plain reference becomes the variable's value with its type kept |
| EnvSubstProps.SplicedReference | apluslms_roman/utils/env.py:165-169 | a reference inside longer text is replaced by the variable's text |
| EnvSubstProps.DefaultOperator | apluslms_roman/utils/env.py:150-157 | `${N:-d}` gives N's value if defined, else the literal `d`; it never fails on a missing N (also lines 52-53, 81-86) |
| EnvSubstProps.AlternativeOperator | apluslms_roman/utils/env.py:150-157 | `${N:+t}` gives `t` if N is defined, else the empty string; it never fails on a missing N (also lines 56-57, 81-86) |
| EnvSubstProps.ReplaceOperator | apluslms_roman/utils/env.py:60-77 | `/` and `//` need N to be defined (else the self-reference or not-defined error); a body of no known shape gives the wrong-pattern error; otherwise they replace the first or every occurrence (also lines 150-157) |
| EnvSubstProps.LoopFuelMonotone | apluslms_roman/utils/env.py:139-171 | an expansion that finishes within some fuel gives the same result with any more fuel |
| EnvDict.FirstMatch | apluslms_roman/utils/env.py:191-195 | the first entry that `find_in_env` accepts for a key: a mapping that has the key or names it, or text whose part before `=` is the key |
| EnvDict.MatchingEntries | apluslms_roman/utils/env.py:191-195 | `find_in_env` lists exactly the matching entries, and its first element is the first match |
| EnvDict.SetInLayer | apluslms_roman/utils/env.py:197-210 | with no match, `key=val` is appended; otherwise the first match is replaced by `key=val`, and when there were more matches, later entries mentioning the key are dropped |
| EnvDict.SetThenFind | apluslms_roman/utils/env.py:197-210 | after `set_in_env`, the first entry matching the key is the new `key=val` |
| EnvDict.SetDropsByMention | apluslms_roman/utils/env.py:206-208 | after a repeated match, what follows the new entry is exactly the earlier tail minus every entry that mentions the key (a substring test, not a match) |
| EnvDict.MentionIsNotMatch | apluslms_roman/utils/env.py:193-195 | mentioning and matching differ both ways: `BA=3` mentions `A` without matching it, and a `{name: A}` mapping matches `A` without mentioning it (also line 208) |
| EnvDict.DeleteFromLayer | apluslms_roman/utils/env.py:212-223 | a digit key pops that position (an index error when out of range) and reports nothing; otherwise it returns False and changes nothing when no deletable match exists, and else removes the matches, keeping unset directives unless `delete_unset` is set |
| EnvDict.AddEnv | apluslms_roman/utils/env.py:185-186 | the named layer holds the entries afterwards (an empty list for `None`), every other layer is unchanged, and an existing layer keeps its position |
| EnvDict.GetEnv | apluslms_roman/utils/env.py:188-189 | fails with the unknown layer exactly when no layer has the name, and otherwise returns that layer's entries |
| EnvDict.AddThenGet | apluslms_roman/utils/env.py:185-189 | `add_env` then `get_env` gives the added entries (an empty list for `None`), and other layers are unchanged |
| EnvDict.FindInEnv | apluslms_roman/utils/env.py:191-195 | fails on an unknown layer, else holds exactly the matching entries of that layer |
| EnvDict.SetInEnv | apluslms_roman/utils/env.py:197-210 | edits only the named layer, with the layer order unchanged |
| EnvDict.DeleteFromEnv | apluslms_roman/utils/env.py:212-223 | an unknown layer fails; a False result leaves every layer as it was |
| EnvDict.AddToEnv | apluslms_roman/utils/env.py:225-226 | the item is appended to the named layer only |
| EnvDict.AsFields | apluslms_roman/utils/env.py:247-249 | text entries split at their first `=`: the key has no `=`, and key, `=` and value give back the text |
| EnvDict.Named | apluslms_roman/utils/env.py:240-243 | only an `EnvError` is caught and raised again naming the entry; any other error, a TypeError, passes on unchanged |
| EnvDict.UpdateAll | apluslms_roman/utils/env.py:239-243 | keys not in the entry keep their values; a failure names the entry exactly when its cause is an `EnvError`, and a TypeError escapes unnamed |
| EnvDictProps.CombineLayersAppend | apluslms_roman/utils/env.py:245-251 | combining layers `a + b` is combining `a` and then continuing with `b` from that result, so layers apply in insertion order |
| EnvDictProps.CombineEntriesAppend | apluslms_roman/utils/env.py:246-250 | within a layer, entries apply one after another in order |
| EnvDictProps.LaterAssignmentWins | apluslms_roman/utils/env.py:245-251 | a `KEY=value` in a layer added last decides the key's value in the combined map |
| EnvDictProps.ExtendEntry | apluslms_roman/utils/env.py:165-169 | `{KEY: "pre${KEY}post"}` extends the key's current text (also lines 239-241) |
| EnvDictProps.NullItemEscapes | apluslms_roman/utils/env.py:240-243 | `{KEY: [None]}` fails with the TypeError of `re.search` on `None` (line 140), not caught and naming no entry |
| EnvDictProps.UndefinedInEntry | apluslms_roman/utils/env.py:240-243 | a reference to an unset name fails with the invalid-entry error naming the entry (also lines 274-275) |
| EnvDictProps.UnsetDeletes | apluslms_roman/utils/env.py:232-236 | `{name: N, unset: <true literal>}` deletes a defined `N` |
| EnvDictProps.UnsetFallsThrough | apluslms_roman/utils/env.py:232-243 | an unset directive with a false flag, or with a true flag for an undefined name, is expanded as an ordinary mapping, its keys stored as they are |
| EnvDictProps.UnsetUndefined | apluslms_roman/utils/env.py:232-243 | unsetting an undefined variable stores the keys `name` and `unset` literally |
| EnvDictProps.NameValueDirective | apluslms_roman/utils/env.py:237-238 | `{name: N, value: V}` is expanded as `{N: V}`; without `value` it fails |
| EnvDictProps.AssignEntry | apluslms_roman/utils/env.py:247-249 | `KEY=value` text with no `$` stores the value text under the key |
| EnvDictProps.GetCombinedUnique | apluslms_roman/utils/env.py:228-251 | the combined environment never holds a key twice |
| Configuration.GetStep | apluslms_roman/configuration.py:83-91 | a digit ref gives the step at that index, or an index error naming it; any other ref gives the last step whose lower-cased name equals the lower-cased ref, or a key error (also lines 102-104) |
| Configuration.RefToIndex | apluslms_roman/configuration.py:93-96 | a digit ref gives its value with no range check; a name gives a position exactly when `get_step` finds the step |
| Configuration.RefToIndexAgrees | apluslms_roman/configuration.py:93-96 | when `get_step` succeeds, `ref_to_index` gives a position holding that very step |
| Configuration.RepeatedNames | apluslms_roman/configuration.py:64-65 | the names reported are exactly those used by at least two steps, compared in lower case |
| Configuration.Validate | apluslms_roman/configuration.py:60-69 | validation passes exactly when the lower-cased names are unique; an error lists every repeated name |
| Configuration.UniqueNamesResolve | apluslms_roman/configuration.py:102-104 | with unique names, each named step is found by its own name (also line 91) |
| Configuration.AddStep | apluslms_roman/configuration.py:71-76 | a name already used (case-insensitively) is rejected with the name; otherwise the step is appended at the end |
| Configuration.AddStepUnique | apluslms_roman/configuration.py:71-76 | adding keeps names unique, and the new step is found by its name |
| Configuration.DelStep | apluslms_roman/configuration.py:78-81 | the first equal step is removed and nothing else; an unresolved ref gives `get_step`'s error |
| Configuration.DelStepKeepsOthers | apluslms_roman/configuration.py:78-81 | deleting a ref that resolves to a step occurring once leaves exactly the other steps, in order |
| Configuration.FindFrom | apluslms_roman/configuration.py:26-47 | a non-directory fails; otherwise the first existing name among roman.yml, roman.yaml, roman.json, course.yml, course.yaml, course.json is chosen, and none existing is an error |
| Configuration.LoadFrom | apluslms_roman/configuration.py:50-58 | an existing file is loaded as given; otherwise extensions are tried in order, only when the base name has no `.` |
| Builder.ImportBackend | apluslms_roman/builder.py:40-43 | a name without `.` goes through the alias table first; the module table then decides the class or an import error |
| Builder.ResolveBackend | apluslms_roman/builder.py:34-44 | a given class is used as is; with none given and no `backend` setting, the Docker backend is used |
| Builder.BackendFromSettings | apluslms_roman/builder.py:35-43 | a `backend` setting is resolved through the alias table (when it has no `.`) and imported; a failed import names the full path |
| Builder.PrefixedVars | apluslms_roman/builder.py:48 | the options start as exactly the process variables whose names start with the prefix |
| Builder.PrefixedVarsValues | apluslms_roman/builder.py:48 | each process variable kept holds the value it has in the process environment, whose names are unique |
| Builder.ApplySettings | apluslms_roman/builder.py:49-52 | a variable that no non-empty setting of the backend's section names keeps the value it had among the prefixed variables |
| Builder.ApplySettingsLast | apluslms_roman/builder.py:49-52 | the last non-empty setting for an option decides the variable `PREFIX_OPTION` (with `-` turned to `_`, upper-cased) |
| Builder.NewEngine | apluslms_roman/builder.py:34-53 | the engine's backend is the resolved one; every variable carries the backend's prefix; a failed resolution fails |
| Builder.EngineVars | apluslms_roman/builder.py:46-53 | the environment carries uid and gid; a variable no setting touches is present exactly when the process has it and it carries the prefix |
| Builder.RunBuild | apluslms_roman/builder.py:19-30 | the calls start with entering prepare; a failed prepare stops there; the result is the build's; a successful run ends with `done(result)` |
| Builder.RunBuildPhases | apluslms_roman/builder.py:25-29 | the events observed are the prepare steps in PREPARE, the build steps in BUILD, and a final DONE carrying the result |
| Builder.DockerBuildPhases | apluslms_roman/builder.py:25-29 | with the Docker backend's own call sequences, prepare events are tagged PREPARE, build events BUILD, and the last event is DONE with the result |
| Observer.Emit | apluslms_roman/observer.py:26-46 | the enter calls set the phase and tag their event with it; step and message calls keep the phase and carry their step |
| Observer.Run | apluslms_roman/observer.py:20-46 | each call sends exactly one message, in call order, of the kind the call names |
| Observer.RunPhases | apluslms_roman/observer.py:26-46 | after any calls, the phase is the last one entered (NONE at first), and each event carries the phase entered before it (also line 21) |
| Observer.WithinPhase | apluslms_roman/observer.py:36-46 | step and message calls never change the phase |
| Observer.RunAppend | apluslms_roman/observer.py:20-46 | observing `a + b` is observing `a`, then `b` from the phase `a` left |
| Observer.Line | apluslms_roman/observer.py:53-63 | ENTER writes nothing; every other line starts with the phase (and step number) followed by ` >> `, ` : ` or a space by message kind |
| Observer.LineEndsOnce | apluslms_roman/observer.py:63 | a written line ends in exactly one newline |
| Observer.LineText | apluslms_roman/observer.py:62-63 | the data is written after the separator; empty data is written as the lower-case message name |
| Observer.ContainerLine | apluslms_roman/observer.py:53-63 | concrete lines: `BUILD 3 >> ok`, `PREPARE 0 start_step`, and nothing for DONE |
| Docker.RunOptsForMounts | apluslms_roman/backends/docker.py:19-42 | image, command and environment come from the step, and the user is `uid:gid`; mount targets are distinct and every bind comes from the course; the course is writable exactly when the step has a mount point; otherwise the work dir is `/work` with the source under `/work/src` and `_build` writable |
| Docker.UserSpecRoundTrip | apluslms_roman/backends/docker.py:26 | the user text splits at `:` back into the uid and gid |
| Docker.SplitImage | apluslms_roman/backends/docker.py:48 | a tagged image splits at its first `:` into a colon-free name and the tag that rebuild it |
| Docker.PrepareStep | apluslms_roman/backends/docker.py:46-55 | a step prepares exactly when its image has a tag and is present or can be pulled; an untagged image fails before the lookup |
| Docker.PrepareStepCalls | apluslms_roman/backends/docker.py:47-55 | `start_step` comes first and `end_step` last for a tagged image; a pull happens exactly when the image is missing locally, with the name and tag split at the first `:` |
| Docker.PrepareRun | apluslms_roman/backends/docker.py:44-55 | prepare handles every step and succeeds exactly when every step is preparable; otherwise it handles the steps up to and including the first one that is not, and ends with that step's error |
| Docker.PrepareFrom | apluslms_roman/backends/docker.py:44-55 | prepare succeeds exactly when every step prepares; otherwise it stops at the first failing step with that step's error |
| Docker.StepVerdict | apluslms_roman/backends/docker.py:63-76 | a step passes when the container is created and waited with a zero code and no error; it stops the build with `(code, error, i)` when either is set; a failed create or wait raises, naming the step |
| Docker.BuildStepCalls | apluslms_roman/backends/docker.py:60-79 | each step announces itself and creates its container; a created container is started, its log lines are forwarded, and it is removed before `end_step` |
| Docker.BuildRun | apluslms_roman/backends/docker.py:57-80 | the build runs every step and succeeds exactly when every step passes; otherwise it runs the steps up to and including the first one that does not pass, and ends with that step's outcome |
| Docker.BuildFrom | apluslms_roman/backends/docker.py:57-80 | the build succeeds with the empty result exactly when every step passes; otherwise it ends at the first step that does not pass, with that step's outcome |
| Docker.BuildStopsAtFirstFailure | apluslms_roman/backends/docker.py:71-76 | when steps before `k` pass and step `k` fails, exactly `k + 1` steps run and the result is `BuildResult(code, error, k)` |
| Docker.BuildCleansUp | apluslms_roman/backends/docker.py:65-79 | every created container is removed and its `end_step` sent, on every exit path; a failed create sends neither and ends the build |
| Docker.BuildStaysInPhase | apluslms_roman/backends/docker.py:57-80 | the build loop makes only step-level observer calls |
| Docker.PrepareStaysInPhase | apluslms_roman/backends/docker.py:44-55 | the prepare loop makes only step-level observer calls |
| Settings.ConfigPath | apluslms_roman/settings.py:39-42 | the path ends in the given file name, or `<name>.yml` when none is given; a relative name sits under the configuration directory, and an absolute name is the result itself, as `os.path.join` drops what comes before it |
| Text.JoinPath | apluslms_roman/settings.py:42 | `os.path.join` of two parts: an absolute second part is the result; otherwise the result starts with the first part and ends with the second, with one `/` between them unless the first part is empty or already ends in one |
| Settings.ConfigPathExamples | apluslms_roman/settings.py:39-42 | `roman` gives `/cfg/roman.yml`, a relative name is joined without doubling the slash, and `/etc/x.yml` is returned unchanged |
| Settings.DefaultName | apluslms_roman/settings.py:67-68 | the default argument name is the option with every `.` and `_` turned into `-`, all else kept |
| Settings.Collect | apluslms_roman/settings.py:65-69 | the metavar is the declaration's second extra field (none when absent), and the name is its third, or the default name when absent |
| Settings.MergeGroups | apluslms_roman/settings.py:54-59 | a group name the class does not declare keeps its inherited title and description |
| Settings.MergeGroupsLast | apluslms_roman/settings.py:54-59 | a group declared by the class takes its last declared title and description; undeclared groups keep the inherited ones |
| Settings.MergeArgsGroup | apluslms_roman/settings.py:61-70 | each group's arguments are the inherited ones followed by the class's own for that group, in declaration order |
| Settings.ClassTableGroup | apluslms_roman/settings.py:49-70 | each class in a chain extends its parent's table with the arguments visible to it |
| Settings.InheritedArgumentsRepeat | apluslms_roman/settings.py:62-65 | a subclass that declares no arguments re-appends the ones it inherits, because `ARGUMENTS` is inherited as a class attribute |
| Settings.Prefixed | apluslms_roman/settings.py:88 | each option part becomes `properties/<part>` |
| Settings.ParserArgFor | apluslms_roman/settings.py:84-103 | the flag is `--name`; a group with a title gets its own argument group; a boolean uses `store_false` exactly when its default is true; other types store, with the given metavar when there is one and otherwise the type's default metavar (the type is `string` when the schema gives none); the help is the description, else the title, else the name |
| Settings.Metavar | apluslms_roman/settings.py:12-15 | the default metavar: `INT` for an integer, none for a boolean, and the type name in capitals, character by character, for any other type (also lines 99-100) |
| Settings.BooleanFlags | apluslms_roman/settings.py:96-103 | concrete actions: a true-default boolean gives `store_false`, a boolean without a default gives `store_true`, an integer type gets the metavar `INT`, an `array` type gets `ARRAY`, and an option whose schema is not found gets `STRING` |
| Settings.PopulateParser | apluslms_roman/settings.py:78-83 | it fails exactly when there is no validator |
| Settings.UndeclaredGroupsHidden | apluslms_roman/settings.py:84-86 | the parser gets arguments only from declared groups: when no declared group holds any, none are added, whatever undeclared groups hold |
| Settings.UpdateOps | apluslms_roman/settings.py:105-112 | only arguments present in the namespace (under the name with `-` turned to `_`) are written, all with `mlset` when storing and `mlsetwork` otherwise |
| Settings.UpdateOpsAppend | apluslms_roman/settings.py:105-112 | the assignments for two consecutive runs of arguments are those of the first run followed by those of the second: the table is walked in order |
| Settings.UpdateOpsOne | apluslms_roman/settings.py:108-112 | a single argument yields exactly one assignment, of its option to the parsed value, when its attribute is present, and none when it is `Undefined` |
| Settings.UpdateOpsComplete | apluslms_roman/settings.py:105-112 | every argument whose attribute is present is written, with its own option and the parsed value, at the position right after the assignments of the arguments before it |
| Settings.GivenArgumentWritten | apluslms_roman/settings.py:108-112 | a present value writes exactly that option and value; an absent one writes nothing |
| Booleans.ConvertToBoolean | apluslms-yamlidator/apluslms_yamlidator/utils/__init__.py:3-13 | the result is True exactly for 1, True, '1', 'true', 'True' and False exactly for 0, False, '0', 'false', 'False'; anything else raises, lists and mappings as unhashable |
| Booleans.ConvertToBooleanRoundTrip | apluslms-yamlidator/apluslms_yamlidator/utils/__init__.py:3-13 | every boolean read back from its Python text, its lower-case text, itself and its integer |
| Versions.MakeVersion | apluslms-yamlidator/apluslms_yamlidator/utils/version.py:3-4 | `Version()` is 1.0 and `Version(m)` is m.0; more than two fields are rejected |
| Versions.LeadingInts | apluslms-yamlidator/apluslms_yamlidator/utils/version.py:15-20 | the integer parts read are a prefix of the parts, stopping at the first that `int()` rejects |
| Versions.ParseVersion | apluslms-yamlidator/apluslms_yamlidator/utils/version.py:9-23 | a version is returned unchanged; a tuple is cut to its first two fields; text succeeds exactly when its first dotted part is an integer, with the second part as minor when it is one |
| Versions.ParseVersionString | apluslms-yamlidator/apluslms_yamlidator/utils/version.py:6-23 | parsing the printed `major.minor` gives the version back |
| Collections.Merge | apluslms-yamlidator/apluslms_yamlidator/utils/collections.py:20-32 | two lists concatenate; a mapping meeting a mapping stays a mapping; in every other case the new value overwrites |
| Collections.UpdateFromKey | apluslms-yamlidator/apluslms_yamlidator/utils/collections.py:20-32 | after `recursive_update`, a key of the new data holds the merge of old and new, and any other key is untouched |
| Collections.UpdateFromKeepsOrder | apluslms-yamlidator/apluslms_yamlidator/utils/collections.py:20-32 | existing keys keep their order, and new keys come after them |
| Collections.RecursiveUpdateExample | apluslms-yamlidator/apluslms_yamlidator/utils/collections.py:20-32 | concrete: lists extend, nested maps merge, and a list replaces a string |
| Collections.DefaultGet | apluslms-yamlidator/apluslms_yamlidator/utils/collections.py:42-46 | a present key is read; a missing key raises without a factory, and with one gets the factory value inserted at the end |
| Collections.Wrap | apluslms-yamlidator/apluslms_yamlidator/utils/collections.py:141-150 | a wrapped value keeps its data and a mapping becomes a dict view; wrapping fails only on a default that is not a mapping (also lines 74-78) |
| Collections.SetItem | apluslms-yamlidator/apluslms_yamlidator/utils/collections.py:164-167 | `d[k] = v` writes `v` to both the data and the view; other keys are untouched |
| Collections.DelItem | apluslms-yamlidator/apluslms_yamlidator/utils/collections.py:169-172 | deletion fails exactly when the view lacks the key, and otherwise removes it from the view and from the data |
| Collections.SetWork | apluslms-yamlidator/apluslms_yamlidator/utils/collections.py:174-178 | `setwork` changes the view only; the data is unchanged |
| Collections.SetDefault | apluslms-yamlidator/apluslms_yamlidator/utils/collections.py:186-190 | `setdefault` never overrides a key in the view, leaves the data unchanged, and returns the view's value |
| Collections.SetDefaults | apluslms-yamlidator/apluslms_yamlidator/utils/collections.py:192-196 | the data is unchanged, every key already in the view keeps its value, every key of the defaults is in the view afterwards, defaults are recorded only for shown keys, and a default that is not a mapping or a list of pairs fails |
| Collections.DataUpdated | apluslms-yamlidator/apluslms_yamlidator/utils/collections.py:198-203 | a non-empty child is stored under its key in the parent's data; an empty one removes the key |
| Collections.MirrorsKept | apluslms-yamlidator/apluslms_yamlidator/utils/collections.py:164-172 | set, delete and setdefault keep every data key shown in the view (also lines 186-190) |
| Collections.SetWorkHides | apluslms-yamlidator/apluslms_yamlidator/utils/collections.py:174-178 | concrete: after `setwork` the view shows a value the data does not hold |
| Collections.SetItemThenSetDefault | apluslms-yamlidator/apluslms_yamlidator/utils/collections.py:186-190 | concrete: a default shows in the view but not the data; a later set writes both; a later setdefault keeps the set value (also lines 164-167) |
| Collections.NormIndex | apluslms-yamlidator/apluslms_yamlidator/utils/collections.py:122-133 | an index is valid exactly in `-n..n-1`, with negative ones counted from the end |
| Collections.SetAt | apluslms-yamlidator/apluslms_yamlidator/utils/collections.py:125-128 | a list set succeeds exactly on a valid index and changes that position of the data only |
| Collections.DelAt | apluslms-yamlidator/apluslms_yamlidator/utils/collections.py:130-133 | a list delete succeeds exactly on a valid index and removes that position |
| Collections.Insert | apluslms-yamlidator/apluslms_yamlidator/utils/collections.py:135-138 | an insert places the value at the clamped index, with the others kept in order |
| Collections.AppendAtEnd | apluslms-yamlidator/apluslms_yamlidator/utils/collections.py:135-138 | inserting at the length appends |
| Values.Dumps | apluslms_roman/utils/env.py:44-49 | the JSON text of a value is non-empty and printable ASCII |
| Values.Quote | apluslms_roman/utils/env.py:44-49 | the JSON literal of a string is printable ASCII between double quotes; DumpsStrRoundTrip decodes its body back |
| Values.UnescapeEscape | apluslms_roman/utils/env.py:44-49 | the escaped string body of `json.dumps` decodes back to the original string, astral characters included |
| Values.DumpsStrRoundTrip | apluslms_roman/utils/env.py:44-49 | the JSON text of a string, without its quotes, decodes back to the string |
| Document.Descend | apluslms-yamlidator/apluslms_yamlidator/document.py:35-45 | a missing intermediate key fails with the dotted path up to and including that key |
| Document.DescendShape | apluslms-yamlidator/apluslms_yamlidator/document.py:36-42 | a mapping step succeeds exactly when the key is present and gives its value; a list step turns the key into an index within range |
| Document.LastKey | apluslms-yamlidator/apluslms_yamlidator/document.py:47-50 | the last key stays text except in a list, where it must read as an integer |
| Document.FindKeyErrorPath | apluslms-yamlidator/apluslms_yamlidator/document.py:35-45 | a key error from `find_ml` names a proper dotted prefix of the keys |
| Document.FindMissingExample | apluslms-yamlidator/apluslms_yamlidator/document.py:43-45 | concrete: looking up `foo.bar.baz` where `foo` is empty fails naming `foo.bar` |
| Document.MLGet | apluslms-yamlidator/apluslms_yamlidator/document.py:400-407 | a found value is returned; otherwise the default is returned, or a key error carrying the full path when there is no default |
| Document.Apply | apluslms-yamlidator/apluslms_yamlidator/document.py:409-450 | a quiet operation leaves the data unchanged, and only setdefault returns a value |
| Document.EnterShape | apluslms-yamlidator/apluslms_yamlidator/document.py:41-46 | with `create_dicts`, a missing intermediate key becomes an empty mapping in the view only; without it, entering succeeds exactly when descending does |
| Document.Edit | apluslms-yamlidator/apluslms_yamlidator/document.py:409-450 | an operation along a key path returns a value exactly when it is `setdefault`; the lemmas below give what each operation does to the data |
| Document.Perform | apluslms-yamlidator/apluslms_yamlidator/document.py:409-450 | corrected: fails exactly when the edit fails, and afterwards the document is dirty exactly when it was or the operation reports a change; only `setdefault` returns a value |
| Document.PerformAsWritten | apluslms-yamlidator/apluslms_yamlidator/utils/collections.py:86-88 | as written: the same edit and result as the corrected operation, but a change marks the document dirty only when its root is non-empty afterwards; on a non-empty result both agree |
| Document.EditPlainFails | apluslms-yamlidator/apluslms_yamlidator/document.py:409-450 | operations on a plain value fail |
| Document.AssignThenLookup | apluslms-yamlidator/apluslms_yamlidator/document.py:409-415 | after `mlset`, the path is found and holds the value set |
| Document.DefaultKeepsExisting | apluslms-yamlidator/apluslms_yamlidator/document.py:444-446 | `mlsetdefault` on a present key returns its value and changes no data |
| Document.DeleteThenFind | apluslms-yamlidator/apluslms_yamlidator/document.py:448-450 | after `mldel`, the container is still found and the key is gone |
| Document.QuietEditKeepsData | apluslms-yamlidator/apluslms_yamlidator/document.py:440-446 | `mlsetwork` and `mlsetdefault` never change the underlying data |
| Document.DeleteLastKeyStaysClean | apluslms-yamlidator/apluslms_yamlidator/utils/collections.py:86-88 | as written, deleting the only key of a document changes its data and leaves it clean |
| Document.ChangedDataMarksDirty | apluslms-yamlidator/apluslms_yamlidator/document.py:241-242 | with the corrected notification, any operation that changes the data marks the document dirty |
| Document.MLSetThenGet | apluslms-yamlidator/apluslms_yamlidator/document.py:400-415 | after `mlset`, the document is dirty and `mlget` of the path returns the value set |
| Document.QuietOpsKeepData | apluslms-yamlidator/apluslms_yamlidator/document.py:440-446 | `mlsetwork` and `mlsetdefault` change neither the data nor the dirty flag |
| Document.MLSetDefaultExisting | apluslms-yamlidator/apluslms_yamlidator/document.py:444-446 | `mlsetdefault` on an existing value returns what `mlget` returns and changes nothing |
| Document.MLDelThenGet | apluslms-yamlidator/apluslms_yamlidator/document.py:400-407 | after `mldel`, `mlget` gives the default, or the key error naming the path (also lines 448-450); the document is dirty exactly when it was before or is still non-empty, the flag as collections.py:86-88 sets it |
| Document.FindTypeListFails | apluslms-yamlidator/apluslms_yamlidator/document.py:348-351 | as written, a list of keys leaves the key list unassigned, while other iterables are listed |
| Document.FindTypeAsWritten | apluslms-yamlidator/apluslms_yamlidator/document.py:347-364 | as written, `find_type` fails on a list of keys before it reads the schema, and agrees with the corrected one otherwise |
| Document.FindTypeListAsText | apluslms-yamlidator/apluslms_yamlidator/document.py:347-364 | corrected: a list of keys finds the same type as the dotted text and as any other iterable of the same keys |
| Document.SchemaKeys | apluslms-yamlidator/apluslms_yamlidator/document.py:353 | the schema path interleaves `properties` before every key |
| Document.TypeAtExample | apluslms-yamlidator/apluslms_yamlidator/document.py:353-364 | concrete: the type under `properties/a` is read |
| Document.Cast | apluslms-yamlidator/apluslms_yamlidator/document.py:417-438 | without a type, the value is kept; `boolean` gives a boolean, `integer` an integer, `string` accepts only strings; other types keep the value |
| Document.CastReadsInt | apluslms-yamlidator/apluslms_yamlidator/document.py:427-429 | an integer's text casts to that integer |
| Document.CastReadsBoolean | apluslms-yamlidator/apluslms_yamlidator/document.py:421-423 | the boolean literals cast to their truth value |
| Document.MLSetCast | apluslms-yamlidator/apluslms_yamlidator/document.py:417-438 | as written, on `find_type` as written: a list of keys fails with the `UnboundLocalError` before anything is set; otherwise storing succeeds only when the type lookup and the cast succeed |
| Document.MLSetCastStores | apluslms-yamlidator/apluslms_yamlidator/document.py:417-438 | `mlset_cast` is `mlset` of the cast value, which is then found at the path |
| Document.VersionIndex | apluslms-yamlidator/apluslms_yamlidator/document.py:87-88 | the version index holds every version once, each at its last position |
| Document.AddItemIndexed | apluslms-yamlidator/apluslms_yamlidator/document.py:124-128 | adding a document indexes its version at the new position, with other versions unchanged |
| Document.GetItem | apluslms-yamlidator/apluslms_yamlidator/document.py:109-116 | an index is accepted exactly when it is non-negative and in range |
| Document.Best | apluslms-yamlidator/apluslms_yamlidator/document.py:134-137 | the version chosen is allowed by the limit and at least every other allowed version; none when no version is allowed |
| Document.GetLatestGreatest | apluslms-yamlidator/apluslms_yamlidator/document.py:130-140 | `get_latest(max)` gives the last document of the greatest version not above `max`, and fails with a key error exactly when no version qualifies |
| Document.GetLatestUnkeyed | apluslms-yamlidator/apluslms_yamlidator/document.py:141 | without a version key, the last document is chosen, and an empty file fails on the negative index |
| Document.IterOrderSorted | apluslms-yamlidator/apluslms_yamlidator/document.py:102-107 | iteration visits every document once, sorted by (version, index) |
| Validator.FormatPath | apluslms-yamlidator/apluslms_yamlidator/validator.py:167-172 | the empty path formats as ""; any other path formats exactly when its first part is text, since it is used without a separator |
| Validator.FormatPathAppend | apluslms-yamlidator/apluslms_yamlidator/validator.py:167-172 | each further part adds `.name` for text and `[i]` for an index |
| Validator.FormatPathExample | apluslms-yamlidator/apluslms_yamlidator/validator.py:167-172 | concrete: `steps`, 0, `img` formats as `steps[0].img` |
| Validator.Newest | apluslms-yamlidator/apluslms_yamlidator/validator.py:116-126 | the newest candidate has the requested major and a minor at least the requested one, and no candidate has a greater minor; there is none exactly when no version qualifies |
| Validator.GetVersionChoice | apluslms-yamlidator/apluslms_yamlidator/validator.py:103-128 | an unknown name fails; the exact version is preferred when given and present; otherwise the greatest candidate is chosen, and the lookup fails exactly when there is none |
| Validator.MatchSchemaName | apluslms-yamlidator/apluslms_yamlidator/validator.py:23 | a matched file name starts with the schema name found |
| Validator.MatchSchemaNameSplits | apluslms-yamlidator/apluslms_yamlidator/validator.py:85-88 | a match is sound and greedy: the name is the longest prefix followed by `[_-]v?M[_.]m` at the end; no match means no position fits (also line 23) |
| Validator.CanonicalRefRoundTrip | apluslms-yamlidator/apluslms_yamlidator/validator.py:87-89 | the canonical ref `name-vM.m` matches back to the same name and numbers and is its own canonical form (also line 23) |
| Validator.UnquotePlus | apluslms-yamlidator/apluslms_yamlidator/validator.py:83 | unquoting never lengthens the text (also line 6) |
| Validator.UnquotePlusPlain | apluslms-yamlidator/apluslms_yamlidator/validator.py:83 | text without `%` or `+` is unchanged by unquoting (also line 6) |
| Validator.UnquoteExample | apluslms-yamlidator/apluslms_yamlidator/validator.py:83 | concrete: `a%2Fb+c` unquotes to `a/b c` (also line 6) |
| Validator.RemoteIndexed | apluslms-yamlidator/apluslms_yamlidator/validator.py:82-84 | a new `http`/`https` ref is indexed under its unquoted URL with its loader; no other ref and no local entry changes |
| Validator.RemoteFirstWins | apluslms-yamlidator/apluslms_yamlidator/validator.py:82-84 | a remote ref whose unquoted URL is already indexed changes nothing, so the first loader for it wins |
| Validator.AddLocalKeeps | apluslms-yamlidator/apluslms_yamlidator/validator.py:91-95 | indexing a local file keeps every existing entry; only the file's own name can be overwritten, and only when its canonical ref was not yet indexed |
| Validator.CanonicalKept | apluslms-yamlidator/apluslms_yamlidator/validator.py:81-96 | indexing any further schema keeps an existing canonical entry |
| Validator.FirstCanonicalWins | apluslms-yamlidator/apluslms_yamlidator/validator.py:81-96 | the first file name giving a canonical ref decides its loader for the whole index |
| Validator.LocalIndexRecords | apluslms-yamlidator/apluslms_yamlidator/validator.py:91-95 | the first file for a canonical ref records that ref in the local index under its name and version |
| ErrorRender.PadNumberReads | apluslms-yamlidator/apluslms_yamlidator/utils/error_render.py:9 | a right-aligned line number reads back as that number |
| ErrorRender.RenderLc | apluslms-yamlidator/apluslms_yamlidator/utils/error_render.py:1-22 | rendering fails exactly on the negative-window branch with the line past the end; the file header comes first exactly when asked for |
| ErrorRender.RenderBefore | apluslms-yamlidator/apluslms_yamlidator/utils/error_render.py:7-13 | a non-negative window shows lines `max(line-n, 0)` through `line`, cut at the end of the file (an error line past the end shows only the part of the window that exists, possibly none), each numbered with its own index and a field as wide as `line`, followed by the caret |
| ErrorRender.RenderAfter | apluslms-yamlidator/apluslms_yamlidator/utils/error_render.py:14-21 | a negative window shows the error line, the caret, then the following lines up to `min(line-n, last)` |
| ErrorRender.RenderAligned | apluslms-yamlidator/apluslms_yamlidator/utils/error_render.py:8-9 | every numbered line pads its number to one common width (also lines 16-17) |
| ErrorRender.CaretUnderColumn | apluslms-yamlidator/apluslms_yamlidator/utils/error_render.py:13 | the caret sits `col + width + 2` characters in, exactly under column `col` of the line's text (also line 19) |
| ErrorRender.NumberedLineText | apluslms-yamlidator/apluslms_yamlidator/utils/error_render.py:17-18 | a numbered line is the padded number, `: `, then the source text (also lines 9, 12, 21) |
| Setup.SplitLines | setup.py:148 | `str.splitlines`: no line it returns holds a line boundary; SplitLinesJoin gives the round trip |
| Setup.SplitLinesJoin | setup.py:148 | lines without line boundaries, joined by newlines, split back into the same lines (also line 219) |
| Setup.RequirementClean | setup.py:148 | a requirement has no comment and no surrounding whitespace |
| Setup.RequirementsAppend | setup.py:146-149 | each further line adds its requirement at the end, when it is non-empty |
| Setup.ReadRequirementsRoundTrip | setup.py:146-149 | clean requirements written one per line read back unchanged |
| Setup.CoerceRequirements | setup.py:138-143 | no parts mean the project root; the last part ends in `.txt`, `requirements.txt` being appended only when it did not |
| Setup.CoerceIdempotent | setup.py:138-143 | coercing twice is coercing once |
| Setup.CoreRequirement | setup.py:188-196 | the requirement starts with the package name: the bare name under `pip3 egg_info`, otherwise the name followed by its version bound |
| Setup.CoreRequirementWords | setup.py:193-196 | a pinned requirement reads `name >= v, <M+1` for a major above zero and `name == v` otherwise |
| Setup.GetRequirements | setup.py:199-201 | each requirement is rewritten or kept, one for one |
| Setup.GetRequirementsNames | setup.py:199-201 | requirements with a space or not naming a core package pass unchanged; a pinned one starts with the package name |
| Setup.IsSchemaFileAsWritten | setup.py:76-84 | as written: a name that is not `.yml`/`.yaml` is rejected and one in a `.schemas` package accepted; any other YAML name raises a TypeError at `path.join` |
| Setup.IsSchemaFileRaises | setup.py:84 | as written, the check raises exactly on YAML names outside a `.schemas` package; where it answers, the intended check agrees whatever the file holds |
| Setup.IsSchemaFileRaisesExample | setup.py:84 | `_is_schema_file('roman.data', src_dir, 'x.yml')` raises, where the intended check accepts a file with `$schema` |
| Setup.IsSchemaFileCases | setup.py:76-90 | corrected (the file joined with `os.path.join`): only `.yml`/`.yaml` names qualify; every one does in a `.schemas` package; elsewhere the file must load with a `$schema` key |
| Setup.GetVersionFails | setup.py:152-158 | the version lookup fails only when no line starts with the quoted `__version__` assignment |
| Setup.SearchVersionFirst | setup.py:153 | the first line that matches gives the version |
| Setup.GetVersionRoundTrip | setup.py:152-158 | a module starting with `__version__ = '<v>'` gives back `v` |
| Setup.ParseFieldLines | setup.py:217-228 | an absent field gives ""; the parse fails exactly when the selected field line has no second `:` |
| Setup.ParseFieldRoundTrip | setup.py:217-228 | a `:name:value` line after lines naming no field, with continuation lines before a blank line or field, reads back as its stripped value and the continuations joined by single spaces |
| Setup.ParseRstFieldLines | setup.py:217-228 | on text of lines joined by newlines, the field is read from those lines |

## Left out

- Regular expressions are modelled by the matchers they denote, over ASCII digits. Python's `\d` also matches other Unicode digits, which the model does not. `$` in the schema file pattern also matches before a final newline; file names with newlines are not modelled.
- `re.sub` with the user's regex in the `/` and `//` operators is modelled as literal substring replacement: the regex is treated as literal text, and so is the replacement.
- The source-excerpt branch of `_raise_err` needs ruamel line data and a file. Only its fallback message is modelled.
- `json.dumps` of floats, and of mappings with keys that are not strings. Values hold no floats, and mapping keys are strings throughout.
- `int()` accepts surrounding whitespace, a sign and digit underscores. The model reads an optional sign and ASCII digits after stripping.
- `str.lower`/`upper`, `isdigit` and `strip` are ASCII-only. Unicode case folding and Unicode digits are not modelled.
- Expansion loop fuel: `get_val` may not terminate (a JSON key that contains `${X}`), so expansion takes a fuel bound. Running out is its own error, which `expand_env` passes on without naming the entry; a run that needs more rounds than the fuel allows is not modelled.
- The Docker SDK, the file system and the process environment (`isfile`, `isdir`, `environ`, `getuid`, `images.get`, `containers.create`, logs and wait) are parameters: oracles, sequences or functions.
- The builder's `BuildStep.from_config` and `BuildTask`, and the backends' `verify` and `version_info`, are outside this model.
- In-place list aliasing: `update` writes through shared list objects. The model returns new values, so a caller holding the old list does not see the change.
- The Python objects of the change-tracking views: the parent links, `get_root` and `__repr__` are not modelled. Change notification is a dirty flag on the document.
- Document.MLSet: `mlset`, `mlsetwork` and `mlsetdefault` are built on the corrected `Perform`. The two flags differ only when a reported change leaves the root empty; `mlsetwork` and `mlsetdefault` report no change, and an assignment leaves its key in the root. `mldel` uses the flag as written.
- A view's state after an exception is not modelled.
- `find_type` on containers that are not mappings is not modelled; it fails as a missing key.
- Document I/O: `Versioned.__init__` reading, `save`, `load`, `create`, hashing, and `validate`.
- `Document.recursive_update` only wraps `recursive_update`; it is not modelled separately.
- `setwork` and `setdefault` on lists do not exist in the source; the model rejects them.
- `_additem` with a `None` version is not modelled: versions are always present.
- Validator.UnquotePlus: decodes only `%XX` escapes below hex 80 and keeps any other escape as written, because the UTF-8 decoding of multi-byte escapes is not modelled.
- jsonschema validation, meta-schema extension, remote schema fetching and the lru caches of the validator.
- render_lc reading the file and its `splitlines` are inputs: the lines are given. The line and column are `nat`.
- `get_version` in the packaging script returns the version text. The `parse_version` normalisation and the major/minor split are not modelled.
- `is_core_package`, `get_core_version` and `find_core_packages` read the file system. They are parameters of `GetRequirements`.
- Setup.IsSchemaFile: this is the corrected check of the Findings table. Whether the file loads as YAML with a `$schema` key is one of its parameters, because the file system is not modelled. As written the check raises before loading anything (`IsSchemaFileAsWritten`).
- `get_extra_requirements` and the setuptools command classes.
- The pip egg-info hack chooses between two definitions of `core_requirement` from the process environment. It is a boolean parameter.
- The gettext `_()` calls around metavars and help texts are taken as the identity. Translations are not modelled.
- The command-line interface, the GUI, logging and the scripts.

## Findings

| source | as written | input that shows it | evidently intended | confidence | as-written member | corrected member |
|---|---|---|---|---|---|---|
| apluslms-yamlidator/apluslms_yamlidator/utils/collections.py:86-88 | `_on_update` notifies the parent only when `self._parent` is truthy; a document with no keys has length 0, so its root view does not notify it | a document holding `{'a': 1}`, then `mldel('a')` | any change to the data marks the document dirty, so that it is saved | medium, not executed | Document.DeleteLastKeyStaysClean | Document.ChangedDataMarksDirty |
| apluslms-yamlidator/apluslms_yamlidator/document.py:348-351 | `key_list` is assigned only for a string or a non-list iterable, so a list raises `UnboundLocalError` | `find_type(['a', 'b'])` | a list of keys is used as the key list | high, not executed | Document.FindTypeAsWritten | Document.FindType |
| setup.py:84 | `path.join(path, filename)` uses the `path` parameter, a `str` that shadows the `os.path` module; `str.join` takes one argument, so this raises a TypeError before the `try` | `_is_schema_file('roman.data', src_dir, 'x.yml')` | the file is joined with `os.path.join`, loaded, and kept when its root has a `$schema` key | high, not executed | Setup.IsSchemaFileRaisesExample | Setup.IsSchemaFileCases |

=== FILE: assoc.dfy ===
/** Insertion-ordered dictionaries, as Python 3.7+ `dict` behaves: a
    sequence of key/value pairs.  Assigning to an existing key keeps its
    position; a new key goes to the end. */
module Assoc {
  import opened Wrappers

  predicate UniqueKeys<K(==, !new), V>(m: seq<(K, V)>) {
    forall i, j :: 0 <= i < j < |m| ==> m[i].0 != m[j].0
  }

  function Keys<K(==, !new), V>(m: seq<(K, V)>): (ks: seq<K>)
    ensures |ks| == |m|
    ensures forall i :: 0 <= i < |m| ==> ks[i] == m[i].0
  {
    seq(|m|, i requires 0 <= i < |m| => m[i].0)
  }

  /** `m.get(k)`: the value stored under the first occurrence of `k`. */
  function Get<K(==, !new), V>(m: seq<(K, V)>, k: K): Option<V> {
    if |m| == 0 then None
    else if m[0].0 == k then Some(m[0].1)
    else Get(m[1..], k)
  }

  predicate HasKey<K(==, !new), V>(m: seq<(K, V)>, k: K) {
    Get(m, k).Some?
  }

  /** Position of the first occurrence of `k`. */
  function IndexOfKey<K(==, !new), V>(m: seq<(K, V)>, k: K): (r: Option<nat>)
    ensures r.Some? ==> r.value < |m| && m[r.value].0 == k
    ensures r.Some? ==> forall i :: 0 <= i < r.value ==> m[i].0 != k
    ensures r.Some? ==> Get(m, k) == Some(m[r.value].1)
    ensures r.None? <==> !HasKey(m, k)
    ensures r.None? ==> forall i :: 0 <= i < |m| ==> m[i].0 != k
  {
    if |m| == 0 then None
    else if m[0].0 == k then Some(0)
    else
      match IndexOfKey(m[1..], k)
      case None => None
      case Some(i) => Some(i + 1)
  }

  lemma HasKeyAt<K(!new), V>(m: seq<(K, V)>, i: nat)
    requires i < |m|
    ensures HasKey(m, m[i].0)
  {
    var r := IndexOfKey(m, m[i].0);
  }

  lemma GetUnique<K(!new), V>(m: seq<(K, V)>, i: nat)
    requires UniqueKeys(m) && i < |m|
    ensures Get(m, m[i].0) == Some(m[i].1)
  {
    HasKeyAt(m, i);
    var j := IndexOfKey(m, m[i].0).value;
    assert !(j < i) && !(i < j);
  }

  /** Appending an entry adds its key and changes no key already there. */
  lemma {:induction false} GetAppend<K(!new), V>(m: seq<(K, V)>, k: K, v: V, j: K)
    ensures Get(m + [(k, v)], j) == if HasKey(m, j) then Get(m, j) else if j == k then Some(v) else None
    decreases |m|
  {
    if |m| > 0 {
      assert (m + [(k, v)])[1..] == m[1..] + [(k, v)];
      GetAppend(m[1..], k, v, j);
    }
  }

  /** `m[k] = v` */
  function Put<K(==, !new), V>(m: seq<(K, V)>, k: K, v: V): (r: seq<(K, V)>)
    ensures Get(r, k) == Some(v)
    ensures forall k' :: k' != k ==> Get(r, k') == Get(m, k')
    ensures HasKey(m, k) ==> |r| == |m| && Keys(r) == Keys(m)
    ensures !HasKey(m, k) ==> r == m + [(k, v)]
  {
    match IndexOfKey(m, k)
    case Some(i) =>
      var r := m[i := (k, v)];
      PutAtGet(m, i, k, v);
      r
    case None =>
      AppendGet(m, k, v);
      m + [(k, v)]
  }

  lemma {:induction false} PutAtGet<K(!new), V>(m: seq<(K, V)>, i: nat, k: K, v: V)
    requires IndexOfKey(m, k) == Some(i)
    ensures Get(m[i := (k, v)], k) == Some(v)
    ensures forall k' :: k' != k ==> Get(m[i := (k, v)], k') == Get(m, k')
    decreases |m|
  {
    if i > 0 {
      assert IndexOfKey(m[1..], k) == Some(i - 1);
      PutAtGet(m[1..], i - 1, k, v);
      assert m[i := (k, v)][1..] == m[1..][i - 1 := (k, v)];
    }
  }

  lemma {:induction false} AppendGet<K(!new), V>(m: seq<(K, V)>, k: K, v: V)
    requires !HasKey(m, k)
    ensures Get(m + [(k, v)], k) == Some(v)
    ensures forall k' :: k' != k ==> Get(m + [(k, v)], k') == Get(m, k')
    decreases |m|
  {
    if |m| > 0 {
      assert (m + [(k, v)])[1..] == m[1..] + [(k, v)];
      AppendGet(m[1..], k, v);
    }
  }

  lemma PutUnique<K(!new), V>(m: seq<(K, V)>, k: K, v: V)
    requires UniqueKeys(m)
    ensures UniqueKeys(Put(m, k, v))
  {
    var r := Put(m, k, v);
    if !HasKey(m, k) {
      forall i, j | 0 <= i < j < |r|
        ensures r[i].0 != r[j].0
      {
        if j == |m| {
          assert r[i] == m[i];
        }
      }
    } else {
      assert Keys(r) == Keys(m);
      forall i, j | 0 <= i < j < |r|
        ensures r[i].0 != r[j].0
      {
        assert Keys(r)[i] == Keys(m)[i] && Keys(r)[j] == Keys(m)[j];
      }
    }
  }

  /** `del m[k]` / `m.pop(k, None)`: every entry for `k` is dropped. */
  function Remove<K(==, !new), V>(m: seq<(K, V)>, k: K): (r: seq<(K, V)>)
    ensures !HasKey(r, k)
    ensures forall k' :: k' != k ==> Get(r, k') == Get(m, k')
    ensures |r| <= |m|
    ensures !HasKey(m, k) ==> r == m
  {
    if |m| == 0 then []
    else if m[0].0 == k then Remove(m[1..], k)
    else
      var rest := Remove(m[1..], k);
      assert ([m[0]] + rest)[1..] == rest;
      [m[0]] + rest
  }

  lemma RemoveUnique<K(!new), V>(m: seq<(K, V)>, k: K)
    requires UniqueKeys(m)
    ensures UniqueKeys(Remove(m, k))
    ensures forall i :: 0 <= i < |Remove(m, k)| ==> Remove(m, k)[i] in m
  {
    if |m| > 0 {
      RemoveUnique(m[1..], k);
      var rest := Remove(m[1..], k);
      if m[0].0 != k {
        var r := [m[0]] + rest;
        forall i, j | 0 <= i < j < |r|
          ensures r[i].0 != r[j].0
        {
          if i == 0 {
            assert r[j] in m[1..];
          }
        }
      }
    }
  }
}

=== FILE: backends.dfy ===
/** The values a build backend works with: the steps it runs, the
    environment it runs them in, and the result a build reports. */
module Backends {
  import opened Wrappers

  /** One container run: the image, an optional command, an optional path
      the course is mounted at read-write, and an optional environment. */
  datatype BuildStep = BuildStep(
    img: string,
    cmd: Option<string>,
    mnt: Option<string>,
    env: Option<seq<(string, string)>>)

  /** Where the course lives on the host and whom containers run as. */
  datatype Environment = Environment(coursePath: string, uid: int, gid: int)

  /** Size and path of the scratch file system a step without `mnt` gets. */
  const WorkSize: string := "100M"
  const WorkPath: string := "/work"

  /** What a build reports: the exit status and error of the first step
      that failed, and that step's index; all three are absent when every
      step succeeded. */
  datatype BuildResult = BuildResult(code: Option<int>, error: Option<string>, step: Option<nat>)

  const Succeeded: BuildResult := BuildResult(None, None, None)

  /** `code or error` on what a container's `wait` returned. */
  predicate Failing(code: Option<int>, error: Option<string>) {
    (code.Some? && code.value != 0) || (error.Some? && |error.value| > 0)
  }
}

=== FILE: booleans.dfy ===
/** `convert_to_boolean`: the lenient boolean literals accepted in YAML
    documents and on the command line. */
module Booleans {
  import opened Wrappers
  import opened Values
  import Assoc

  datatype BoolError =
    | InvalidLiteral(v: Value)   // ValueError: not one of the table's keys
    | Unhashable(v: Value)       // TypeError: lists and mappings cannot be looked up

  /** The literal table, keyed as Python hashes them. */
  const BooleanTable: seq<(Value, bool)> := [
    (Int(0), false), (Int(1), true),
    (Str("0"), false), (Str("1"), true),
    (Str("false"), false), (Str("true"), true),
    (Str("False"), false), (Str("True"), true)
  ]

  /** Python's dictionary keys compare `True == 1` and `False == 0`. */
  function HashKey(v: Value): Value {
    match v
    case Bool(b) => Int(if b then 1 else 0)
    case _ => v
  }

  const TrueLiterals: set<Value> := {Int(1), Bool(true), Str("1"), Str("true"), Str("True")}
  const FalseLiterals: set<Value> := {Int(0), Bool(false), Str("0"), Str("false"), Str("False")}

  function ConvertToBoolean(v: Value): (r: Result<bool, BoolError>)
    ensures r == Success(true) <==> v in TrueLiterals
    ensures r == Success(false) <==> v in FalseLiterals
    ensures r.Failure? && (v.List? || v.Dict?) ==> r.error == Unhashable(v)
    ensures r.Failure? && !(v.List? || v.Dict?) ==> r.error == InvalidLiteral(v)
  {
    if v.List? || v.Dict? then Failure(Unhashable(v))
    else
      match Assoc.Get(BooleanTable, HashKey(v))
      case Some(b) => Success(b)
      case None => Failure(InvalidLiteral(v))
  }

  /** `str(b)` in Python: "True" or "False". */
  function PyBoolStr(b: bool): string {
    if b then "True" else "False"
  }

  /** A boolean written out by Python, or in YAML/JSON's lower-case
      spelling, reads back as the same boolean; so does the boolean itself
      and its integer form. */
  lemma ConvertToBooleanRoundTrip(b: bool)
    ensures ConvertToBoolean(Str(PyBoolStr(b))) == Success(b)
    ensures ConvertToBoolean(Str(if b then "true" else "false")) == Success(b)
    ensures ConvertToBoolean(Bool(b)) == Success(b)
    ensures ConvertToBoolean(Int(if b then 1 else 0)) == Success(b)
  {
  }
}

=== FILE: builder.dfy ===
/** The engine, which picks the build backend and the environment it runs
    with, and the builder, which runs `prepare` then `build` on a backend
    and tells the observer which phase it is in. */
module Builder {
  import opened Wrappers
  import opened Text
  import opened Values
  import opened Backends
  import opened Observer
  import Assoc
  import Docker

  // ---------------------------------------------------------------------
  // Picking the backend
  // ---------------------------------------------------------------------

  /** A backend class: its optional `name` attribute and its class name. */
  datatype BackendClass = BackendClass(nameAttr: Option<string>, className: string)

  /** The Docker backend declares no `name`. */
  const DockerBackend: BackendClass := BackendClass(None, "DockerBackend")

  /** What the engine may be handed: a class, or a dotted import path or a
      short alias for one. */
  datatype BackendRef = ClassRef(cls: BackendClass) | PathRef(path: string)

  /** The user's settings: a mapping, or nothing at all. */
  type Settings = seq<(string, Value)>

  datatype EngineError =
    | ImportFailed(path: string)      // import_string could not find the class
    | NotABackend(v: Value)           // the `backend` setting is neither text nor a class
    | NotAMapping(v: Value)           // the backend's section of the settings has no `items()`

  /** `settings and 'backend' in settings` */
  predicate NamesBackend(settings: Option<Settings>) {
    settings.Some? && |settings.value| > 0 && Assoc.HasKey(settings.value, "backend")
  }

  /** The class `backend_class` stands for: `import_string` on a path,
      after looking a path without a dot up in the alias table. */
  function ImportBackend(path: string, aliases: seq<(string, string)>, modules: seq<(string, BackendClass)>): (r: Result<BackendClass, EngineError>)
    ensures r.Success? ==> Assoc.Get(modules, if '.' in path then path else Assoc.Get(aliases, path).GetOr(path)) == Some(r.value)
    ensures r.Failure? ==> r.error.ImportFailed?
  {
    var full := if '.' in path then path else Assoc.Get(aliases, path).GetOr(path);
    match Assoc.Get(modules, full)
    case Some(cls) => Success(cls)
    case None => Failure(ImportFailed(full))
  }

  function ResolveBackend(
    backendClass: Option<BackendRef>,
    settings: Option<Settings>,
    aliases: seq<(string, string)>,
    modules: seq<(string, BackendClass)>): (r: Result<BackendClass, EngineError>)
    ensures backendClass.Some? && backendClass.value.ClassRef? ==> r == Success(backendClass.value.cls)
    ensures backendClass.None? && !NamesBackend(settings) ==> r == Success(DockerBackend)
  {
    var chosen :=
      if backendClass.Some? then Success(backendClass.value)
      else if NamesBackend(settings) then
        match Assoc.Get(settings.value, "backend").value
        case Str(s) => Success(PathRef(s))
        case v => Failure(NotABackend(v))
      else Success(ClassRef(DockerBackend));
    if chosen.Failure? then Failure(chosen.error)
    else
      match chosen.value
      case ClassRef(cls) => Success(cls)
      case PathRef(path) => ImportBackend(path, aliases, modules)
  }

  /** A backend named only in the settings, by an alias, is the class the
      alias table points to; a dotted path is imported as written. */
  lemma BackendFromSettings(s: string, aliases: seq<(string, string)>, modules: seq<(string, BackendClass)>)
    ensures var r := ResolveBackend(None, Some([("backend", Str(s))]), aliases, modules);
      var full := if '.' in s then s else Assoc.Get(aliases, s).GetOr(s);
      (r.Success? <==> Assoc.Get(modules, full).Some?)
      && (r.Success? ==> Some(r.value) == Assoc.Get(modules, full))
      && (r.Failure? ==> r.error == ImportFailed(full))
  {
    assert NamesBackend(Some([("backend", Str(s))]));
  }

  // ---------------------------------------------------------------------
  // The backend's environment
  // ---------------------------------------------------------------------

  /** `getattr(cls, 'name', None) or cls.__name__.lower()` */
  function BackendName(cls: BackendClass): string {
    if cls.nameAttr.Some? && |cls.nameAttr.value| > 0 then cls.nameAttr.value else Lower(cls.className)
  }

  function EnvPrefix(cls: BackendClass): string {
    Upper(BackendName(cls)) + "_"
  }

  /** The variable a setting `k` becomes: dashes to underscores, upper
      case, behind the prefix. */
  function SettingVar(prefix: string, k: string): string {
    prefix + Upper(MapChar(k, '-', '_'))
  }

  /** The process environment's variables that start with the prefix. */
  function PrefixedVars(environ: seq<(string, string)>, prefix: string): (r: seq<(string, Value)>)
    ensures forall k :: Assoc.HasKey(r, k) ==> StartsWith(k, prefix)
    ensures forall k :: Assoc.HasKey(r, k) <==> StartsWith(k, prefix) && Assoc.HasKey(environ, k)
  {
    if |environ| == 0 then []
    else
      var init := PrefixedVars(environ[..|environ| - 1], prefix);
      var (k, v) := environ[|environ| - 1];
      assert forall j :: Assoc.HasKey(environ, j) <==>
        Assoc.HasKey(environ[..|environ| - 1], j) || j == k by {
        assert environ == environ[..|environ| - 1] + [(k, v)];
        forall j ensures Assoc.HasKey(environ, j) <==> Assoc.HasKey(environ[..|environ| - 1], j) || j == k {
          Assoc.GetAppend(environ[..|environ| - 1], k, v, j);
        }
      }
      if StartsWith(k, prefix) then Assoc.Put(init, k, Str(v)) else init
  }

  /** Each variable kept holds its value from the process environment,
      whose names are unique. */
  lemma {:induction false} PrefixedVarsValues(environ: seq<(string, string)>, prefix: string, k: string)
    requires Assoc.UniqueKeys(environ) && StartsWith(k, prefix) && Assoc.HasKey(environ, k)
    ensures Assoc.Get(PrefixedVars(environ, prefix), k) == Some(Str(Assoc.Get(environ, k).value))
    decreases |environ|
  {
    var init := environ[..|environ| - 1];
    var (k0, v0) := environ[|environ| - 1];
    assert environ == init + [(k0, v0)];
    Assoc.GetAppend(init, k0, v0, k);
    if k != k0 {
      PrefixedVarsValues(init, prefix, k);
    } else {
      assert Assoc.IndexOfKey(init, k).None?;
    }
  }

  /** A setting overrides its variable unless it is `None` or empty. */
  predicate Overrides(v: Value) {
    v != Null && v != Str("")
  }

  /** The backend's own settings, each stored under its variable name. */
  function ApplySettings(env: seq<(string, Value)>, prefix: string, section: seq<(string, Value)>): (r: seq<(string, Value)>)
    ensures forall k :: (forall j :: 0 <= j < |section| && Overrides(section[j].1) ==> SettingVar(prefix, section[j].0) != k) ==>
      Assoc.Get(r, k) == Assoc.Get(env, k)
    decreases |section|
  {
    if |section| == 0 then env
    else
      var (k, v) := section[|section| - 1];
      var init := ApplySettings(env, prefix, section[..|section| - 1]);
      if Overrides(v) then Assoc.Put(init, SettingVar(prefix, k), v) else init
  }

  /** The last overriding setting for a variable decides its value. */
  lemma ApplySettingsLast(env: seq<(string, Value)>, prefix: string, section: seq<(string, Value)>, j: nat)
    requires j < |section| && Overrides(section[j].1)
    requires forall l :: j < l < |section| && Overrides(section[l].1) ==>
      SettingVar(prefix, section[l].0) != SettingVar(prefix, section[j].0)
    ensures Assoc.Get(ApplySettings(env, prefix, section), SettingVar(prefix, section[j].0)) == Some(section[j].1)
    decreases |section|
  {
    var n := |section| - 1;
    var key := SettingVar(prefix, section[j].0);
    if j < n {
      ApplySettingsLast(env, prefix, section[..n], j);
    }
  }

  /** The environment the engine hands to the backend: user id, group id
      and variables. */
  datatype EngineEnv = EngineEnv(uid: int, gid: int, vars: seq<(string, Value)>)

  datatype Engine = Engine(backend: BackendClass, environment: EngineEnv)

  function NewEngine(
    backendClass: Option<BackendRef>,
    settings: Option<Settings>,
    aliases: seq<(string, string)>,
    modules: seq<(string, BackendClass)>,
    environ: seq<(string, string)>,
    uid: int, gid: int): (r: Result<Engine, EngineError>)
    ensures r.Success? ==> ResolveBackend(backendClass, settings, aliases, modules) == Success(r.value.backend)
    ensures r.Success? ==> forall k :: Assoc.HasKey(r.value.environment.vars, k) ==> StartsWith(k, EnvPrefix(r.value.backend))
    ensures ResolveBackend(backendClass, settings, aliases, modules).Failure? ==> r.Failure?
  {
    var cls :- ResolveBackend(backendClass, settings, aliases, modules);
    var name := BackendName(cls);
    var prefix := EnvPrefix(cls);
    var env := PrefixedVars(environ, prefix);
    var section :=
      if settings.Some? && |settings.value| > 0 then Assoc.Get(settings.value, name).GetOr(Dict([]))
      else Dict([]);
    if !section.Dict? then Failure(NotAMapping(section))
    else
      var vars := ApplySettings(env, prefix, section.fields);
      SettingsKeepPrefix(env, prefix, section.fields);
      Success(Engine(cls, EngineEnv(uid, gid, vars)))
  }

  lemma {:induction false} SettingsKeepPrefix(env: seq<(string, Value)>, prefix: string, section: seq<(string, Value)>)
    requires forall k :: Assoc.HasKey(env, k) ==> StartsWith(k, prefix)
    ensures forall k :: Assoc.HasKey(ApplySettings(env, prefix, section), k) ==> StartsWith(k, prefix)
    decreases |section|
  {
    if |section| > 0 {
      var n := |section| - 1;
      SettingsKeepPrefix(env, prefix, section[..n]);
      var init := ApplySettings(env, prefix, section[..n]);
      if Overrides(section[n].1) {
        var key := SettingVar(prefix, section[n].0);
        assert StartsWith(key, prefix);
      }
    }
  }

  /** The environment's variables are the process's prefixed ones,
      overridden by the backend's settings, with `None` and empty settings
      skipped. */
  lemma EngineVars(
    settings: Settings, cls: BackendClass, section: seq<(string, Value)>,
    environ: seq<(string, string)>, uid: int, gid: int, k: string)
    requires Assoc.Get(settings, BackendName(cls)) == Some(Dict(section))
    ensures var r := NewEngine(Some(ClassRef(cls)), Some(settings), [], [], environ, uid, gid);
      r.Success? && r.value.environment.uid == uid && r.value.environment.gid == gid
      && ((forall j :: 0 <= j < |section| && Overrides(section[j].1) ==> SettingVar(EnvPrefix(cls), section[j].0) != k) ==>
        (Assoc.HasKey(r.value.environment.vars, k) <==> StartsWith(k, EnvPrefix(cls)) && Assoc.HasKey(environ, k)))
  {
    assert |settings| > 0;
    var env := PrefixedVars(environ, EnvPrefix(cls));
    var vars := ApplySettings(env, EnvPrefix(cls), section);
    assert Assoc.HasKey(vars, k) <==> Assoc.Get(vars, k).Some?;
    assert Assoc.HasKey(env, k) <==> Assoc.Get(env, k).Some?;
  }

  // ---------------------------------------------------------------------
  // Building
  // ---------------------------------------------------------------------

  /** `Builder.build`: enter the prepare phase, prepare, enter the build
      phase, build, and report the result as done. `prepare` and `build`
      are what the backend tells the observer and how it ends; an error
      raised by the backend ends the build with no further calls. */
  function RunBuild<E>(
    prepare: (seq<Call>, Result<(), E>),
    build: (seq<Call>, Result<BuildResult, E>)): (r: (seq<Call>, Result<BuildResult, E>))
    ensures |r.0| > 0 && r.0[0] == EnterPrepare
    ensures prepare.1.Failure? ==> r == ([EnterPrepare] + prepare.0, Failure(prepare.1.error))
    ensures prepare.1.Success? ==> r.1 == build.1
    ensures r.1.Success? ==> r.0[|r.0| - 1] == Done(Some(r.1.value))
  {
    if prepare.1.Failure? then ([EnterPrepare] + prepare.0, Failure(prepare.1.error))
    else
      var head := [EnterPrepare] + prepare.0 + [EnterBuild] + build.0;
      if build.1.Failure? then (head, build.1)
      else (head + [Done(Some(build.1.value))], build.1)
  }

  /** The events of a completed run: the `p` prepare messages carry the
      PREPARE phase, the `b` build messages after the second phase entry
      carry BUILD, and the last event enters DONE with the result. */
  predicate PhasesTagged(events: seq<Event>, p: nat, b: nat, result: BuildResult) {
    |events| == p + b + 3
    && (forall k :: 1 <= k <= p ==> events[k].phase == PREPARE)
    && (forall k :: p + 2 <= k < p + 2 + b ==> events[k].phase == BUILD)
    && events[p + b + 2] == Event(DONE, ENTER, None, None, Some(result))
  }

  /** The observer hears the backend's `prepare` messages in the PREPARE
      phase and its `build` messages in the BUILD phase, and the run ends
      in the DONE phase with the result. */
  lemma RunBuildPhases<E>(prepare: (seq<Call>, Result<(), E>), build: (seq<Call>, Result<BuildResult, E>))
    requires StepLevel(prepare.0) && StepLevel(build.0)
    requires prepare.1.Success? && build.1.Success?
    ensures var run := Run(NONE, RunBuild(prepare, build).0);
      PhasesTagged(run.1, |prepare.0|, |build.0|, build.1.value) && run.0 == DONE
  {
    var p, b := prepare.0, build.0;
    var done := [Done(Some(build.1.value))];
    assert RunBuild(prepare, build).0 == [EnterPrepare] + (p + ([EnterBuild] + (b + done)));
    WithinPhase(PREPARE, p);
    WithinPhase(BUILD, b);
    RunBuildEvents(p, b, done);
    assert Run(BUILD, done).1 == [Event(DONE, ENTER, None, None, Some(build.1.value))];
    PhaseBlocks(Run(NONE, [EnterPrepare]).1, Run(PREPARE, p).1, Run(PREPARE, [EnterBuild]).1, Run(BUILD, b).1, Run(BUILD, done).1);
  }

  /** The run of a whole build is the runs of its parts, one after another. */
  lemma RunBuildEvents(p: seq<Call>, b: seq<Call>, done: seq<Call>)
    requires Run(PREPARE, p).0 == PREPARE && Run(BUILD, b).0 == BUILD
    requires Run(BUILD, done).0 == DONE
    ensures Run(NONE, [EnterPrepare] + (p + ([EnterBuild] + (b + done)))) ==
      (DONE, Run(NONE, [EnterPrepare]).1 + (Run(PREPARE, p).1 + (Run(PREPARE, [EnterBuild]).1 + (Run(BUILD, b).1 + Run(BUILD, done).1))))
  {
    var e0 := Run(NONE, [EnterPrepare]).1;
    var ep := Run(PREPARE, p).1;
    var e1 := Run(PREPARE, [EnterBuild]).1;
    var eb := Run(BUILD, b).1;
    var ed := Run(BUILD, done).1;
    var t3 := b + done;
    RunAppend(BUILD, b, done);
    assert Run(BUILD, t3) == (DONE, eb + ed);
    var t2 := [EnterBuild] + t3;
    RunAppend(PREPARE, [EnterBuild], t3);
    assert Run(PREPARE, t2) == (DONE, e1 + (eb + ed));
    var t1 := p + t2;
    RunAppend(PREPARE, p, t2);
    assert Run(PREPARE, t1) == (DONE, ep + (e1 + (eb + ed)));
    RunAppend(NONE, [EnterPrepare], t1);
  }

  lemma PhaseBlocks(e0: seq<Event>, ep: seq<Event>, e1: seq<Event>, eb: seq<Event>, ed: seq<Event>)
    requires |e0| == 1 && |e1| == 1 && |ed| == 1
    requires forall k :: 0 <= k < |ep| ==> ep[k].phase == PREPARE
    requires forall k :: 0 <= k < |eb| ==> eb[k].phase == BUILD
    ensures var events := e0 + (ep + (e1 + (eb + ed)));
      |events| == |ep| + |eb| + 3
      && (forall k :: 1 <= k <= |ep| ==> events[k].phase == PREPARE)
      && (forall k :: |ep| + 2 <= k < |ep| + 2 + |eb| ==> events[k].phase == BUILD)
      && events[|ep| + |eb| + 2] == ed[0]
  {
    var tail := e1 + (eb + ed);
    var events := e0 + (ep + tail);
    forall k | 1 <= k <= |ep|
      ensures events[k].phase == PREPARE
    {
      assert events[k] == ep[k - 1];
    }
    forall k | |ep| + 2 <= k < |ep| + 2 + |eb|
      ensures events[k].phase == BUILD
    {
      assert events[k] == tail[k - |ep| - 1];
      assert tail[k - |ep| - 1] == eb[k - |ep| - 2];
    }
    assert events[|ep| + |eb| + 2] == tail[|eb| + 1];
  }

  /** A build on the Docker backend: each phase's messages carry that
      phase, and a build that completes ends in DONE with its result. */
  lemma DockerBuildPhases(steps: seq<BuildStep>, env: Environment, client: Docker.Client)
    requires Docker.Prepare(steps, client).1.Success?
    requires Docker.Build(steps, env, client).1.Success?
    ensures var prepare := Docker.Prepare(steps, client);
      var build := Docker.Build(steps, env, client);
      var pc := Docker.Calls(Docker.Flatten(prepare.0));
      var bc := Docker.Calls(Docker.Flatten(build.0));
      var events := Run(NONE, RunBuild((pc, prepare.1), (bc, build.1)).0).1;
      PhasesTagged(events, |pc|, |bc|, build.1.value)
  {
    var prepare := Docker.Prepare(steps, client);
    var build := Docker.Build(steps, env, client);
    var pc := Docker.Calls(Docker.Flatten(prepare.0));
    var bc := Docker.Calls(Docker.Flatten(build.0));
    assert StepLevel(pc) by { Docker.PrepareStaysInPhase(steps, client); }
    assert StepLevel(bc) by { Docker.BuildStaysInPhase(steps, env, client); }
    RunBuildPhases((pc, prepare.1), (bc, build.1));
  }
}

=== FILE: collections.dfy ===
/** The yamlidator's collection helpers: `recursive_update` over loaded
    data, the ordered mapping with a default factory, and the change-tracking
    views (`ChangesDict`, `ChangesList`).  A view shows its data merged with
    work values and defaults; only real assignments and deletions reach the
    data underneath. */
module Collections {
  import opened Wrappers
  import opened Values
  import Assoc

  // ---------------------------------------------------------------------
  // recursive_update
  // ---------------------------------------------------------------------

  function Width(v: Value): nat {
    if v.Dict? then |v.fields| else 0
  }

  /** What `recursive_update` leaves under one key: two lists are
      concatenated, two mappings are merged key by key, and otherwise the
      new value replaces the old one. */
  function Merge(current: Option<Value>, incoming: Value): (r: Value)
    ensures current.Some? && current.value.List? && incoming.List? ==>
      r == List(current.value.items + incoming.items)
    ensures !(current.Some? && current.value.List? && incoming.List?) && !(current.Some? && current.value.Dict? && incoming.Dict?) ==>
      r == incoming
    ensures r.Dict? <==> incoming.Dict?
    decreases incoming, Width(incoming) + 1
  {
    if current.Some? && current.value.List? && incoming.List? then
      List(current.value.items + incoming.items)
    else if current.Some? && current.value.Dict? && incoming.Dict? then
      Dict(UpdateFrom(current.value.fields, incoming, 0))
    else incoming
  }

  /** `recursive_update(data, incoming)` from the `i`-th key of `incoming`
      on. */
  function UpdateFrom(data: seq<(string, Value)>, incoming: Value, i: nat): (r: seq<(string, Value)>)
    requires incoming.Dict? && i <= |incoming.fields|
    decreases incoming, |incoming.fields| - i
  {
    if i == |incoming.fields| then data
    else
      var k := incoming.fields[i].0;
      UpdateFrom(Assoc.Put(data, k, Merge(Assoc.Get(data, k), incoming.fields[i].1)), incoming, i + 1)
  }

  function RecursiveUpdate(data: seq<(string, Value)>, incoming: seq<(string, Value)>): seq<(string, Value)> {
    UpdateFrom(data, Dict(incoming), 0)
  }

  /** Every key of the new data ends up merged with what the old data held
      under it; keys only in the old data keep their values. */
  lemma {:induction false} UpdateFromKey(data: seq<(string, Value)>, incoming: Value, i: nat, k: string)
    requires incoming.Dict? && i <= |incoming.fields|
    requires Assoc.UniqueKeys(incoming.fields)
    ensures Assoc.Get(UpdateFrom(data, incoming, i), k) ==
      if Assoc.HasKey(incoming.fields[i..], k) then Some(Merge(Assoc.Get(data, k), Assoc.Get(incoming.fields[i..], k).value))
      else Assoc.Get(data, k)
    decreases |incoming.fields| - i
  {
    var fs := incoming.fields;
    if i < |fs| {
      var next := Assoc.Put(data, fs[i].0, Merge(Assoc.Get(data, fs[i].0), fs[i].1));
      UpdateFromKey(next, incoming, i + 1, k);
      assert fs[i..][1..] == fs[i + 1..];
      if k != fs[i].0 {
        assert Assoc.Get(fs[i..], k) == Assoc.Get(fs[i + 1..], k);
      } else {
        assert Assoc.Get(fs[i..], k) == Some(fs[i].1);
        var tail := fs[i + 1..];
        forall l | 0 <= l < |tail|
          ensures tail[l].0 != k
        {
          assert tail[l] == fs[i + 1 + l];
        }
        assert Assoc.IndexOfKey(tail, k).None?;
      }
    }
  }

  /** The old keys keep their order at the front; new keys follow. */
  lemma {:induction false} UpdateFromKeepsOrder(data: seq<(string, Value)>, incoming: Value, i: nat)
    requires incoming.Dict? && i <= |incoming.fields|
    ensures var r := UpdateFrom(data, incoming, i);
      |r| >= |data| && Assoc.Keys(r)[..|data|] == Assoc.Keys(data)
    decreases |incoming.fields| - i
  {
    var fs := incoming.fields;
    if i < |fs| {
      var next := Assoc.Put(data, fs[i].0, Merge(Assoc.Get(data, fs[i].0), fs[i].1));
      UpdateFromKeepsOrder(next, incoming, i + 1);
      var r := UpdateFrom(next, incoming, i + 1);
      assert Assoc.Keys(next)[..|data|] == Assoc.Keys(data);
      assert Assoc.Keys(r)[..|data|] == Assoc.Keys(r)[..|next|][..|data|];
    }
  }

  /** `recursive_update` as the configuration tests use it: lists grow,
      nested mappings keep the keys the update does not mention. */
  lemma RecursiveUpdateExample()
    ensures RecursiveUpdate(
        [("steps", List([Int(1)])), ("opts", Dict([("a", Int(1)), ("b", Int(2))])), ("name", Str("x"))],
        [("steps", List([Int(2)])), ("opts", Dict([("b", Int(3))])), ("name", List([]))]) ==
      [("steps", List([Int(1), Int(2)])), ("opts", Dict([("a", Int(1)), ("b", Int(3))])), ("name", List([]))]
  {
    var inc := Dict(ExampleUpdate);
    ExampleSteps();
    ExampleOpts();
    ExampleName();
    assert UpdateFrom(ExampleData[3], inc, 3) == ExampleData[3];
  }

  const ExampleUpdate: seq<(string, Value)> :=
    [("steps", List([Int(2)])), ("opts", Dict([("b", Int(3))])), ("name", List([]))]

  /** The example's data before the update and after each of its keys. */
  const ExampleData: seq<seq<(string, Value)>> := [
    [("steps", List([Int(1)])), ("opts", Dict([("a", Int(1)), ("b", Int(2))])), ("name", Str("x"))],
    [("steps", List([Int(1), Int(2)])), ("opts", Dict([("a", Int(1)), ("b", Int(2))])), ("name", Str("x"))],
    [("steps", List([Int(1), Int(2)])), ("opts", Dict([("a", Int(1)), ("b", Int(3))])), ("name", Str("x"))],
    [("steps", List([Int(1), Int(2)])), ("opts", Dict([("a", Int(1)), ("b", Int(3))])), ("name", List([]))]]

  lemma ExampleSteps()
    ensures UpdateFrom(ExampleData[0], Dict(ExampleUpdate), 0) == UpdateFrom(ExampleData[1], Dict(ExampleUpdate), 1)
  {
    var d0 := ExampleData[0];
    assert Assoc.Get(d0, "steps") == Some(List([Int(1)]));
    assert [Int(1)] + [Int(2)] == [Int(1), Int(2)];
    assert Assoc.Put(d0, "steps", List([Int(1), Int(2)])) == ExampleData[1];
  }

  lemma ExampleOpts()
    ensures UpdateFrom(ExampleData[1], Dict(ExampleUpdate), 1) == UpdateFrom(ExampleData[2], Dict(ExampleUpdate), 2)
  {
    var d1 := ExampleData[1];
    NestedMergeExample();
    assert Assoc.Get(d1, "opts") == Some(Dict([("a", Int(1)), ("b", Int(2))]));
    assert Assoc.Put(d1, "opts", Dict([("a", Int(1)), ("b", Int(3))])) == ExampleData[2];
  }

  lemma ExampleName()
    ensures UpdateFrom(ExampleData[2], Dict(ExampleUpdate), 2) == UpdateFrom(ExampleData[3], Dict(ExampleUpdate), 3)
  {
    assert Assoc.Put(ExampleData[2], "name", List([])) == ExampleData[3];
  }

  /** The nested mapping of the example: `b` is replaced, `a` kept. */
  lemma NestedMergeExample()
    ensures Merge(Some(Dict([("a", Int(1)), ("b", Int(2))])), Dict([("b", Int(3))])) == Dict([("a", Int(1)), ("b", Int(3))])
  {
    var sub := Dict([("b", Int(3))]);
    assert UpdateFrom([("a", Int(1)), ("b", Int(2))], sub, 0) ==
      UpdateFrom(Assoc.Put([("a", Int(1)), ("b", Int(2))], "b", Int(3)), sub, 1);
    assert Assoc.Put([("a", Int(1)), ("b", Int(2))], "b", Int(3)) == [("a", Int(1)), ("b", Int(3))];
  }

  // ---------------------------------------------------------------------
  // OrderedDefaultDict
  // ---------------------------------------------------------------------

  /** `d[k]` on an `OrderedDefaultDict`: a missing key is given the
      factory's value, at the end; without a factory it is a `KeyError`. */
  function DefaultGet<K(==, !new), V>(m: seq<(K, V)>, k: K, factory: Option<V>): (r: Result<(seq<(K, V)>, V), K>)
    ensures Assoc.HasKey(m, k) ==> r == Success((m, Assoc.Get(m, k).value))
    ensures !Assoc.HasKey(m, k) && factory.None? ==> r == Failure(k)
    ensures !Assoc.HasKey(m, k) && factory.Some? ==> r == Success((m + [(k, factory.value)], factory.value))
    ensures r.Success? ==> Assoc.Get(r.value.0, k) == Some(r.value.1)
    ensures r.Success? ==> forall j :: j != k ==> Assoc.Get(r.value.0, j) == Assoc.Get(m, j)
  {
    match Assoc.Get(m, k)
    case Some(v) => Success((m, v))
    case None =>
      if factory.None? then Failure(k)
      else
        Assoc.AppendGet(m, k, factory.value);
        Success((m + [(k, factory.value)], factory.value))
  }

  // ---------------------------------------------------------------------
  // Change-tracking views
  // ---------------------------------------------------------------------

  /** A value as a view holds it. A mapping view keeps the data it writes
      to, the defaults it was given and the work values it shows; a list
      view's data is the data of its items, which it shares with them. */
  datatype View =
    | Plain(value: Value)
    | DictView(data: seq<(string, Value)>, defaults: seq<(string, Value)>, work: seq<(string, View)>)
    | ListView(items: seq<View>)

  datatype ViewError =
    | MissingKey(key: string)     // KeyError
    | BadIndex(index: int)        // IndexError
    | BadDefault(default: Value)  // the default cannot be read as key/value pairs

  /** `get_data()`: what the view writes through to. */
  function DataOf(w: View): Value
    decreases w
  {
    match w
    case Plain(v) => v
    case DictView(data, _, _) => Dict(data)
    case ListView(items) => List(seq(|items|, i requires 0 <= i < |items| => DataOf(items[i])))
  }

  /** What reading through the view shows: work values, defaults included. */
  function Shown(w: View): Value
    decreases w
  {
    match w
    case Plain(v) => v
    case DictView(_, _, work) => Dict(seq(|work|, i requires 0 <= i < |work| => (work[i].0, Shown(work[i].1))))
    case ListView(items) => List(seq(|items|, i requires 0 <= i < |items| => Shown(items[i])))
  }

  /** `Changes.wrap(v)` without a default. */
  function WrapPlain(v: Value): View
    decreases v
  {
    match v
    case Dict(fs) => DictView(fs, [], seq(|fs|, i requires 0 <= i < |fs| => (fs[i].0, WrapPlain(fs[i].1))))
    case List(items) => ListView(seq(|items|, i requires 0 <= i < |items| => WrapPlain(items[i])))
    case _ => Plain(v)
  }

  /** A freshly wrapped value writes to the value itself and shows it
      unchanged. */
  lemma {:induction false} WrapPlainShows(v: Value)
    ensures DataOf(WrapPlain(v)) == v
    ensures Shown(WrapPlain(v)) == v
    decreases v
  {
    match v
    case Dict(fs) =>
      forall i | 0 <= i < |fs|
        ensures Shown(WrapPlain(fs[i].1)) == fs[i].1
      {
        WrapPlainShows(fs[i].1);
      }
      var w := WrapPlain(v);
      assert Shown(w).fields == fs;
    case List(items) =>
      forall i | 0 <= i < |items|
        ensures Shown(WrapPlain(items[i])) == items[i] && DataOf(WrapPlain(items[i])) == items[i]
      {
        WrapPlainShows(items[i]);
      }
      var w := WrapPlain(v);
      assert Shown(w).items == items;
      assert DataOf(w).items == items;
    case _ =>
  }

  /** `self._defaults.setdefault(k, v)`: the first default for a key stays. */
  function AddDefault(defaults: seq<(string, Value)>, k: string, v: Value): (r: seq<(string, Value)>)
    ensures Assoc.HasKey(defaults, k) ==> r == defaults
    ensures Assoc.Get(r, k) == Some(Assoc.Get(defaults, k).GetOr(v))
    ensures forall j :: j != k ==> Assoc.Get(r, j) == Assoc.Get(defaults, j)
  {
    if Assoc.HasKey(defaults, k) then defaults
    else
      Assoc.AppendGet(defaults, k, v);
      defaults + [(k, v)]
  }

  /** How many key/value pairs iterating a default yields, if it can be
      iterated that way. */
  function PairCount(d: Value): nat {
    match d
    case Dict(fs) => |fs|
    case List(items) => |items|
    case _ => 0
  }

  /** The `j`-th pair `for key, value in default` unpacks, if it unpacks:
      a mapping gives its items, a list gives its two-element lists and
      two-character strings. */
  function PairAt(d: Value, j: nat): Option<(string, Value)>
    requires j < PairCount(d)
  {
    match d
    case Dict(fs) => Some(fs[j])
    case List(items) =>
      var it := items[j];
      if it.List? && |it.items| == 2 && it.items[0].Str? then Some((it.items[0].s, it.items[1]))
      else if it.Str? && |it.s| == 2 then Some((it.s[..1], Str(it.s[1..])))
      else None
    case _ => None
  }

  /** The pair's value is part of the default. */
  lemma PairAtSmaller(d: Value, j: nat)
    requires j < PairCount(d) && PairAt(d, j).Some?
    ensures PairAt(d, j).value.1.Dict? ==> PairAt(d, j).value.1 < d
  {
    match d
    case Dict(fs) =>
      assert fs[j].1 < d;
    case List(items) =>
      var it := items[j];
      if it.List? && |it.items| == 2 && it.items[0].Str? {
        assert it.items[1] < it;
      }
  }

  /** Defaults are only recorded for keys the view shows. */
  ghost predicate DefaultsShown(w: View)
    requires w.DictView?
  {
    forall k :: Assoc.HasKey(w.defaults, k) ==> Assoc.HasKey(w.work, k)
  }

  /** `Changes.wrap(v, default=d)`: a mapping is wrapped and then given the
      pairs of `d` as defaults, unless `d` is `None`. */
  function Wrap(v: Value, default: Value): (r: Result<View, ViewError>)
    ensures r.Success? ==> DataOf(r.value) == v
    ensures !v.Dict? || default == Null ==> r == Success(WrapPlain(v))
    ensures r.Success? && v.Dict? ==> r.value.DictView?
    ensures r.Failure? ==> r.error.BadDefault?
    decreases default, 1, 0
  {
    WrapPlainShows(v);
    if v.Dict? && default != Null then
      var w := WrapPlain(v);
      assert w.defaults == [];
      SetDefaults(w, default, 0)
    else Success(WrapPlain(v))
  }

  /** `setdefaults(d)` during construction, from the `j`-th pair on. */
  function SetDefaults(w: View, d: Value, j: nat): (r: Result<View, ViewError>)
    requires w.DictView? && DefaultsShown(w) && j <= PairCount(d)
    ensures r.Success? ==> r.value.DictView? && r.value.data == w.data && DefaultsShown(r.value)
    ensures r.Success? ==> forall k :: Assoc.HasKey(w.work, k) ==> Assoc.Get(r.value.work, k) == Assoc.Get(w.work, k)
    ensures r.Success? ==> forall i :: j <= i < PairCount(d) && PairAt(d, i).Some? ==>
      Assoc.HasKey(r.value.work, PairAt(d, i).value.0)
    ensures r.Failure? ==> r.error.BadDefault?
    decreases d, 0, PairCount(d) - j
  {
    if d == Null || d == Str("") then Success(w)
    else if !(d.Dict? || d.List?) then Failure(BadDefault(d))
    else if j == PairCount(d) then Success(w)
    else
      match PairAt(d, j)
      case None => Failure(BadDefault(d))
      case Some((k, x)) =>
        PairAtSmaller(d, j);
        var defaults := AddDefault(w.defaults, k, x);
        if Assoc.HasKey(w.work, k) then
          SetDefaults(DictView(w.data, defaults, w.work), d, j + 1)
        else
          var item :- if x.Dict? then Wrap(x, x) else Success(WrapPlain(x));
          var work := Assoc.Put(w.work, k, item);
          assert forall k' :: Assoc.HasKey(defaults, k') ==> Assoc.HasKey(work, k') by {
            forall k' | Assoc.HasKey(defaults, k') ensures Assoc.HasKey(work, k') {
              if k' != k {
                assert Assoc.HasKey(w.defaults, k');
              }
            }
          }
          SetDefaults(DictView(w.data, defaults, work), d, j + 1)
  }

  // Mapping views -------------------------------------------------------

  /** `view[k] = v`: written to the data and to the view. */
  function SetItem(w: View, k: string, v: Value): (r: Result<View, ViewError>)
    requires w.DictView?
    ensures r.Success? ==> r.value.DictView? && r.value.defaults == w.defaults
    ensures r.Success? ==> Assoc.Get(r.value.data, k) == Some(v)
    ensures r.Success? ==> Assoc.HasKey(r.value.work, k) && DataOf(Assoc.Get(r.value.work, k).value) == v
    ensures r.Success? ==> forall j :: j != k ==>
      Assoc.Get(r.value.data, j) == Assoc.Get(w.data, j) && Assoc.Get(r.value.work, j) == Assoc.Get(w.work, j)
    ensures !v.Dict? ==> r.Success?
  {
    var item :- Wrap(v, Assoc.Get(w.defaults, k).GetOr(Null));
    Success(DictView(Assoc.Put(w.data, k, v), w.defaults, Assoc.Put(w.work, k, item)))
  }

  /** `del view[k]`: gone from the view and from the data; a key the view
      does not show is a `KeyError`. */
  function DelItem(w: View, k: string): (r: Result<View, ViewError>)
    requires w.DictView?
    ensures r.Success? <==> Assoc.HasKey(w.work, k)
    ensures r.Failure? ==> r.error == MissingKey(k)
    ensures r.Success? ==> r.value.DictView? && !Assoc.HasKey(r.value.work, k) && !Assoc.HasKey(r.value.data, k)
    ensures r.Success? ==> forall j :: j != k ==>
      Assoc.Get(r.value.data, j) == Assoc.Get(w.data, j) && Assoc.Get(r.value.work, j) == Assoc.Get(w.work, j)
  {
    if !Assoc.HasKey(w.work, k) then Failure(MissingKey(k))
    else Success(DictView(Assoc.Remove(w.data, k), w.defaults, Assoc.Remove(w.work, k)))
  }

  /** `view.setwork(k, v)`: shown, but not written to the data. */
  function SetWork(w: View, k: string, v: Value): (r: Result<View, ViewError>)
    requires w.DictView?
    ensures r.Success? ==> r.value.DictView? && r.value.data == w.data && r.value.defaults == w.defaults
    ensures r.Success? ==> Assoc.HasKey(r.value.work, k) && DataOf(Assoc.Get(r.value.work, k).value) == v
    ensures r.Success? ==> forall j :: j != k ==> Assoc.Get(r.value.work, j) == Assoc.Get(w.work, j)
    ensures !v.Dict? ==> r.Success?
  {
    var item :- Wrap(v, Assoc.Get(w.defaults, k).GetOr(Null));
    Success(DictView(w.data, w.defaults, Assoc.Put(w.work, k, item)))
  }

  /** `view.setdefault(k, v)`: the view and the data keep a key the view
      already shows; otherwise the value is shown but not written. The
      result is what the view shows under `k` afterwards. */
  function SetDefault(w: View, k: string, v: Value): (r: Result<(View, View), ViewError>)
    requires w.DictView?
    ensures r.Success? ==> r.value.0.DictView? && r.value.0.data == w.data
    ensures r.Success? ==> Assoc.Get(r.value.0.work, k) == Some(r.value.1)
    ensures Assoc.HasKey(w.work, k) ==> r.Success? && r.value.0.work == w.work && r.value.1 == Assoc.Get(w.work, k).value
    ensures r.Success? ==> forall j :: j != k ==> Assoc.Get(r.value.0.work, j) == Assoc.Get(w.work, j)
    ensures !Assoc.HasKey(w.work, k) && r.Success? ==> DataOf(r.value.1) == v
    ensures r.Failure? ==> r.error.BadDefault?
  {
    var defaults := AddDefault(w.defaults, k, v);
    match Assoc.Get(w.work, k)
    case Some(shown) => Success((DictView(w.data, defaults, w.work), shown))
    case None =>
      var item :- Wrap(v, Assoc.Get(defaults, k).value);
      Success((DictView(w.data, defaults, Assoc.Put(w.work, k, item)), item))
  }

  /** `data_updated(k, data)`: a child's data is stored under its key when
      it is not empty, and its key is dropped when it is. */
  function DataUpdated(w: View, k: string, child: Value): (r: View)
    requires w.DictView?
    ensures r.DictView? && r.work == w.work && r.defaults == w.defaults
    ensures Truthy(child) ==> Assoc.Get(r.data, k) == Some(child)
    ensures !Truthy(child) ==> !Assoc.HasKey(r.data, k)
    ensures forall j :: j != k ==> Assoc.Get(r.data, j) == Assoc.Get(w.data, j)
  {
    DictView(if Truthy(child) then Assoc.Put(w.data, k, child) else Assoc.Remove(w.data, k), w.defaults, w.work)
  }

  /** Every key of the data is shown, holding that data: true of a freshly
      wrapped mapping and kept by everything except `setwork`. */
  ghost predicate Mirrors(w: View)
    requires w.DictView?
  {
    forall k :: Assoc.HasKey(w.data, k) ==>
      Assoc.HasKey(w.work, k) && DataOf(Assoc.Get(w.work, k).value) == Assoc.Get(w.data, k).value
  }

  lemma {:induction false} WrapPlainGet(fs: seq<(string, Value)>, k: string)
    ensures var work := seq(|fs|, i requires 0 <= i < |fs| => (fs[i].0, WrapPlain(fs[i].1)));
      (Assoc.HasKey(work, k) <==> Assoc.HasKey(fs, k)) &&
      (Assoc.HasKey(fs, k) ==> Assoc.Get(work, k) == Some(WrapPlain(Assoc.Get(fs, k).value)))
    decreases |fs|
  {
    if |fs| > 0 {
      var work := seq(|fs|, i requires 0 <= i < |fs| => (fs[i].0, WrapPlain(fs[i].1)));
      var rest := seq(|fs| - 1, i requires 0 <= i < |fs| - 1 => (fs[1..][i].0, WrapPlain(fs[1..][i].1)));
      assert work[1..] == rest;
      WrapPlainGet(fs[1..], k);
    }
  }

  lemma WrapMirrors(v: Value)
    requires v.Dict?
    ensures Mirrors(WrapPlain(v))
  {
    forall k | Assoc.HasKey(v.fields, k)
      ensures Assoc.HasKey(WrapPlain(v).work, k) && DataOf(Assoc.Get(WrapPlain(v).work, k).value) == Assoc.Get(v.fields, k).value
    {
      WrapPlainGet(v.fields, k);
      WrapPlainShows(Assoc.Get(v.fields, k).value);
    }
  }

  lemma MirrorsKept(w: View, k: string, v: Value)
    requires w.DictView? && Mirrors(w)
    ensures SetItem(w, k, v).Success? ==> Mirrors(SetItem(w, k, v).value)
    ensures DelItem(w, k).Success? ==> Mirrors(DelItem(w, k).value)
    ensures SetDefault(w, k, v).Success? ==> Mirrors(SetDefault(w, k, v).value.0)
  {
    var r := SetDefault(w, k, v);
    if r.Success? && !Assoc.HasKey(w.work, k) {
      assert !Assoc.HasKey(w.data, k);
    }
  }

  /** `setwork` is the one operation after which the view may show a value
      the data does not hold. */
  lemma SetWorkHides()
    ensures var w := WrapPlain(Dict([("a", Int(1))]));
      var r := SetWork(w, "a", Int(2));
      r.Success? && !Mirrors(r.value) && Shown(r.value) == Dict([("a", Int(2))])
  {
    var w := WrapPlain(Dict([("a", Int(1))]));
    var r := SetWork(w, "a", Int(2));
    assert Assoc.Get(r.value.data, "a") == Some(Int(1));
    assert Assoc.Get(r.value.work, "a") == Some(Plain(Int(2)));
  }

  /** A default never replaces a value set before it, and an assignment
      replaces a default. */
  lemma SetItemThenSetDefault()
    ensures var w0 := WrapPlain(Dict([]));
      var w1 := SetDefault(w0, "foo", Str("default")).value.0;
      var w2 := SetItem(w1, "foo", Str("bar")).value;
      var w3 := SetDefault(w2, "foo", Str("not-used")).value;
      Shown(w1) == Dict([("foo", Str("default"))]) && DataOf(w1) == Dict([])
      && Shown(w2) == Dict([("foo", Str("bar"))]) && DataOf(w2) == Dict([("foo", Str("bar"))])
      && w3.1 == Plain(Str("bar")) && Shown(w3.0) == Shown(w2)
  {
    var w0 := WrapPlain(Dict([]));
    var w1 := SetDefault(w0, "foo", Str("default")).value.0;
    assert w1.work == [("foo", Plain(Str("default")))];
    var w2 := SetItem(w1, "foo", Str("bar")).value;
    assert w2.work == [("foo", Plain(Str("bar")))];
    assert w2.data == [("foo", Str("bar"))];
  }

  // List views ----------------------------------------------------------

  /** Python's index: a negative index counts from the end. */
  function NormIndex(idx: int, n: nat): (r: Option<nat>)
    ensures r.Some? <==> -(n as int) <= idx < n
    ensures r.Some? ==> r.value < n && (r.value == idx || r.value == n + idx)
  {
    if 0 <= idx < n then Some(idx)
    else if -(n as int) <= idx < 0 then Some(n + idx)
    else None
  }

  /** Where `list.insert(idx, v)` puts the value: clamped to the list. */
  function InsertIndex(idx: int, n: nat): (r: nat)
    ensures r <= n
    ensures 0 <= idx <= n ==> r == idx
    ensures -(n as int) <= idx < 0 ==> r == n + idx
  {
    if idx < 0 then (if n + idx < 0 then 0 else n + idx)
    else if idx > n then n
    else idx
  }

  function ListData(w: View): seq<Value>
    requires w.ListView?
  {
    DataOf(w).items
  }

  /** `view[idx] = v` */
  function SetAt(w: View, idx: int, v: Value): (r: Result<View, ViewError>)
    requires w.ListView?
    ensures r.Success? <==> NormIndex(idx, |w.items|).Some?
    ensures r.Success? ==> (r.value.ListView? &&
      ListData(r.value) == ListData(w)[NormIndex(idx, |w.items|).value := v])
  {
    match NormIndex(idx, |w.items|)
    case None => Failure(BadIndex(idx))
    case Some(i) =>
      WrapPlainShows(v);
      var r := ListView(w.items[i := WrapPlain(v)]);
      assert ListData(r) == ListData(w)[i := v];
      Success(r)
  }

  /** `del view[idx]` */
  function DelAt(w: View, idx: int): (r: Result<View, ViewError>)
    requires w.ListView?
    ensures r.Success? <==> NormIndex(idx, |w.items|).Some?
    ensures r.Success? ==> (r.value.ListView? &&
      var i := NormIndex(idx, |w.items|).value;
      ListData(r.value) == ListData(w)[..i] + ListData(w)[i + 1..])
  {
    match NormIndex(idx, |w.items|)
    case None => Failure(BadIndex(idx))
    case Some(i) =>
      var r := ListView(w.items[..i] + w.items[i + 1..]);
      assert ListData(r) == ListData(w)[..i] + ListData(w)[i + 1..];
      Success(r)
  }

  /** `view.insert(idx, v)` */
  function Insert(w: View, idx: int, v: Value): (r: View)
    requires w.ListView?
    ensures r.ListView? && |r.items| == |w.items| + 1
    ensures var j := InsertIndex(idx, |w.items|);
      ListData(r) == ListData(w)[..j] + [v] + ListData(w)[j..]
  {
    var j := InsertIndex(idx, |w.items|);
    WrapPlainShows(v);
    var r := ListView(w.items[..j] + [WrapPlain(v)] + w.items[j..]);
    assert ListData(r) == ListData(w)[..j] + [v] + ListData(w)[j..];
    r
  }

  /** `view.append(v)` adds at the end: `MutableSequence.append` inserts at
      the length. */
  lemma AppendAtEnd(w: View, v: Value)
    requires w.ListView?
    ensures ListData(Insert(w, |w.items|, v)) == ListData(w) + [v]
  {
    assert ListData(w)[..|w.items|] == ListData(w);
  }
}

=== FILE: configuration.dfy ===
/** `ProjectConfig`: the build steps of a course project, looked up by
    position or by case-insensitive name, and the search for the project
    file. */
module Configuration {
  import opened Wrappers
  import opened Text
  import opened Values

  /** A build step: its optional `name` and the rest of its mapping. */
  datatype Step = Step(name: Option<string>, fields: seq<(string, Value)>)

  datatype ConfigError =
    | NoSuchIndex(index: nat)            // IndexError(idx)
    | UnknownName(key: string)           // KeyError on the lower-cased name
    | DuplicateNames(names: seq<string>) // "Step names should be unique ..."
    | NameTaken(name: string)            // "A step with the name '...' already exists."
    | NotInList                          // list.remove of a step that is not there
    | NotADirectory(path: string)        // "Path ... doesn't exist or is not a directory"
    | ConfigNotFound(path: string)       // FileNotFoundError

  /** The step answers to the lower-cased name `n`. */
  predicate HasName(s: Step, n: string) {
    s.name.Some? && Lower(s.name.value) == n
  }

  lemma LowerIdempotent(s: string)
    ensures Lower(Lower(s)) == Lower(s)
  {
  }

  // ---------------------------------------------------------------------
  // Lookup
  // ---------------------------------------------------------------------

  /** `steps_by_name[n]`: the mapping is built in order, so the last step
      with the name wins. */
  function LastNamed(steps: seq<Step>, n: string): (r: Option<nat>)
    ensures r.Some? ==> r.value < |steps| && HasName(steps[r.value], n)
    ensures r.Some? ==> forall k :: r.value < k < |steps| ==> !HasName(steps[k], n)
    ensures r.None? <==> forall k :: 0 <= k < |steps| ==> !HasName(steps[k], n)
  {
    if |steps| == 0 then None
    else if HasName(steps[|steps| - 1], n) then Some(|steps| - 1)
    else LastNamed(steps[..|steps| - 1], n)
  }

  /** `get_step`: an all-digit reference is a position, anything else a
      name compared case-insensitively. */
  function GetStep(steps: seq<Step>, ref: string): (r: Result<Step, ConfigError>)
    ensures IsDigits(ref) ==> (r.Success? <==> DigitsValue(ref) < |steps|)
    ensures IsDigits(ref) && r.Success? ==> r.value == steps[DigitsValue(ref)]
    ensures IsDigits(ref) && r.Failure? ==> r.error == NoSuchIndex(DigitsValue(ref))
    ensures !IsDigits(ref) ==> (r.Success? <==> exists k :: 0 <= k < |steps| && HasName(steps[k], Lower(ref)))
    ensures !IsDigits(ref) && r.Success? ==>
      exists k :: 0 <= k < |steps| && steps[k] == r.value && HasName(steps[k], Lower(ref))
        && forall m :: k < m < |steps| ==> !HasName(steps[m], Lower(ref))
    ensures !IsDigits(ref) && r.Failure? ==> r.error == UnknownName(Lower(ref))
  {
    if IsDigits(ref) then
      var idx := DigitsValue(ref);
      if idx < |steps| then Success(steps[idx]) else Failure(NoSuchIndex(idx))
    else
      match LastNamed(steps, Lower(ref))
      case None => Failure(UnknownName(Lower(ref)))
      case Some(k) => Success(steps[k])
  }

  /** `list.index(x)`: the first position holding `x`. */
  function Position(steps: seq<Step>, x: Step): (r: nat)
    requires x in steps
    ensures r < |steps| && steps[r] == x && x !in steps[..r]
  {
    if steps[0] == x then 0
    else
      var k := Position(steps[1..], x);
      assert steps[..k + 1] == [steps[0]] + steps[1..][..k];
      k + 1
  }

  /** `ref_to_index`: digits are read without a range check; a name goes
      through `get_step` and then the first equal step's position. */
  function RefToIndex(steps: seq<Step>, ref: string): (r: Result<nat, ConfigError>)
    ensures IsDigits(ref) ==> r == Success(DigitsValue(ref))
    ensures !IsDigits(ref) ==> (r.Success? <==> GetStep(steps, ref).Success?)
  {
    if IsDigits(ref) then Success(DigitsValue(ref))
    else
      var step :- GetStep(steps, ref);
      Success(Position(steps, step))
  }

  /** Resolving a reference to a position and indexing gives the step
      `get_step` gives. */
  lemma RefToIndexAgrees(steps: seq<Step>, ref: string)
    requires GetStep(steps, ref).Success?
    ensures RefToIndex(steps, ref).Success?
    ensures RefToIndex(steps, ref).value < |steps|
    ensures steps[RefToIndex(steps, ref).value] == GetStep(steps, ref).value
  {
  }

  // ---------------------------------------------------------------------
  // Unique names
  // ---------------------------------------------------------------------

  /** No two steps share a name, ignoring case. */
  ghost predicate UniqueNames(steps: seq<Step>) {
    forall a, b, n :: 0 <= a < b < |steps| && HasName(steps[a], n) ==> !HasName(steps[b], n)
  }

  predicate NameBefore(steps: seq<Step>, n: string, i: nat) {
    exists k :: 0 <= k < i && k < |steps| && HasName(steps[k], n)
  }

  predicate NameAfter(steps: seq<Step>, n: string, i: nat) {
    exists k :: i < k < |steps| && HasName(steps[k], n)
  }

  /** A name used at `a` and at `b`, `a` being its first use. */
  predicate RepeatedFrom(steps: seq<Step>, n: string, a: nat) {
    a < |steps| && HasName(steps[a], n) && !NameBefore(steps, n, a) && NameAfter(steps, n, a)
  }

  /** The names used more than once, first uses at or after `i`, in the
      order of their first use (a `Counter` keeps insertion order). */
  function RepeatedNames(steps: seq<Step>, i: nat): (r: seq<string>)
    ensures forall n :: n in r <==> exists a :: i <= a < |steps| && RepeatedFrom(steps, n, a)
    decreases |steps| - i
  {
    if i >= |steps| then []
    else
      var rest := RepeatedNames(steps, i + 1);
      if steps[i].name.Some? && RepeatedFrom(steps, Lower(steps[i].name.value), i) then
        [Lower(steps[i].name.value)] + rest
      else
        assert forall n :: RepeatedFrom(steps, n, i) ==> steps[i].name.Some? && n == Lower(steps[i].name.value);
        rest
  }

  ghost function RepeatedIndex(steps: seq<Step>, n: string): (a: nat)
    requires exists a :: 0 <= a < |steps| && RepeatedFrom(steps, n, a)
    ensures RepeatedFrom(steps, n, a)
  {
    var a :| 0 <= a < |steps| && RepeatedFrom(steps, n, a); a
  }

  /** Some name is used twice exactly when its first use is followed by
      another. */
  lemma RepeatedFromFirst(steps: seq<Step>, n: string, a: nat, b: nat)
    requires a < b < |steps| && HasName(steps[a], n) && HasName(steps[b], n)
    ensures exists f :: 0 <= f < |steps| && RepeatedFrom(steps, n, f)
    decreases a
  {
    if NameBefore(steps, n, a) {
      var k :| 0 <= k < a && k < |steps| && HasName(steps[k], n);
      RepeatedFromFirst(steps, n, k, a);
    } else {
      assert RepeatedFrom(steps, n, a);
    }
  }

  /** `validate`: succeeds when no name is used twice (ignoring case), and
      otherwise lists each such name once, in order of first use. */
  function Validate(steps: seq<Step>): (r: Result<(), ConfigError>)
    ensures r.Success? <==> UniqueNames(steps)
    ensures r.Failure? ==> r.error.DuplicateNames?
    ensures r.Failure? ==>
      forall n :: n in r.error.names <==>
        exists a, b :: 0 <= a < b < |steps| && HasName(steps[a], n) && HasName(steps[b], n)
  {
    if |steps| == 0 then Success(())
    else
      var dups := RepeatedNames(steps, 0);
      forall a, b, n | 0 <= a < b < |steps| && HasName(steps[a], n)
        ensures HasName(steps[b], n) ==> n in dups
      {
        if HasName(steps[b], n) {
          RepeatedFromFirst(steps, n, a, b);
        }
      }
      if |dups| == 0 then
        forall a, b, n | 0 <= a < b < |steps| && HasName(steps[a], n)
          ensures !HasName(steps[b], n)
        {
          assert HasName(steps[b], n) ==> n in dups;
          assert n !in dups;
        }
        Success(())
      else
        assert dups[0] in dups;
        assert RepeatedFrom(steps, dups[0], RepeatedIndex(steps, dups[0]));
        Failure(DuplicateNames(dups))
  }

  /** When the names are unique, every named step is found by its name. */
  lemma UniqueNamesResolve(steps: seq<Step>, k: nat)
    requires UniqueNames(steps) && k < |steps| && steps[k].name.Some?
    requires !IsDigits(steps[k].name.value)
    ensures GetStep(steps, steps[k].name.value) == Success(steps[k])
  {
    var n := steps[k].name.value;
    LowerIdempotent(n);
    assert HasName(steps[k], Lower(n));
  }

  // ---------------------------------------------------------------------
  // Editing the step list
  // ---------------------------------------------------------------------

  /** `add_step`: a step whose name is already taken (ignoring case) is
      refused; anything else is appended. */
  function AddStep(steps: seq<Step>, step: Step): (r: Result<seq<Step>, ConfigError>)
    ensures r.Failure? <==> step.name.Some? && exists k :: 0 <= k < |steps| && HasName(steps[k], Lower(step.name.value))
    ensures r.Failure? ==> r.error == NameTaken(step.name.value)
    ensures r.Success? ==> r.value == steps + [step]
  {
    if step.name.Some? && LastNamed(steps, Lower(step.name.value)).Some? then
      Failure(NameTaken(step.name.value))
    else Success(steps + [step])
  }

  /** Adding keeps names unique, and the new step is found by its name. */
  lemma AddStepUnique(steps: seq<Step>, step: Step)
    requires UniqueNames(steps) && AddStep(steps, step).Success?
    ensures UniqueNames(AddStep(steps, step).value)
    ensures step.name.Some? && !IsDigits(step.name.value) ==>
      GetStep(AddStep(steps, step).value, step.name.value) == Success(step)
  {
    var r := AddStep(steps, step).value;
    forall a, b, n | 0 <= a < b < |r| && HasName(r[a], n)
      ensures !HasName(r[b], n)
    {
      if b == |steps| && step.name.Some? {
        assert r[a] == steps[a];
        LowerIdempotent(step.name.value);
      }
    }
    if step.name.Some? && !IsDigits(step.name.value) {
      UniqueNamesResolve(r, |steps|);
    }
  }

  /** What `del_step` is given: a step, or a reference to one. */
  datatype StepRef = ByStep(step: Step) | ByRef(ref: string)

  /** `del_step`: the first step equal to the referenced one goes. */
  function DelStep(steps: seq<Step>, target: StepRef): (r: Result<seq<Step>, ConfigError>)
    ensures target.ByRef? && GetStep(steps, target.ref).Failure? ==> r == Failure(GetStep(steps, target.ref).error)
    ensures target.ByStep? ==> (r.Success? <==> target.step in steps)
    ensures r.Success? ==> |r.value| == |steps| - 1
    ensures r.Success? ==>
      exists i :: 0 <= i < |steps| && r.value == steps[..i] + steps[i + 1..]
        && (target.ByStep? ==> steps[i] == target.step)
        && (target.ByRef? ==> steps[i] == GetStep(steps, target.ref).value)
  {
    var step :- if target.ByStep? then Success(target.step) else GetStep(steps, target.ref);
    if step in steps then
      var i := Position(steps, step);
      Success(steps[..i] + steps[i + 1..])
    else Failure(NotInList)
  }

  /** Deleting a step by reference leaves the others, in order. */
  lemma DelStepKeepsOthers(steps: seq<Step>, ref: string, i: nat)
    requires i < |steps| && GetStep(steps, ref) == Success(steps[i])
    requires forall k :: 0 <= k < |steps| && k != i ==> steps[k] != steps[i]
    ensures DelStep(steps, ByRef(ref)) == Success(steps[..i] + steps[i + 1..])
  {
    var p := Position(steps, steps[i]);
    assert p == i;
  }

  // ---------------------------------------------------------------------
  // Finding the project file
  // ---------------------------------------------------------------------

  /** `DEFAULT_NAMES` x `DEFAULT_PREFIXES`, names outermost. */
  const CandidateFiles: seq<string> :=
    ["roman.yml", "roman.yaml", "roman.json", "course.yml", "course.yaml", "course.json"]

  const Extensions: seq<string> := ["yml", "yaml", "json"]

  /** `os.path.basename` */
  function BaseName(path: string): string {
    match LastCharIndex(path, '/')
    case None => path
    case Some(i) => path[i + 1..]
  }

  /** The first of `names` that `exists` accepts. */
  function FirstExisting(names: seq<string>, exists_: string -> bool): (r: Option<nat>)
    ensures r.Some? ==> r.value < |names| && exists_(names[r.value])
    ensures r.Some? ==> forall k :: 0 <= k < r.value ==> !exists_(names[k])
    ensures r.None? <==> forall k :: 0 <= k < |names| ==> !exists_(names[k])
  {
    if |names| == 0 then None
    else if exists_(names[0]) then Some(0)
    else
      match FirstExisting(names[1..], exists_)
      case None =>
        assert forall k :: 1 <= k < |names| ==> names[k] == names[1..][k - 1];
        None
      case Some(i) => Some(i + 1)
  }

  /** `find_from`: `isFile` answers for a path.  The candidates are tested
      by their bare names (relative to the working directory) and the
      first hit must then also exist under `path`. */
  function FindFrom(path: string, isDir: bool, isFile: string -> bool): (r: Result<string, ConfigError>)
    ensures !isDir ==> r == Failure(NotADirectory(path))
    ensures r.Success? ==>
      exists k :: 0 <= k < |CandidateFiles| && r.value == JoinPath(path, CandidateFiles[k])
        && isFile(CandidateFiles[k]) && isFile(r.value)
        && forall m :: 0 <= m < k ==> !isFile(CandidateFiles[m])
    ensures isDir && (forall k :: 0 <= k < |CandidateFiles| ==> !isFile(CandidateFiles[k])) ==>
      r == Failure(ConfigNotFound(path))
  {
    if !isDir then Failure(NotADirectory(path))
    else
      match FirstExisting(CandidateFiles, isFile)
      case None => Failure(ConfigNotFound(path))
      case Some(k) =>
        var config := JoinPath(path, CandidateFiles[k]);
        if isFile(config) then Success(config) else Failure(ConfigNotFound(path))
  }

  /** `load_from`: the file itself, or, when its base name has no `.`, the
      first of `config.yml`, `config.yaml`, `config.json` that exists. */
  function LoadFrom(config: string, isFile: string -> bool): (r: Result<string, ConfigError>)
    ensures isFile(config) ==> r == Success(config)
    ensures !isFile(config) && '.' in BaseName(config) ==> r == Failure(ConfigNotFound(config))
    ensures r.Success? && !isFile(config) ==> '.' !in BaseName(config)
    ensures r.Success? && !isFile(config) ==>
      exists k :: 0 <= k < |Extensions| && r.value == config + "." + Extensions[k]
        && isFile(r.value) && forall m :: 0 <= m < k ==> !isFile(config + "." + Extensions[m])
  {
    if isFile(config) then Success(config)
    else if '.' in BaseName(config) then Failure(ConfigNotFound(config))
    else
      var names := seq(|Extensions|, k requires 0 <= k < |Extensions| => config + "." + Extensions[k]);
      match FirstExisting(names, isFile)
      case None => Failure(ConfigNotFound(config))
      case Some(k) =>
        assert forall m :: 0 <= m < |Extensions| ==> names[m] == config + "." + Extensions[m];
        Success(names[k])
  }
}

=== FILE: docker.dfy ===
/** The Docker backend: the options a step's container is created with,
    `prepare`, which fetches the images that are missing, and `build`,
    which runs one container per step and stops at the first that fails.
    The Docker daemon is a `Client` value: the answers it would give. */
module Docker {
  import opened Wrappers
  import opened Text
  import opened Backends
  import opened Observer

  // ---------------------------------------------------------------------
  // Container options
  // ---------------------------------------------------------------------

  datatype MountType = Bind | Tmpfs

  datatype Mount = Mount(
    target: string,
    source: Option<string>,
    kind: MountType,
    readOnly: bool,
    tmpfsSize: Option<string>)

  datatype RunOpts = RunOpts(
    image: string,
    command: Option<string>,
    environment: Option<seq<(string, string)>>,
    user: string,
    mounts: seq<Mount>,
    workingDir: string)

  /** `if step.mnt:` the step names where the course is mounted. */
  predicate HasMountPoint(step: BuildStep) {
    step.mnt.Some? && |step.mnt.value| > 0
  }

  /** `"{uid}:{gid}"` */
  function UserSpec(env: Environment): string {
    IntToString(env.uid) + ":" + IntToString(env.gid)
  }

  /** Some mount's target is `path`. */
  predicate MountedAt(opts: RunOpts, path: string) {
    exists k :: 0 <= k < |opts.mounts| && opts.mounts[k].target == path
  }

  /** The container may write to the host directory `path`. */
  predicate WritesTo(opts: RunOpts, path: string) {
    exists k :: 0 <= k < |opts.mounts| &&
      opts.mounts[k].kind == Bind && !opts.mounts[k].readOnly && opts.mounts[k].source == Some(path)
  }

  /** Where the build output goes on the host when the step gives no mount
      point. */
  function BuildDir(env: Environment): string {
    JoinPath(env.coursePath, "_build")
  }

  /** The mounts of a step with a mount point: the course, read-write, at
      that point. */
  function MountPointMounts(env: Environment, mnt: string): seq<Mount> {
    [Mount(mnt, Some(env.coursePath), Bind, false, None)]
  }

  /** The mounts of a step without one: a scratch file system at the work
      path, the course read-only under it, and the build directory
      writable. */
  function WorkPathMounts(env: Environment): seq<Mount> {
    [Mount(WorkPath, None, Tmpfs, false, Some(WorkSize)),
     Mount(JoinPath(WorkPath, "src"), Some(env.coursePath), Bind, true, None),
     Mount(JoinPath(WorkPath, "build"), Some(BuildDir(env)), Bind, false, None)]
  }

  /** The options `build` creates a step's container with. */
  function RunOptsFor(env: Environment, step: BuildStep): RunOpts {
    var opts := RunOpts(step.img, step.cmd, step.env, UserSpec(env), [], "");
    if HasMountPoint(step) then
      opts.(mounts := MountPointMounts(env, step.mnt.value), workingDir := step.mnt.value)
    else
      opts.(mounts := WorkPathMounts(env), workingDir := WorkPath)
  }

  /** The three mount targets under the work path differ. */
  lemma WorkTargets()
    ensures JoinPath(WorkPath, "src") == "/work/src"
    ensures JoinPath(WorkPath, "build") == "/work/build"
    ensures WorkPath != "/work/src" && WorkPath != "/work/build" && "/work/src" != "/work/build"
  {
    assert !EndsWith(WorkPath, "/");
    assert "/work/src"[6] != "/work/build"[6];
  }

  /** A container runs as the environment's user, in a directory that is
      mounted; it sees only the course directory and what lies under it;
      no two mounts share a target; and it may write to the course itself
      exactly when the step names a mount point, to the build directory
      otherwise. */
  lemma RunOptsForMounts(env: Environment, step: BuildStep)
    ensures var r := RunOptsFor(env, step);
      r.image == step.img && r.command == step.cmd && r.environment == step.env
      && r.user == UserSpec(env)
      && MountedAt(r, r.workingDir)
      && (forall k :: 0 <= k < |r.mounts| && r.mounts[k].kind == Bind ==>
        r.mounts[k].source.Some? && StartsWith(r.mounts[k].source.value, env.coursePath))
      && (forall j, k :: 0 <= j < k < |r.mounts| ==> r.mounts[j].target != r.mounts[k].target)
      && (WritesTo(r, env.coursePath) <==> HasMountPoint(step))
      && (HasMountPoint(step) ==> r.workingDir == step.mnt.value)
      && (!HasMountPoint(step) ==>
        r.workingDir == WorkPath && WritesTo(r, BuildDir(env)) && MountedAt(r, JoinPath(WorkPath, "src")))
  {
    var r := RunOptsFor(env, step);
    if HasMountPoint(step) {
      assert r.mounts[0].target == r.workingDir;
      assert r.mounts[0].source == Some(env.coursePath);
    } else {
      WorkTargets();
      BuildDirUnder(env);
      WorkPathMountsSafe(env);
      assert r.mounts[0].target == r.workingDir;
      assert r.mounts[1].target == JoinPath(WorkPath, "src");
      assert r.mounts[2].source == Some(BuildDir(env));
    }
  }

  /** The work-path mounts bind only the course directory and what lies
      under it, at three different targets. */
  lemma WorkPathMountsSafe(env: Environment)
    ensures var ms := WorkPathMounts(env);
      (forall k :: 0 <= k < |ms| && ms[k].kind == Bind ==>
        ms[k].source.Some? && StartsWith(ms[k].source.value, env.coursePath))
      && (forall j, k :: 0 <= j < k < |ms| ==> ms[j].target != ms[k].target)
  {
    WorkTargets();
    BuildDirUnder(env);
    assert StartsWith(env.coursePath, env.coursePath);
  }

  /** The build directory lies strictly under the course directory. */
  lemma BuildDirUnder(env: Environment)
    ensures StartsWith(BuildDir(env), env.coursePath) && |BuildDir(env)| > |env.coursePath|
  {
    assert "_build"[0] == '_';
  }

  /** The user a container runs as reads back as the environment's user
      and group ids. */
  lemma UserSpecRoundTrip(env: Environment)
    ensures Split(UserSpec(env), ':') == [IntToString(env.uid), IntToString(env.gid)]
    ensures ParseInt(Split(UserSpec(env), ':')[0]) == Some(env.uid)
    ensures ParseInt(Split(UserSpec(env), ':')[1]) == Some(env.gid)
  {
    var a, b := IntToString(env.uid), IntToString(env.gid);
    IntToStringOmits(env.uid, ':');
    IntToStringOmits(env.gid, ':');
    assert JoinWith([a, b], ":") == UserSpec(env);
    SplitJoin([a, b], ':');
    ParseIntRoundTrip(env.uid);
    ParseIntRoundTrip(env.gid);
  }

  // ---------------------------------------------------------------------
  // The daemon and what is done to it
  // ---------------------------------------------------------------------

  /** The daemon's answers: whether an image is present, whether pulling
      `image:tag` works, whether step `i`'s container can be created, what
      it logs, and what waiting for it returns (`None` when the wait
      raises). */
  datatype Client = Client(
    hasImage: string -> bool,
    canPull: (string, string) -> bool,
    canCreate: nat -> bool,
    logs: nat -> seq<string>,
    wait: nat -> Option<(Option<int>, Option<string>)>)

  /** One thing the backend does: tell the observer, or ask the daemon. */
  datatype Action =
    | Notify(call: Call)
    | Pull(image: string, tag: string)
    | Create(step: nat, opts: RunOpts)
    | Start(step: nat)
    | Remove(step: nat)

  datatype DockerError =
    | NoTag(img: string)                       // ValueError: no `:` to split the image name at
    | PullFailed(image: string, tag: string)
    | CreateFailed(step: nat)
    | WaitFailed(step: nat)

  // ---------------------------------------------------------------------
  // prepare
  // ---------------------------------------------------------------------

  /** `img.split(':', 1)` yields two parts. */
  predicate Tagged(img: string) {
    ':' in img
  }

  function ImageName(img: string): string {
    Partition(img, ":").before
  }

  function TagName(img: string): string {
    Partition(img, ":").after
  }

  /** The name and tag are split at the first `:`. */
  lemma SplitImage(img: string)
    requires Tagged(img)
    ensures ImageName(img) + ":" + TagName(img) == img
    ensures ':' !in ImageName(img)
  {
    PartitionChar(img, ':');
  }

  /** A step `prepare` gets through: its image is present or can be pulled. */
  predicate Preparable(step: BuildStep, client: Client) {
    Tagged(step.img) &&
    (client.hasImage(step.img) || client.canPull(ImageName(step.img), TagName(step.img)))
  }

  /** How a step of `prepare` ends, from the daemon's answers alone. */
  function PrepareVerdict(step: BuildStep, client: Client): (r: Result<(), DockerError>)
    ensures r.Success? <==> Preparable(step, client)
    ensures !Tagged(step.img) ==> r == Failure(NoTag(step.img))
    ensures Tagged(step.img) && r.Failure? ==> r == Failure(PullFailed(ImageName(step.img), TagName(step.img)))
  {
    if !Tagged(step.img) then Failure(NoTag(step.img))
    else if client.hasImage(step.img) || client.canPull(ImageName(step.img), TagName(step.img)) then Success(())
    else Failure(PullFailed(ImageName(step.img), TagName(step.img)))
  }

  /** Step `i` of `prepare`: what is done, and how it ends. */
  function PrepareStep(i: nat, step: BuildStep, client: Client): (r: (seq<Action>, Result<(), DockerError>))
    ensures r.1 == PrepareVerdict(step, client)
  {
    if !Tagged(step.img) then
      ([Notify(StartStep(i))], Failure(NoTag(step.img)))
    else if client.hasImage(step.img) then
      ([Notify(StartStep(i)), Notify(EndStep(i))], Success(()))
    else
      var image, tag := ImageName(step.img), TagName(step.img);
      ([Notify(StartStep(i)),
        Notify(ManagerMsg(i, "Downloading image " + step.img)),
        Pull(image, tag),
        Notify(EndStep(i))],
       if client.canPull(image, tag) then Success(()) else Failure(PullFailed(image, tag)))
  }

  /** A step of `prepare` starts with `start_step` and, once the image name
      has been split, ends with `end_step` however the pull went; it pulls
      exactly when the image is missing, under the name and tag split at the
      first `:`. */
  lemma PrepareStepCalls(i: nat, step: BuildStep, client: Client)
    ensures var acts := PrepareStep(i, step, client).0;
      |acts| > 0 && acts[0] == Notify(StartStep(i))
      && (!Tagged(step.img) ==> acts == [Notify(StartStep(i))])
      && (Tagged(step.img) ==> acts[|acts| - 1] == Notify(EndStep(i)))
      && ((exists k :: 0 <= k < |acts| && acts[k].Pull?) <==> Tagged(step.img) && !client.hasImage(step.img))
      && (forall k :: 0 <= k < |acts| && acts[k].Pull? ==> acts[k] == Pull(ImageName(step.img), TagName(step.img)))
  {
    var acts := PrepareStep(i, step, client).0;
    if Tagged(step.img) && !client.hasImage(step.img) {
      assert acts[2].Pull?;
    }
  }

  /** How far `prepare` gets from step `i` on: how many steps it handles,
      and how it ends. It stops at the first step that raises. */
  function PrepareRun(steps: seq<BuildStep>, i: nat, client: Client): (r: (nat, Result<(), DockerError>))
    requires i <= |steps|
    ensures r.0 <= |steps| - i
    ensures r.1.Success? <==> forall j :: i <= j < |steps| ==> Preparable(steps[j], client)
    ensures r.1.Success? ==> r.0 == |steps| - i
    ensures r.1.Failure? ==> r.0 > 0
    ensures r.1.Failure? ==> r.1 == PrepareVerdict(steps[i + r.0 - 1], client)
    ensures r.1.Failure? ==> forall j :: i <= j < i + r.0 - 1 ==> Preparable(steps[j], client)
    decreases |steps| - i
  {
    if i == |steps| then (0, Success(()))
    else if !Preparable(steps[i], client) then (1, PrepareVerdict(steps[i], client))
    else
      var rest := PrepareRun(steps, i + 1, client);
      assert steps[i + rest.0 + 1 - 1] == steps[i + 1 + rest.0 - 1];
      (rest.0 + 1, rest.1)
  }

  /** `prepare` from step `i` on: what is done, grouped by step, and how it
      ends. */
  function PrepareFrom(steps: seq<BuildStep>, i: nat, client: Client): (r: (seq<seq<Action>>, Result<(), DockerError>))
    requires i <= |steps|
    ensures |r.0| <= |steps| - i
    ensures r.1.Success? <==> forall j :: i <= j < |steps| ==> Preparable(steps[j], client)
    ensures r.1.Success? ==> |r.0| == |steps| - i
    ensures r.1.Failure? ==> |r.0| > 0
    ensures r.1.Failure? ==> r.1 == PrepareVerdict(steps[i + |r.0| - 1], client)
    ensures r.1.Failure? ==> forall j :: i <= j < i + |r.0| - 1 ==> Preparable(steps[j], client)
  {
    var run := PrepareRun(steps, i, client);
    (PrepareBlocks(steps, i, run.0, client), run.1)
  }

  /** The actions of the `n` steps from step `i` on, grouped by step. */
  function PrepareBlocks(steps: seq<BuildStep>, i: nat, n: nat, client: Client): (b: seq<seq<Action>>)
    requires i + n <= |steps|
    ensures |b| == n
  {
    seq(n, k requires 0 <= k < n => PrepareStep(i + k, steps[i + k], client).0)
  }

  /** Each group of actions is the one its step performs. */
  lemma PrepareFromBlock(steps: seq<BuildStep>, i: nat, client: Client, k: nat)
    requires i <= |steps|
    requires k < |PrepareFrom(steps, i, client).0|
    ensures i + k < |steps|
    ensures PrepareFrom(steps, i, client).0[k] == PrepareStep(i + k, steps[i + k], client).0
  {
    var n := PrepareRun(steps, i, client).0;
    assert PrepareFrom(steps, i, client).0 == PrepareBlocks(steps, i, n, client);
    PrepareBlocksAt(steps, i, n, client, k);
  }

  lemma PrepareBlocksAt(steps: seq<BuildStep>, i: nat, n: nat, client: Client, k: nat)
    requires i + n <= |steps| && k < n
    ensures PrepareBlocks(steps, i, n, client)[k] == PrepareStep(i + k, steps[i + k], client).0
  {
  }

  function Prepare(steps: seq<BuildStep>, client: Client): (seq<seq<Action>>, Result<(), DockerError>) {
    PrepareFrom(steps, 0, client)
  }

  /** Every step whose image is missing is pulled, under the name and tag
      split at the image's first `:`; a present image is never pulled; and
      each step is ended before the next starts, unless its image name had
      no tag, which ends `prepare` at once. */
  lemma PrepareCalls(steps: seq<BuildStep>, client: Client, k: nat)
    requires k < |Prepare(steps, client).0|
    ensures var block := Prepare(steps, client).0[k];
      var img := steps[k].img;
      block[0] == Notify(StartStep(k))
      && (Tagged(img) ==> block[|block| - 1] == Notify(EndStep(k)))
      && (!Tagged(img) ==> k == |Prepare(steps, client).0| - 1 && Prepare(steps, client).1 == Failure(NoTag(img)))
      && ((exists j :: 0 <= j < |block| && block[j] == Pull(ImageName(img), TagName(img)))
          <==> Tagged(img) && !client.hasImage(img))
  {
    var r := Prepare(steps, client);
    var block := r.0[k];
    PrepareFromBlock(steps, 0, client, k);
    PrepareStepCalls(k, steps[k], client);
    if Tagged(steps[k].img) && !client.hasImage(steps[k].img) {
      var j :| 0 <= j < |block| && block[j].Pull?;
      assert block[j] == Pull(ImageName(steps[k].img), TagName(steps[k].img));
    }
  }

  // ---------------------------------------------------------------------
  // build
  // ---------------------------------------------------------------------

  /** How a step of `build` ends: it passes, it stops the build with a
      result, or the daemon raises. */
  datatype Verdict = Passed | Stopped(result: BuildResult) | Raised(error: DockerError)

  /** The log lines of step `i`, handed to the observer one by one. */
  function LogCalls(i: nat, lines: seq<string>): (r: seq<Action>)
    ensures |r| == |lines|
    ensures forall k :: 0 <= k < |lines| ==> r[k] == Notify(ContainerMsg(i, lines[k]))
  {
    if |lines| == 0 then [] else [Notify(ContainerMsg(i, lines[0]))] + LogCalls(i, lines[1..])
  }

  /** How step `i` of `build` ends, from the daemon's answers alone. */
  function StepVerdict(i: nat, client: Client): (v: Verdict)
    ensures v == Passed <==>
      client.canCreate(i) && client.wait(i).Some? && !Failing(client.wait(i).value.0, client.wait(i).value.1)
    ensures v.Stopped? <==>
      client.canCreate(i) && client.wait(i).Some? && Failing(client.wait(i).value.0, client.wait(i).value.1)
    ensures v.Stopped? ==>
      v.result == BuildResult(client.wait(i).value.0, client.wait(i).value.1, Some(i))
    ensures v.Raised? ==> v.error == (if client.canCreate(i) then WaitFailed(i) else CreateFailed(i))
  {
    if !client.canCreate(i) then Raised(CreateFailed(i))
    else
      match client.wait(i)
      case None => Raised(WaitFailed(i))
      case Some(ret) =>
        if Failing(ret.0, ret.1) then Stopped(BuildResult(ret.0, ret.1, Some(i))) else Passed
  }

  /** Step `i` of `build`: what is done, and how it ends. */
  function BuildStepRun(i: nat, step: BuildStep, env: Environment, client: Client): (r: (seq<Action>, Verdict))
    ensures r.1 == StepVerdict(i, client)
  {
    var opts := RunOptsFor(env, step);
    var head := [
      Notify(StartStep(i)),
      Notify(ManagerMsg(i, "Running container " + opts.image + ":")),
      Create(i, opts)];
    if !client.canCreate(i) then (head, Raised(CreateFailed(i)))
    else
      var acts := head + [Start(i)] + LogCalls(i, client.logs(i)) + [Remove(i), Notify(EndStep(i))];
      (acts, StepVerdict(i, client))
  }

  /** A step of `build` announces the container, creates it, and — once it
      exists — starts it, passes on its log lines, then removes it and ends
      the step on every way out; a container that could not be created is
      neither removed nor its step ended. */
  lemma BuildStepCalls(i: nat, step: BuildStep, env: Environment, client: Client)
    ensures var acts := BuildStepRun(i, step, env, client).0;
      |acts| >= 3
      && acts[..3] == [
        Notify(StartStep(i)),
        Notify(ManagerMsg(i, "Running container " + step.img + ":")),
        Create(i, RunOptsFor(env, step))]
      && (!client.canCreate(i) ==> |acts| == 3)
      && (client.canCreate(i) ==>
        |acts| == 6 + |client.logs(i)| && acts[3] == Start(i) &&
        acts[4..4 + |client.logs(i)|] == LogCalls(i, client.logs(i)) &&
        acts[|acts| - 2..] == [Remove(i), Notify(EndStep(i))])
  {
    var acts := BuildStepRun(i, step, env, client).0;
    if client.canCreate(i) {
      var logs := LogCalls(i, client.logs(i));
      assert acts[4..4 + |logs|] == logs;
    }
  }

  /** What a build returns when a step ends it. */
  function Outcome(v: Verdict): (r: Result<BuildResult, DockerError>)
    ensures r == Success(Succeeded) <==> v == Passed || v == Stopped(Succeeded)
  {
    match v
    case Stopped(result) => Success(result)
    case Raised(e) => Failure(e)
    case Passed => Success(Succeeded)
  }

  /** How far `build` gets from step `i` of `n` on: how many steps run,
      and the result. It stops at the first step that does not pass. */
  function BuildRun(n: nat, i: nat, client: Client): (r: (nat, Result<BuildResult, DockerError>))
    requires i <= n
    ensures r.0 <= n - i
    ensures r.1 == Success(Succeeded) <==> forall j :: i <= j < n ==> StepVerdict(j, client) == Passed
    ensures r.1 == Success(Succeeded) ==> r.0 == n - i
    ensures r.1 != Success(Succeeded) ==> r.0 > 0
    ensures r.1 != Success(Succeeded) ==> forall j :: i <= j < i + r.0 - 1 ==> StepVerdict(j, client) == Passed
    ensures r.1 != Success(Succeeded) ==> r.1 == Outcome(StepVerdict(i + r.0 - 1, client))
    decreases n - i
  {
    if i == n then (0, Success(Succeeded))
    else
      var v := StepVerdict(i, client);
      if v == Passed then
        var rest := BuildRun(n, i + 1, client);
        (rest.0 + 1, rest.1)
      else
        (1, Outcome(v))
  }

  /** `build` from step `i` on: what is done, grouped by step, and the
      result. */
  function BuildFrom(steps: seq<BuildStep>, i: nat, env: Environment, client: Client): (r: (seq<seq<Action>>, Result<BuildResult, DockerError>))
    requires i <= |steps|
    ensures |r.0| <= |steps| - i
    ensures r.1 == Success(Succeeded) <==> forall j :: i <= j < |steps| ==> StepVerdict(j, client) == Passed
    ensures r.1 == Success(Succeeded) ==> |r.0| == |steps| - i
    ensures r.1 != Success(Succeeded) ==> |r.0| > 0
    ensures r.1 != Success(Succeeded) ==> forall j :: i <= j < i + |r.0| - 1 ==> StepVerdict(j, client) == Passed
    ensures r.1 != Success(Succeeded) ==> r.1 == Outcome(StepVerdict(i + |r.0| - 1, client))
  {
    var run := BuildRun(|steps|, i, client);
    (Blocks(steps, i, run.0, env, client), run.1)
  }

  /** The actions of the `n` steps from step `i` on, grouped by step. */
  function Blocks(steps: seq<BuildStep>, i: nat, n: nat, env: Environment, client: Client): (b: seq<seq<Action>>)
    requires i + n <= |steps|
    ensures |b| == n
  {
    seq(n, k requires 0 <= k < n => BuildStepRun(i + k, steps[i + k], env, client).0)
  }

  /** Each group of actions is the one its step performs. */
  lemma BuildFromBlock(steps: seq<BuildStep>, i: nat, env: Environment, client: Client, k: nat)
    requires i <= |steps|
    requires k < |BuildFrom(steps, i, env, client).0|
    ensures i + k < |steps|
    ensures BuildFrom(steps, i, env, client).0[k] == BuildStepRun(i + k, steps[i + k], env, client).0
  {
    var n := BuildRun(|steps|, i, client).0;
    assert BuildFrom(steps, i, env, client).0 == Blocks(steps, i, n, env, client);
    BlocksAt(steps, i, n, env, client, k);
  }

  lemma BlocksAt(steps: seq<BuildStep>, i: nat, n: nat, env: Environment, client: Client, k: nat)
    requires i + n <= |steps| && k < n
    ensures Blocks(steps, i, n, env, client)[k] == BuildStepRun(i + k, steps[i + k], env, client).0
  {
    var b := Blocks(steps, i, n, env, client);
    var acts := BuildStepRun(i + k, steps[i + k], env, client).0;
    assert b[k] == acts;
  }

  function Build(steps: seq<BuildStep>, env: Environment, client: Client): (seq<seq<Action>>, Result<BuildResult, DockerError>) {
    BuildFrom(steps, 0, env, client)
  }

  /** The first step whose container exits non-zero or reports an error
      ends the build: its status, error and index are the result, and no
      later step is started. */
  lemma BuildStopsAtFirstFailure(steps: seq<BuildStep>, env: Environment, client: Client, k: nat)
    requires k < |steps|
    requires forall j :: 0 <= j < k ==> StepVerdict(j, client) == Passed
    requires client.canCreate(k) && client.wait(k).Some?
    requires Failing(client.wait(k).value.0, client.wait(k).value.1)
    ensures |Build(steps, env, client).0| == k + 1
    ensures Build(steps, env, client).1 ==
      Success(BuildResult(client.wait(k).value.0, client.wait(k).value.1, Some(k)))
  {
    var r := Build(steps, env, client);
    assert StepVerdict(k, client).Stopped?;
    assert r.1 != Success(Succeeded);
    var n := |r.0| - 1;
    assert r.1 == Outcome(StepVerdict(n, client));
    assert StepVerdict(n, client) != Passed;
    assert n >= k;
    assert k < n ==> StepVerdict(k, client) == Passed;
    assert n == k;
  }

  /** Every container that was created is removed and its step ended, on
      every way out of the step: a pass, a failing status, or a wait that
      raises. A container that could not be created is neither. */
  lemma BuildCleansUp(steps: seq<BuildStep>, env: Environment, client: Client, k: nat)
    requires k < |Build(steps, env, client).0|
    ensures var block := Build(steps, env, client).0[k];
      (client.canCreate(k) ==>
        |block| >= 2 && block[|block| - 2] == Remove(k) && block[|block| - 1] == Notify(EndStep(k)))
      && (!client.canCreate(k) ==>
        k == |Build(steps, env, client).0| - 1 && Build(steps, env, client).1 == Failure(CreateFailed(k))
        && forall j :: 0 <= j < |block| ==> !block[j].Remove? && block[j] != Notify(EndStep(k)))
  {
    var r := Build(steps, env, client);
    var block := r.0[k];
    BuildFromBlock(steps, 0, env, client, k);
    assert block == BuildStepRun(k, steps[k], env, client).0;
    BuildStepCalls(k, steps[k], env, client);
    if !client.canCreate(k) {
      assert StepVerdict(k, client) == Raised(CreateFailed(k));
      assert block == block[..3];
    }
  }

  // ---------------------------------------------------------------------
  // What the observer hears
  // ---------------------------------------------------------------------

  /** The observer calls among the actions, in order. */
  function Calls(acts: seq<Action>): (r: seq<Call>)
    ensures |r| <= |acts|
  {
    if |acts| == 0 then []
    else (if acts[0].Notify? then [acts[0].call] else []) + Calls(acts[1..])
  }

  function Flatten(blocks: seq<seq<Action>>): seq<Action> {
    if |blocks| == 0 then [] else blocks[0] + Flatten(blocks[1..])
  }

  /** The backend itself never enters a phase. */
  predicate StaysInPhase(acts: seq<Action>) {
    forall k :: 0 <= k < |acts| && acts[k].Notify? ==> !acts[k].call.IsEnter()
  }

  lemma {:induction false} CallsStepLevel(acts: seq<Action>)
    requires StaysInPhase(acts)
    ensures StepLevel(Calls(acts))
    decreases |acts|
  {
    if |acts| > 0 {
      assert StaysInPhase(acts[1..]) by {
        forall k | 0 <= k < |acts[1..]| && acts[1..][k].Notify?
          ensures !acts[1..][k].call.IsEnter()
        {
          assert acts[1..][k] == acts[k + 1];
        }
      }
      CallsStepLevel(acts[1..]);
    }
  }

  lemma {:induction false} FlattenStaysInPhase(blocks: seq<seq<Action>>)
    requires forall k :: 0 <= k < |blocks| ==> StaysInPhase(blocks[k])
    ensures StaysInPhase(Flatten(blocks))
    decreases |blocks|
  {
    if |blocks| > 0 {
      FlattenStaysInPhase(blocks[1..]);
      var f := Flatten(blocks);
      var b, rest := blocks[0], Flatten(blocks[1..]);
      forall k | 0 <= k < |f| && f[k].Notify?
        ensures !f[k].call.IsEnter()
      {
        if k < |b| {
          assert f[k] == b[k];
        } else {
          assert f[k] == rest[k - |b|];
        }
      }
    }
  }

  lemma LogCallsStayInPhase(i: nat, lines: seq<string>)
    ensures StaysInPhase(LogCalls(i, lines))
  {
  }

  lemma PrepareBlockStaysInPhase(i: nat, step: BuildStep, client: Client)
    ensures StaysInPhase(PrepareStep(i, step, client).0)
  {
  }

  lemma BuildBlockStaysInPhase(i: nat, step: BuildStep, env: Environment, client: Client)
    ensures StaysInPhase(BuildStepRun(i, step, env, client).0)
  {
    var block := BuildStepRun(i, step, env, client).0;
    BuildStepCalls(i, step, env, client);
    var logs := client.logs(i);
    LogCallsStayInPhase(i, logs);
    forall j | 0 <= j < |block| && block[j].Notify?
      ensures !block[j].call.IsEnter()
    {
      if client.canCreate(i) && 4 <= j < 4 + |logs| {
        assert block[j] == block[4..4 + |logs|][j - 4];
      } else if j < 3 {
        assert block[j] == block[..3][j];
      }
    }
  }

  /** What `prepare` tells the observer stays within the phase the builder
      entered. */
  lemma PrepareStaysInPhase(steps: seq<BuildStep>, client: Client)
    ensures StepLevel(Calls(Flatten(Prepare(steps, client).0)))
  {
    var p := Prepare(steps, client).0;
    forall k | 0 <= k < |p|
      ensures StaysInPhase(p[k])
    {
      PrepareFromBlock(steps, 0, client, k);
      PrepareBlockStaysInPhase(k, steps[k], client);
    }
    FlattenStaysInPhase(p);
    CallsStepLevel(Flatten(p));
  }

  /** So does what `build` tells it. */
  lemma BuildStaysInPhase(steps: seq<BuildStep>, env: Environment, client: Client)
    ensures StepLevel(Calls(Flatten(Build(steps, env, client).0)))
  {
    var b := Build(steps, env, client).0;
    forall k | 0 <= k < |b|
      ensures StaysInPhase(b[k])
    {
      BuildFromBlock(steps, 0, env, client, k);
      BuildBlockStaysInPhase(k, steps[k], env, client);
    }
    FlattenStaysInPhase(b);
    CallsStepLevel(Flatten(b));
  }
}

=== FILE: document.dfy ===
/** Versioned YAML documents: multi-level access to a document's data by
    dotted key paths, typed assignment driven by the schema, and the choice
    of a document among the versions stored in one file. */
module Document {
  import opened Wrappers
  import opened Text
  import opened Values
  import opened Collections
  import opened Versions
  import Booleans
  import Assoc

  // ---------------------------------------------------------------------
  // find_ml
  // ---------------------------------------------------------------------

  /** A key as `find_ml` uses it: a name, or an integer for sequences
      (normalised to a position when it indexes one). */
  datatype Key = Name(name: string) | Index(index: int)

  datatype MLError =
    | KeyMissing(path: string)      // KeyError
    | IndexOutOfRange(index: int)   // IndexError
    | NotAnInt(key: string)         // ValueError from int()
    | Unsupported                   // TypeError or AttributeError: not indexable or editable that way
    | UnusableDefault(d: Value)     // a stored default that cannot be read as key/value pairs

  function FromView(e: ViewError): MLError {
    match e
    case MissingKey(k) => KeyMissing(k)
    case BadIndex(i) => IndexOutOfRange(i)
    case BadDefault(d) => UnusableDefault(d)
  }

  /** One step of `find_ml` before the last key: the key as used and the
      value found under it. Sequences and strings are indexed by the key
      read as an integer; `done` are the keys already walked. */
  function Descend(current: View, key: string, done: seq<string>): (r: Result<(Key, View), MLError>)
    ensures r.Failure? && r.error.KeyMissing? ==> r.error.path == JoinWith(done + [key], ".")
  {
    match current
    case ListView(items) =>
      (match ParseInt(key)
       case None => Failure(Unsupported)
       case Some(i) =>
         match NormIndex(i, |items|)
         case None => Failure(IndexOutOfRange(i))
         case Some(j) => Success((Index(j), items[j])))
    case DictView(_, _, work) =>
      (match Assoc.Get(work, key)
       case Some(child) => Success((Name(key), child))
       case None => Failure(KeyMissing(JoinWith(done + [key], "."))))
    case Plain(v) =>
      if v.Str? then
        match ParseInt(key)
        case None => Failure(Unsupported)
        case Some(i) =>
          match NormIndex(i, |v.s|)
          case None => Failure(IndexOutOfRange(i))
          case Some(j) => Success((Index(j), Plain(Str([v.s[j]]))))
      else Failure(Unsupported)
  }

  /** A step with `create_dicts`: a mapping without the key is first given
      an empty mapping under it. The container comes back with the step. */
  function Enter(current: View, key: string, create: bool, done: seq<string>): (r: Result<(View, Key, View), MLError>)
  {
    if create && current.DictView? && !Assoc.HasKey(current.work, key) then
      var made := SetDefault(current, key, Dict([]));
      if made.Failure? then Failure(FromView(made.error))
      else Success((made.value.0, Name(key), made.value.1))
    else
      var step :- Descend(current, key, done);
      Success((current, step.0, step.1))
  }

  /** What a step finds: a mapping holds the value under the key, a list or
      a string is indexed in range. */
  lemma DescendShape(current: View, key: string, done: seq<string>)
    ensures var r := Descend(current, key, done);
      (current.DictView? ==> (r.Success? <==> Assoc.HasKey(current.work, key))) &&
      (r.Success? && current.DictView? ==> r.value.0 == Name(key) && Assoc.Get(current.work, key) == Some(r.value.1)) &&
      (r.Success? && !current.DictView? ==> r.value.0.Index?) &&
      (r.Success? && current.ListView? ==> 0 <= r.value.0.index < |current.items| && r.value.1 == current.items[r.value.0.index]) &&
      (r.Success? && current.Plain? ==> r.value.1.Plain?)
  {
  }

  /** A step that creates keeps a mapping's data and leaves other
      containers as they were; without creating it is a plain step. */
  lemma EnterShape(current: View, key: string, create: bool, done: seq<string>)
    ensures var r := Enter(current, key, create, done);
      var d := Descend(current, key, done);
      (r.Success? && current.DictView? ==> r.value.1 == Name(key) && r.value.0.DictView? && r.value.0.data == current.data) &&
      (r.Success? && current.DictView? ==> Assoc.Get(r.value.0.work, key) == Some(r.value.2)) &&
      (r.Success? && !current.DictView? ==> r.value.0 == current) &&
      (d.Success? ==> r == Success((current, d.value.0, d.value.1))) &&
      (!create ==> (r.Success? <==> d.Success?))
  {
    DescendShape(current, key, done);
  }

  /** The last key: read as an integer when the container is a list. */
  function LastKey(container: View, key: string): (r: Result<Key, MLError>)
    ensures !container.ListView? ==> r == Success(Name(key))
    ensures container.ListView? ==> (r.Success? <==> ParseInt(key).Some?)
    ensures container.ListView? && r.Success? ==> r.value == Index(ParseInt(key).value)
  {
    if container.ListView? then
      match ParseInt(key)
      case None => Failure(NotAnInt(key))
      case Some(i) => Success(Index(i))
    else Success(Name(key))
  }

  /** `find_ml(current, keys)`: the container of the last key and that key. */
  function Find(current: View, keys: seq<string>, done: seq<string>): (r: Result<(View, Key), MLError>)
    requires |keys| >= 1
    decreases |keys|
  {
    if |keys| == 1 then
      var k :- LastKey(current, keys[0]);
      Success((current, k))
    else
      var step :- Descend(current, keys[0], done);
      Find(step.1, keys[1..], done + [keys[0]])
  }

  /** Past the first key, `find_ml` continues below the value found there. */
  lemma FindUnfold(current: View, keys: seq<string>, done: seq<string>)
    requires |keys| > 1
    ensures var step := Descend(current, keys[0], done);
      Find(current, keys, done) ==
        if step.Failure? then Failure(step.error) else Find(step.value.1, keys[1..], done + [keys[0]])
  {
  }

  /** A `KeyError` from `find_ml` names the dotted path up to and including
      the key that was missing, which is never the last key: `n` keys of the
      path were walked when it was raised. */
  lemma {:induction false} FindKeyErrorPath(current: View, keys: seq<string>, done: seq<string>, path: string) returns (n: nat)
    requires |keys| >= 1
    requires Find(current, keys, done) == Failure(KeyMissing(path))
    ensures 1 <= n < |keys| && path == JoinWith(done + keys[..n], ".")
    decreases |keys|
  {
    if |keys| == 1 {
      FindLastNeverMissing(current, keys, done);
      assert false;
    }
    var step := Descend(current, keys[0], done);
    if step.Failure? {
      FindMissingHere(current, keys, done, path);
      n := 1;
      assert path == JoinWith(done + keys[..n], ".");
    } else {
      assert Find(step.value.1, keys[1..], done + [keys[0]]) == Failure(KeyMissing(path)) by {
        FindUnfold(current, keys, done);
      }
      var m := FindKeyErrorPath(step.value.1, keys[1..], done + [keys[0]], path);
      n := m + 1;
      PrefixShift(done, keys, m, n, path);
    }
  }

  /** A `KeyError` at the first key names the path walked and that key. */
  lemma FindMissingHere(current: View, keys: seq<string>, done: seq<string>, path: string)
    requires |keys| > 1 && Descend(current, keys[0], done).Failure?
    requires Find(current, keys, done) == Failure(KeyMissing(path))
    ensures path == JoinWith(done + keys[..1], ".")
  {
    FindUnfold(current, keys, done);
    DescendMissing(current, keys[0], done);
    assert done + keys[..1] == done + [keys[0]];
  }

  /** A step that misses a key names the path walked so far and that key. */
  lemma DescendMissing(current: View, key: string, done: seq<string>)
    ensures var r := Descend(current, key, done);
      r.Failure? && r.error.KeyMissing? ==> r.error.path == JoinWith(done + [key], ".")
  {
  }

  /** With one key left, `find_ml` looks nothing up, so it raises no
      `KeyError`. */
  lemma FindLastNeverMissing(current: View, keys: seq<string>, done: seq<string>)
    requires |keys| == 1
    ensures Find(current, keys, done).Failure? ==> Find(current, keys, done).error.NotAnInt?
  {
  }

  /** A path named below the first key is the same path named from above. */
  lemma PrefixShift(done: seq<string>, keys: seq<string>, m: nat, n: nat, path: string)
    requires |keys| > 1 && m < |keys| - 1 && n == m + 1
    requires path == JoinWith(done + [keys[0]] + keys[1..][..m], ".")
    ensures path == JoinWith(done + keys[..n], ".")
  {
    assert done + [keys[0]] + keys[1..][..m] == done + keys[..n];
  }

  /** The mapping `{'foo': {}}` has no `foo.bar`, and the error says so. */
  lemma FindMissingExample()
    ensures Find(WrapPlain(Dict([("foo", Dict([]))])), ["foo", "bar", "baz"], []) == Failure(KeyMissing("foo.bar"))
  {
    var root := WrapPlain(Dict([("foo", Dict([]))]));
    assert Assoc.Get(root.work, "foo") == Some(WrapPlain(Dict([])));
    assert ["foo", "bar", "baz"][1..] == ["bar", "baz"];
    assert [] + ["foo"] + ["bar"] == ["foo", "bar"];
    assert JoinWith(["foo", "bar"], ".") == "foo.bar";
  }

  /** `container[key]` */
  function Read(container: View, key: Key): (r: Result<View, MLError>)
    ensures container.DictView? && key.Name? ==>
      (r.Success? <==> Assoc.HasKey(container.work, key.name)) &&
      (r.Success? ==> Assoc.Get(container.work, key.name) == Some(r.value)) &&
      (r.Failure? ==> r.error.KeyMissing?)
  {
    match container
    case DictView(_, _, work) =>
      if key.Index? then Failure(Unsupported)
      else
        (match Assoc.Get(work, key.name)
         case Some(c) => Success(c)
         case None => Failure(KeyMissing(key.name)))
    case ListView(items) =>
      if key.Name? then Failure(Unsupported)
      else
        (match NormIndex(key.index, |items|)
         case None => Failure(IndexOutOfRange(key.index))
         case Some(j) => Success(items[j]))
    case Plain(_) => Failure(Unsupported)
  }

  /** The view a key path leads to. */
  function Lookup(root: View, keys: seq<string>): Result<View, MLError>
    requires |keys| >= 1
  {
    var found :- Find(root, keys, []);
    Read(found.0, found.1)
  }

  /** `mlget(path, default)`: a `KeyError` anywhere on the way gives the
      default, or a `KeyError` naming the whole path when there is none;
      other errors pass through. */
  function MLGet(root: View, path: string, default: Option<Value>): (r: Result<Value, MLError>)
    ensures r.Failure? && r.error.KeyMissing? ==> r.error.path == path && default.None?
    ensures default.Some? && r.Success? && Lookup(root, Split(path, '.')).Failure? ==> r.value == default.value
    ensures Lookup(root, Split(path, '.')).Success? ==> r == Success(Shown(Lookup(root, Split(path, '.')).value))
  {
    var found := Lookup(root, Split(path, '.'));
    if found.Success? then Success(Shown(found.value))
    else if found.error.KeyMissing? then
      if default.Some? then Success(default.value) else Failure(KeyMissing(path))
    else Failure(found.error)
  }

  // ---------------------------------------------------------------------
  // Editing along a key path
  // ---------------------------------------------------------------------

  /** What is done at the end of the path: `container[key] = v`,
      `container.setwork(key, v)`, `container.setdefault(key, v)` or
      `del container[key]`. */
  datatype Op = Assign(v: Value) | AssignWork(v: Value) | Default(v: Value) | Delete

  /** Assignment and deletion report the change upwards; `setwork` and
      `setdefault` do not. */
  predicate Notifies(op: Op) {
    op.Assign? || op.Delete?
  }

  /** Deletion walks existing keys only; the others make missing mappings. */
  predicate CreatesDicts(op: Op) {
    !op.Delete?
  }

  function Lift(r: Result<View, ViewError>): Result<(View, Option<View>), MLError> {
    if r.Success? then Success((r.value, None)) else Failure(FromView(r.error))
  }

  /** The operation on the last container. */
  function Apply(container: View, key: string, op: Op): (r: Result<(View, Option<View>), MLError>)
    ensures r.Success? ==> container.DictView? || container.ListView?
    ensures r.Success? && container.DictView? ==> r.value.0.DictView?
    ensures r.Success? && container.ListView? ==> r.value.0.ListView? && |r.value.0.items| + (if op.Delete? then 1 else 0) == |container.items|
    ensures r.Success? && !Notifies(op) ==> DataOf(r.value.0) == DataOf(container)
    ensures r.Success? ==> (r.value.1.Some? <==> op.Default?)
  {
    var k :- LastKey(container, key);
    match container
    case DictView(_, _, _) =>
      (match op
       case Assign(v) => Lift(SetItem(container, key, v))
       case AssignWork(v) => Lift(SetWork(container, key, v))
       case Default(v) =>
         var made := SetDefault(container, key, v);
         if made.Failure? then Failure(FromView(made.error)) else Success((made.value.0, Some(made.value.1)))
       case Delete => Lift(DelItem(container, key)))
    case ListView(_) =>
      (match op
       case Assign(v) => Lift(SetAt(container, k.index, v))
       case Delete => Lift(DelAt(container, k.index))
       case _ => Failure(Unsupported))
    case Plain(_) => Failure(Unsupported)
  }

  /** Putting an edited child back under its key; a child that reported a
      change has its data stored in a mapping parent, or the key dropped
      from the data when the child's data became empty. A list's data is
      its items' data, so it follows by itself. */
  function Reattach(parent: View, key: Key, child: View, notify: bool): (r: View)
    ensures parent.DictView? && key.Name? ==> r.DictView? && Assoc.Get(r.work, key.name) == Some(child)
    ensures parent.ListView? && key.Index? && 0 <= key.index < |parent.items| ==>
      r == ListView(parent.items[key.index := child])
  {
    match parent
    case DictView(data, defaults, work) =>
      if key.Name? then
        var w := DictView(data, defaults, Assoc.Put(work, key.name, child));
        if notify then DataUpdated(w, key.name, DataOf(child)) else w
      else parent
    case ListView(items) =>
      if key.Index? && 0 <= key.index < |items| then ListView(items[key.index := child]) else parent
    case Plain(_) => parent
  }

  /** `find_ml` followed by the operation, with the containers on the way
      put back: the new root and what the operation returned. */
  function Edit(current: View, keys: seq<string>, op: Op, done: seq<string>): (r: Result<(View, Option<View>), MLError>)
    requires |keys| >= 1
    ensures r.Success? ==> (r.value.1.Some? <==> op.Default?)
    decreases |keys|
  {
    if |keys| == 1 then Apply(current, keys[0], op)
    else
      var step :- Enter(current, keys[0], CreatesDicts(op), done);
      var sub :- Edit(step.2, keys[1..], op, done + [keys[0]]);
      Success((Reattach(step.0, step.1, sub.0, Notifies(op)), sub.1))
  }

  /** Nothing can be edited below a plain value. */
  lemma {:induction false} EditPlainFails(v: Value, keys: seq<string>, op: Op, done: seq<string>)
    requires |keys| >= 1
    ensures Edit(Plain(v), keys, op, done).Failure?
    decreases |keys|
  {
    if |keys| > 1 {
      var step := Enter(Plain(v), keys[0], CreatesDicts(op), done);
      DescendShape(Plain(v), keys[0], done);
      if step.Success? {
        EditPlainFails(step.value.2.value, keys[1..], op, done + [keys[0]]);
      }
    }
  }

  /** After a child is put back, walking the same key reaches it. */
  lemma EnterReattach(current: View, key: string, create: bool, done: seq<string>, child: View, notify: bool, done2: seq<string>)
    requires !current.Plain?
    requires Enter(current, key, create, done).Success?
    ensures var step := Enter(current, key, create, done).value;
      var parent := Reattach(step.0, step.1, child, notify);
      Descend(parent, key, done2) == Success((step.1, child))
  {
    var step := Enter(current, key, create, done).value;
    EnterShape(current, key, create, done);
    DescendShape(current, key, done);
    DescendShape(Reattach(step.0, step.1, child, notify), key, done2);
    if current.ListView? {
      var i := ParseInt(key).value;
      assert NormIndex(i, |current.items|).Some?;
    }
  }

  /** `setwork` and `setdefault` along a path never change the data
      underneath. */
  lemma {:induction false} QuietEditKeepsData(current: View, keys: seq<string>, op: Op, done: seq<string>)
    requires |keys| >= 1 && !Notifies(op)
    ensures var r := Edit(current, keys, op, done);
      r.Success? ==> DataOf(r.value.0) == DataOf(current)
    decreases |keys|
  {
    var r := Edit(current, keys, op, done);
    if |keys| > 1 && r.Success? {
      var step := Enter(current, keys[0], CreatesDicts(op), done).value;
      var sub := Edit(step.2, keys[1..], op, done + [keys[0]]).value;
      QuietEditKeepsData(step.2, keys[1..], op, done + [keys[0]]);
      assert r.value.0 == Reattach(step.0, step.1, sub.0, false);
      ReattachQuiet(current, keys[0], CreatesDicts(op), done, sub.0);
    }
  }

  /** Putting back, without notifying, a child whose data did not change
      leaves the parent's data as it was. */
  lemma ReattachQuiet(current: View, key: string, create: bool, done: seq<string>, child: View)
    requires Enter(current, key, create, done).Success?
    requires DataOf(child) == DataOf(Enter(current, key, create, done).value.2)
    ensures var step := Enter(current, key, create, done).value;
      DataOf(Reattach(step.0, step.1, child, false)) == DataOf(current)
  {
    var step := Enter(current, key, create, done).value;
    EnterShape(current, key, create, done);
    DescendShape(current, key, done);
    if current.ListView? {
      ListItemSameData(current.items, step.1.index, child);
    }
  }

  /** Replacing a list item by one with the same data keeps the list's data. */
  lemma ListItemSameData(items: seq<View>, j: nat, child: View)
    requires j < |items| && DataOf(child) == DataOf(items[j])
    ensures DataOf(ListView(items[j := child])) == DataOf(ListView(items))
  {
    assert DataOf(ListView(items[j := child])).items == DataOf(ListView(items)).items;
  }

  /** What `mlset` wrote is what the path then leads to. */
  lemma {:induction false} AssignThenLookup(current: View, keys: seq<string>, v: Value, done: seq<string>, done2: seq<string>)
    requires |keys| >= 1
    requires Edit(current, keys, Assign(v), done).Success?
    ensures var root := Edit(current, keys, Assign(v), done).value.0;
      var found := Find(root, keys, done2);
      found.Success? && Read(found.value.0, found.value.1).Success? &&
      DataOf(Read(found.value.0, found.value.1).value) == v &&
      (!v.Dict? ==> Shown(Read(found.value.0, found.value.1).value) == v)
    decreases |keys|
  {
    var root := Edit(current, keys, Assign(v), done).value.0;
    if |keys| == 1 {
      if current.ListView? {
        var i := ParseInt(keys[0]).value;
        var j := NormIndex(i, |current.items|).value;
        assert root.items == current.items[j := WrapPlain(v)];
        assert NormIndex(i, |root.items|) == Some(j);
        WrapPlainShows(v);
      } else {
        var item := Assoc.Get(root.work, keys[0]).value;
        if !v.Dict? {
          assert item == WrapPlain(v);
          WrapPlainShows(v);
        }
      }
    } else {
      if current.Plain? {
        EditPlainFails(current.value, keys, Assign(v), done);
      }
      var step := Enter(current, keys[0], true, done).value;
      EnterShape(current, keys[0], true, done);
      var sub := Edit(step.2, keys[1..], Assign(v), done + [keys[0]]).value;
      AssignThenLookup(step.2, keys[1..], v, done + [keys[0]], done2 + [keys[0]]);
      EnterReattach(current, keys[0], true, done, sub.0, true, done2);
    }
  }

  /** `mlsetdefault` on a path that already leads to a mapping entry
      returns what is there and leaves the data as it was. */
  lemma {:induction false} DefaultKeepsExisting(current: View, keys: seq<string>, v: Value, done: seq<string>)
    requires |keys| >= 1
    requires Find(current, keys, done).Success?
    requires var f := Find(current, keys, done).value; f.0.DictView? && Read(f.0, f.1).Success?
    ensures var r := Edit(current, keys, Default(v), done);
      var f := Find(current, keys, done).value;
      r.Success? && r.value.1 == Some(Read(f.0, f.1).value) && DataOf(r.value.0) == DataOf(current)
    decreases |keys|
  {
    var f := Find(current, keys, done).value;
    if |keys| == 1 {
      assert f.0 == current;
    } else {
      var step := Descend(current, keys[0], done).value;
      EnterShape(current, keys[0], true, done);
      DefaultKeepsExisting(step.1, keys[1..], v, done + [keys[0]]);
      QuietEditKeepsData(current, keys, Default(v), done);
    }
  }

  /** Deleting along a path that ends in a mapping leaves the path leading
      to that mapping without the last key. */
  lemma {:induction false} DeleteThenFind(current: View, keys: seq<string>, done: seq<string>, done2: seq<string>)
    requires |keys| >= 1
    requires Edit(current, keys, Delete, done).Success?
    requires Find(current, keys, done).Success? && Find(current, keys, done).value.0.DictView?
    ensures var root := Edit(current, keys, Delete, done).value.0;
      var f := Find(root, keys, done2);
      f.Success? && f.value.0.DictView? && f.value.1 == Name(keys[|keys| - 1]) &&
      !Assoc.HasKey(f.value.0.work, keys[|keys| - 1])
    decreases |keys|
  {
    if |keys| > 1 {
      if current.Plain? {
        EditPlainFails(current.value, keys, Delete, done);
      }
      FindUnfold(current, keys, done);
      EnterShape(current, keys[0], false, done);
      var step := Enter(current, keys[0], false, done).value;
      var sub := Edit(step.2, keys[1..], Delete, done + [keys[0]]).value;
      DeleteThenFind(step.2, keys[1..], done + [keys[0]], done2 + [keys[0]]);
      EnterReattach(current, keys[0], false, done, sub.0, true, done2);
      FindUnfold(Edit(current, keys, Delete, done).value.0, keys, done2);
    }
  }

  // ---------------------------------------------------------------------
  // Documents
  // ---------------------------------------------------------------------

  /** A document: its data as a view, and whether it changed since it was
      read. */
  datatype Doc = Doc(root: View, dirty: bool)

  /** `len(document)`, the number of entries of its root view. */
  function Size(w: View): nat {
    match w
    case DictView(_, _, work) => |work|
    case ListView(items) => |items|
    case Plain(v) => if v.Str? then |v.s| else 0
  }

  /** An operation along a key path, and the dirty flag after it: every
      change reported upwards marks the document as changed. */
  function Perform(d: Doc, keys: seq<string>, op: Op): (r: Result<(Doc, Option<View>), MLError>)
    requires |keys| >= 1
    ensures r.Failure? <==> Edit(d.root, keys, op, []).Failure?
    ensures r.Success? ==> (r.value.0.dirty <==> d.dirty || Notifies(op))
    ensures r.Success? ==> (r.value.1.Some? <==> op.Default?)
  {
    var e :- Edit(d.root, keys, op, []);
    Success((Doc(e.0, d.dirty || Notifies(op)), e.1))
  }

  /** The dirty flag as the root view sets it: it reports a change only
      when its parent, the document, is truthy, and a document is truthy
      when its root view is not empty after the change. */
  function PerformAsWritten(d: Doc, keys: seq<string>, op: Op): (r: Result<(Doc, Option<View>), MLError>)
    requires |keys| >= 1
    ensures r.Success? == Perform(d, keys, op).Success?
    ensures r.Success? ==> r.value.0.root == Perform(d, keys, op).value.0.root && r.value.1 == Perform(d, keys, op).value.1
    ensures r.Success? ==> (r.value.0.dirty <==> d.dirty || (Notifies(op) && Size(r.value.0.root) > 0))
    ensures r.Success? && Size(r.value.0.root) > 0 ==> r == Perform(d, keys, op)
  {
    var e :- Edit(d.root, keys, op, []);
    Success((Doc(e.0, d.dirty || (Notifies(op) && Size(e.0) > 0)), e.1))
  }

  /** Deleting the only key of a document changes its data but leaves it
      clean, so saving it writes nothing when the file already exists. */
  lemma DeleteLastKeyStaysClean()
    ensures var d := Doc(WrapPlain(Dict([("a", Int(1))])), false);
      var r := PerformAsWritten(d, ["a"], Delete);
      r.Success? && !r.value.0.dirty && DataOf(r.value.0.root) != DataOf(d.root)
  {
    var d := Doc(WrapPlain(Dict([("a", Int(1))])), false);
    assert Assoc.HasKey(d.root.work, "a");
    var e := Edit(d.root, ["a"], Delete, []).value;
    assert !Assoc.HasKey(e.0.work, "a");
    assert Size(e.0) == 0;
    assert DataOf(d.root) == Dict([("a", Int(1))]);
    assert !Assoc.HasKey(e.0.data, "a");
  }

  /** Any operation that changes a document's data marks it as changed. */
  lemma ChangedDataMarksDirty(d: Doc, keys: seq<string>, op: Op)
    requires |keys| >= 1
    ensures var r := Perform(d, keys, op);
      r.Success? && DataOf(r.value.0.root) != DataOf(d.root) ==> r.value.0.dirty
  {
    if !Notifies(op) {
      QuietEditKeepsData(d.root, keys, op, []);
    }
  }

  /** `mlset(path, v)` */
  function MLSet(d: Doc, path: string, v: Value): Result<Doc, MLError> {
    var r :- Perform(d, Split(path, '.'), Assign(v));
    Success(r.0)
  }

  /** `mlsetwork(path, v)` */
  function MLSetWork(d: Doc, path: string, v: Value): Result<Doc, MLError> {
    var r :- Perform(d, Split(path, '.'), AssignWork(v));
    Success(r.0)
  }

  /** `mlsetdefault(path, v)`: the document and what the path then shows. */
  function MLSetDefault(d: Doc, path: string, v: Value): Result<(Doc, Value), MLError> {
    var r :- Perform(d, Split(path, '.'), Default(v));
    assert r.1.Some?;
    Success((r.0, Shown(r.1.value)))
  }

  /** `mldel(path)`, with the dirty flag as the root view sets it: a
      document left empty is not marked changed. */
  function MLDel(d: Doc, path: string): Result<Doc, MLError> {
    var r :- PerformAsWritten(d, Split(path, '.'), Delete);
    Success(r.0)
  }

  /** After `mlset(path, v)` the document is marked changed and `mlget(path)`
      gives `v` back; a mapping comes back with any defaults stored for it,
      so only its data is `v`. */
  lemma MLSetThenGet(d: Doc, path: string, v: Value, default: Option<Value>)
    ensures var r := MLSet(d, path, v);
      r.Success? ==>
        r.value.dirty &&
        Lookup(r.value.root, Split(path, '.')).Success? &&
        DataOf(Lookup(r.value.root, Split(path, '.')).value) == v &&
        (!v.Dict? ==> MLGet(r.value.root, path, default) == Success(v))
  {
    var keys := Split(path, '.');
    if Edit(d.root, keys, Assign(v), []).Success? {
      AssignThenLookup(d.root, keys, v, [], []);
    }
  }

  /** `mlsetwork` and `mlsetdefault` neither change the data nor mark the
      document as changed. */
  lemma QuietOpsKeepData(d: Doc, path: string, v: Value)
    ensures var r := MLSetWork(d, path, v);
      r.Success? ==> DataOf(r.value.root) == DataOf(d.root) && r.value.dirty == d.dirty
    ensures var r := MLSetDefault(d, path, v);
      r.Success? ==> DataOf(r.value.0.root) == DataOf(d.root) && r.value.0.dirty == d.dirty
  {
    QuietEditKeepsData(d.root, Split(path, '.'), AssignWork(v), []);
    QuietEditKeepsData(d.root, Split(path, '.'), Default(v), []);
  }

  /** `mlsetdefault` on a path that already holds a mapping entry returns
      what `mlget` showed there. */
  lemma MLSetDefaultExisting(d: Doc, path: string, v: Value)
    requires Find(d.root, Split(path, '.'), []).Success?
    requires var f := Find(d.root, Split(path, '.'), []).value; f.0.DictView? && Read(f.0, f.1).Success?
    ensures var r := MLSetDefault(d, path, v);
      r.Success? && Success(r.value.1) == MLGet(d.root, path, None) &&
      DataOf(r.value.0.root) == DataOf(d.root) && r.value.0.dirty == d.dirty
  {
    DefaultKeepsExisting(d.root, Split(path, '.'), v, []);
  }

  /** After `mldel(path)` of a mapping entry, `mlget(path)` gives the default,
      or a `KeyError` naming the path; the document is marked changed
      exactly when it already was or is not left empty. */
  lemma MLDelThenGet(d: Doc, path: string, default: Option<Value>)
    requires Find(d.root, Split(path, '.'), []).Success?
    requires Find(d.root, Split(path, '.'), []).value.0.DictView?
    ensures var r := MLDel(d, path);
      r.Success? ==> ((r.value.dirty <==> d.dirty || Size(r.value.root) > 0) &&
        MLGet(r.value.root, path, default) == (if default.Some? then Success(default.value) else Failure(KeyMissing(path))))
  {
    var keys := Split(path, '.');
    if Edit(d.root, keys, Delete, []).Success? {
      DeleteThenFind(d.root, keys, [], []);
    }
  }

  // ---------------------------------------------------------------------
  // find_type and mlset_cast
  // ---------------------------------------------------------------------

  /** The forms a key path is given in: dotted text, a list of keys, or any
      other iterable of keys (a tuple, say). */
  datatype KeyPath = PathText(text: string) | PathList(items: seq<string>) | PathIterable(items: seq<string>)

  /** Errors of `find_type` and `mlset_cast` besides those of `find_ml`. */
  datatype CastError =
    | NoSchema                 // the document has no validator
    | Unassigned               // UnboundLocalError: the key list was never set
    | FromML(e: MLError)       // from find_ml or mlset
    | CastFailed(kind: string) // ValueError tagged with the schema type

  /** The keys of a path. */
  function KeysOf(keys: KeyPath): (r: seq<string>)
    ensures keys.PathText? ==> |r| >= 1
  {
    match keys
    case PathText(text) => Split(text, '.')
    case PathList(items) => items
    case PathIterable(items) => items
  }

  /** The key list as `find_type` builds it: text is split and other
      iterables are copied into a list, but a list is not assigned at all. */
  function TypeKeysAsWritten(keys: KeyPath): (r: Result<seq<string>, CastError>)
    ensures keys.PathList? <==> r.Failure?
  {
    if keys.PathList? then Failure(Unassigned) else Success(KeysOf(keys))
  }

  /** A list given to `find_type` cannot be looked up however the schema
      reads. */
  lemma FindTypeListFails(items: seq<string>)
    ensures TypeKeysAsWritten(PathList(items)) == Failure(Unassigned)
    ensures TypeKeysAsWritten(PathIterable(items)) == Success(items)
  {
  }

  /** `chain(*zip_longest((), keys, fillvalue='properties'))`: each key
      preceded by `properties`, as the keys of a JSON schema nest. */
  function SchemaKeys(keys: seq<string>): (r: seq<string>)
    ensures |r| == 2 * |keys|
    ensures forall i :: 0 <= i < |keys| ==> r[2 * i] == "properties" && r[2 * i + 1] == keys[i]
  {
    if |keys| == 0 then []
    else
      var rest := SchemaKeys(keys[1..]);
      var r := ["properties", keys[0]] + rest;
      assert forall i :: 0 <= i < |keys| ==> r[2 * i] == "properties" && r[2 * i + 1] == keys[i] by {
        forall i | 0 <= i < |keys|
          ensures r[2 * i] == "properties" && r[2 * i + 1] == keys[i]
        {
          if i > 0 {
            var j := i - 1;
            assert 2 * i == 2 * j + 2;
            assert r[2 * i] == rest[2 * j];
            assert r[2 * i + 1] == rest[2 * j + 1];
            assert keys[i] == keys[1..][j];
          }
        }
      }
      r
  }

  /** The `type` of the schema entry a key path names, if any. A `KeyError`
      on the way means there is none. */
  function TypeAt(schema: Value, keys: seq<string>): (r: Result<Option<Value>, MLError>)
    ensures |keys| == 0 ==> r == Failure(IndexOutOfRange(-1))
  {
    if |keys| == 0 then Failure(IndexOutOfRange(-1))
    else
      var found := Find(WrapPlain(schema), SchemaKeys(keys), []);
      if found.Failure? then
        if found.error.KeyMissing? then Success(None) else Failure(found.error)
      else
        var (container, key) := found.value;
        if container.DictView? && key.Name? && Assoc.HasKey(container.work, key.name) then
          var entry := Assoc.Get(container.work, key.name).value;
          if entry.DictView? && Assoc.HasKey(entry.work, "type") then
            Success(Some(Shown(Assoc.Get(entry.work, "type").value)))
          else Success(None)
        else Success(None)
  }

  /** `find_type(keys)` with the list case corrected: every form of path is
      looked up by its keys. */
  function FindType(schema: Option<Value>, keys: KeyPath): (r: Result<Option<Value>, CastError>)
    ensures schema.None? ==> r == Failure(NoSchema)
  {
    if schema.None? then Failure(NoSchema)
    else
      var t := TypeAt(schema.value, KeysOf(keys));
      if t.Failure? then Failure(FromML(t.error)) else Success(t.value)
  }

  /** `find_type(keys)` as written: the key list is built before the
      schema is read. */
  function FindTypeAsWritten(schema: Option<Value>, keys: KeyPath): (r: Result<Option<Value>, CastError>)
    ensures !keys.PathList? ==> r == FindType(schema, keys)
    ensures keys.PathList? ==> r == Failure(Unassigned)
  {
    var ks :- TypeKeysAsWritten(keys);
    if schema.None? then Failure(NoSchema)
    else
      var t := TypeAt(schema.value, ks);
      if t.Failure? then Failure(FromML(t.error)) else Success(t.value)
  }

  /** Corrected, a list of keys names the same schema entry as the dotted
      text it joins to. */
  lemma FindTypeListAsText(schema: Option<Value>, items: seq<string>)
    requires |items| >= 1 && forall i :: 0 <= i < |items| ==> '.' !in items[i]
    ensures FindType(schema, PathList(items)) == FindType(schema, PathText(JoinWith(items, ".")))
    ensures FindType(schema, PathList(items)) == FindType(schema, PathIterable(items))
  {
    assert KeysOf(PathText(JoinWith(items, "."))) == items by {
      SplitJoin(items, '.');
    }
    FindTypeSameKeys(schema, PathList(items), PathText(JoinWith(items, ".")));
    FindTypeSameKeys(schema, PathList(items), PathIterable(items));
  }

  /** `find_type` depends on the keys only. */
  lemma FindTypeSameKeys(schema: Option<Value>, a: KeyPath, b: KeyPath)
    requires KeysOf(a) == KeysOf(b)
    ensures FindType(schema, a) == FindType(schema, b)
  {
  }

  /** The type of `{'properties': {'a': {'type': 'integer'}}}` at `a`. */
  lemma TypeAtExample()
    ensures TypeAt(Dict([("properties", Dict([("a", Dict([("type", Str("integer"))]))]))]), ["a"]) == Success(Some(Str("integer")))
  {
    var entry := Dict([("type", Str("integer"))]);
    var props := Dict([("a", entry)]);
    var schema := Dict([("properties", props)]);
    var root := WrapPlain(schema);
    assert SchemaKeys(["a"]) == ["properties", "a"];
    assert Assoc.Get(root.work, "properties") == Some(WrapPlain(props));
    assert ["properties", "a"][1..] == ["a"];
    var c := WrapPlain(props);
    assert Assoc.Get(c.work, "a") == Some(WrapPlain(entry));
    assert Assoc.Get(WrapPlain(entry).work, "type") == Some(Plain(Str("integer")));
  }

  /** `int(value)` for the values a document holds. */
  function IntOf(v: Value): (r: Result<int, CastError>)
    ensures v.Int? ==> r == Success(v.i)
    ensures v.Str? ==> (r.Success? <==> ParseInt(v.s).Some?)
  {
    match v
    case Int(i) => Success(i)
    case Bool(b) => Success(if b then 1 else 0)
    case Str(s) =>
      (match ParseInt(s)
       case Some(i) => Success(i)
       case None => Failure(CastFailed("integer")))
    case _ => Failure(FromML(Unsupported))
  }

  /** The conversion `mlset_cast` applies for a schema type: a type that is
      not truthy converts nothing. */
  function Cast(kind: Option<Value>, v: Value): (r: Result<Value, CastError>)
    ensures kind.None? || !Truthy(kind.value) ==> r == Success(v)
    ensures kind == Some(Str("boolean")) && r.Success? ==> r.value.Bool?
    ensures kind == Some(Str("integer")) && r.Success? ==> r.value.Int?
    ensures kind == Some(Str("string")) ==> (r.Success? <==> v.Str?) && (r.Success? ==> r.value == v)
    ensures kind.Some? && kind.value !in {Str("boolean"), Str("integer"), Str("string")} ==> r == Success(v)
  {
    if kind.None? || !Truthy(kind.value) then Success(v)
    else if kind.value == Str("boolean") then
      var b := Booleans.ConvertToBoolean(v);
      if b.Success? then Success(Bool(b.value))
      else if b.error.InvalidLiteral? then Failure(CastFailed("boolean"))
      else Failure(FromML(Unsupported))
    else if kind.value == Str("integer") then
      var i :- IntOf(v);
      Success(Int(i))
    else if kind.value == Str("string") && !v.Str? then Failure(CastFailed("string"))
    else Success(v)
  }

  /** The text of an integer is stored as the integer it spells. */
  lemma CastReadsInt(n: int)
    ensures Cast(Some(Str("integer")), Str(IntToString(n))) == Success(Int(n))
  {
    ParseIntRoundTrip(n);
  }

  /** A boolean literal is stored as the boolean it spells. */
  lemma CastReadsBoolean(v: Value)
    ensures v in Booleans.TrueLiterals ==> Cast(Some(Str("boolean")), v) == Success(Bool(true))
    ensures v in Booleans.FalseLiterals ==> Cast(Some(Str("boolean")), v) == Success(Bool(false))
  {
    var b := Booleans.ConvertToBoolean(v);
    if v in Booleans.TrueLiterals {
      assert b == Success(true);
    } else if v in Booleans.FalseLiterals {
      assert b == Success(false);
    }
  }

  /** `mlset_cast(keys, value)`: the value converted for the schema type at
      the path, then set. The type is looked up by `find_type` as written,
      so a list of keys fails before anything is set. */
  function MLSetCast(d: Doc, schema: Option<Value>, keys: KeyPath, v: Value): (r: Result<Doc, CastError>)
    ensures r.Success? ==> FindType(schema, keys).Success? && Cast(FindType(schema, keys).value, v).Success?
    ensures keys.PathList? ==> r == Failure(Unassigned)
  {
    var kind :- FindTypeAsWritten(schema, keys);
    var value :- Cast(kind, v);
    var ks := KeysOf(keys);
    if |ks| == 0 then Failure(FromML(IndexOutOfRange(-1)))
    else
      var e := Perform(d, ks, Assign(value));
      if e.Failure? then Failure(FromML(e.error)) else Success(e.value.0)
  }

  /** What `mlset_cast` stores under a dotted path is the converted value. */
  lemma MLSetCastStores(d: Doc, schema: Option<Value>, path: string, v: Value)
    ensures var r := MLSetCast(d, schema, PathText(path), v);
      r.Success? ==>
        var kind := FindType(schema, PathText(path)).value;
        MLSet(d, path, Cast(kind, v).value) == Success(r.value) &&
        Lookup(r.value.root, Split(path, '.')).Success? &&
        DataOf(Lookup(r.value.root, Split(path, '.')).value) == Cast(kind, v).value
  {
    var r := MLSetCast(d, schema, PathText(path), v);
    if r.Success? {
      var kind := FindType(schema, PathText(path)).value;
      MLSetThenGet(d, path, Cast(kind, v).value, None);
    }
  }

  // ---------------------------------------------------------------------
  // Versioned files
  // ---------------------------------------------------------------------

  /** The documents of one file, by position: each document's parsed
      version when the document class has a version key, or only their
      number when it has none. */
  datatype Versioned = Keyed(versions: seq<Version>) | Unkeyed(count: nat)

  function Count(f: Versioned): nat {
    match f
    case Keyed(vs) => |vs|
    case Unkeyed(n) => n
  }

  /** `i` is the position of the last document with version `v`. */
  predicate LastAt(vs: seq<Version>, v: Version, i: nat) {
    i < |vs| && vs[i] == v && forall j :: i < j < |vs| ==> vs[j] != v
  }

  /** `{ver: idx for idx, ver in enumerate(versions)}`: every version, once,
      with the position of its last document (a later document with the
      same version replaces the position). */
  function VersionIndex(vs: seq<Version>): (m: seq<(Version, nat)>)
    ensures Assoc.UniqueKeys(m)
    ensures forall v :: v in vs ==> Assoc.HasKey(m, v)
    ensures forall i :: 0 <= i < |m| ==> LastAt(vs, m[i].0, m[i].1)
  {
    if |vs| == 0 then []
    else
      var prefix := vs[..|vs| - 1];
      var k := vs[|vs| - 1];
      var m0 := VersionIndex(prefix);
      var last: nat := |vs| - 1;
      Assoc.PutUnique(m0, k, last);
      var m := Assoc.Put<Version, nat>(m0, k, last);
      forall v | v in vs
        ensures Assoc.HasKey(m, v)
      {
        if v != k {
          assert v in prefix;
          assert Assoc.Get(m, v) == Assoc.Get(m0, v);
        }
      }
      assert forall i :: 0 <= i < |m| ==> LastAt(vs, m[i].0, m[i].1) by {
        forall i | 0 <= i < |m|
          ensures LastAt(vs, m[i].0, m[i].1)
        {
          if m[i].0 != k {
            assert i < |m0| && m[i] == m0[i];
          }
        }
      }
      m
  }

  /** `_additem(data, version)`: the new document's position, recorded as
      the one for its version. */
  lemma AddItemIndexed(vs: seq<Version>, v: Version)
    ensures Assoc.Get(VersionIndex(vs + [v]), v) == Some(|vs|)
    ensures forall w :: w != v ==> Assoc.Get(VersionIndex(vs + [v]), w) == Assoc.Get(VersionIndex(vs), w)
  {
    assert (vs + [v])[..|vs|] == vs;
    var m0 := VersionIndex(vs);
    var last: nat := |vs|;
    assert VersionIndex(vs + [v]) == Assoc.Put<Version, nat>(m0, v, last);
  }

  datatype LatestError =
    | NegativeIndex            // IndexError: negative indexes are not accepted
    | PastEnd(index: nat)      // IndexError from the list of documents
    | NoVersion                // KeyError: no version is at most the limit
    | BadLimit(e: VersionError)

  /** `_getitem(index)`: only positions of stored documents. */
  function GetItem(f: Versioned, index: int): (r: Result<nat, LatestError>)
    ensures r.Success? <==> 0 <= index < Count(f)
    ensures r.Success? ==> r.value == index
  {
    if index < 0 then Failure(NegativeIndex)
    else if index >= Count(f) then Failure(PastEnd(index))
    else Success(index)
  }

  /** A version that passes the limit, when there is one. */
  predicate Allowed(v: Version, limit: Option<Version>) {
    limit.None? || VersionLe(v, limit.value)
  }

  /** `max` of the index entries whose version passes the limit. */
  function Best(m: seq<(Version, nat)>, limit: Option<Version>): (r: Option<(Version, nat)>)
    ensures r.Some? ==> r.value in m && Allowed(r.value.0, limit)
    ensures r.Some? ==> forall i :: 0 <= i < |m| && Allowed(m[i].0, limit) ==> VersionLe(m[i].0, r.value.0)
    ensures r.None? ==> forall i :: 0 <= i < |m| ==> !Allowed(m[i].0, limit)
  {
    if |m| == 0 then None
    else
      var rest := Best(m[1..], limit);
      assert forall i :: 1 <= i < |m| ==> m[i] == m[1..][i - 1];
      if !Allowed(m[0].0, limit) then rest
      else if rest.Some? && VersionLe(m[0].0, rest.value.0) then rest
      else Some(m[0])
  }

  /** `get_latest(max_version)`: the position of the document with the
      greatest version not above the limit (the last such document in the
      file), or of the last document when there is no version key. */
  function GetLatest(f: Versioned, maxVersion: Option<VersionInput>): (r: Result<nat, LatestError>)
  {
    match f
    case Unkeyed(n) => GetItem(f, n - 1)
    case Keyed(vs) =>
      var limit :- if maxVersion.None? then Success(None)
        else
          var p := ParseVersion(maxVersion.value);
          if p.Failure? then Failure(BadLimit(p.error)) else Success(Some(p.value));
      match Best(VersionIndex(vs), limit)
      case None => Failure(NoVersion)
      case Some((_, index)) => GetItem(f, index)
  }

  /** Among the documents whose version passes the limit, `get_latest`
      picks one with the greatest version, and of those the last; it fails
      with `KeyError` exactly when no document passes. */
  lemma GetLatestGreatest(vs: seq<Version>, limit: Version)
    ensures var r := GetLatest(Keyed(vs), Some(AsVersion(limit)));
      (r.Success? ==> (r.value < |vs| && VersionLe(vs[r.value], limit) && LastAt(vs, vs[r.value], r.value) &&
        forall j :: 0 <= j < |vs| && VersionLe(vs[j], limit) ==> VersionLe(vs[j], vs[r.value]))) &&
      (r.Failure? <==> forall j :: 0 <= j < |vs| ==> !VersionLe(vs[j], limit)) &&
      (r.Failure? ==> r.error == NoVersion)
  {
    var m := VersionIndex(vs);
    var b := Best(m, Some(limit));
    forall j | 0 <= j < |vs| && VersionLe(vs[j], limit)
      ensures b.Some? && VersionLe(vs[j], b.value.0)
    {
      var p := Assoc.IndexOfKey(m, vs[j]).value;
      assert m[p].0 == vs[j];
    }
    if b.Some? {
      var p :| 0 <= p < |m| && m[p] == b.value;
      assert LastAt(vs, m[p].0, m[p].1);
    }
  }

  /** Without a version key `get_latest` is the last document, and an empty
      file has none. */
  lemma GetLatestUnkeyed(n: nat, maxVersion: Option<VersionInput>)
    ensures GetLatest(Unkeyed(n), maxVersion) == if n == 0 then Failure(NegativeIndex) else Success(n - 1)
  {
  }

  /** The order `__iter__` yields documents in: by version, and by position
      among equal versions. */
  predicate Precedes(vs: seq<Version>, i: nat, j: nat)
    requires i < |vs| && j < |vs|
  {
    (vs[i] != vs[j] && VersionLe(vs[i], vs[j])) || (vs[i] == vs[j] && i < j)
  }

  /** Of two different positions, one precedes the other. */
  lemma PrecedesTotal(vs: seq<Version>, i: nat, j: nat)
    requires i < |vs| && j < |vs| && i != j
    ensures Precedes(vs, i, j) || Precedes(vs, j, i)
  {
  }

  lemma PrecedesTrans(vs: seq<Version>, i: nat, j: nat, k: nat)
    requires i < |vs| && j < |vs| && k < |vs|
    requires Precedes(vs, i, j) && Precedes(vs, j, k)
    ensures Precedes(vs, i, k)
  {
  }

  predicate InRange(vs: seq<Version>, s: seq<nat>) {
    forall a :: 0 <= a < |s| ==> s[a] < |vs|
  }

  predicate SortedBy(vs: seq<Version>, s: seq<nat>)
    requires InRange(vs, s)
  {
    forall a, b :: 0 <= a < b < |s| ==> Precedes(vs, s[a], s[b])
  }

  /** Insertion of position `i` before the first position it precedes. */
  function InsertOrdered(vs: seq<Version>, s: seq<nat>, i: nat): (r: seq<nat>)
    requires i < |vs|
  {
    if |s| == 0 then [i]
    else if s[0] < |vs| && Precedes(vs, i, s[0]) then [i] + s
    else [s[0]] + InsertOrdered(vs, s[1..], i)
  }

  lemma {:induction false} InsertOrderedSorted(vs: seq<Version>, s: seq<nat>, i: nat)
    requires i < |vs| && InRange(vs, s) && SortedBy(vs, s) && i !in s
    ensures var r := InsertOrdered(vs, s, i);
      multiset(r) == multiset(s) + multiset{i} && InRange(vs, r) && SortedBy(vs, r)
  {
    if |s| == 0 {
    } else if Precedes(vs, i, s[0]) {
      forall b | 0 <= b < |s|
        ensures Precedes(vs, i, s[b])
      {
        if b > 0 {
          PrecedesTrans(vs, i, s[0], s[b]);
        }
      }
      ConsSorted(vs, i, s);
      assert InsertOrdered(vs, s, i) == [i] + s;
    } else {
      var rest := InsertOrdered(vs, s[1..], i);
      InsertOrderedSorted(vs, s[1..], i);
      PrecedesTotal(vs, i, s[0]);
      assert s == [s[0]] + s[1..];
      forall b | 0 <= b < |rest|
        ensures Precedes(vs, s[0], rest[b])
      {
        assert rest[b] in multiset(rest);
        assert rest[b] == i || rest[b] in s[1..];
      }
      ConsSorted(vs, s[0], rest);
      assert InsertOrdered(vs, s, i) == [s[0]] + rest;
    }
  }

  /** A position that precedes every position of a sorted sequence can go
      in front of it. */
  lemma ConsSorted(vs: seq<Version>, x: nat, rest: seq<nat>)
    requires x < |vs| && InRange(vs, rest) && SortedBy(vs, rest)
    requires forall b :: 0 <= b < |rest| ==> Precedes(vs, x, rest[b])
    ensures InRange(vs, [x] + rest) && SortedBy(vs, [x] + rest)
  {
    var r := [x] + rest;
    forall a, b | 0 <= a < b < |r|
      ensures Precedes(vs, r[a], r[b])
    {
      if a > 0 {
        assert r[a] == rest[a - 1] && r[b] == rest[b - 1];
      } else {
        assert r[b] == rest[b - 1];
      }
    }
  }

  /** `range(n)` */
  function Positions(n: nat): (r: seq<nat>)
    ensures |r| == n && forall a :: 0 <= a < n ==> r[a] == a
  {
    if n == 0 then [] else Positions(n - 1) + [n - 1]
  }

  /** The first `n` positions in iteration order. */
  function Ordered(vs: seq<Version>, n: nat): seq<nat>
    requires n <= |vs|
  {
    if n == 0 then [] else InsertOrdered(vs, Ordered(vs, n - 1), n - 1)
  }

  /** `r` lists the positions `range(n)` of `vs`, each once, in version
      order. */
  predicate Arranges(vs: seq<Version>, r: seq<nat>, n: nat) {
    multiset(r) == multiset(Positions(n)) && InRange(vs, r) && SortedBy(vs, r)
  }

  lemma {:induction false} OrderedSorted(vs: seq<Version>, n: nat)
    requires n <= |vs|
    ensures Arranges(vs, Ordered(vs, n), n)
  {
    if n > 0 {
      OrderedSorted(vs, n - 1);
      OrderedStep(vs, n);
    }
  }

  /** Inserting position `n - 1` into a sorted arrangement of `range(n - 1)`
      gives a sorted arrangement of `range(n)`. */
  lemma OrderedStep(vs: seq<Version>, n: nat)
    requires 0 < n <= |vs| && Arranges(vs, Ordered(vs, n - 1), n - 1)
    ensures Arranges(vs, Ordered(vs, n), n)
  {
    var s, m := Ordered(vs, n - 1), n - 1;
    assert Arranges(vs, InsertOrdered(vs, s, m), n) by {
      PositionsStep(m);
      InsertOrderedSorted(vs, s, m);
    }
  }

  /** `range(m + 1)` grows by `m`, which `range(m)` lacks. */
  lemma PositionsStep(m: nat)
    ensures multiset(Positions(m + 1)) == multiset(Positions(m)) + multiset{m}
    ensures m !in multiset(Positions(m))
  {
    assert Positions(m + 1) == Positions(m) + [m];
  }

  /** `__iter__`: the positions of a file's documents in the order it yields
      them. */
  function IterOrder(f: Versioned): seq<nat> {
    match f
    case Keyed(vs) => Ordered(vs, |vs|)
    case Unkeyed(n) => Positions(n)
  }

  /** Iteration yields every document once, ordered by version and then by
      position; without a version key, in file order. */
  lemma IterOrderSorted(f: Versioned)
    ensures multiset(IterOrder(f)) == multiset(Positions(Count(f)))
    ensures f.Keyed? ==> InRange(f.versions, IterOrder(f)) && SortedBy(f.versions, IterOrder(f))
    ensures f.Unkeyed? ==> IterOrder(f) == Positions(f.count)
  {
    if f.Keyed? {
      OrderedSorted(f.versions, |f.versions|);
    }
  }
}

=== FILE: env_dict.dfy ===
/** `EnvDict`: named layers of environment entries, each layer a list of
    `"KEY=value"` strings and mappings, edited one layer at a time and
    combined, in layer order, into one expanded environment. */
module EnvDict {
  import opened Wrappers
  import opened Text
  import opened Values
  import opened EnvSubst
  import Booleans
  import Assoc

  /** One entry of a layer: `"KEY=value"` text, or a mapping that is either
      `{KEY: value, ...}` or a `{name: ..., value: ...}` /
      `{name: ..., unset: ...}` directive. */
  datatype Entry = Assign(text: string) | Mapping(fields: seq<(string, Value)>)

  /** The layers by name, in the order they were added. */
  type Layers = seq<(string, seq<Entry>)>

  datatype LayerError =
    | UnknownLayer(name: string)   // KeyError: no layer of that name
    | NoSuchIndex(index: nat)      // IndexError: deleting past the end

  // ---------------------------------------------------------------------
  // Looking entries up
  // ---------------------------------------------------------------------

  /** `find_in_env`'s test: a mapping that has `key` or names it, or text
      whose part before the first `=` is `key`. */
  predicate Matches(item: Entry, key: string) {
    match item
    case Mapping(f) => Assoc.HasKey(f, key) || Assoc.Get(f, "name") == Some(Str(key))
    case Assign(text) => Split(text, '=')[0] == key
  }

  /** Python's `key in item`: a key of a mapping, a substring of text. */
  predicate Mentions(item: Entry, word: string) {
    match item
    case Mapping(f) => Assoc.HasKey(f, word)
    case Assign(text) => Contains(text, word)
  }

  /** Position of the first entry matching `key`. */
  function FirstMatch(entries: seq<Entry>, key: string): (r: Option<nat>)
    ensures r.Some? ==> r.value < |entries| && Matches(entries[r.value], key)
    ensures r.Some? ==> forall j :: 0 <= j < r.value ==> !Matches(entries[j], key)
    ensures r.None? <==> forall j :: 0 <= j < |entries| ==> !Matches(entries[j], key)
  {
    if |entries| == 0 then None
    else if Matches(entries[0], key) then Some(0)
    else
      match FirstMatch(entries[1..], key)
      case None =>
        assert forall j :: 1 <= j < |entries| ==> entries[j] == entries[1..][j - 1];
        None
      case Some(i) => Some(i + 1)
  }

  /** The entries matching `key`, in order. */
  function MatchingEntries(entries: seq<Entry>, key: string): (r: seq<Entry>)
    ensures |r| <= |entries|
    ensures forall e :: e in r <==> e in entries && Matches(e, key)
    ensures |r| == 0 <==> FirstMatch(entries, key).None?
    ensures |r| > 0 ==> r[0] == entries[FirstMatch(entries, key).value]
  {
    if |entries| == 0 then []
    else
      var rest := MatchingEntries(entries[1..], key);
      assert entries == [entries[0]] + entries[1..];
      if Matches(entries[0], key) then [entries[0]] + rest else rest
  }

  /** The entries that do not mention `word`, in order. */
  function Unmentioning(entries: seq<Entry>, word: string): (r: seq<Entry>)
    ensures |r| <= |entries|
    ensures forall e :: e in r <==> e in entries && !Mentions(e, word)
  {
    if |entries| == 0 then []
    else
      var rest := Unmentioning(entries[1..], word);
      assert entries == [entries[0]] + entries[1..];
      if Mentions(entries[0], word) then rest else [entries[0]] + rest
  }

  /** The entries not equal to any of `gone`, in order. */
  function Without(entries: seq<Entry>, gone: seq<Entry>): (r: seq<Entry>)
    ensures |r| <= |entries|
    ensures forall e :: e in r <==> e in entries && e !in gone
  {
    if |entries| == 0 then []
    else
      var rest := Without(entries[1..], gone);
      assert entries == [entries[0]] + entries[1..];
      if entries[0] in gone then rest else [entries[0]] + rest
  }

  /** `list.index(x)`: the first position holding `x`. */
  function Position(entries: seq<Entry>, x: Entry): (r: nat)
    requires x in entries
    ensures r < |entries| && entries[r] == x && x !in entries[..r]
  {
    if entries[0] == x then 0
    else
      var k := Position(entries[1..], x);
      assert entries[..k + 1] == [entries[0]] + entries[1..][..k];
      k + 1
  }

  /** The first match found by `find_in_env` sits where `FirstMatch`
      says: an entry equal to it matches too. */
  lemma PositionOfFirstMatch(entries: seq<Entry>, key: string)
    requires FirstMatch(entries, key).Some?
    ensures Position(entries, MatchingEntries(entries, key)[0]) == FirstMatch(entries, key).value
  {
    var i := FirstMatch(entries, key).value;
    var p := Position(entries, entries[i]);
    forall j | 0 <= j < i
      ensures entries[j] != entries[i]
    {
    }
    forall j | 0 <= j < p
      ensures entries[j] != entries[i]
    {
      assert entries[..p][j] == entries[j];
    }
  }

  /** Everything after the first match still matches `key` somewhere
      exactly when `find_in_env` found more than one entry. */
  lemma {:induction false} MoreMatches(entries: seq<Entry>, key: string, i: nat)
    requires FirstMatch(entries, key) == Some(i)
    ensures |MatchingEntries(entries, key)| > 1 <==> FirstMatch(entries[i + 1..], key).Some?
    decreases |entries|
  {
    if i == 0 {
      MoreAfterHead(entries, key);
      assert entries[1..] == entries[i + 1..];
    } else {
      SkipHead(entries, key);
      assert FirstMatch(entries[1..], key) == Some(i - 1);
      MoreMatches(entries[1..], key, i - 1);
      assert entries[1..][i..] == entries[i + 1..];
    }
  }

  /** A matching head is one match; the rest are in the tail. */
  lemma MoreAfterHead(entries: seq<Entry>, key: string)
    requires |entries| > 0 && Matches(entries[0], key)
    ensures |MatchingEntries(entries, key)| > 1 <==> FirstMatch(entries[1..], key).Some?
  {
  }

  /** A head that does not match adds no match. */
  lemma SkipHead(entries: seq<Entry>, key: string)
    requires |entries| > 0 && !Matches(entries[0], key)
    ensures MatchingEntries(entries, key) == MatchingEntries(entries[1..], key)
  {
  }

  // ---------------------------------------------------------------------
  // Editing one layer
  // ---------------------------------------------------------------------

  /** `set_in_env` on one layer: `"key=val"` replaces the first matching
      entry or is appended; when there were several matches, every later
      entry that mentions `key` (a substring test on text) is dropped. */
  function SetInLayer(entries: seq<Entry>, key: string, val: string): (r: seq<Entry>)
    ensures FirstMatch(entries, key).None? ==> r == entries + [Assign(key + "=" + val)]
    ensures FirstMatch(entries, key).Some? ==>
      var i := FirstMatch(entries, key).value;
      i < |r| && r[..i] == entries[..i] && r[i] == Assign(key + "=" + val)
      && r[i + 1..] == (if FirstMatch(entries[i + 1..], key).Some? then Unmentioning(entries[i + 1..], key)
                        else entries[i + 1..])
    ensures |r| <= |entries| + 1
  {
    var item := Assign(key + "=" + val);
    var matches := MatchingEntries(entries, key);
    if |matches| == 0 then entries + [item]
    else
      var first := Position(entries, matches[0]);
      PositionOfFirstMatch(entries, key);
      MoreMatches(entries, key, first);
      ReplaceMatch(entries, key, first, item, |matches| > 1)
  }

  /** Entry `i` replaced by `item`; with `more`, the later entries that
      mention `key` dropped. */
  function ReplaceMatch(entries: seq<Entry>, key: string, i: nat, item: Entry, more: bool): (r: seq<Entry>)
    requires i < |entries|
    ensures i < |r| <= |entries| && r[..i] == entries[..i] && r[i] == item
    ensures r[i + 1..] == if more then Unmentioning(entries[i + 1..], key) else entries[i + 1..]
  {
    var env := entries[i := item];
    assert env[..i] == entries[..i];
    assert env[i + 1..] == entries[i + 1..];
    if more then
      var r := env[..i + 1] + Unmentioning(env[i + 1..], key);
      assert r[..i] == entries[..i];
      assert r[i + 1..] == Unmentioning(entries[i + 1..], key);
      r
    else env
  }

  /** `"key=value"` text matches `key` when the key has no `=`. */
  lemma AssignMatches(key: string, val: string)
    requires '=' !in key
    ensures Matches(Assign(key + "=" + val), key)
  {
    var s := key + "=" + val;
    var i := CharIndex(s, '=').value;
    assert s[|key|] == '=';
    forall j | 0 <= j < |key|
      ensures s[j] != '='
    {
      assert s[j] == key[j];
    }
    forall j | 0 <= j < i
      ensures s[j] != '='
    {
      assert s[..i][j] == s[j];
    }
    assert i == |key|;
    assert s[..i] == key;
  }

  /** A matching entry with no match before it is the first match. */
  lemma {:induction false} FirstMatchAt(entries: seq<Entry>, key: string, i: nat)
    requires i < |entries| && Matches(entries[i], key)
    requires forall j :: 0 <= j < i ==> !Matches(entries[j], key)
    ensures FirstMatch(entries, key) == Some(i)
    decreases i
  {
    if i > 0 {
      assert !Matches(entries[0], key);
      var tail := entries[1..];
      forall j | 0 <= j < i - 1
        ensures !Matches(tail[j], key)
      {
        assert tail[j] == entries[j + 1];
      }
      FirstMatchAt(tail, key, i - 1);
    }
  }

  /** After `set_in_env`, the first entry matching the key is the new
      assignment. */
  lemma SetThenFind(entries: seq<Entry>, key: string, val: string)
    requires '=' !in key
    ensures var r := SetInLayer(entries, key, val);
      var i := FirstMatch(entries, key).GetOr(|entries|);
      FirstMatch(r, key) == Some(i) && r[i] == Assign(key + "=" + val)
  {
    var r := SetInLayer(entries, key, val);
    var i := FirstMatch(entries, key).GetOr(|entries|);
    AssignMatches(key, val);
    assert i < |r| && r[i] == Assign(key + "=" + val);
    forall j | 0 <= j < i
      ensures !Matches(r[j], key)
    {
      assert r[..i][j] == r[j];
      assert entries[..i][j] == entries[j];
      assert r[..i] == entries[..i];
    }
    FirstMatchAt(r, key, i);
  }

  /** When the key matched more than once, what follows the new
      assignment is exactly the later entries that do not mention the key. */
  lemma SetDropsByMention(entries: seq<Entry>, key: string, val: string, i: nat)
    requires FirstMatch(entries, key) == Some(i)
    requires FirstMatch(entries[i + 1..], key).Some?
    ensures forall e :: e in SetInLayer(entries, key, val)[i + 1..] <==>
      e in entries[i + 1..] && !Mentions(e, key)
  {
    var r := SetInLayer(entries, key, val);
    assert r[i + 1..] == Unmentioning(entries[i + 1..], key);
  }

  /** Mentioning and matching differ both ways: `BA=3` mentions `A` but is
      not an `A` entry, so `set_in_env` drops it; `{name: A}` is an `A`
      entry but does not mention `A`, so it stays. */
  lemma MentionIsNotMatch()
    ensures Mentions(Assign("BA=3"), "A") && !Matches(Assign("BA=3"), "A")
    ensures var d := Mapping([("name", Str("A")), ("value", Str("2"))]);
      Matches(d, "A") && !Mentions(d, "A")
  {
    AssignMentionsNotMatches();
    MappingMatchesNotMentions();
  }

  lemma AssignMentionsNotMatches()
    ensures Mentions(Assign("BA=3"), "A") && !Matches(Assign("BA=3"), "A")
  {
    ContainsWitness("BA=3", "A", 1);
    assert Split("BA=3", '=')[0] == "BA" by {
      assert CharIndex("BA=3", '=') == Some(2);
    }
  }

  lemma MappingMatchesNotMentions()
    ensures var d := Mapping([("name", Str("A")), ("value", Str("2"))]);
      Matches(d, "A") && !Mentions(d, "A")
  {
  }

  /** `delete_from_env` on one layer: an all-digit key deletes by position
      (and reports nothing); otherwise the matching entries are removed,
      those mentioning `unset` only when `deleteUnset` is set, and the
      result says whether anything was removed. */
  function DeleteFromLayer(entries: seq<Entry>, key: string, deleteUnset: bool): (r: Result<(seq<Entry>, Option<bool>), LayerError>)
    ensures IsDigits(key) ==> (r.Success? <==> DigitsValue(key) < |entries|)
    ensures IsDigits(key) && r.Success? ==>
      var i := DigitsValue(key);
      r.value == (entries[..i] + entries[i + 1..], None)
    ensures IsDigits(key) && r.Failure? ==> r.error == NoSuchIndex(DigitsValue(key))
    ensures !IsDigits(key) ==> r.Success? && r.value.1.Some?
    ensures !IsDigits(key) ==>
      (r.value.1 == Some(true) <==>
        exists e :: e in entries && Matches(e, key) && (deleteUnset || !Mentions(e, "unset")))
    ensures !IsDigits(key) && r.value.1 == Some(false) ==> r.value.0 == entries
    ensures !IsDigits(key) ==> forall e :: e in r.value.0 ==> e in entries
    ensures !IsDigits(key) ==> forall e :: e in entries && !Matches(e, key) ==> e in r.value.0
    ensures !IsDigits(key) ==> forall e :: e in r.value.0 && Matches(e, key) ==>
      !deleteUnset && Mentions(e, "unset")
  {
    if IsDigits(key) then
      var i := DigitsValue(key);
      if i < |entries| then Success((entries[..i] + entries[i + 1..], None))
      else Failure(NoSuchIndex(i))
    else
      var found := MatchingEntries(entries, key);
      var doomed := if deleteUnset then found else Unmentioning(found, "unset");
      if |doomed| == 0 then
        assert forall e :: e in entries && Matches(e, key) && (deleteUnset || !Mentions(e, "unset")) ==> e in doomed;
        Success((entries, Some(false)))
      else
        assert doomed[0] in entries && Matches(doomed[0], key) && (deleteUnset || !Mentions(doomed[0], "unset"));
        Success((Without(entries, doomed), Some(true)))
  }

  // ---------------------------------------------------------------------
  // The layers
  // ---------------------------------------------------------------------

  /** `add_env`: the layer `name` is (re)set to the entries, an absent
      environment giving an empty layer. */
  function AddEnv(layers: Layers, environment: Option<seq<Entry>>, name: string): (r: Layers)
    ensures Assoc.Get(r, name) == Some(environment.GetOr([]))
    ensures forall n :: n != name ==> Assoc.Get(r, n) == Assoc.Get(layers, n)
    ensures Assoc.HasKey(layers, name) ==> Assoc.Keys(r) == Assoc.Keys(layers)
  {
    Assoc.Put(layers, name, environment.GetOr([]))
  }

  /** `get_env` */
  function GetEnv(layers: Layers, name: string): (r: Result<seq<Entry>, LayerError>)
    ensures r.Failure? <==> !Assoc.HasKey(layers, name)
    ensures r.Failure? ==> r.error == UnknownLayer(name)
    ensures r.Success? ==> Assoc.Get(layers, name) == Some(r.value)
  {
    match Assoc.Get(layers, name)
    case None => Failure(UnknownLayer(name))
    case Some(entries) => Success(entries)
  }

  lemma AddThenGet(layers: Layers, environment: Option<seq<Entry>>, name: string, other: string)
    ensures GetEnv(AddEnv(layers, environment, name), name) == Success(environment.GetOr([]))
    ensures other != name ==> GetEnv(AddEnv(layers, environment, name), other) == GetEnv(layers, other)
  {
  }

  /** `find_in_env` */
  function FindInEnv(layers: Layers, name: string, key: string): (r: Result<seq<Entry>, LayerError>)
    ensures r.Failure? <==> !Assoc.HasKey(layers, name)
    ensures r.Success? ==> forall e :: e in r.value <==> e in Assoc.Get(layers, name).value && Matches(e, key)
  {
    var entries :- GetEnv(layers, name);
    Success(MatchingEntries(entries, key))
  }

  /** `set_in_env` */
  function SetInEnv(layers: Layers, name: string, key: string, val: string): (r: Result<Layers, LayerError>)
    ensures r.Failure? <==> !Assoc.HasKey(layers, name)
    ensures r.Success? ==> Assoc.Get(r.value, name) == Some(SetInLayer(Assoc.Get(layers, name).value, key, val))
    ensures r.Success? ==> forall n :: n != name ==> Assoc.Get(r.value, n) == Assoc.Get(layers, n)
    ensures r.Success? ==> Assoc.Keys(r.value) == Assoc.Keys(layers)
  {
    var entries :- GetEnv(layers, name);
    Success(Assoc.Put(layers, name, SetInLayer(entries, key, val)))
  }

  /** `delete_from_env`: the layer is only rewritten when something goes. */
  function DeleteFromEnv(layers: Layers, name: string, key: string, deleteUnset: bool): (r: Result<(Layers, Option<bool>), LayerError>)
    ensures !Assoc.HasKey(layers, name) ==> r == Failure(UnknownLayer(name))
    ensures Assoc.HasKey(layers, name) ==>
      var d := DeleteFromLayer(Assoc.Get(layers, name).value, key, deleteUnset);
      (r.Success? <==> d.Success?)
      && (r.Success? ==>
            r.value.1 == d.value.1
            && Assoc.Get(r.value.0, name) == Some(d.value.0)
            && forall n :: n != name ==> Assoc.Get(r.value.0, n) == Assoc.Get(layers, n))
    ensures r.Success? && r.value.1 == Some(false) ==> r.value.0 == layers
  {
    var entries :- GetEnv(layers, name);
    match DeleteFromLayer(entries, key, deleteUnset)
    case Failure(e) => Failure(e)
    case Success((rest, outcome)) =>
      if outcome == Some(false) then Success((layers, outcome))
      else Success((Assoc.Put(layers, name, rest), outcome))
  }

  /** `add_to_env` */
  function AddToEnv(layers: Layers, name: string, item: Entry): (r: Result<Layers, LayerError>)
    ensures r.Failure? <==> !Assoc.HasKey(layers, name)
    ensures r.Success? ==> Assoc.Get(r.value, name) == Some(Assoc.Get(layers, name).value + [item])
    ensures r.Success? ==> forall n :: n != name ==> Assoc.Get(r.value, n) == Assoc.Get(layers, n)
  {
    var entries :- GetEnv(layers, name);
    Success(Assoc.Put(layers, name, entries + [item]))
  }

  // ---------------------------------------------------------------------
  // Combining
  // ---------------------------------------------------------------------

  datatype CombineError =
    | InvalidEntry(entry: Entry, cause: SubstError)  // EnvError "Invalid environment variable at index <entry>: <cause>"
    | Uncaught(cause: SubstError)                    // an error of `update` that is no EnvError, passed on as raised
    | BadUnset(flag: Booleans.BoolError)             // the `unset` flag is no boolean literal
    | MissingValue(entry: Entry)                     // KeyError: a `name` directive without `value`
    | NonStringName(entry: Entry)                    // a `name` that is not a string

  /** The entry as a mapping: text is split at its first `=`. */
  function AsFields(item: Entry): (r: seq<(string, Value)>)
    ensures item.Assign? ==> |r| == 1 && r[0].1.Str?
    ensures item.Assign? ==> r[0].0 + (if '=' in item.text then "=" else "") + r[0].1.s == item.text
    ensures item.Assign? && '=' in item.text ==> '=' !in r[0].0
  {
    match item
    case Assign(text) =>
      var p := Partition(text, "=");
      PartitionChar(text, '=');
      [(p.before, Str(p.after))]
    case Mapping(fields) => fields
  }

  /** How `expand_env` passes on an error of `update`: an `EnvError` is
      caught and raised again naming the entry, anything else escapes as
      it was raised. */
  function Named(item: Entry, e: SubstError): (r: CombineError)
    ensures r.InvalidEntry? <==> IsEnvError(e)
    ensures r.InvalidEntry? ==> r.entry == item
    ensures (r.InvalidEntry? || r.Uncaught?) && r.cause == e
  {
    if IsEnvError(e) then InvalidEntry(item, e) else Uncaught(e)
  }

  /** Each key of the entry, in order, expanded against and stored into the
      environment built so far; an `EnvError` names the entry, a TypeError
      does not. */
  function UpdateAll(combined: Env, item: Entry, fields: seq<(string, Value)>, fuel: nat): (r: Result<Env, CombineError>)
    ensures r.Success? ==> forall k :: (forall i :: 0 <= i < |fields| ==> fields[i].0 != k) ==>
      Assoc.Get(r.value, k) == Assoc.Get(combined, k)
    ensures r.Failure? ==> (r.error.InvalidEntry? || r.error.Uncaught?)
    ensures r.Failure? ==> (r.error.InvalidEntry? <==> IsEnvError(r.error.cause))
    ensures r.Failure? && r.error.InvalidEntry? ==> r.error.entry == item
    decreases |fields|
  {
    if |fields| == 0 then Success(combined)
    else
      match Update(combined, fields[0].0, fields[0].1, fuel)
      case Failure(e) => Failure(Named(item, e))
      case Success(c) =>
        var r := UpdateAll(c, item, fields[1..], fuel);
        assert forall i :: 1 <= i < |fields| ==> fields[i] == fields[1..][i - 1];
        r
  }

  /** `expand_env` for one entry: a `{name, unset}` directive with a true
      flag deletes a defined variable; a `{name, value}` directive stands
      for `{name: value}`; everything else stores each key. */
  function ExpandEntry(combined: Env, item: Entry, fuel: nat): Result<Env, CombineError> {
    var fields := AsFields(item);
    match Assoc.Get(fields, "name")
    case None => UpdateAll(combined, item, fields, fuel)
    case Some(name) =>
      var unset := Assoc.Get(fields, "unset");
      if unset.None? then
        match Assoc.Get(fields, "value")
        case None => Failure(MissingValue(item))
        case Some(v) =>
          if name.Str? then UpdateAll(combined, item, [(name.s, v)], fuel)
          else Failure(NonStringName(item))
      else
        match Booleans.ConvertToBoolean(unset.value)
        case Failure(e) => Failure(BadUnset(e))
        case Success(b) =>
          if b && (name.List? || name.Dict?) then Failure(NonStringName(item))
          else if b && name.Str? && Assoc.HasKey(combined, name.s) then Success(Assoc.Remove(combined, name.s))
          else UpdateAll(combined, item, fields, fuel)
  }

  /** The entries of one layer, in order. */
  function CombineEntries(combined: Env, entries: seq<Entry>, fuel: nat): Result<Env, CombineError>
    decreases |entries|
  {
    if |entries| == 0 then Success(combined)
    else
      match ExpandEntry(combined, entries[0], fuel)
      case Failure(e) => Failure(e)
      case Success(c) => CombineEntries(c, entries[1..], fuel)
  }

  /** The layers, in the order they were added. */
  function CombineLayers(combined: Env, layers: Layers, fuel: nat): Result<Env, CombineError>
    decreases |layers|
  {
    if |layers| == 0 then Success(combined)
    else
      match CombineEntries(combined, layers[0].1, fuel)
      case Failure(e) => Failure(e)
      case Success(c) => CombineLayers(c, layers[1..], fuel)
  }

  /** `get_combined`: every substitution is resolved in at most `fuel`
      rounds. */
  function GetCombined(layers: Layers, fuel: nat): Result<Env, CombineError> {
    CombineLayers([], layers, fuel)
  }
}

module EnvDictProps {
  import opened Wrappers
  import opened Text
  import opened Values
  import opened EnvSubst
  import opened EnvSubstProps
  import opened EnvDict
  import Booleans
  import Assoc

  /** Combining a layer list split in two is combining the first part and
      then the second on its result. */
  lemma {:induction false} CombineEntriesAppend(c: Env, a: seq<Entry>, b: seq<Entry>, fuel: nat)
    ensures var r := CombineEntries(c, a, fuel);
      CombineEntries(c, a + b, fuel) == if r.Failure? then r else CombineEntries(r.value, b, fuel)
    decreases |a|
  {
    if |a| == 0 {
      assert a + b == b;
    } else {
      assert (a + b)[0] == a[0] && (a + b)[1..] == a[1..] + b;
      match ExpandEntry(c, a[0], fuel)
      case Failure(_) =>
      case Success(c1) =>
        CombineEntriesAppend(c1, a[1..], b, fuel);
    }
  }

  lemma {:induction false} CombineLayersAppend(c: Env, a: Layers, b: Layers, fuel: nat)
    ensures var r := CombineLayers(c, a, fuel);
      CombineLayers(c, a + b, fuel) == if r.Failure? then r else CombineLayers(r.value, b, fuel)
    decreases |a|
  {
    if |a| == 0 {
      assert a + b == b;
    } else {
      assert (a + b)[0] == a[0] && (a + b)[1..] == a[1..] + b;
      match CombineEntries(c, a[0].1, fuel)
      case Failure(_) =>
      case Success(c1) =>
        CombineLayersAppend(c1, a[1..], b, fuel);
    }
  }

  lemma CombineSingle(c: Env, name: string, item: Entry, fuel: nat)
    ensures CombineEntries(c, [item], fuel) == ExpandEntry(c, item, fuel)
    ensures CombineLayers(c, [(name, [item])], fuel) == ExpandEntry(c, item, fuel)
  {
    assert [item][1..] == [];
    assert [(name, [item])][1..] == [];
  }

  /** A one-key entry is one `update`. */
  lemma UpdateAllSingle(c: Env, item: Entry, k: string, v: Value, fuel: nat)
    ensures var u := Update(c, k, v, fuel);
      UpdateAll(c, item, [(k, v)], fuel) ==
        if u.Failure? then Failure(Named(item, u.error)) else Success(u.value)
  {
    assert [(k, v)][1..] == [];
  }

  /** A one-key mapping whose key is not `name` is a plain entry. */
  lemma SingleKeyEntry(c: Env, k: string, v: Value, fuel: nat)
    requires k != "name"
    ensures var u := Update(c, k, v, fuel);
      ExpandEntry(c, Mapping([(k, v)]), fuel) ==
        if u.Failure? then Failure(Named(Mapping([(k, v)]), u.error)) else Success(u.value)
  {
    assert [(k, v)][1..] == [];
    assert Assoc.Get([(k, v)], "name") == None;
    UpdateAllSingle(c, Mapping([(k, v)]), k, v, fuel);
  }

  /** `a=b` splits at its first `=`. */
  lemma SplitAssign(k: string, v: string, a: string, b: string)
    requires '=' !in k && '=' !in a && a + "=" + b == k + "=" + v
    ensures a == k && b == v
  {
    var s := k + "=" + v;
    assert s[|k|] == '=' && s[|a|] == '=';
    forall j | 0 <= j < |k| ensures s[j] != '=' {
      assert s[j] == k[j];
    }
    forall j | 0 <= j < |a| ensures s[j] != '=' {
      assert s[j] == (a + "=" + b)[j] == a[j];
    }
    assert |a| == |k|;
    assert a == s[..|a|] && k == s[..|k|];
    assert b == s[|a| + 1..] && v == s[|k| + 1..];
  }

  lemma AssignFields(k: string, v: string)
    requires '=' !in k
    ensures AsFields(Assign(k + "=" + v)) == [(k, Str(v))]
  {
    var f := AsFields(Assign(k + "=" + v));
    assert '=' in k + "=" + v by { assert (k + "=" + v)[|k|] == '='; }
    SplitAssign(k, v, f[0].0, f[0].1.s);
  }

  /** Text without `$` expands to itself. */
  lemma PlainText(c: Env, key: string, v: string, fuel: nat)
    requires '$' !in v
    ensures GetVal(c, key, Str(v), fuel + 1) == Success(Str(v))
  {
    NoDollarNoToken(v);
    LoopUnfold(c, key, v, fuel + 1);
  }

  /** `KEY=value` with no `$` in the value stores the text under the key. */
  lemma AssignEntry(c: Env, k: string, v: string, fuel: nat)
    requires '=' !in k && k != "name" && '$' !in v
    ensures ExpandEntry(c, Assign(k + "=" + v), fuel + 1) == Success(Assoc.Put(c, k, Str(v)))
  {
    var item := Assign(k + "=" + v);
    AssignFields(k, v);
    assert [(k, Str(v))][1..] == [];
    assert Assoc.Get(AsFields(item), "name") == None;
    PlainText(c, k, v, fuel);
    UpdateAllSingle(c, item, k, Str(v), fuel + 1);
  }

  /** A layer appended last with `KEY=value` decides the key's value,
      whatever the earlier layers said. */
  lemma LaterAssignmentWins(layers: Layers, name: string, k: string, v: string, fuel: nat)
    requires '=' !in k && k != "name" && '$' !in v
    ensures var r := GetCombined(layers + [(name, [Assign(k + "=" + v)])], fuel + 1);
      (r.Success? <==> GetCombined(layers, fuel + 1).Success?)
      && (r.Success? ==>
            Assoc.Get(r.value, k) == Some(Str(v))
            && forall k' :: k' != k ==> Assoc.Get(r.value, k') == Assoc.Get(GetCombined(layers, fuel + 1).value, k'))
  {
    CombineLayersAppend([], layers, [(name, [Assign(k + "=" + v)])], fuel + 1);
    match GetCombined(layers, fuel + 1)
    case Failure(_) =>
    case Success(c) =>
      CombineSingle(c, name, Assign(k + "=" + v), fuel + 1);
      AssignEntry(c, k, v, fuel);
  }

  /** `{KEY: "pre${KEY}post"}` extends the key's current text in place. */
  lemma ExtendEntry(c: Env, k: string, prev: string, pre: string, post: string, fuel: nat)
    requires IsIdentifier(k) && k != "name" && Assoc.Get(c, k) == Some(Str(prev))
    requires '$' !in pre && '$' !in post && '$' !in prev && |pre| + |post| > 0
    ensures ExpandEntry(c, Mapping([(k, Str(pre + Token(k) + post))]), fuel + 2)
      == Success(Assoc.Put(c, k, Str(pre + prev + post)))
  {
    SplicedReference(c, k, pre, k, post, fuel);
    SingleKeyEntry(c, k, Str(pre + Token(k) + post), fuel + 2);
  }

  /** `{KEY: "pre${NAME}post"}` with `NAME` unset fails, naming the entry:
      "KEY references itself" or "NAME hasn't been defined". */
  lemma UndefinedInEntry(c: Env, k: string, pre: string, name: string, post: string, fuel: nat)
    requires IsIdentifier(name) && !Assoc.HasKey(c, name) && '$' !in pre && k != "name"
    ensures var item := Mapping([(k, Str(pre + Token(name) + post))]);
      ExpandEntry(c, item, fuel + 1)
        == Failure(InvalidEntry(item, if name == k then SelfReference(k) else NotDefined(name)))
  {
    UndefinedReference(c, k, pre, name, post, fuel);
    SingleKeyEntry(c, k, Str(pre + Token(name) + post), fuel + 1);
  }

  /** `{KEY: [None]}` raises a TypeError (`re.search` on `None`) that
      `expand_env` does not catch: the error escapes without naming the
      entry. */
  lemma NullItemEscapes(c: Env, k: string, fuel: nat)
    requires k != "name"
    ensures ExpandEntry(c, Mapping([(k, List([Null]))]), fuel) == Failure(Uncaught(NotAString))
  {
    assert Update(c, k, List([Null]), fuel) == Failure(NotAString) by {
      assert ExpandItems(c, k, [Null], fuel) == Failure(NotAString);
    }
    SingleKeyEntry(c, k, List([Null]), fuel);
  }

  /** `{name: N, unset: <true literal>}` deletes a defined `N`. */
  lemma UnsetDeletes(c: Env, f: seq<(string, Value)>, n: string, fuel: nat)
    requires Assoc.Get(f, "name") == Some(Str(n)) && Assoc.HasKey(f, "unset")
    requires Assoc.Get(f, "unset").value in Booleans.TrueLiterals
    requires Assoc.HasKey(c, n)
    ensures ExpandEntry(c, Mapping(f), fuel) == Success(Assoc.Remove(c, n))
    ensures !Assoc.HasKey(Assoc.Remove(c, n), n)
  {
  }

  /** Otherwise the directive is stored as it is: under the keys `name`
      and `unset` themselves. */
  lemma UnsetFallsThrough(c: Env, f: seq<(string, Value)>, n: string, fuel: nat)
    requires Assoc.Get(f, "name") == Some(Str(n)) && Assoc.HasKey(f, "unset")
    requires Assoc.Get(f, "unset").value in Booleans.FalseLiterals
      || (Assoc.Get(f, "unset").value in Booleans.TrueLiterals && !Assoc.HasKey(c, n))
    ensures ExpandEntry(c, Mapping(f), fuel) == UpdateAll(c, Mapping(f), f, fuel)
  {
  }

  /** An unset of an undefined variable defines `name` and `unset`. */
  lemma UnsetUndefined(fuel: nat)
    ensures ExpandEntry([], Mapping([("name", Str("X")), ("unset", Bool(true))]), fuel + 1)
      == Success([("name", Str("X")), ("unset", Bool(true))])
  {
    var f := [("name", Str("X")), ("unset", Bool(true))];
    var item := Mapping(f);
    assert f[1..] == [("unset", Bool(true))];
    assert Assoc.Get(f, "name") == Some(Str("X"));
    assert Assoc.Get(f, "unset") == Some(Bool(true));
    UnsetFallsThrough([], f, "X", fuel + 1);
    PlainText([], "name", "X", fuel);
    var c1 := Assoc.Put([], "name", Str("X"));
    assert c1 == [("name", Str("X"))];
    assert Update([], "name", Str("X"), fuel + 1) == Success(c1);
    assert !Assoc.HasKey(c1, "unset");
    assert Update(c1, "unset", Bool(true), fuel + 1) == Success(c1 + [("unset", Bool(true))]);
    assert UpdateAll([], item, f, fuel + 1) == UpdateAll(c1, item, f[1..], fuel + 1);
    UpdateAllSingle(c1, item, "unset", Bool(true), fuel + 1);
    assert c1 + [("unset", Bool(true))] == f;
    assert ExpandEntry([], item, fuel + 1) == UpdateAll([], item, f, fuel + 1);
  }

  /** `{name: N, value: V}` stands for `{N: V}`; without `value` it fails. */
  lemma NameValueDirective(c: Env, f: seq<(string, Value)>, n: string, fuel: nat)
    requires Assoc.Get(f, "name") == Some(Str(n)) && !Assoc.HasKey(f, "unset")
    ensures !Assoc.HasKey(f, "value") ==> ExpandEntry(c, Mapping(f), fuel) == Failure(MissingValue(Mapping(f)))
    ensures Assoc.HasKey(f, "value") ==>
      var u := Update(c, n, Assoc.Get(f, "value").value, fuel);
      ExpandEntry(c, Mapping(f), fuel) ==
        if u.Failure? then Failure(Named(Mapping(f), u.error)) else Success(u.value)
  {
    if Assoc.HasKey(f, "value") {
      UpdateAllSingle(c, Mapping(f), n, Assoc.Get(f, "value").value, fuel);
    }
  }

  // ---------------------------------------------------------------------
  // The combined environment has each key once
  // ---------------------------------------------------------------------

  lemma UpdateUnique(c: Env, key: string, v: Value, fuel: nat)
    requires Assoc.UniqueKeys(c) && Update(c, key, v, fuel).Success?
    ensures Assoc.UniqueKeys(Update(c, key, v, fuel).value)
  {
    match v
    case Str(_) => Assoc.PutUnique(c, key, GetVal(c, key, v, fuel).value);
    case List(items) => Assoc.PutUnique(c, key, List(ExpandItems(c, key, items, fuel).value));
    case Dict(fields) => Assoc.PutUnique(c, key, Dict(ExpandFields(c, key, fields, fuel).value));
    case _ => Assoc.PutUnique(c, key, v);
  }

  lemma {:induction false} UpdateAllUnique(c: Env, item: Entry, f: seq<(string, Value)>, fuel: nat)
    requires Assoc.UniqueKeys(c) && UpdateAll(c, item, f, fuel).Success?
    ensures Assoc.UniqueKeys(UpdateAll(c, item, f, fuel).value)
    decreases |f|
  {
    if |f| > 0 {
      UpdateUnique(c, f[0].0, f[0].1, fuel);
      UpdateAllUnique(Update(c, f[0].0, f[0].1, fuel).value, item, f[1..], fuel);
    }
  }

  lemma ExpandEntryUnique(c: Env, item: Entry, fuel: nat)
    requires Assoc.UniqueKeys(c) && ExpandEntry(c, item, fuel).Success?
    ensures Assoc.UniqueKeys(ExpandEntry(c, item, fuel).value)
  {
    var f := AsFields(item);
    match Assoc.Get(f, "name")
    case None => UpdateAllUnique(c, item, f, fuel);
    case Some(name) =>
      if Assoc.HasKey(f, "unset") {
        var b := Booleans.ConvertToBoolean(Assoc.Get(f, "unset").value).value;
        if b && name.Str? && Assoc.HasKey(c, name.s) {
          Assoc.RemoveUnique(c, name.s);
        } else {
          UpdateAllUnique(c, item, f, fuel);
        }
      } else if name.Str? {
        UpdateAllUnique(c, item, [(name.s, Assoc.Get(f, "value").value)], fuel);
      }
  }

  lemma {:induction false} CombineEntriesUnique(c: Env, entries: seq<Entry>, fuel: nat)
    requires Assoc.UniqueKeys(c) && CombineEntries(c, entries, fuel).Success?
    ensures Assoc.UniqueKeys(CombineEntries(c, entries, fuel).value)
    decreases |entries|
  {
    if |entries| > 0 {
      ExpandEntryUnique(c, entries[0], fuel);
      CombineEntriesUnique(ExpandEntry(c, entries[0], fuel).value, entries[1..], fuel);
    }
  }

  lemma {:induction false} CombineLayersUnique(c: Env, layers: Layers, fuel: nat)
    requires Assoc.UniqueKeys(c) && CombineLayers(c, layers, fuel).Success?
    ensures Assoc.UniqueKeys(CombineLayers(c, layers, fuel).value)
    decreases |layers|
  {
    if |layers| > 0 {
      CombineEntriesUnique(c, layers[0].1, fuel);
      CombineLayersUnique(CombineEntries(c, layers[0].1, fuel).value, layers[1..], fuel);
    }
  }

  /** The combined environment is a dictionary: no key appears twice. */
  lemma GetCombinedUnique(layers: Layers, fuel: nat)
    requires GetCombined(layers, fuel).Success?
    ensures Assoc.UniqueKeys(GetCombined(layers, fuel).value)
  {
    CombineLayersUnique([], layers, fuel);
  }
}

=== FILE: env_subst.dfy ===
/** The shell-like `${...}` expansion of roman's environment layers: plain
    references, `:-` (default), `:+` (alternative), `/` (replace the first
    match) and `//` (replace every match).  A value is expanded against the
    variables defined so far; the leftmost token is resolved first, again
    and again, until no token is left or an operation yields the whole
    value. */
module EnvSubst {
  import opened Wrappers
  import opened Text
  import opened Values
  import Assoc

  /** The variables defined so far, in definition order. */
  type Env = seq<(string, Value)>

  // ---------------------------------------------------------------------
  // Tokens: `\$\{[^}{]+\}`
  // ---------------------------------------------------------------------

  predicate NotBrace(c: char) {
    c != '{' && c != '}'
  }

  /** `s[i..j]` is a match of the token pattern: `${`, at least one
      character that is not a brace, and `}`. */
  predicate TokenAt(s: string, i: nat, j: nat) {
    i + 4 <= j <= |s| && s[i] == '$' && s[i + 1] == '{' && s[j - 1] == '}'
    && forall k :: i + 2 <= k < j - 1 ==> NotBrace(s[k])
  }

  /** The first brace at or after `k`. */
  function FirstBrace(s: string, k: nat): (r: Option<nat>)
    ensures r.Some? ==> k <= r.value < |s| && !NotBrace(s[r.value])
    ensures r.Some? ==> forall m :: k <= m < r.value ==> NotBrace(s[m])
    ensures r.None? ==> forall m :: k <= m < |s| ==> NotBrace(s[m])
    decreases |s| - k
  {
    if k >= |s| then None
    else if !NotBrace(s[k]) then Some(k)
    else FirstBrace(s, k + 1)
  }

  /** Where the token starting at `i` ends, if one starts there.  There is
      at most one: the body cannot contain a brace. */
  function TokenEnd(s: string, i: nat): (r: Option<nat>)
    ensures r.Some? ==> TokenAt(s, i, r.value)
    ensures forall j: nat :: TokenAt(s, i, j) ==> r == Some(j)
  {
    if i + 2 <= |s| && s[i] == '$' && s[i + 1] == '{' then
      match FirstBrace(s, i + 2)
      case Some(b) => if s[b] == '}' && b > i + 2 then Some(b + 1) else None
      case None => None
    else None
  }

  /** The leftmost token at or after `from`: what `re.search` finds. */
  function FindToken(s: string, from: nat): (r: Option<(nat, nat)>)
    ensures r.Some? ==> from <= r.value.0 && TokenAt(s, r.value.0, r.value.1)
    ensures r.Some? ==> forall i, j :: from <= i < r.value.0 ==> !TokenAt(s, i, j)
    ensures r.None? ==> forall i, j :: from <= i ==> !TokenAt(s, i, j)
    decreases |s| - from
  {
    if from >= |s| then None
    else
      match TokenEnd(s, from)
      case Some(j) => Some((from, j))
      case None => FindToken(s, from + 1)
  }

  predicate IsIdentStart(c: char) {
    'a' <= c <= 'z' || 'A' <= c <= 'Z' || c == '_'
  }

  predicate IsIdentChar(c: char) {
    IsIdentStart(c) || IsDigit(c)
  }

  /** A token whose body is an identifier is a plain reference
      (`\$\{[a-zA-Z_][a-zA-Z0-9_]*\}`). */
  predicate IsIdentifier(s: string) {
    |s| > 0 && IsIdentStart(s[0]) && forall k :: 1 <= k < |s| ==> IsIdentChar(s[k])
  }

  // ---------------------------------------------------------------------
  // Operators
  // ---------------------------------------------------------------------

  datatype Op = UseDefault | UseAlternative | ReplaceEvery | ReplaceOnce

  function OpText(op: Op): (t: string)
    ensures |t| > 0
  {
    match op
    case UseDefault => ":-"
    case UseAlternative => ":+"
    case ReplaceEvery => "//"
    case ReplaceOnce => "/"
  }

  /** The separator table, in its declared order. */
  const Separators: seq<Op> := [UseDefault, UseAlternative, ReplaceEvery, ReplaceOnce]

  /** Default and alternative do not need the variable to be defined. */
  predicate AllowMissing(op: Op) {
    op == UseDefault || op == UseAlternative
  }

  /** Where the separator first occurs in the body. */
  function Occ(content: string, op: Op): Option<nat> {
    IndexOf(content, OpText(op))
  }

  /** `a` (listed at `ia`) is preferred over `b` (listed at `ib`): `b` is
      absent, or `a` occurs and starts earlier, or at the same place and is
      listed no later. */
  predicate Precedes(content: string, a: Op, ia: nat, b: Op, ib: nat) {
    Occ(content, b).None?
    || (Occ(content, a).Some?
        && (Occ(content, a).value < Occ(content, b).value
            || (Occ(content, a).value == Occ(content, b).value && ia <= ib)))
  }

  /** The position in `cands` of the present candidate that starts
      earliest in `content`; among candidates starting at the same place,
      the first one listed (`min` keeps the first minimal element). */
  function EarliestOf(content: string, cands: seq<Op>): (r: Option<nat>)
    ensures r.Some? ==> r.value < |cands| && Occ(content, cands[r.value]).Some?
    ensures r.None? ==> forall k :: 0 <= k < |cands| ==> Occ(content, cands[k]).None?
    ensures r.Some? ==> forall k :: 0 <= k < |cands| ==>
      Precedes(content, cands[r.value], r.value, cands[k], k)
  {
    if |cands| == 0 then None
    else EarliestWith(content, cands, EarliestOf(content, cands[1..]))
  }

  /** The earliest candidate of `cands`, given the earliest of its tail. */
  function EarliestWith(content: string, cands: seq<Op>, rest: Option<nat>): (r: Option<nat>)
    requires |cands| > 0
    requires rest.Some? ==> rest.value < |cands| - 1 && Occ(content, cands[1..][rest.value]).Some?
    requires rest.None? ==> forall k :: 0 <= k < |cands| - 1 ==> Occ(content, cands[1..][k]).None?
    requires rest.Some? ==> forall k :: 0 <= k < |cands| - 1 ==>
      Precedes(content, cands[1..][rest.value], rest.value, cands[1..][k], k)
    ensures r.Some? ==> r.value < |cands| && Occ(content, cands[r.value]).Some?
    ensures r.None? ==> forall k :: 0 <= k < |cands| ==> Occ(content, cands[k]).None?
    ensures r.Some? ==> forall k :: 0 <= k < |cands| ==>
      Precedes(content, cands[r.value], r.value, cands[k], k)
  {
    var tail := cands[1..];
    assert forall k :: 1 <= k < |cands| ==> cands[k] == tail[k - 1];
    if Occ(content, cands[0]).None? then
      match rest
      case None => None
      case Some(m) =>
        PrecedesFromTail(content, cands, m);
        Some(m + 1)
    else
      match rest
      case None =>
        PrecedesFromHead(content, cands, rest);
        Some(0)
      case Some(m) =>
        if Occ(content, cands[0]).value <= Occ(content, tail[m]).value then
          PrecedesFromHead(content, cands, rest);
          Some(0)
        else
          PrecedesFromTail(content, cands, m);
          Some(m + 1)
  }

  /** The earliest of the tail wins over the whole list when the head is
      absent or starts later. */
  lemma PrecedesFromTail(content: string, cands: seq<Op>, m: nat)
    requires m < |cands| - 1 && Occ(content, cands[1..][m]).Some?
    requires Occ(content, cands[0]).None? ||
      Occ(content, cands[1..][m]).value < Occ(content, cands[0]).value
    requires forall k :: 0 <= k < |cands| - 1 ==>
      Precedes(content, cands[1..][m], m, cands[1..][k], k)
    ensures forall k :: 0 <= k < |cands| ==> Precedes(content, cands[m + 1], m + 1, cands[k], k)
  {
    var best := cands[m + 1];
    assert best == cands[1..][m];
    forall k | 0 <= k < |cands|
      ensures Precedes(content, best, m + 1, cands[k], k)
    {
      if k > 0 {
        assert cands[k] == cands[1..][k - 1];
        PrecedesShift(content, best, m, cands[k], k - 1);
      }
    }
  }

  /** Preference survives moving both candidates one place down the list. */
  lemma PrecedesShift(content: string, a: Op, ia: nat, b: Op, ib: nat)
    requires Precedes(content, a, ia, b, ib)
    ensures Precedes(content, a, ia + 1, b, ib + 1)
  {
  }

  /** A present head wins over the whole list when the tail has no
      candidate or its earliest starts no sooner. */
  lemma PrecedesFromHead(content: string, cands: seq<Op>, rest: Option<nat>)
    requires |cands| > 0 && Occ(content, cands[0]).Some?
    requires rest.Some? ==>
      (rest.value < |cands| - 1 && Occ(content, cands[1..][rest.value]).Some?
       && Occ(content, cands[0]).value <= Occ(content, cands[1..][rest.value]).value)
    requires rest.None? ==> forall k :: 0 <= k < |cands| - 1 ==> Occ(content, cands[1..][k]).None?
    requires rest.Some? ==> forall k :: 0 <= k < |cands| - 1 ==>
      Precedes(content, cands[1..][rest.value], rest.value, cands[1..][k], k)
    ensures forall k :: 0 <= k < |cands| ==> Precedes(content, cands[0], 0, cands[k], k)
  {
    forall k | 0 <= k < |cands|
      ensures Precedes(content, cands[0], 0, cands[k], k)
    {
      if k > 0 {
        assert cands[k] == cands[1..][k - 1];
        if rest.Some? {
          assert Precedes(content, cands[1..][rest.value], rest.value, cands[1..][k - 1], k - 1);
        } else {
          assert Occ(content, cands[1..][k - 1]).None?;
        }
      }
    }
  }

  /** Where an operator sits in the separator table. */
  function Rank(op: Op): (k: nat)
    ensures k < |Separators| && Separators[k] == op
  {
    match op
    case UseDefault => 0
    case UseAlternative => 1
    case ReplaceEvery => 2
    case ReplaceOnce => 3
  }

  /** `find_separator`: the operator of a non-plain token body, or `None`
      when it has none ("Unrecognized parameter substitution pattern"). */
  function FindSeparator(content: string): (r: Option<Op>)
    ensures r.Some? ==> Contains(content, OpText(r.value))
  {
    match EarliestOf(content, Separators)
    case None => None
    case Some(m) => Some(Separators[m])
  }

  /** The operator chosen is the one that starts earliest in the body; of
      two starting at the same place (`//` and `/`), the one listed first
      in the table wins; with no operator at all there is none. */
  lemma FindSeparatorEarliest(content: string)
    ensures FindSeparator(content).None? <==> forall op :: !Contains(content, OpText(op))
    ensures FindSeparator(content).Some? ==> forall op :: Contains(content, OpText(op)) ==>
      var chosen := FindSeparator(content).value;
      IndexOf(content, OpText(chosen)).value < IndexOf(content, OpText(op)).value
      || (IndexOf(content, OpText(chosen)).value == IndexOf(content, OpText(op)).value
          && Rank(chosen) <= Rank(op))
  {
    var r := EarliestOf(content, Separators);
    match r
    case None =>
      forall op
        ensures !Contains(content, OpText(op))
      {
        assert Occ(content, Separators[Rank(op)]).None?;
      }
    case Some(m) =>
      forall op | Contains(content, OpText(op))
        ensures Precedes(content, Separators[m], m, op, Rank(op))
      {
        assert Separators[Rank(op)] == op;
      }
      assert Rank(Separators[m]) == m;
  }

  // ---------------------------------------------------------------------
  // Replacement patterns `regex/replacement`
  // ---------------------------------------------------------------------

  predicate IsQuoteChar(c: char) {
    c == '"' || c == '\''
  }

  /** A match of `"[^"]*"` or `'[^']*'`. */
  predicate IsQuoted(q: string) {
    |q| >= 2 && IsQuoteChar(q[0]) && q[|q| - 1] == q[0] && q[0] !in q[1..|q| - 1]
  }

  predicate NoSlash(s: string) {
    '/' !in s
  }

  /** `[^/]+/[^/]*` */
  predicate ShapePlain(p: string) {
    exists i :: 0 < i < |p| && p[i] == '/' && NoSlash(p[..i]) && NoSlash(p[i + 1..])
  }

  /** quoted `/` quoted */
  predicate ShapeBothQuoted(p: string) {
    exists i :: 0 <= i < |p| && p[i] == '/' && IsQuoted(p[..i]) && IsQuoted(p[i + 1..])
  }

  /** quoted `/` `[^/]*` */
  predicate ShapeQuotedLeft(p: string) {
    exists i :: 0 <= i < |p| && p[i] == '/' && IsQuoted(p[..i]) && NoSlash(p[i + 1..])
  }

  /** `[^/]+` `/` quoted */
  predicate ShapeQuotedRight(p: string) {
    exists i :: 0 < i < |p| && p[i] == '/' && NoSlash(p[..i]) && IsQuoted(p[i + 1..])
  }

  lemma CharIndexUnique(s: string, c: char, i: nat)
    requires i < |s| && s[i] == c && c !in s[..i]
    ensures CharIndex(s, c) == Some(i)
  {
    var r := CharIndex(s, c);
    assert s[i] in s;
    var k := r.value;
    forall m | 0 <= m < i
      ensures s[m] != c
    {
      assert s[..i][m] == s[m];
    }
    forall m | 0 <= m < k
      ensures s[m] != c
    {
      assert s[..k][m] == s[m];
    }
  }

  /** The end of the quoted string at the head of `p`, if there is one. */
  function QuotedPrefix(p: string): (r: Option<nat>)
    ensures r.Some? ==> r.value <= |p| && IsQuoted(p[..r.value])
    ensures forall e :: 0 <= e <= |p| && IsQuoted(p[..e]) ==> r == Some(e)
  {
    if |p| > 0 && IsQuoteChar(p[0]) then
      match CharIndex(p[1..], p[0])
      case None => None
      case Some(k) =>
        assert p[..k + 2][1..k + 1] == p[1..][..k];
        assert forall e :: 0 <= e <= |p| && IsQuoted(p[..e]) ==> e == k + 2 by {
          forall e | 0 <= e <= |p| && IsQuoted(p[..e])
            ensures e == k + 2
          {
            assert p[..e][1..e - 1] == p[1..][..e - 2];
            CharIndexUnique(p[1..], p[0], e - 2);
          }
        }
        Some(k + 2)
    else None
  }

  /** The leftmost quoted string in `p` starting at or after `from`: what
      `re.search` on the quoted pattern finds. */
  function LeftmostQuoted(p: string, from: nat): (r: Option<(nat, nat)>)
    ensures r.Some? ==> from <= r.value.0 <= r.value.1 <= |p| && IsQuoted(p[r.value.0..r.value.1])
    ensures r.Some? ==> forall k :: from <= k < r.value.0 ==> QuotedPrefix(p[k..]).None?
    decreases |p| - from
  {
    if from >= |p| then None
    else
      match QuotedPrefix(p[from..])
      case Some(e) =>
        assert p[from..][..e] == p[from..from + e];
        Some((from, from + e))
      case None => LeftmostQuoted(p, from + 1)
  }

  lemma LeftmostQuotedFound(p: string, from: nat, i: nat)
    requires from <= i < |p| && IsQuoted(p[i..])
    ensures LeftmostQuoted(p, from).Some?
    decreases i - from
  {
    if from < i {
      if QuotedPrefix(p[from..]).None? {
        LeftmostQuotedFound(p, from + 1, i);
      }
    } else {
      assert p[i..][..|p| - i] == p[i..];
    }
  }

  /** Python `s.strip('\'"')` */
  function StripQuotes(s: string): string {
    StripSet(s, {'\'', '"'})
  }

  lemma ShapePlainAt(p: string)
    ensures ShapePlain(p) <==>
      (CharIndex(p, '/').Some? && CharIndex(p, '/').value > 0
       && NoSlash(p[CharIndex(p, '/').value + 1..]))
  {
    if ShapePlain(p) {
      var i :| 0 < i < |p| && p[i] == '/' && NoSlash(p[..i]) && NoSlash(p[i + 1..]);
      CharIndexUnique(p, '/', i);
    }
  }

  lemma ShapeQuotedRightAt(p: string)
    ensures ShapeQuotedRight(p) <==>
      (CharIndex(p, '/').Some? && CharIndex(p, '/').value > 0
       && IsQuoted(p[CharIndex(p, '/').value + 1..]))
  {
    if ShapeQuotedRight(p) {
      var i :| 0 < i < |p| && p[i] == '/' && NoSlash(p[..i]) && IsQuoted(p[i + 1..]);
      CharIndexUnique(p, '/', i);
    }
  }

  lemma ShapeQuotedLeftAt(p: string)
    ensures ShapeBothQuoted(p) <==>
      (QuotedPrefix(p).Some? && QuotedPrefix(p).value < |p| && p[QuotedPrefix(p).value] == '/'
       && IsQuoted(p[QuotedPrefix(p).value + 1..]))
    ensures ShapeQuotedLeft(p) <==>
      (QuotedPrefix(p).Some? && QuotedPrefix(p).value < |p| && p[QuotedPrefix(p).value] == '/'
       && NoSlash(p[QuotedPrefix(p).value + 1..]))
  {
  }

  /** The `/` of the plain shape, when `p` has it. */
  function PlainSlash(p: string): (r: Option<nat>)
    ensures r.Some? ==> 0 < r.value < |p| && p[r.value] == '/'
  {
    var slash := CharIndex(p, '/');
    if slash.Some? && slash.value > 0 && NoSlash(p[slash.value + 1..]) then slash else None
  }

  /** The `/` right after a leading quoted part, when the rest is quoted or has no `/`. */
  function QuotedSlash(p: string): (r: Option<nat>)
    ensures r.Some? ==> r.value < |p| && p[r.value] == '/'
  {
    var quoted := QuotedPrefix(p);
    if quoted.Some? && quoted.value < |p| && p[quoted.value] == '/'
      && (IsQuoted(p[quoted.value + 1..]) || NoSlash(p[quoted.value + 1..])) then quoted
    else None
  }

  function SplitAt(p: string, i: nat): (string, string)
    requires i < |p|
  {
    (StripQuotes(p[..i]), StripQuotes(p[i + 1..]))
  }

  /** `parse_replacement_pattern`: the regex and the replacement of a
      `regex/replacement` body, or `None` when no shape fits ("Wrong
      pattern replacement syntax").  The four shapes are tried in order;
      each half then loses its surrounding quote characters. */
  function ParseReplacement(p: string): (r: Option<(string, string)>)
    ensures r.None? <==>
      !ShapePlain(p) && !ShapeBothQuoted(p) && !ShapeQuotedLeft(p) && !ShapeQuotedRight(p)
  {
    ShapePlainAt(p);
    ShapeQuotedLeftAt(p);
    ShapeQuotedRightAt(p);
    var slash := CharIndex(p, '/');
    if PlainSlash(p).Some? then Some(SplitAt(p, PlainSlash(p).value))
    else if QuotedSlash(p).Some? then Some(SplitAt(p, QuotedSlash(p).value))
    else if slash.Some? && slash.value > 0 && IsQuoted(p[slash.value + 1..]) then
      LeftmostQuotedFound(p, 0, slash.value + 1);
      var (a, b) := LeftmostQuoted(p, 0).value;
      Some((StripQuotes(p[..slash.value]), StripQuotes(p[a..b])))
    else None
  }

  /** Unquoted on both sides, one slash: split at the slash. */
  lemma ParsePlain(p: string, i: nat)
    requires 0 < i < |p| && p[i] == '/' && NoSlash(p[..i]) && NoSlash(p[i + 1..])
    ensures ParseReplacement(p) == Some((StripQuotes(p[..i]), StripQuotes(p[i + 1..])))
  {
    CharIndexUnique(p, '/', i);
  }

  /** Quoted on the left (and on the right, or with no slash on the right)
      when the plain shape does not fit: the quoted left side and the rest. */
  lemma ParseQuotedLeft(p: string, i: nat)
    requires !ShapePlain(p)
    requires 0 <= i < |p| && p[i] == '/' && IsQuoted(p[..i])
    requires IsQuoted(p[i + 1..]) || NoSlash(p[i + 1..])
    ensures ParseReplacement(p) == Some((StripQuotes(p[..i]), StripQuotes(p[i + 1..])))
  {
    assert PlainSlash(p).None? by {
      ShapePlainAt(p);
    }
    assert QuotedSlash(p) == Some(i) by {
      assert IsQuoted(p[..i]);
    }
    ParseAtQuotedSlash(p, i);
  }

  /** The second shape is taken when the first does not fit. */
  lemma ParseAtQuotedSlash(p: string, i: nat)
    requires PlainSlash(p).None? && QuotedSlash(p) == Some(i)
    ensures ParseReplacement(p) == Some((StripQuotes(p[..i]), StripQuotes(p[i + 1..])))
  {
  }

  /** Unquoted left side with a quoted right side, when no earlier shape
      fits: the regex is the left side, but the replacement is the leftmost
      quoted text anywhere in the body, which can begin inside the left
      side. */
  lemma ParseQuotedRight(p: string, i: nat)
    requires !ShapePlain(p) && !ShapeBothQuoted(p) && !ShapeQuotedLeft(p)
    requires 0 < i < |p| && p[i] == '/' && NoSlash(p[..i]) && IsQuoted(p[i + 1..])
    ensures LeftmostQuoted(p, 0).Some?
    ensures var (a, b) := LeftmostQuoted(p, 0).value;
      ParseReplacement(p) == Some((StripQuotes(p[..i]), StripQuotes(p[a..b])))
  {
    ShapePlainAt(p);
    ShapeQuotedLeftAt(p);
    CharIndexUnique(p, '/', i);
    LeftmostQuotedFound(p, 0, i + 1);
  }

  // ---------------------------------------------------------------------
  // Expansion
  // ---------------------------------------------------------------------

  datatype SubstError =
    | SelfReference(key: string)   // "Variable K references itself"
    | NotDefined(name: string)     // "NAME hasn't been defined"
    | Unrecognized                 // "Unrecognized parameter substitution pattern"
    | WrongReplacement(sep: string) // "Wrong pattern replacement syntax ..."
    | NotAString                   // TypeError: splicing or scanning a non-string
    | OutOfFuel

  /** The errors raised as `EnvError`. A TypeError is not one, and neither
      is running out of fuel, which stands for an expansion that never
      ends. */
  predicate IsEnvError(e: SubstError) {
    !e.NotAString? && !e.OutOfFuel?
  }

  /** The error for a reference to `name`, an undefined variable, while
      defining `key`. */
  function MissingRef(key: string, name: string): SubstError {
    if name == key then SelfReference(key) else NotDefined(name)
  }

  /** `to_str`: strings stay, `None` stays `None`, the rest becomes JSON. */
  function ToStr(v: Value): (r: Option<string>)
    ensures r.None? <==> v.Null?
  {
    match v
    case Null => None
    case Str(s) => Some(s)
    case _ => Some(Dumps(v))
  }

  /** `env.get(name)`, where a stored `None` counts as undefined. */
  function GetDefined(env: Env, name: string): (r: Option<Value>)
    ensures r.Some? ==> Assoc.Get(env, name) == r && !r.value.Null?
    ensures r.None? ==> Assoc.Get(env, name).None? || Assoc.Get(env, name) == Some(Null)
  {
    var stored := Assoc.Get(env, name);
    if stored == Some(Null) then None else stored
  }

  /** The operator applied to the variable's value (if defined) and the
      text after the separator. */
  function ApplyOp(op: Op, current: Option<Value>, arg: string): Result<Value, SubstError>
    requires current.Some? || AllowMissing(op)
  {
    match op
    case UseDefault => Success(if current.Some? then current.value else Str(arg))
    case UseAlternative => Success(Str(if current.Some? then arg else ""))
    case _ =>
      match ParseReplacement(arg)
      case None => Failure(WrongReplacement(if op == ReplaceOnce then "/" else "//"))
      case Some((regex, replacement)) =>
        var text := ToStr(current.value).GetOr("");
        Success(Str(if op == ReplaceOnce then ReplaceFirst(text, regex, replacement)
                    else ReplaceAll(text, regex, replacement)))
  }

  datatype StepResult = Done(v: Value) | Continue(s: string)

  /** A plain reference `${name}` found in `s`. */
  function ResolvePlain(env: Env, key: string, s: string, token: string, name: string): Result<StepResult, SubstError> {
    match Assoc.Get(env, name)
    case None => Failure(MissingRef(key, name))
    case Some(v) =>
      if s == token then Success(Done(v))
      else
        match ToStr(v)
        case None => Failure(NotAString)
        case Some(t) => Success(Continue(ReplaceAll(s, token, t)))
  }

  /** An operator token `${name<op>arg}` found in `s`. */
  function ResolveOp(env: Env, key: string, s: string, token: string, content: string): Result<StepResult, SubstError> {
    match FindSeparator(content)
    case None => Failure(Unrecognized)
    case Some(op) =>
      var parts := Partition(content, OpText(op));
      var current := GetDefined(env, parts.before);
      if current.None? && !AllowMissing(op) then Failure(MissingRef(key, parts.before))
      else
        var v :- ApplyOp(op, current, parts.after);
        if s == token then Success(Done(v))
        else if v.Str? then Success(Continue(ReplaceAll(s, token, v.s)))
        else Failure(NotAString)
  }

  /** One round of the expansion loop: resolve the leftmost token of `s`. */
  function Step(env: Env, key: string, s: string): Result<StepResult, SubstError> {
    match FindToken(s, 0)
    case None => Success(Done(Str(s)))
    case Some((i, j)) => StepAt(env, key, s, i, j)
  }

  /** The round on the token `s[i..j]`. */
  function StepAt(env: Env, key: string, s: string, i: nat, j: nat): Result<StepResult, SubstError>
    requires TokenAt(s, i, j)
  {
    var content := s[i + 2..j - 1];
    if IsIdentifier(content) then ResolvePlain(env, key, s, s[i..j], content)
    else ResolveOp(env, key, s, s[i..j], content)
  }

  /** The expansion loop over a step function, at most `fuel` rounds. */
  function Iterate(step: string -> Result<StepResult, SubstError>, s: string, fuel: nat): Result<Value, SubstError>
    decreases fuel
  {
    if fuel == 0 then Failure(OutOfFuel)
    else
      match step(s)
      case Failure(e) => Failure(e)
      case Success(Done(v)) => Success(v)
      case Success(Continue(s')) => Iterate(step, s', fuel - 1)
  }

  /** `get_val`'s `while True` loop on a string. */
  function Loop(env: Env, key: string, s: string, fuel: nat): Result<Value, SubstError> {
    Iterate(x => Step(env, key, x), s, fuel)
  }

  /** `get_val`: integers and booleans pass through; strings are expanded;
      lists and mappings are expanded as their JSON text. */
  function GetVal(env: Env, key: string, v: Value, fuel: nat): Result<Value, SubstError> {
    match v
    case Int(_) => Success(v)
    case Bool(_) => Success(v)
    case Null => Failure(NotAString)
    case Str(s) => Loop(env, key, s, fuel)
    case _ => Loop(env, key, Dumps(v), fuel)
  }

  function ExpandItems(env: Env, key: string, items: seq<Value>, fuel: nat): (r: Result<seq<Value>, SubstError>)
    ensures r.Success? ==> |r.value| == |items|
    ensures r.Success? ==> forall k :: 0 <= k < |items| ==> GetVal(env, key, items[k], fuel) == Success(r.value[k])
    ensures r.Failure? <==> exists k :: 0 <= k < |items| && GetVal(env, key, items[k], fuel).Failure?
  {
    if |items| == 0 then Success([])
    else
      match GetVal(env, key, items[0], fuel)
      case Failure(e) => Failure(e)
      case Success(v) =>
        match ExpandItems(env, key, items[1..], fuel)
        case Failure(e) =>
          ghost var k :| 0 <= k < |items[1..]| && GetVal(env, key, items[1..][k], fuel).Failure?;
          assert items[k + 1] == items[1..][k];
          Failure(e)
        case Success(rest) =>
          assert forall k :: 1 <= k < |items| ==> items[k] == items[1..][k - 1];
          Success([v] + rest)
  }

  function ExpandFields(env: Env, key: string, fields: seq<(string, Value)>, fuel: nat): (r: Result<seq<(string, Value)>, SubstError>)
    ensures r.Success? ==> |r.value| == |fields|
    ensures r.Success? ==> forall k :: 0 <= k < |fields| ==>
      r.value[k].0 == fields[k].0 && GetVal(env, key, fields[k].1, fuel) == Success(r.value[k].1)
    ensures r.Failure? <==> exists k :: 0 <= k < |fields| && GetVal(env, key, fields[k].1, fuel).Failure?
  {
    if |fields| == 0 then Success([])
    else
      match GetVal(env, key, fields[0].1, fuel)
      case Failure(e) => Failure(e)
      case Success(v) =>
        match ExpandFields(env, key, fields[1..], fuel)
        case Failure(e) =>
          ghost var k :| 0 <= k < |fields[1..]| && GetVal(env, key, fields[1..][k].1, fuel).Failure?;
          assert fields[k + 1] == fields[1..][k];
          Failure(e)
        case Success(rest) =>
          assert forall k :: 1 <= k < |fields| ==> fields[k] == fields[1..][k - 1];
          Success([(fields[0].0, v)] + rest)
  }

  /** `update(env, key, value)`: expand `value` and store it under `key`. */
  function Update(env: Env, key: string, value: Value, fuel: nat): (r: Result<Env, SubstError>)
    ensures r.Success? ==> forall k :: k != key ==> Assoc.Get(r.value, k) == Assoc.Get(env, k)
    ensures !(value.Str? || value.List? || value.Dict?) ==> r == Success(Assoc.Put(env, key, value))
    ensures value.Str? ==> (r.Success? <==> GetVal(env, key, value, fuel).Success?)
    ensures value.Str? && r.Success? ==>
      Assoc.Get(r.value, key) == Some(GetVal(env, key, value, fuel).value)
    ensures value.List? ==> (r.Success? <==> ExpandItems(env, key, value.items, fuel).Success?)
    ensures value.List? && r.Success? ==>
      Assoc.Get(r.value, key) == Some(List(ExpandItems(env, key, value.items, fuel).value))
    ensures value.Dict? ==> (r.Success? <==> ExpandFields(env, key, value.fields, fuel).Success?)
    ensures value.Dict? && r.Success? ==>
      Assoc.Get(r.value, key) == Some(Dict(ExpandFields(env, key, value.fields, fuel).value))
  {
    match value
    case Str(_) =>
      var v :- GetVal(env, key, value, fuel);
      Success(Assoc.Put(env, key, v))
    case List(items) =>
      var expanded :- ExpandItems(env, key, items, fuel);
      Success(Assoc.Put(env, key, List(expanded)))
    case Dict(fields) =>
      var expanded :- ExpandFields(env, key, fields, fuel);
      Success(Assoc.Put(env, key, Dict(expanded)))
    case _ => Success(Assoc.Put(env, key, value))
  }
}

module EnvSubstProps {
  import opened Wrappers
  import opened Text
  import opened Values
  import opened EnvSubst
  import Assoc

  /** `${body}` */
  function Token(body: string): string {
    "${" + body + "}"
  }

  predicate NoBraces(s: string) {
    forall k :: 0 <= k < |s| ==> NotBrace(s[k])
  }

  /** The leftmost token of `pre + ${body} + post`, when `pre` holds no
      `$`, is `${body}`. */
  lemma {:induction false} FirstTokenAfter(pre: string, body: string, post: string)
    requires '$' !in pre && |body| > 0 && NoBraces(body)
    ensures FindToken(pre + Token(body) + post, 0) == Some((|pre|, |pre| + |body| + 3))
  {
    var s := pre + Token(body) + post;
    var i, j := |pre|, |pre| + |body| + 3;
    assert s[i..j] == Token(body);
    assert forall k :: i + 2 <= k < j - 1 ==> s[k] == body[k - i - 2];
    assert TokenAt(s, i, j);
    var r := FindToken(s, 0);
    assert r.Some?;
    var (a, b) := r.value;
    assert a <= i;
    assert forall m :: 0 <= m < i ==> s[m] == pre[m];
    assert s[a] == '$';
    assert a == i;
    var e := TokenEnd(s, i);
  }

  lemma IdentNoOperator(name: string, op: Op, k: nat)
    requires IsIdentifier(name) && k < |name|
    ensures !IsIdentChar(OpText(op)[0])
    ensures name[k] != OpText(op)[0]
  {
  }

  /** A separator cannot start inside an identifier. */
  lemma OperatorAfterName(name: string, rest: string, op: Op)
    requires IsIdentifier(name)
    ensures Occ(name + rest, op).Some? ==> Occ(name + rest, op).value >= |name|
  {
    var content := name + rest;
    var t := OpText(op);
    forall k | 0 <= k < |name|
      ensures !OccursAt(content, t, k)
    {
      IdentNoOperator(name, op, k);
      if k + |t| <= |content| {
        assert content[k..k + |t|][0] == name[k];
      }
    }
  }

  /** `${name<op>arg}`, with `//` preferred over `/` when `arg` starts with
      a slash. */
  predicate WellFormedOp(name: string, op: Op, arg: string) {
    IsIdentifier(name) && NoBraces(arg) && !(op == ReplaceOnce && |arg| > 0 && arg[0] == '/')
  }

  /** Two separators that both occur right after `name` in `name<op>arg`,
      the other listed no later than `op`, are the same. */
  lemma SameSeparator(name: string, op: Op, arg: string, other: Op)
    requires WellFormedOp(name, op, arg)
    requires OccursAt(name + OpText(op) + arg, OpText(other), |name|)
    requires Rank(other) <= Rank(op)
    ensures other == op
  {
    var content := name + OpText(op) + arg;
    var t, u := OpText(op), OpText(other);
    assert content[|name|..|name| + |u|] == u;
    assert content[|name|] == t[0] && content[|name|] == u[0];
    assert |u| == 2 ==> content[|name| + 1] == u[1];
    assert |content| > |name| + 1 ==>
      content[|name| + 1] == (if |t| == 2 then t[1] else arg[0]);
  }

  lemma {:induction false} OperatorSelected(name: string, op: Op, arg: string)
    requires WellFormedOp(name, op, arg)
    ensures IndexOf(name + OpText(op) + arg, OpText(op)) == Some(|name|)
    ensures FindSeparator(name + OpText(op) + arg) == Some(op)
  {
    var content := name + OpText(op) + arg;
    var t := OpText(op);
    assert content == name + (t + arg);
    assert OccursAt(content, t, |name|) by {
      assert content[|name|..|name| + |t|] == t;
    }
    OperatorAfterName(name, t + arg, op);
    assert IndexOf(content, t) == Some(|name|);
    FindSeparatorEarliest(content);
    var chosen := FindSeparator(content).value;
    OperatorAfterName(name, t + arg, chosen);
    SameSeparator(name, op, arg, chosen);
  }

  /** The body `name<op>arg` selects `op` and splits into `name` and `arg`. */
  lemma OperatorBody(name: string, op: Op, arg: string)
    requires WellFormedOp(name, op, arg)
    ensures FindSeparator(name + OpText(op) + arg) == Some(op)
    ensures Partition(name + OpText(op) + arg, OpText(op)) == Parts(name, true, arg)
    ensures !IsIdentifier(name + OpText(op) + arg)
  {
    var content := name + OpText(op) + arg;
    OperatorSelected(name, op, arg);
    assert content[..|name|] == name;
    assert content[|name| + |OpText(op)|..] == arg;
    assert content[|name|] == OpText(op)[0];
    IdentNoOperator(name, op, 0);
  }

  /** A string without `$` holds no token. */
  lemma NoDollarNoToken(s: string)
    requires '$' !in s
    ensures FindToken(s, 0).None?
  {
  }

  /** The variable is stored and is not `None`. */
  predicate Defined(env: Env, name: string) {
    Assoc.Get(env, name).Some? && !Assoc.Get(env, name).value.Null?
  }

  /** The round that resolves `pre + ${body} + post` when `pre` has no
      `$` works on `${body}`. */
  lemma StepAtToken(env: Env, key: string, pre: string, body: string, post: string)
    requires '$' !in pre && |body| > 0 && NoBraces(body)
    ensures Step(env, key, pre + Token(body) + post) ==
      if IsIdentifier(body) then ResolvePlain(env, key, pre + Token(body) + post, Token(body), body)
      else ResolveOp(env, key, pre + Token(body) + post, Token(body), body)
  {
    var s := pre + Token(body) + post;
    FirstTokenAfter(pre, body, post);
    assert s[|pre|..|pre| + |body| + 3] == Token(body);
    assert s[|pre| + 2..|pre| + |body| + 2] == body;
    StepFound(env, key, s, |pre|, |pre| + |body| + 3);
    assert StepAt(env, key, s, |pre|, |pre| + |body| + 3) ==
      if IsIdentifier(body) then ResolvePlain(env, key, s, Token(body), body)
      else ResolveOp(env, key, s, Token(body), body);
  }

  /** The round works on the leftmost token it finds. */
  lemma StepFound(env: Env, key: string, s: string, i: nat, j: nat)
    requires FindToken(s, 0) == Some((i, j))
    ensures TokenAt(s, i, j) && Step(env, key, s) == StepAt(env, key, s, i, j)
  {
  }

  lemma StepWholeToken(env: Env, key: string, body: string)
    requires |body| > 0 && NoBraces(body)
    ensures Step(env, key, Token(body)) ==
      if IsIdentifier(body) then ResolvePlain(env, key, Token(body), Token(body), body)
      else ResolveOp(env, key, Token(body), Token(body), body)
  {
    StepAtToken(env, key, "", body, "");
    assert "" + Token(body) + "" == Token(body);
  }

  /** A plain reference to a variable that is not defined yet fails: "K
      references itself" when it names the key being defined, "NAME hasn't
      been defined" otherwise. */
  lemma UndefinedReference(env: Env, key: string, pre: string, name: string, post: string, fuel: nat)
    requires IsIdentifier(name) && !Assoc.HasKey(env, name) && '$' !in pre
    ensures GetVal(env, key, Str(pre + Token(name) + post), fuel + 1)
      == Failure(if name == key then SelfReference(key) else NotDefined(name))
  {
    StepAtToken(env, key, pre, name, post);
    LoopUnfold(env, key, pre + Token(name) + post, fuel + 1);
  }

  /** A value that is exactly one plain reference becomes the variable's
      value itself, whatever its type (a list stays a list). */
  lemma WholeReference(env: Env, key: string, name: string, fuel: nat)
    requires IsIdentifier(name) && Assoc.HasKey(env, name)
    ensures GetVal(env, key, Str(Token(name)), fuel + 1) == Success(Assoc.Get(env, name).value)
  {
    StepWholeToken(env, key, name);
    LoopUnfold(env, key, Token(name), fuel + 1);
  }

  /** The whole-value operator token `${name<op>arg}` in one round. */
  lemma ResolveOpWhole(env: Env, key: string, name: string, op: Op, arg: string)
    requires WellFormedOp(name, op, arg)
    ensures |name + OpText(op) + arg| > 0 && NoBraces(name + OpText(op) + arg)
    ensures !IsIdentifier(name + OpText(op) + arg)
    ensures var body := name + OpText(op) + arg;
      ResolveOp(env, key, Token(body), Token(body), body) ==
        if GetDefined(env, name).None? && !AllowMissing(op) then Failure(MissingRef(key, name))
        else
          match ApplyOp(op, GetDefined(env, name), arg)
          case Failure(e) => Failure(e)
          case Success(v) => Success(Done(v))
  {
    OperatorBody(name, op, arg);
    OpBodyNoBraces(name, op, arg);
    var body := name + OpText(op) + arg;
    var parts := Partition(body, OpText(op));
    assert parts.before == name && parts.after == arg;
  }

  /** The body `name<op>arg` of a well-formed operator token holds no brace. */
  lemma OpBodyNoBraces(name: string, op: Op, arg: string)
    requires WellFormedOp(name, op, arg)
    ensures NoBraces(name + OpText(op) + arg)
  {
    var body := name + OpText(op) + arg;
    forall k | 0 <= k < |body|
      ensures NotBrace(body[k])
    {
      if k < |name| {
        assert body[k] == name[k];
      } else if k < |name| + |OpText(op)| {
        assert body[k] == OpText(op)[k - |name|];
      } else {
        assert body[k] == arg[k - |name| - |OpText(op)|];
      }
    }
  }

  /** The operator token as the whole value, expanded. */
  lemma OperatorWhole(env: Env, key: string, name: string, op: Op, arg: string, fuel: nat)
    requires WellFormedOp(name, op, arg)
    ensures GetVal(env, key, Str(Token(name + OpText(op) + arg)), fuel + 1) ==
      if GetDefined(env, name).None? && !AllowMissing(op) then Failure(MissingRef(key, name))
      else ApplyOp(op, GetDefined(env, name), arg)
  {
    var body := name + OpText(op) + arg;
    ResolveOpWhole(env, key, name, op, arg);
    StepWholeToken(env, key, body);
    LoopUnfold(env, key, Token(body), fuel + 1);
  }

  lemma {:induction false} ReplaceAllUnrelatedPrefix(a: string, p: string, r: string, rest: string)
    requires |p| > 0 && p[0] !in a
    ensures ReplaceAll(a + rest, p, r) == a + ReplaceAll(rest, p, r)
    decreases |a|
  {
    if |a| > 0 {
      var s := a + rest;
      assert s[0] == a[0];
      assert !(|s| >= |p| && s[..|p|] == p);
      assert s[1..] == a[1..] + rest;
      ReplaceAllUnrelatedPrefix(a[1..], p, r, rest);
    } else {
      assert a + rest == rest;
    }
  }

  lemma NotContainedByHead(b: string, p: string)
    requires |p| > 0 && p[0] !in b
    ensures !Contains(b, p)
  {
    forall k: nat
      ensures !OccursAt(b, p, k)
    {
      if k + |p| <= |b| {
        assert b[k..k + |p|][0] == b[k];
      }
    }
  }

  /** Replacing a pattern whose first character appears neither before nor
      after its one occurrence. */
  lemma ReplaceAllSingle(pre: string, p: string, post: string, r: string)
    requires |p| > 0 && p[0] !in pre && p[0] !in post
    ensures ReplaceAll(pre + p + post, p, r) == pre + r + post
  {
    assert pre + p + post == pre + (p + post);
    ReplaceAllUnrelatedPrefix(pre, p, r, p + post);
    assert (p + post)[..|p|] == p;
    assert (p + post)[|p|..] == post;
    NotContainedByHead(post, p);
    ReplaceAllAbsent(post, p, r);
  }

  /** A reference inside a longer value is replaced by the variable's text
      (JSON for lists, mappings and numbers); with no `$` elsewhere that
      finishes the expansion. */
  lemma SplicedReference(env: Env, key: string, pre: string, name: string, post: string, fuel: nat)
    requires IsIdentifier(name) && Defined(env, name)
    requires '$' !in pre && '$' !in post && |pre| + |post| > 0
    requires '$' !in ToStr(Assoc.Get(env, name).value).value
    ensures GetVal(env, key, Str(pre + Token(name) + post), fuel + 2)
      == Success(Str(pre + ToStr(Assoc.Get(env, name).value).value + post))
  {
    var tok := Token(name);
    var s := pre + tok + post;
    var t := ToStr(Assoc.Get(env, name).value).value;
    StepAtToken(env, key, pre, name, post);
    assert |s| != |tok|;
    ReplaceAllSingle(pre, tok, post, t);
    assert Step(env, key, s) == Success(Continue(pre + t + post));
    NoDollarNoToken(pre + t + post);
    LoopUnfold(env, key, s, fuel + 2);
    LoopUnfold(env, key, pre + t + post, fuel + 1);
  }

  /** `${name:-default}` gives the variable's value if it is defined (with
      its type), else the default text. */
  lemma DefaultOperator(env: Env, key: string, name: string, arg: string, fuel: nat)
    requires WellFormedOp(name, UseDefault, arg)
    ensures GetVal(env, key, Str(Token(name + ":-" + arg)), fuel + 1)
      == Success(if Defined(env, name) then Assoc.Get(env, name).value else Str(arg))
  {
    OperatorWhole(env, key, name, UseDefault, arg, fuel);
  }

  /** `${name:+text}` gives the text if the variable is defined, else the
      empty string; neither operator fails on an undefined variable. */
  lemma AlternativeOperator(env: Env, key: string, name: string, arg: string, fuel: nat)
    requires WellFormedOp(name, UseAlternative, arg)
    ensures GetVal(env, key, Str(Token(name + ":+" + arg)), fuel + 1)
      == Success(Str(if Defined(env, name) then arg else ""))
  {
    OperatorWhole(env, key, name, UseAlternative, arg, fuel);
  }

  /** `${name/regex/replacement}` and `${name//regex/replacement}` need the
      variable; they replace the first, respectively every, occurrence in
      its text, and reject a body of no recognised shape. */
  lemma ReplaceOperator(env: Env, key: string, name: string, op: Op, arg: string, fuel: nat)
    requires op == ReplaceOnce || op == ReplaceEvery
    requires WellFormedOp(name, op, arg)
    ensures !Defined(env, name) ==>
      GetVal(env, key, Str(Token(name + OpText(op) + arg)), fuel + 1)
        == Failure(if name == key then SelfReference(key) else NotDefined(name))
    ensures Defined(env, name) && ParseReplacement(arg).None? ==>
      GetVal(env, key, Str(Token(name + OpText(op) + arg)), fuel + 1)
        == Failure(WrongReplacement(if op == ReplaceOnce then "/" else "//"))
    ensures Defined(env, name) && ParseReplacement(arg).Some? ==>
      var (regex, replacement) := ParseReplacement(arg).value;
      var text := ToStr(Assoc.Get(env, name).value).value;
      GetVal(env, key, Str(Token(name + OpText(op) + arg)), fuel + 1)
        == Success(Str(if op == ReplaceOnce then ReplaceFirst(text, regex, replacement)
                       else ReplaceAll(text, regex, replacement)))
  {
    OperatorWhole(env, key, name, op, arg, fuel);
  }

  lemma {:induction false} IterateFuelMonotone(step: string -> Result<StepResult, SubstError>, s: string, fuel: nat, more: nat)
    requires Iterate(step, s, fuel) != Failure(OutOfFuel)
    ensures Iterate(step, s, fuel + more) == Iterate(step, s, fuel)
    decreases fuel
  {
    var r := step(s);
    if r.Success? && r.value.Continue? {
      IterateFuelMonotone(step, r.value.s, fuel - 1, more);
    }
  }

  /** More fuel does not change a finished expansion. */
  lemma LoopFuelMonotone(env: Env, key: string, s: string, fuel: nat, more: nat)
    requires Loop(env, key, s, fuel) != Failure(OutOfFuel)
    ensures Loop(env, key, s, fuel + more) == Loop(env, key, s, fuel)
  {
    IterateFuelMonotone(x => Step(env, key, x), s, fuel, more);
  }

  lemma LoopUnfold(env: Env, key: string, s: string, fuel: nat)
    requires fuel > 0
    ensures Loop(env, key, s, fuel) ==
      match Step(env, key, s)
      case Failure(e) => Failure(e)
      case Success(Done(v)) => Success(v)
      case Success(Continue(s')) => Loop(env, key, s', fuel - 1)
  {
  }
}

=== FILE: error_render.dfy ===
/** The rendering of a position in a YAML file for an error message: a
    window of numbered lines and a caret under the offending column. */
module ErrorRender {
  import opened Wrappers
  import opened Text

  /** `" " * n`; a negative count gives the empty string. */
  function Spaces(n: int): (r: string)
    ensures |r| == if n < 0 then 0 else n
    ensures forall i :: 0 <= i < |r| ==> r[i] == ' '
  {
    if n <= 0 then "" else Spaces(n - 1) + " "
  }

  /** `"%*d" % (width, n)`: the decimal digits right-aligned in `width`
      columns, never cut short. */
  function PadNumber(n: nat, width: nat): (r: string)
    ensures |r| == if |NatToString(n)| < width then width else |NatToString(n)|
  {
    Spaces(width - |NatToString(n)|) + NatToString(n)
  }

  /** One line of the rendering. */
  datatype OutLine =
    | FileLine(name: string)                        // "file '%s':"
    | Source(ident: nat, number: nat, text: string) // "%{ident}d: %s"
    | Caret(col: nat, ident: nat)                   // spaces, then "^"

  /** `fmt % (i, l)` with `fmt == "%{ident}d: %s"`. */
  function NumberedLine(ident: nat, i: nat, text: string): string {
    PadNumber(i, ident) + ": " + text
  }

  /** `"%s^" % (" " * (col + ident + 2),)` */
  function CaretLine(col: nat, ident: nat): string {
    Spaces(col + ident + 2) + "^"
  }

  /** The text of a line of the rendering. */
  function LineText(o: OutLine): string {
    match o
    case FileLine(name) => "file '" + name + "':"
    case Source(ident, number, text) => NumberedLine(ident, number, text)
    case Caret(col, ident) => CaretLine(col, ident)
  }

  /** The lines as strings, as `render_lc` returns them. */
  function Texts(out: seq<OutLine>): (r: seq<string>)
    ensures |r| == |out|
    ensures forall k :: 0 <= k < |out| ==> r[k] == LineText(out[k])
  {
    if |out| == 0 then [] else [LineText(out[0])] + Texts(out[1..])
  }

  /** The numbered lines `lo` up to, not including, `hi`. */
  function Numbered(lines: seq<string>, ident: nat, lo: nat, hi: nat): (r: seq<OutLine>)
    requires lo <= hi <= |lines|
    ensures |r| == hi - lo
    ensures forall k :: 0 <= k < |r| ==> r[k] == Source(ident, lo + k, lines[lo + k])
    decreases hi - lo
  {
    if lo == hi then [] else [Source(ident, lo, lines[lo])] + Numbered(lines, ident, lo + 1, hi)
  }

  datatype RenderError = LineOutOfRange(line: nat) // IndexError on `lines[line]`

  /** The lines of the non-negative branch, without the file header: the
      numbered window and the caret. */
  function LinesBefore(lines: seq<string>, line: nat, col: nat, numLines: nat): seq<OutLine> {
    var ident := |NatToString(line)|;
    Numbered(lines, ident, WindowLo(line, numLines, |lines|), WindowStop(line, |lines|)) + [Caret(col, ident)]
  }

  /** The end of `lines[start:line+1]` in a file of `count` lines. */
  function WindowStop(line: nat, count: nat): (stop: nat)
    ensures stop <= count && stop <= line + 1
  {
    if line + 1 < count then line + 1 else count
  }

  /** The start of `lines[start:line+1]`, `start = max(line - numLines, 0)`,
      once Python has clipped it to the end of the slice. */
  function WindowLo(line: nat, numLines: nat, count: nat): (lo: nat)
    ensures lo <= WindowStop(line, count)
  {
    var start := if line >= numLines then line - numLines else 0;
    var stop := WindowStop(line, count);
    if start < stop then start else stop
  }

  /** The lines of the negative branch, without the file header: the error
      line, the caret and the numbered lines after it. */
  function LinesAfter(lines: seq<string>, line: nat, col: nat, numLines: int): seq<OutLine>
    requires numLines < 0 && line < |lines|
  {
    var end := if line - numLines < |lines| - 1 then line - numLines else |lines| - 1;
    var ident := |NatToString(end)|;
    [Source(ident, line, lines[line]), Caret(col, ident)] + Numbered(lines, ident, line + 1, end + 1)
  }

  /** `render_lc(file_, line, col, num_lines, print_file)` for the file
      named `name` whose `splitlines()` are `lines`, line by line (`Texts`
      gives the strings). A non-negative `numLines` shows that many lines
      before `line`; a negative one shows `-numLines` lines after it,
      below the caret. */
  function RenderLc(name: string, lines: seq<string>, line: nat, col: nat, numLines: int, printFile: bool): (r: Result<seq<OutLine>, RenderError>)
    ensures r.Failure? <==> numLines < 0 && line >= |lines|
    ensures r.Success? && printFile ==> |r.value| > 0 && r.value[0] == FileLine(name)
    ensures r.Success? && !printFile ==> forall k :: 0 <= k < |r.value| ==> !r.value[k].FileLine?
  {
    var header := if printFile then [FileLine(name)] else [];
    if numLines >= 0 then Success(header + LinesBefore(lines, line, col, numLines))
    else if line >= |lines| then Failure(LineOutOfRange(line))
    else Success(header + LinesAfter(lines, line, col, numLines))
  }

  /** A number never wider than the field keeps the line's text two
      columns after the field. */
  lemma NumberedLineText(ident: nat, i: nat, text: string)
    requires |NatToString(i)| <= ident
    ensures |NumberedLine(ident, i, text)| == ident + 2 + |text|
    ensures NumberedLine(ident, i, text)[..ident] == PadNumber(i, ident)
    ensures NumberedLine(ident, i, text)[ident..ident + 2] == ": "
    ensures NumberedLine(ident, i, text)[ident + 2..] == text
  {
  }

  /** The caret sits in column `col + ident + 2`, after spaces only: under
      character `col` of the text of any numbered line whose number fits
      the field. */
  lemma CaretUnderColumn(col: nat, ident: nat, i: nat, text: string)
    requires col < |text| && |NatToString(i)| <= ident
    ensures var c := LineText(Caret(col, ident));
      |c| == col + ident + 3 && c[col + ident + 2] == '^' &&
      (forall k :: 0 <= k < col + ident + 2 ==> c[k] == ' ')
    ensures LineText(Source(ident, i, text))[col + ident + 2] == text[col]
  {
    NumberedLineText(ident, i, text);
  }

  /** Stripping left removes exactly the padding before the digits. */
  lemma {:induction false} LStripPadding(pad: string, digits: string)
    requires forall k :: 0 <= k < |pad| ==> pad[k] == ' '
    requires IsDigits(digits)
    ensures LStripSet(pad + digits, Whitespace) == digits
    decreases |pad|
  {
    if |pad| > 0 {
      assert (pad + digits)[0] == ' ';
      assert (pad + digits)[1..] == pad[1..] + digits;
      LStripPadding(pad[1..], digits);
    } else {
      assert pad + digits == digits;
      assert digits[0] !in Whitespace by {
        assert IsDigit(digits[0]);
      }
    }
  }

  /** The padded number field reads back as the line number. */
  lemma PadNumberReads(i: nat, width: nat)
    ensures ParseInt(PadNumber(i, width)) == Some(i)
  {
    PaddingStripped(i, width);
    DigitsRead(i);
  }

  /** Stripping the padded field leaves the digits. */
  lemma PaddingStripped(i: nat, width: nat)
    ensures Strip(PadNumber(i, width)) == NatToString(i)
  {
    var digits := NatToString(i);
    var pad := Spaces(width - |digits|);
    assert PadNumber(i, width) == pad + digits;
    assert LStripSet(pad + digits, Whitespace) == digits by {
      LStripPadding(pad, digits);
    }
    DigitsUnstripped(digits);
    StripBoth(PadNumber(i, width), digits);
  }

  /** Digits end in no whitespace. */
  lemma DigitsUnstripped(digits: string)
    requires IsDigits(digits)
    ensures RStripSet(digits, Whitespace) == digits
  {
    if |digits| > 0 {
      assert IsDigit(digits[|digits| - 1]);
    }
  }

  /** Stripping is stripping the left and then the right. */
  lemma StripBoth(s: string, t: string)
    requires LStripSet(s, Whitespace) == t && RStripSet(t, Whitespace) == t
    ensures Strip(s) == t
  {
  }

  /** The digits of `i` read back as `i`. */
  lemma DigitsRead(i: nat)
    ensures ParseSigned(NatToString(i)) == Some(i)
  {
    var digits := NatToString(i);
    assert Strip(digits) == digits;
    assert ParseInt(digits) == Some(i);
  }

  /** Lines `lo` to `hi` of the file, inclusive, sit in `r` at `offset`
      onwards, each numbered with its own index in a field `ident` wide. */
  predicate Window(r: seq<OutLine>, offset: int, ident: nat, lines: seq<string>, lo: nat, hi: nat) {
    forall k: nat :: lo <= k <= hi ==> Shows(r, offset, ident, lines, k)
  }

  /** Line `k` of the file sits in `r` at `offset + k`. */
  predicate Shows(r: seq<OutLine>, offset: int, ident: nat, lines: seq<string>, k: nat) {
    0 <= offset + k < |r| && k < |lines| && r[offset + k] == Source(ident, k, lines[k])
  }

  /** With `numLines >= 0`: the lines shown are the window from
      `numLines` before `line` (at the first line at the latest) to `line`,
      cut at the end of the file (so an error line past the end shows the
      tail of the window that exists, possibly nothing), in order and each
      numbered with its own index, and then the caret. */
  lemma RenderBefore(name: string, lines: seq<string>, line: nat, col: nat, numLines: nat, printFile: bool)
    ensures var r := RenderLc(name, lines, line, col, numLines, printFile).value;
      var h := if printFile then 1 else 0;
      var lo, stop := WindowLo(line, numLines, |lines|), WindowStop(line, |lines|);
      var ident := |NatToString(line)|;
      |r| == h + (stop - lo) + 1 &&
      (stop > 0 ==> Window(r, h - lo, ident, lines, lo, stop - 1)) &&
      r[|r| - 1] == Caret(col, ident)
  {
    var header: seq<OutLine> := if printFile then [FileLine(name)] else [];
    LinesBeforeWindow(lines, line, col, numLines);
    RenderLcBefore(name, lines, line, col, numLines, printFile);
    HeaderShift(RenderLc(name, lines, line, col, numLines, printFile).value, if printFile then 1 else 0,
      LinesBefore(lines, line, col, numLines), header, lines,
      WindowLo(line, numLines, |lines|), WindowStop(line, |lines|), |NatToString(line)|, col);
  }

  /** A header before the window and caret moves both down. */
  lemma HeaderShift(r: seq<OutLine>, h: int, lb: seq<OutLine>, header: seq<OutLine>, lines: seq<string>, lo: nat, stop: nat, ident: nat, col: nat)
    requires r == header + lb && h == |header|
    requires lo <= stop && |lb| == stop - lo + 1 && lb[|lb| - 1] == Caret(col, ident)
    requires stop > 0 ==> Window(lb, 0 - lo, ident, lines, lo, stop - 1)
    ensures |r| == h + (stop - lo) + 1
    ensures stop > 0 ==> Window(r, h - lo, ident, lines, lo, stop - 1)
    ensures r[|r| - 1] == Caret(col, ident)
  {
    if stop > 0 {
      WindowShift(lb, header, 0 - lo, ident, lines, lo, stop - 1);
    }
  }

  lemma RenderLcBefore(name: string, lines: seq<string>, line: nat, col: nat, numLines: nat, printFile: bool)
    ensures RenderLc(name, lines, line, col, numLines, printFile)
      == Success((if printFile then [FileLine(name)] else []) + LinesBefore(lines, line, col, numLines))
  {
  }

  lemma LinesBeforeWindow(lines: seq<string>, line: nat, col: nat, numLines: nat)
    ensures var lb := LinesBefore(lines, line, col, numLines);
      var lo, stop := WindowLo(line, numLines, |lines|), WindowStop(line, |lines|);
      var ident := |NatToString(line)|;
      |lb| == stop - lo + 1 &&
      (stop > 0 ==> Window(lb, 0 - lo, ident, lines, lo, stop - 1)) &&
      lb[|lb| - 1] == Caret(col, ident)
  {
    var lo, stop := WindowLo(line, numLines, |lines|), WindowStop(line, |lines|);
    var ident := |NatToString(line)|;
    var body := Numbered(lines, ident, lo, stop);
    var lb := body + [Caret(col, ident)];
    assert LinesBefore(lines, line, col, numLines) == lb;
    var offset := 0 - lo;
    forall k: nat | lo <= k < stop
      ensures Shows(lb, offset, ident, lines, k)
    {
      assert lb[k - lo] == body[k - lo];
    }
  }

  /** A header before a window moves it down by the header's length. */
  lemma WindowShift(r: seq<OutLine>, header: seq<OutLine>, offset: int, ident: nat, lines: seq<string>, lo: nat, hi: nat)
    requires Window(r, offset, ident, lines, lo, hi)
    ensures Window(header + r, offset + |header|, ident, lines, lo, hi)
  {
    var moved, shifted := header + r, offset + |header|;
    forall k: nat | lo <= k <= hi
      ensures Shows(moved, shifted, ident, lines, k)
    {
      assert Shows(r, offset, ident, lines, k);
      assert (header + r)[offset + |header| + k] == r[offset + k];
    }
  }

  /** Each line number of the window fits the field sized for `line`. */
  lemma NumberFits(k: nat, line: nat)
    requires k <= line
    ensures |NatToString(k)| <= |NatToString(line)|
    decreases line
  {
    if line >= 10 {
      if k >= 10 {
        NumberFits(k / 10, line / 10);
        assert NatToString(k) == NatToString(k / 10) + [DigitChar(k % 10)];
        assert NatToString(line) == NatToString(line / 10) + [DigitChar(line % 10)];
      } else {
        assert NatToString(line) == NatToString(line / 10) + [DigitChar(line % 10)];
      }
    }
  }

  /** With `numLines < 0`: the line of the error comes first, then the
      caret, then the `-numLines` lines after it (cut at the end of the
      file); an error line past the end fails. */
  lemma RenderAfter(name: string, lines: seq<string>, line: nat, col: nat, numLines: int, printFile: bool)
    requires numLines < 0 && line < |lines|
    ensures var r := RenderLc(name, lines, line, col, numLines, printFile).value;
      var h := if printFile then 1 else 0;
      var last := if line - numLines < |lines| - 1 then line - numLines else |lines| - 1;
      var ident := |NatToString(last)|;
      |r| == h + 2 + (last - line) &&
      r[h] == Source(ident, line, lines[line]) && r[h + 1] == Caret(col, ident) &&
      Window(r, h + 1 - line, ident, lines, line + 1, last)
  {
    var last := if line - numLines < |lines| - 1 then line - numLines else |lines| - 1;
    var header := if printFile then [FileLine(name)] else [];
    var la := LinesAfter(lines, line, col, numLines);
    LinesAfterWindow(lines, line, col, numLines);
    assert RenderLc(name, lines, line, col, numLines, printFile).value == header + la;
    WindowShift(la, header, 1 - line, |NatToString(last)|, lines, line + 1, last);
  }

  lemma LinesAfterWindow(lines: seq<string>, line: nat, col: nat, numLines: int)
    requires numLines < 0 && line < |lines|
    ensures var la := LinesAfter(lines, line, col, numLines);
      var last := if line - numLines < |lines| - 1 then line - numLines else |lines| - 1;
      var ident := |NatToString(last)|;
      |la| == 2 + (last - line) &&
      la[0] == Source(ident, line, lines[line]) && la[1] == Caret(col, ident) &&
      Window(la, 1 - line, ident, lines, line + 1, last)
  {
    var last := if line - numLines < |lines| - 1 then line - numLines else |lines| - 1;
    var ident := |NatToString(last)|;
    var body := Numbered(lines, ident, line + 1, last + 1);
    var la := [Source(ident, line, lines[line]), Caret(col, ident)] + body;
    assert LinesAfter(lines, line, col, numLines) == la;
    var offset := 1 - line;
    forall k: nat | line + 1 <= k <= last
      ensures Shows(la, offset, ident, lines, k)
    {
      assert la[1 - line + k] == body[k - line - 1];
    }
  }

  /** The width of the number field: that of the error line's number
      with `numLines >= 0`, that of the last line shown otherwise. */
  function FieldWidth(lines: seq<string>, line: nat, numLines: int): nat
    requires numLines >= 0 || line < |lines|
  {
    if numLines >= 0 then |NatToString(line)|
    else |NatToString(if line - numLines < |lines| - 1 then line - numLines else |lines| - 1)|
  }

  /** Alignment in the lines of the non-negative branch. */
  lemma AlignedBefore(lines: seq<string>, line: nat, col: nat, numLines: nat, j: nat)
    requires j < |LinesBefore(lines, line, col, numLines)|
    ensures var o := LinesBefore(lines, line, col, numLines)[j];
      (o.Source? ==> |NatToString(o.number)| <= o.ident == |NatToString(line)|) &&
      (o.Caret? ==> o.ident == |NatToString(line)| && o.col == col)
  {
    var w := |NatToString(line)|;
    var stop := if line + 1 < |lines| then line + 1 else |lines|;
    var start := if line >= numLines then line - numLines else 0;
    var lo := if start < stop then start else stop;
    var body := Numbered(lines, w, lo, stop);
    if j < |body| {
      NumberFits(lo + j, line);
    }
  }

  /** Alignment in the lines of the negative branch. */
  lemma AlignedAfter(lines: seq<string>, line: nat, col: nat, numLines: int, j: nat)
    requires numLines < 0 && line < |lines|
    requires j < |LinesAfter(lines, line, col, numLines)|
    ensures var o := LinesAfter(lines, line, col, numLines)[j];
      var w := FieldWidth(lines, line, numLines);
      (o.Source? ==> |NatToString(o.number)| <= o.ident == w) &&
      (o.Caret? ==> o.ident == w && o.col == col)
  {
    var last := if line - numLines < |lines| - 1 then line - numLines else |lines| - 1;
    var w := |NatToString(last)|;
    var body := Numbered(lines, w, line + 1, last + 1);
    if j == 0 {
      NumberFits(line, last);
    } else if j >= 2 {
      assert LinesAfter(lines, line, col, numLines)[j] == body[j - 2];
      NumberFits(line + 1 + j - 2, last);
    }
  }

  /** Every numbered line shown fits the one number field width, and the
      caret line is offset by that same width, so the caret lands under
      column `col` of each of them. */
  lemma RenderAligned(name: string, lines: seq<string>, line: nat, col: nat, numLines: int, printFile: bool, j: nat)
    requires RenderLc(name, lines, line, col, numLines, printFile).Success?
    requires j < |RenderLc(name, lines, line, col, numLines, printFile).value|
    ensures var o := RenderLc(name, lines, line, col, numLines, printFile).value[j];
      var w := FieldWidth(lines, line, numLines);
      (o.Source? ==> |NatToString(o.number)| <= o.ident == w) &&
      (o.Caret? ==> o.ident == w && o.col == col)
  {
    var h := if printFile then 1 else 0;
    if j >= h {
      if numLines >= 0 {
        AlignedBefore(lines, line, col, numLines, j - h);
      } else {
        AlignedAfter(lines, line, col, numLines, j - h);
      }
    }
  }
}

=== FILE: observer.dfy ===
/** The build observer: a phase that the three `enter` calls move forward,
    and one message per call tagged with the phase current at that call;
    the stream observer writes each message other than ENTER as one line. */
module Observer {
  import opened Wrappers
  import opened Text
  import opened Backends

  datatype Phase = NONE | PREPARE | BUILD | DONE
  datatype Message = ENTER | START_STEP | END_STEP | MANAGER_MSG | CONTAINER_MSG

  function PhaseName(p: Phase): string {
    match p
    case NONE => "NONE"
    case PREPARE => "PREPARE"
    case BUILD => "BUILD"
    case DONE => "DONE"
  }

  /** `type_.name.lower()` */
  function MessageName(m: Message): string {
    match m
    case ENTER => "enter"
    case START_STEP => "start_step"
    case END_STEP => "end_step"
    case MANAGER_MSG => "manager_msg"
    case CONTAINER_MSG => "container_msg"
  }

  /** A call made on an observer. */
  datatype Call =
    | EnterPrepare
    | EnterBuild
    | Done(result: Option<BuildResult>)
    | StartStep(step: int)
    | EndStep(step: int)
    | ManagerMsg(step: int, msg: string)
    | ContainerMsg(step: int, msg: string)
  {
    predicate IsEnter() {
      EnterPrepare? || EnterBuild? || Done?
    }
  }

  /** What `_message` is handed for one call. */
  datatype Event = Event(
    phase: Phase,
    kind: Message,
    step: Option<int>,
    data: Option<string>,
    result: Option<BuildResult>)

  /** The phase an `enter` call moves to. */
  function Entered(c: Call): Phase
    requires c.IsEnter()
  {
    match c
    case EnterPrepare => PREPARE
    case EnterBuild => BUILD
    case Done(_) => DONE
  }

  /** The message kind a call emits. */
  function KindOf(c: Call): (m: Message)
    ensures m == ENTER <==> c.IsEnter()
  {
    match c
    case StartStep(_) => START_STEP
    case EndStep(_) => END_STEP
    case ManagerMsg(_, _) => MANAGER_MSG
    case ContainerMsg(_, _) => CONTAINER_MSG
    case _ => ENTER
  }

  /** One call on an observer in phase `state`: the phase afterwards and
      the message emitted. */
  function Emit(state: Phase, c: Call): (r: (Phase, Event))
    ensures r.1.kind == KindOf(c)
    ensures r.1.phase == r.0
    ensures c.IsEnter() ==> r.0 == Entered(c)
    ensures !c.IsEnter() ==> r.0 == state && r.1.step == Some(c.step) && r.1.result.None?
  {
    match c
    case EnterPrepare => (PREPARE, Event(PREPARE, ENTER, None, None, None))
    case EnterBuild => (BUILD, Event(BUILD, ENTER, None, None, None))
    case Done(result) => (DONE, Event(DONE, ENTER, None, None, result))
    case StartStep(i) => (state, Event(state, START_STEP, Some(i), None, None))
    case EndStep(i) => (state, Event(state, END_STEP, Some(i), None, None))
    case ManagerMsg(i, msg) => (state, Event(state, MANAGER_MSG, Some(i), Some(msg), None))
    case ContainerMsg(i, msg) => (state, Event(state, CONTAINER_MSG, Some(i), Some(msg), None))
  }

  /** A sequence of calls, from phase `state`: the final phase and the
      messages, one per call. */
  function Run(state: Phase, calls: seq<Call>): (r: (Phase, seq<Event>))
    ensures |r.1| == |calls|
    ensures forall k :: 0 <= k < |calls| ==> r.1[k].kind == KindOf(calls[k])
    decreases |calls|
  {
    if |calls| == 0 then (state, [])
    else
      var first := Emit(state, calls[0]);
      var rest := Run(first.0, calls[1..]);
      (rest.0, [first.1] + rest.1)
  }

  /** The phase named by the last `enter` call among `calls`, or `state`
      when there is none. */
  function LastEntered(state: Phase, calls: seq<Call>): Phase {
    if |calls| == 0 then state
    else if calls[|calls| - 1].IsEnter() then Entered(calls[|calls| - 1])
    else LastEntered(state, calls[..|calls| - 1])
  }

  lemma {:induction false} LastEnteredCons(state: Phase, calls: seq<Call>)
    requires |calls| > 0
    ensures LastEntered(state, calls) == LastEntered(Emit(state, calls[0]).0, calls[1..])
    decreases |calls|
  {
    if |calls| > 1 {
      var last := calls[|calls| - 1];
      assert calls[1..][..|calls| - 2] == calls[..|calls| - 1][1..];
      if !last.IsEnter() {
        LastEnteredCons(state, calls[..|calls| - 1]);
      }
    }
  }

  /** Every message carries the phase of the last `enter` call made up to
      and including it, and the observer ends in the phase of the last
      `enter` call. */
  lemma {:induction false} RunPhases(state: Phase, calls: seq<Call>)
    ensures Run(state, calls).0 == LastEntered(state, calls)
    ensures forall k :: 0 <= k < |calls| ==>
      Run(state, calls).1[k].phase == LastEntered(state, calls[..k + 1])
    decreases |calls|
  {
    if |calls| > 0 {
      var s1 := Emit(state, calls[0]).0;
      RunPhases(s1, calls[1..]);
      LastEnteredCons(state, calls);
      forall k | 0 <= k < |calls|
        ensures Run(state, calls).1[k].phase == LastEntered(state, calls[..k + 1])
      {
        PhaseAtShift(state, calls, k);
      }
    }
  }

  /** The message for call `k` is the one the rest of the calls emit for
      it, after the first call has moved the phase. */
  lemma PhaseAtShift(state: Phase, calls: seq<Call>, k: nat)
    requires k < |calls|
    requires var s1 := Emit(state, calls[0]).0;
      0 < k ==> Run(s1, calls[1..]).1[k - 1].phase == LastEntered(s1, calls[1..][..k])
    ensures Run(state, calls).1[k].phase == LastEntered(state, calls[..k + 1])
  {
    var first := Emit(state, calls[0]);
    var tail := calls[1..];
    var rest := Run(first.0, tail).1;
    assert Run(state, calls).1 == [first.1] + rest;
    var pre := calls[..k + 1];
    if k == 0 {
      assert pre == [calls[0]];
      assert pre[..0] == [];
    } else {
      assert Run(state, calls).1[k] == rest[k - 1];
      assert pre[0] == calls[0];
      assert pre[1..] == tail[..k];
      LastEnteredCons(state, pre);
    }
  }

  /** Calls made inside a phase: none of them is an `enter` call. */
  predicate StepLevel(calls: seq<Call>) {
    forall k :: 0 <= k < |calls| ==> !calls[k].IsEnter()
  }

  /** Step-level calls leave the phase alone and tag each message with it. */
  lemma WithinPhase(state: Phase, calls: seq<Call>)
    requires StepLevel(calls)
    ensures Run(state, calls).0 == state
    ensures forall k :: 0 <= k < |calls| ==> Run(state, calls).1[k].phase == state
  {
    RunPhases(state, calls);
    forall k | 0 <= k <= |calls|
      ensures LastEntered(state, calls[..k]) == state
    {
      NoEnterKeepsState(state, calls[..k]);
    }
    assert calls[..|calls|] == calls;
  }

  lemma {:induction false} NoEnterKeepsState(state: Phase, calls: seq<Call>)
    requires StepLevel(calls)
    ensures LastEntered(state, calls) == state
    decreases |calls|
  {
    if |calls| > 0 {
      NoEnterKeepsState(state, calls[..|calls| - 1]);
    }
  }

  lemma {:induction false} RunAppend(state: Phase, a: seq<Call>, b: seq<Call>)
    ensures Run(state, a + b) ==
      (Run(Run(state, a).0, b).0, Run(state, a).1 + Run(Run(state, a).0, b).1)
    decreases |a|
  {
    if |a| > 0 {
      var first := Emit(state, a[0]);
      assert (a + b)[0] == a[0];
      assert (a + b)[1..] == a[1..] + b;
      RunAppend(first.0, a[1..], b);
      var x, y := Run(first.0, a[1..]).1, Run(Run(first.0, a[1..]).0, b).1;
      assert [first.1] + (x + y) == ([first.1] + x) + y;
    } else {
      assert a + b == b;
      assert Run(state, a).1 + Run(state, b).1 == Run(state, b).1;
    }
  }

  // ---------------------------------------------------------------------
  // The stream observer
  // ---------------------------------------------------------------------

  /** `"{phase} {step}"`, or the phase's name alone without a step. */
  function Label(e: Event): string {
    match e.step
    case Some(i) => PhaseName(e.phase) + " " + IntToString(i)
    case None => PhaseName(e.phase)
  }

  /** What goes between the label and the text. */
  function Separator(m: Message): string {
    match m
    case CONTAINER_MSG => " >> "
    case MANAGER_MSG => " : "
    case _ => " "
  }

  /** The message's text, or the message's name when the text is missing
      or empty. */
  function Body(e: Event): string {
    match e.data
    case Some(d) => if |d| > 0 then d else MessageName(e.kind)
    case None => MessageName(e.kind)
  }

  /** The line the stream observer writes for an event, if any. */
  function Line(e: Event): (r: Option<string>)
    ensures r.None? <==> e.kind == ENTER
    ensures r.Some? ==> StartsWith(r.value, Label(e) + Separator(e.kind))
  {
    if e.kind == ENTER then None
    else Some(Label(e) + Separator(e.kind) + RStrip(Body(e)) + "\n")
  }

  /** A written line ends in exactly one line break: the text's trailing
      white space is dropped before the break is added, and the separator
      never ends in one. */
  lemma LineEndsOnce(e: Event)
    requires e.kind != ENTER
    ensures var l := Line(e).value;
      |l| >= 2 && l[|l| - 1] == '\n' && l[|l| - 2] != '\n'
  {
    var b := RStrip(Body(e));
    var pre := Label(e) + Separator(e.kind);
    var l := pre + b + "\n";
    assert Line(e).value == l;
    if |b| > 0 {
      assert l[|l| - 2] == b[|b| - 1];
    } else {
      assert l[|l| - 2] == pre[|pre| - 1] == ' ';
    }
  }

  /** A message whose text has no trailing white space is written as it
      came; one without text is written as the message's name. */
  lemma LineText(e: Event)
    requires e.kind != ENTER
    ensures e.data.Some? && |e.data.value| > 0 && e.data.value[|e.data.value| - 1] !in Whitespace ==>
      Line(e) == Some(Label(e) + Separator(e.kind) + e.data.value + "\n")
    ensures (e.data.None? || e.data == Some("")) ==>
      Line(e) == Some(Label(e) + Separator(e.kind) + MessageName(e.kind) + "\n")
  {
    var n := MessageName(e.kind);
    assert n[|n| - 1] !in Whitespace;
  }

  /** What a container says in the build phase, as the terminal shows it;
      a step's start in the prepare phase; and nothing for a phase entry. */
  lemma ContainerLine()
    ensures Line(Emit(BUILD, ContainerMsg(3, "ok \n")).1) == Some("BUILD 3 >> ok\n")
    ensures Line(Emit(PREPARE, StartStep(0)).1) == Some("PREPARE 0 start_step\n")
    ensures Line(Emit(DONE, Done(Some(Succeeded))).1).None?
  {
    BuildContainerLine();
    PrepareStartLine();
  }

  lemma BuildContainerLine()
    ensures Line(Emit(BUILD, ContainerMsg(3, "ok \n")).1) == Some("BUILD 3 >> ok\n")
  {
    OkStripped();
    var e1 := Emit(BUILD, ContainerMsg(3, "ok \n")).1;
    assert IntToString(3) == "3";
    assert Label(e1) == "BUILD" + " " + "3";
    assert Line(e1) == Some("BUILD" + " " + "3" + " >> " + "ok" + "\n");
    assert "BUILD" + " " + "3" + " >> " + "ok" + "\n" == "BUILD 3 >> ok\n";
  }

  /** `"ok \n".rstrip()` */
  lemma OkStripped()
    ensures RStrip("ok \n") == "ok"
  {
    assert '\n' in Whitespace && ' ' in Whitespace && 'k' !in Whitespace;
    assert "ok \n"[..3] == "ok ";
    assert "ok "[..2] == "ok";
    assert RStripSet("ok", Whitespace) == "ok";
    assert RStripSet("ok ", Whitespace) == "ok";
  }

  lemma PrepareStartLine()
    ensures Line(Emit(PREPARE, StartStep(0)).1) == Some("PREPARE 0 start_step\n")
  {
    var e2 := Emit(PREPARE, StartStep(0)).1;
    LineText(e2);
    assert IntToString(0) == "0";
    assert Label(e2) == "PREPARE" + " " + "0";
    assert "PREPARE" + " " + "0" + " " + "start_step" + "\n" == "PREPARE 0 start_step\n";
  }
}

=== FILE: settings.dfy ===
/** User settings that double as command-line options: each settings class
    declares argument groups and arguments, the metaclass merges them with
    what the parent class collected, the parser is populated from the
    merged table and the settings schema, and parsed options are written
    back into the settings. */
module Settings {
  import opened Wrappers
  import opened Text
  import opened Values
  import Assoc

  /** `cls.get_config_path(filename)`: the file under the configuration
      directory, named after the settings by default; an absolute file
      name is used as it is. */
  function ConfigPath(configDir: string, name: string, filename: Option<string>): (r: string)
    ensures filename.None? ==> EndsWith(r, name + ".yml")
    ensures filename.Some? ==> EndsWith(r, filename.value)
    ensures filename.Some? && StartsWith(filename.value, "/") ==> r == filename.value
    ensures !StartsWith(filename.GetOr(name + ".yml"), "/") ==> StartsWith(r, configDir)
  {
    JoinPath(configDir, filename.GetOr(name + ".yml"))
  }

  /** The default file sits in the directory; an absolute name leaves the
      directory out. */
  lemma ConfigPathExamples()
    ensures ConfigPath("/cfg", "roman", None) == "/cfg/roman.yml"
    ensures ConfigPath("/cfg/", "roman", Some("x.yml")) == "/cfg/x.yml"
    ensures ConfigPath("/cfg", "roman", Some("/etc/x.yml")) == "/etc/x.yml"
  {
    assert "roman.yml"[0] == 'r' && "/cfg"[3] == 'g';
    assert "x.yml"[0] == 'x' && "/cfg/"[4..] == "/";
    assert "/etc/x.yml"[..1] == "/";
    assert "roman" + ".yml" == "roman.yml";
    assert "/cfg" + "/" + "roman.yml" == "/cfg/roman.yml";
    assert "/cfg/" + "x.yml" == "/cfg/x.yml";
  }

  // ---------------------------------------------------------------------
  // What a class declares, and what the metaclass collects
  // ---------------------------------------------------------------------

  /** An `ARGUMENT_GROUPS` entry: name, title and description. */
  datatype GroupDecl = GroupDecl(name: string, title: string, desc: string)

  /** An `ARGUMENTS` entry: the option's dotted path, then optionally its
      group, its metavariable and its argument name. */
  datatype ArgDecl = ArgDecl(option: string, opts: seq<Option<string>>)

  /** A collected argument: option path, argument name, metavariable. */
  datatype Argument = Argument(option: string, name: string, meta: Option<string>)

  /** `_ARGUMENT_GROUPS` and `_ARGUMENTS`: groups by name, and arguments
      by group (`None` for arguments declared without one). */
  datatype Table = Table(
    groups: seq<(string, (string, string))>,
    args: seq<(Option<string>, seq<Argument>)>)

  /** A class in a chain of settings classes: what it declares itself;
      `None` where it leaves the attribute to its parent. */
  datatype ClassDecl = ClassDecl(groups: Option<seq<GroupDecl>>, arguments: Option<seq<ArgDecl>>)

  /** The name an option gets on the command line when none is given. */
  function DefaultName(option: string): (r: string)
    ensures |r| == |option|
    ensures '.' !in r && '_' !in r
    ensures forall i :: 0 <= i < |r| && option[i] != '.' && option[i] != '_' ==> r[i] == option[i]
  {
    MapChar(MapChar(option, '.', '-'), '_', '-')
  }

  /** The `i`-th of the optional fields, `None` past the end. */
  function OptAt(opts: seq<Option<string>>, i: nat): Option<string> {
    if i < |opts| then opts[i] else None
  }

  /** The group an argument is declared in. */
  function GroupOf(d: ArgDecl): Option<string> {
    OptAt(d.opts, 0)
  }

  /** `group, meta, name = opts + [None]*3`, with the name defaulted. */
  function Collect(d: ArgDecl): (a: Argument)
    ensures a.option == d.option && a.meta == OptAt(d.opts, 1)
    ensures OptAt(d.opts, 2).Some? ==> a.name == OptAt(d.opts, 2).value
    ensures OptAt(d.opts, 2).None? ==> a.name == DefaultName(d.option)
  {
    Argument(d.option, OptAt(d.opts, 2).GetOr(DefaultName(d.option)), OptAt(d.opts, 1))
  }

  /** The inherited groups with this class's groups put in. */
  function MergeGroups(inherited: seq<(string, (string, string))>, decls: seq<GroupDecl>): (r: seq<(string, (string, string))>)
    ensures forall n :: (forall j :: 0 <= j < |decls| ==> decls[j].name != n) ==>
      Assoc.Get(r, n) == Assoc.Get(inherited, n)
    decreases |decls|
  {
    if |decls| == 0 then inherited
    else
      var d := decls[|decls| - 1];
      Assoc.Put(MergeGroups(inherited, decls[..|decls| - 1]), d.name, (d.title, d.desc))
  }

  /** A group declared again keeps its inherited position and takes the
      last title and description declared for it. */
  lemma {:induction false} MergeGroupsLast(inherited: seq<(string, (string, string))>, decls: seq<GroupDecl>, j: nat)
    requires j < |decls|
    requires forall l :: j < l < |decls| ==> decls[l].name != decls[j].name
    ensures Assoc.Get(MergeGroups(inherited, decls), decls[j].name) == Some((decls[j].title, decls[j].desc))
    decreases |decls|
  {
    if j < |decls| - 1 {
      MergeGroupsLast(inherited, decls[..|decls| - 1], j);
    }
  }

  /** The arguments of `decls` declared in group `g`, collected in order. */
  function InGroup(decls: seq<ArgDecl>, g: Option<string>): (r: seq<Argument>)
    ensures |r| <= |decls|
  {
    if |decls| == 0 then []
    else
      var init := InGroup(decls[..|decls| - 1], g);
      var d := decls[|decls| - 1];
      if GroupOf(d) == g then init + [Collect(d)] else init
  }

  /** The inherited arguments with this class's arguments appended to
      their groups. */
  function MergeArgs(inherited: seq<(Option<string>, seq<Argument>)>, decls: seq<ArgDecl>): (r: seq<(Option<string>, seq<Argument>)>)
    decreases |decls|
  {
    if |decls| == 0 then inherited
    else
      var d := decls[|decls| - 1];
      var init := MergeArgs(inherited, decls[..|decls| - 1]);
      Assoc.Put(init, GroupOf(d), Assoc.Get(init, GroupOf(d)).GetOr([]) + [Collect(d)])
  }

  /** Each group holds the inherited arguments followed by the ones this
      class declares in it, in declaration order. */
  lemma MergeArgsGroup(inherited: seq<(Option<string>, seq<Argument>)>, decls: seq<ArgDecl>, g: Option<string>)
    ensures Assoc.Get(MergeArgs(inherited, decls), g).GetOr([]) ==
      Assoc.Get(inherited, g).GetOr([]) + InGroup(decls, g)
    ensures Assoc.HasKey(MergeArgs(inherited, decls), g) <==>
      Assoc.HasKey(inherited, g) || |InGroup(decls, g)| > 0
  {
    MergeArgsGet(inherited, decls, g);
    MergeArgsHasKey(inherited, decls, g);
  }

  lemma {:induction false} MergeArgsGet(inherited: seq<(Option<string>, seq<Argument>)>, decls: seq<ArgDecl>, g: Option<string>)
    ensures Assoc.Get(MergeArgs(inherited, decls), g).GetOr([]) ==
      Assoc.Get(inherited, g).GetOr([]) + InGroup(decls, g)
    decreases |decls|
  {
    if |decls| > 0 {
      var n := |decls| - 1;
      var d := decls[n];
      MergeArgsGet(inherited, decls[..n], g);
      MergeArgsLast(inherited, decls, g);
      var before, earlier := Assoc.Get(inherited, g).GetOr([]), InGroup(decls[..n], g);
      var merged := Assoc.Get(MergeArgs(inherited, decls), g).GetOr([]);
      if GroupOf(d) == g {
        assert InGroup(decls, g) == earlier + [Collect(d)];
        assert merged == (before + earlier) + [Collect(d)];
        AppendOne(before, earlier, Collect(d));
      } else {
        assert InGroup(decls, g) == earlier;
      }
    }
  }

  lemma {:induction false} MergeArgsHasKey(inherited: seq<(Option<string>, seq<Argument>)>, decls: seq<ArgDecl>, g: Option<string>)
    ensures Assoc.HasKey(MergeArgs(inherited, decls), g) <==>
      Assoc.HasKey(inherited, g) || |InGroup(decls, g)| > 0
    decreases |decls|
  {
    if |decls| > 0 {
      MergeArgsHasKey(inherited, decls[..|decls| - 1], g);
      MergeArgsLast(inherited, decls, g);
    }
  }

  lemma AppendOne<T>(a: seq<T>, b: seq<T>, x: T)
    ensures (a + b) + [x] == a + (b + [x])
  {
  }

  /** The last declaration changes only its own group, by appending. */
  lemma MergeArgsLast(inherited: seq<(Option<string>, seq<Argument>)>, decls: seq<ArgDecl>, g: Option<string>)
    requires |decls| > 0
    ensures var d, init := decls[|decls| - 1], MergeArgs(inherited, decls[..|decls| - 1]);
      Assoc.Get(MergeArgs(inherited, decls), g) ==
        if GroupOf(d) == g then Some(Assoc.Get(init, g).GetOr([]) + [Collect(d)]) else Assoc.Get(init, g)
  {
  }

  /** The attribute a class sees: its own declaration, or the nearest
      ancestor's; the chain's first class declares both empty. */
  function VisibleGroups(chain: seq<ClassDecl>, n: nat): seq<GroupDecl>
    requires n < |chain|
  {
    match chain[n].groups
    case Some(gs) => gs
    case None => if n == 0 then [] else VisibleGroups(chain, n - 1)
  }

  function VisibleArguments(chain: seq<ClassDecl>, n: nat): seq<ArgDecl>
    requires n < |chain|
  {
    match chain[n].arguments
    case Some(args) => args
    case None => if n == 0 then [] else VisibleArguments(chain, n - 1)
  }

  /** What the metaclass leaves on class `n` of the chain. */
  function ClassTable(chain: seq<ClassDecl>, n: nat): (t: Table)
    requires n < |chain|
  {
    var parent := if n == 0 then Table([], []) else ClassTable(chain, n - 1);
    Table(MergeGroups(parent.groups, VisibleGroups(chain, n)), MergeArgs(parent.args, VisibleArguments(chain, n)))
  }

  /** A subclass's arguments in a group are its parent's followed by the
      ones it sees declared; the parent's table is copied, not shared. */
  lemma ClassTableGroup(chain: seq<ClassDecl>, n: nat, g: Option<string>)
    requires 0 < n < |chain|
    ensures Assoc.Get(ClassTable(chain, n).args, g).GetOr([]) ==
      Assoc.Get(ClassTable(chain, n - 1).args, g).GetOr([]) + InGroup(VisibleArguments(chain, n), g)
  {
    MergeArgsGroup(ClassTable(chain, n - 1).args, VisibleArguments(chain, n), g);
  }

  /** A subclass that does not declare `ARGUMENTS` sees its parent's
      declaration and collects every one of those arguments a second time. */
  lemma InheritedArgumentsRepeat(decls: seq<ArgDecl>, g: Option<string>)
    ensures var chain := [ClassDecl(Some([]), Some(decls)), ClassDecl(None, None)];
      Assoc.Get(ClassTable(chain, 1).args, g).GetOr([]) == InGroup(decls, g) + InGroup(decls, g)
  {
    var chain := [ClassDecl(Some([]), Some(decls)), ClassDecl(None, None)];
    ClassTableFirst(chain, g);
    ClassTableGroup(chain, 1, g);
    assert VisibleArguments(chain, 0) == decls;
    assert VisibleArguments(chain, 1) == decls;
  }

  /** The first class of the chain holds in a group exactly the arguments
      it sees declared there. */
  lemma ClassTableFirst(chain: seq<ClassDecl>, g: Option<string>)
    requires |chain| > 0
    ensures Assoc.Get(ClassTable(chain, 0).args, g).GetOr([]) == InGroup(VisibleArguments(chain, 0), g)
  {
    MergeArgsGroup([], VisibleArguments(chain, 0), g);
  }

  // ---------------------------------------------------------------------
  // Populating the parser
  // ---------------------------------------------------------------------

  /** What the settings schema says about one option (absent fields are
      `None`). */
  datatype OptionSchema = OptionSchema(
    title: Option<string>,
    description: Option<string>,
    kind: Option<string>,
    default: Option<Value>)

  const NoSchema: OptionSchema := OptionSchema(None, None, None, None)

  datatype Action = StoreTrue | StoreFalse | Store(metavar: Option<string>)

  /** One `add_argument` call: the group it goes in (`None` for the parser
      itself), the flag, the action and the help text. */
  datatype ParserArg = ParserArg(group: Option<(string, string)>, flag: string, action: Action, help: string)

  datatype ParserError = NoValidator   // TypeError: the settings class has no schema

  /** `'/'.join('properties/' + part for part in option.split('.'))` */
  function Fragment(option: string): string {
    JoinWith(Prefixed(Split(option, '.')), "/")
  }

  function Prefixed(parts: seq<string>): (r: seq<string>)
    ensures |r| == |parts|
    ensures forall i :: 0 <= i < |parts| ==> r[i] == "properties/" + parts[i]
  {
    if |parts| == 0 then [] else ["properties/" + parts[0]] + Prefixed(parts[1..])
  }

  /** `METAVARS.get(type_, type_.upper())` */
  function Metavar(kind: string): (r: Option<string>)
    ensures r.None? <==> kind == "boolean"
    ensures kind == "integer" ==> r == Some("INT")
    ensures kind != "integer" && kind != "boolean" ==>
      r.Some? && |r.value| == |kind| && forall i :: 0 <= i < |kind| ==> r.value[i] == UpperChar(kind[i])
  {
    if kind == "integer" then Some("INT")
    else if kind == "boolean" then None
    else Some(Upper(kind))
  }

  /** The `add_argument` call for one argument of a group. */
  function ParserArgFor(group: (string, string), a: Argument, schemas: seq<(string, OptionSchema)>): (p: ParserArg)
    ensures p.flag == "--" + a.name
    ensures p.group.Some? <==> |group.0| > 0
    ensures var s := Assoc.Get(schemas, Fragment(a.option)).GetOr(NoSchema);
      (s.kind == Some("boolean") ==> (p.action == StoreFalse <==> s.default.Some? && Truthy(s.default.value)))
      && (s.kind != Some("boolean") ==> p.action.Store?)
      && (s.kind != Some("boolean") && a.meta.Some? ==> p.action == Store(a.meta))
      && (s.kind != Some("boolean") && a.meta.None? ==> p.action == Store(Metavar(s.kind.GetOr("string"))))
      && p.help == s.description.GetOr(s.title.GetOr(a.name))
  {
    var s := Assoc.Get(schemas, Fragment(a.option)).GetOr(NoSchema);
    var title := s.title.GetOr(a.name);
    var desc := s.description.GetOr(title);
    var kind := s.kind.GetOr("string");
    var meta := if a.meta.None? then Metavar(kind) else a.meta;
    var target := if |group.0| > 0 then Some(group) else None;
    if kind == "boolean" then
      var default := s.default.GetOr(Bool(false));
      ParserArg(target, "--" + a.name, if Truthy(default) then StoreFalse else StoreTrue, desc)
    else
      ParserArg(target, "--" + a.name, Store(meta), desc)
  }

  function GroupArgs(group: (string, string), args: seq<Argument>, schemas: seq<(string, OptionSchema)>): (r: seq<ParserArg>)
    ensures |r| == |args|
    ensures forall i :: 0 <= i < |args| ==> r[i] == ParserArgFor(group, args[i], schemas)
  {
    if |args| == 0 then [] else [ParserArgFor(group, args[0], schemas)] + GroupArgs(group, args[1..], schemas)
  }

  /** The arguments of the declared groups, group by group. */
  function AllGroups(groups: seq<(string, (string, string))>, args: seq<(Option<string>, seq<Argument>)>, schemas: seq<(string, OptionSchema)>): (r: seq<ParserArg>)
    ensures forall i :: 0 <= i < |r| ==> exists g :: 0 <= g < |groups| && r[i].group == (if |groups[g].1.0| > 0 then Some(groups[g].1) else None)
    decreases |groups|
  {
    if |groups| == 0 then []
    else
      var (name, info) := groups[0];
      var these := GroupArgs(info, Assoc.Get(args, Some(name)).GetOr([]), schemas);
      var rest := AllGroups(groups[1..], args, schemas);
      forall i | 0 <= i < |rest|
        ensures exists g :: 0 <= g < |groups| && rest[i].group == (if |groups[g].1.0| > 0 then Some(groups[g].1) else None)
      {
        var g :| 0 <= g < |groups[1..]| && rest[i].group == (if |groups[1..][g].1.0| > 0 then Some(groups[1..][g].1) else None);
        assert groups[1..][g] == groups[g + 1];
      }
      forall i | 0 <= i < |these|
        ensures these[i].group == (if |groups[0].1.0| > 0 then Some(groups[0].1) else None)
      {
      }
      these + rest
  }

  function PopulateParser(t: Table, hasValidator: bool, schemas: seq<(string, OptionSchema)>): (r: Result<seq<ParserArg>, ParserError>)
    ensures !hasValidator <==> r.Failure?
  {
    if !hasValidator then Failure(NoValidator) else Success(AllGroups(t.groups, t.args, schemas))
  }

  /** Only arguments of declared groups reach the parser: an argument
      declared without a group, or in a group that was never declared, is
      not offered on the command line. */
  lemma {:induction false} UndeclaredGroupsHidden(groups: seq<(string, (string, string))>, args: seq<(Option<string>, seq<Argument>)>, schemas: seq<(string, OptionSchema)>)
    requires forall g :: 0 <= g < |groups| ==> |Assoc.Get(args, Some(groups[g].0)).GetOr([])| == 0
    ensures AllGroups(groups, args, schemas) == []
    decreases |groups|
  {
    if |groups| > 0 {
      assert forall g :: 0 <= g < |groups[1..]| ==> groups[1..][g] == groups[g + 1];
      UndeclaredGroupsHidden(groups[1..], args, schemas);
      assert |Assoc.Get(args, Some(groups[0].0)).GetOr([])| == 0;
    }
  }

  /** A boolean option whose schema defaults to true is a flag that turns
      it off; otherwise the flag turns it on. An option whose schema type
      is integer shows `INT`, one of another type shows the type in capitals,
      and one whose schema is not found shows `STRING`. */
  lemma BooleanFlags(a: Argument, fragment: string)
    requires Fragment(a.option) == fragment && a.meta.None?
    ensures ParserArgFor(("", ""), a, [(fragment, OptionSchema(None, None, Some("boolean"), Some(Bool(true))))]).action == StoreFalse
    ensures ParserArgFor(("", ""), a, [(fragment, OptionSchema(None, None, Some("boolean"), None))]).action == StoreTrue
    ensures ParserArgFor(("", ""), a, [(fragment, OptionSchema(None, None, Some("integer"), None))]).action == Store(Some("INT"))
    ensures ParserArgFor(("", ""), a, [(fragment, OptionSchema(None, None, Some("array"), None))]).action == Store(Some("ARRAY"))
    ensures ParserArgFor(("", ""), a, []).action == Store(Some("STRING"))
  {
    assert Upper("string") == "STRING";
    assert Upper("array") == "ARRAY";
  }

  // ---------------------------------------------------------------------
  // Writing parsed options back
  // ---------------------------------------------------------------------

  /** One assignment into the settings: the option path and the value,
      stored permanently or only for this run. */
  datatype SetOp = SetOp(option: string, value: Value, store: bool)

  /** `name.replace('-', '_')`: the attribute argparse stores a value in. */
  function AttrName(name: string): string {
    MapChar(name, '-', '_')
  }

  /** The arguments in table order. */
  function AllArguments(args: seq<(Option<string>, seq<Argument>)>): seq<Argument> {
    if |args| == 0 then [] else args[0].1 + AllArguments(args[1..])
  }

  /** Argument `j` was given on the command line, and `op` writes its value
      to its option. */
  predicate GivenAt(arguments: seq<Argument>, namespace: seq<(string, Value)>, op: SetOp, j: int) {
    0 <= j < |arguments| && arguments[j].option == op.option &&
    Assoc.Get(namespace, AttrName(arguments[j].name)) == Some(op.value)
  }

  predicate Given(arguments: seq<Argument>, namespace: seq<(string, Value)>, op: SetOp) {
    exists j :: 0 <= j < |arguments| && GivenAt(arguments, namespace, op, j)
  }

  /** The parsed values of the given arguments, as assignments. */
  function UpdateOps(arguments: seq<Argument>, namespace: seq<(string, Value)>, store: bool): (r: seq<SetOp>)
    ensures |r| <= |arguments|
    ensures forall i :: 0 <= i < |r| ==> r[i].store == store
    ensures forall i :: 0 <= i < |r| ==> Given(arguments, namespace, r[i])
    ensures (forall j :: 0 <= j < |arguments| ==> !Assoc.HasKey(namespace, AttrName(arguments[j].name))) <==> r == []
  {
    if |arguments| == 0 then []
    else
      var a := arguments[0];
      var rest := UpdateOps(arguments[1..], namespace, store);
      forall i | 0 <= i < |rest|
        ensures Given(arguments, namespace, rest[i])
      {
        var j :| 0 <= j < |arguments[1..]| && GivenAt(arguments[1..], namespace, rest[i], j);
        assert arguments[1..][j] == arguments[j + 1];
        assert GivenAt(arguments, namespace, rest[i], j + 1);
      }
      assert (forall j :: 0 <= j < |arguments| ==> !Assoc.HasKey(namespace, AttrName(arguments[j].name))) <==>
        !Assoc.HasKey(namespace, AttrName(a.name)) &&
        (forall j :: 0 <= j < |arguments[1..]| ==> !Assoc.HasKey(namespace, AttrName(arguments[1..][j].name))) by {
        forall j | 0 < j < |arguments| ensures arguments[j] == arguments[1..][j - 1] { }
      }
      match Assoc.Get(namespace, AttrName(a.name))
      case Some(v) =>
        var op := SetOp(a.option, v, store);
        assert GivenAt(arguments, namespace, op, 0);
        [op] + rest
      case None => rest
  }

  /** The assignments of consecutive runs of arguments follow each other:
      the table is walked in order. */
  lemma {:induction false} UpdateOpsAppend(a: seq<Argument>, b: seq<Argument>, namespace: seq<(string, Value)>, store: bool)
    ensures UpdateOps(a + b, namespace, store) == UpdateOps(a, namespace, store) + UpdateOps(b, namespace, store)
    decreases |a|
  {
    if |a| > 0 {
      assert (a + b)[1..] == a[1..] + b;
      UpdateOpsAppend(a[1..], b, namespace, store);
    } else {
      assert a + b == b;
    }
  }

  /** One argument is written exactly when its attribute is not
      `Undefined`, with the parsed value. */
  lemma UpdateOpsOne(a: Argument, namespace: seq<(string, Value)>, store: bool)
    ensures var v := Assoc.Get(namespace, AttrName(a.name));
      UpdateOps([a], namespace, store) == if v.Some? then [SetOp(a.option, v.value, store)] else []
  {
    assert [a][1..] == [];
  }

  /** Every given argument is written, and in table order: argument `j`'s
      assignment comes right after those of the arguments before it. */
  lemma UpdateOpsComplete(arguments: seq<Argument>, namespace: seq<(string, Value)>, store: bool, j: nat)
    requires j < |arguments| && Assoc.HasKey(namespace, AttrName(arguments[j].name))
    ensures var r := UpdateOps(arguments, namespace, store);
      var before := |UpdateOps(arguments[..j], namespace, store)|;
      before < |r| &&
      r[before] == SetOp(arguments[j].option, Assoc.Get(namespace, AttrName(arguments[j].name)).value, store)
  {
    assert arguments == arguments[..j] + ([arguments[j]] + arguments[j + 1..]);
    UpdateOpsAppend(arguments[..j], [arguments[j]] + arguments[j + 1..], namespace, store);
    UpdateOpsAppend([arguments[j]], arguments[j + 1..], namespace, store);
    UpdateOpsOne(arguments[j], namespace, store);
  }

  /** `update_from_namespace`: every argument the parser saw a value for
      becomes an assignment, in table order. */
  function UpdateFromNamespace(t: Table, namespace: seq<(string, Value)>, store: bool): seq<SetOp> {
    UpdateOps(AllArguments(t.args), namespace, store)
  }

  /** An argument given on the command line is written to its option. */
  lemma GivenArgumentWritten(a: Argument, v: Value, store: bool)
    ensures UpdateOps([a], [(AttrName(a.name), v)], store) == [SetOp(a.option, v, store)]
    ensures UpdateOps([a], [], store) == []
  {
  }
}

=== FILE: setup.dfy ===
/** The text processing of the packaging script: reading requirement
    files, turning core package names into version-pinned requirements,
    finding the version string of a module, recognising schema files and
    reading a field of a reStructuredText document. */
module Setup {
  import opened Wrappers
  import opened Text

  // ---------------------------------------------------------------------
  // str.splitlines
  // ---------------------------------------------------------------------

  /** The characters `str.splitlines()` ends a line at. */
  const LineBoundaries: set<char> :=
    {'\n', '\r', 11 as char, 12 as char, 28 as char, 29 as char, 30 as char,
     0x85 as char, 0x2028 as char, 0x2029 as char}

  predicate NoBoundary(line: string) {
    forall k :: 0 <= k < |line| ==> line[k] !in LineBoundaries
  }

  /** The index of the first line boundary, or the length. */
  function BoundaryIndex(s: string): (r: nat)
    ensures r <= |s| && NoBoundary(s[..r])
    ensures r < |s| ==> s[r] in LineBoundaries
  {
    if |s| == 0 || s[0] in LineBoundaries then 0
    else
      var r := 1 + BoundaryIndex(s[1..]);
      assert s[..r] == [s[0]] + s[1..][..r - 1];
      r
  }

  /** `s.splitlines()`: `\r\n` ends a line as one boundary, and a final
      boundary does not start another line. */
  function SplitLines(s: string): (lines: seq<string>)
    ensures forall i :: 0 <= i < |lines| ==> NoBoundary(lines[i])
    decreases |s|
  {
    if |s| == 0 then []
    else
      var i := BoundaryIndex(s);
      if i == |s| then [s]
      else
        var skip := if s[i] == '\r' && i + 1 < |s| && s[i + 1] == '\n' then 2 else 1;
        [s[..i]] + SplitLines(s[i + skip..])
  }

  /** The boundary index is the first boundary. */
  lemma {:induction false} BoundaryIndexAt(s: string, k: nat)
    requires k < |s| && s[k] in LineBoundaries
    requires forall j :: 0 <= j < k ==> s[j] !in LineBoundaries
    ensures BoundaryIndex(s) == k
    decreases k
  {
    if k > 0 {
      assert s[0] !in LineBoundaries;
      BoundaryIndexAt(s[1..], k - 1);
    }
  }

  /** The first boundary of a line followed by a newline is that newline. */
  lemma BoundaryAfterLine(line: string, rest: string)
    requires NoBoundary(line)
    ensures BoundaryIndex(line + "\n" + rest) == |line|
  {
    var s := line + "\n" + rest;
    assert forall j :: 0 <= j < |line| ==> s[j] == line[j];
    assert s[|line|] == '\n';
    BoundaryIndexAt(s, |line|);
  }

  /** Lines without boundaries, joined with newlines, split back into the
      same lines, provided the last is not empty (a trailing newline makes
      no extra line). */
  lemma {:induction false} SplitLinesJoin(parts: seq<string>)
    requires |parts| >= 1 && parts[|parts| - 1] != ""
    requires forall i :: 0 <= i < |parts| ==> NoBoundary(parts[i])
    ensures SplitLines(JoinWith(parts, "\n")) == parts
    decreases |parts|
  {
    var s := JoinWith(parts, "\n");
    if |parts| == 1 {
      assert s == parts[0];
      assert s[..|s|] == s;
    } else {
      var tail := JoinWith(parts[1..], "\n");
      assert s == parts[0] + "\n" + tail;
      BoundaryAfterLine(parts[0], tail);
      assert s[|parts[0]|] == '\n';
      assert s[..|parts[0]|] == parts[0];
      assert s[|parts[0]| + 1..] == tail;
      SplitLinesJoin(parts[1..]);
      assert parts == [parts[0]] + parts[1..];
    }
  }

  // ---------------------------------------------------------------------
  // read_requirements
  // ---------------------------------------------------------------------

  /** `l.split('#', 1)[0].strip()`: the line without its comment and
      surrounding whitespace. */
  function RequirementOf(line: string): string {
    var before := match CharIndex(line, '#') case None => line case Some(i) => line[..i];
    Strip(before)
  }

  /** The requirement of every line, empty ones included. */
  function RequirementLines(lines: seq<string>): (r: seq<string>)
    ensures |r| == |lines|
    ensures forall i :: 0 <= i < |r| ==> r[i] == RequirementOf(lines[i])
  {
    seq(|lines|, i requires 0 <= i < |lines| => RequirementOf(lines[i]))
  }

  /** The non-empty strings, in order. */
  function NonEmpty(qs: seq<string>): (r: seq<string>)
    ensures |r| <= |qs|
    ensures forall i :: 0 <= i < |r| ==> r[i] != ""
  {
    if |qs| == 0 then []
    else (if qs[0] == "" then [] else [qs[0]]) + NonEmpty(qs[1..])
  }

  /** The non-empty requirements of the lines, in order. */
  function Requirements(lines: seq<string>): seq<string> {
    NonEmpty(RequirementLines(lines))
  }

  /** `read_requirements(*file)` given the text read from the file (`read`
      gives `''` for a file it cannot open). */
  function ReadRequirements(text: string): seq<string> {
    Requirements(SplitLines(text))
  }

  /** A requirement has no comment left in it and no whitespace around it. */
  lemma RequirementClean(line: string)
    ensures var q := RequirementOf(line);
      '#' !in q && (|q| > 0 ==> q[0] !in Whitespace && q[|q| - 1] !in Whitespace)
  {
    var before := match CharIndex(line, '#') case None => line case Some(i) => line[..i];
    assert '#' !in before;
    var l := LStripSet(before, Whitespace);
    var q := RStripSet(l, Whitespace);
    assert q == RequirementOf(line);
    var x := |before| - |l|;
    forall k | 0 <= k < |q|
      ensures q[k] != '#'
    {
      assert q[k] == l[k] == before[x + k];
    }
    if |q| > 0 {
      assert q[0] == l[0];
    }
  }

  lemma {:induction false} NonEmptyAppend(qs: seq<string>, q: string)
    ensures NonEmpty(qs + [q]) == NonEmpty(qs) + (if q == "" then [] else [q])
    decreases |qs|
  {
    if |qs| == 0 {
      assert qs + [q] == [q];
    } else {
      assert (qs + [q])[1..] == qs[1..] + [q];
      NonEmptyAppend(qs[1..], q);
    }
  }

  lemma {:induction false} NonEmptyKeeps(qs: seq<string>)
    requires forall i :: 0 <= i < |qs| ==> qs[i] != ""
    ensures NonEmpty(qs) == qs
    decreases |qs|
  {
    if |qs| > 0 {
      NonEmptyKeeps(qs[1..]);
      assert qs == [qs[0]] + qs[1..];
    }
  }

  /** One more line adds its requirement at the end, when it has one. */
  lemma RequirementsAppend(lines: seq<string>, line: string)
    ensures Requirements(lines + [line]) ==
      Requirements(lines) + (if RequirementOf(line) == "" then [] else [RequirementOf(line)])
  {
    var a := RequirementLines(lines + [line]);
    var b := RequirementLines(lines) + [RequirementOf(line)];
    forall i | 0 <= i < |a|
      ensures a[i] == b[i]
    {
      if i < |lines| {
        assert (lines + [line])[i] == lines[i];
      }
    }
    assert a == b;
    NonEmptyAppend(RequirementLines(lines), RequirementOf(line));
  }

  /** A requirement line with no comment and no surrounding whitespace. */
  predicate CleanRequirement(q: string) {
    q != "" && '#' !in q && NoBoundary(q) && q[0] !in Whitespace && q[|q| - 1] !in Whitespace
  }

  lemma CleanRequirementKept(q: string)
    requires CleanRequirement(q)
    ensures RequirementOf(q) == q
  {
    StripNoWhitespace(q);
  }

  lemma RequirementsOfClean(qs: seq<string>)
    requires forall i :: 0 <= i < |qs| ==> CleanRequirement(qs[i])
    ensures Requirements(qs) == qs
  {
    forall i | 0 <= i < |qs|
      ensures RequirementLines(qs)[i] == qs[i]
    {
      CleanRequirementKept(qs[i]);
    }
    assert RequirementLines(qs) == qs;
    NonEmptyKeeps(qs);
  }

  /** Writing clean requirements one per line and reading the file gives
      them back. */
  lemma ReadRequirementsRoundTrip(qs: seq<string>)
    requires forall i :: 0 <= i < |qs| ==> CleanRequirement(qs[i])
    ensures ReadRequirements(JoinWith(qs, "\n")) == qs
  {
    if |qs| > 0 {
      SplitLinesJoin(qs);
    }
    RequirementsOfClean(qs);
  }

  // ---------------------------------------------------------------------
  // _coerce_requirements, core_requirement, get_requirements
  // ---------------------------------------------------------------------

  const DefaultRequirementsFile := "requirements.txt"

  /** `_coerce_requirements(args)`: the path parts of a requirements file;
      no parts mean the project root, and a last part not ending in `.txt`
      is a directory holding `requirements.txt`. */
  function CoerceRequirements(args: seq<string>, root: string): (r: seq<string>)
    ensures |r| > 0 && EndsWith(r[|r| - 1], ".txt")
    ensures |args| > 0 ==> |args| <= |r| <= |args| + 1 && r[..|args|] == args
    ensures |args| == 0 ==> r[0] == root
    ensures |r| > |args| + (if |args| == 0 then 1 else 0) ==> r[|r| - 1] == DefaultRequirementsFile
  {
    var parts := if |args| == 0 then [root] else args;
    if EndsWith(parts[|parts| - 1], ".txt") then parts else parts + [DefaultRequirementsFile]
  }

  /** Coercing twice is coercing once. */
  lemma CoerceIdempotent(args: seq<string>, root: string)
    ensures CoerceRequirements(CoerceRequirements(args, root), root) == CoerceRequirements(args, root)
  {
  }

  /** `core_requirement(name)` for a core package whose version string is
      `version` with major number `major`: a range up to the next major
      release, or an exact pin for a `0.x` version. Under `pip3 egg_info`
      the name is left alone. */
  function CoreRequirement(name: string, version: string, major: int, pipEggInfo: bool): (r: string)
    ensures StartsWith(r, name)
  {
    if pipEggInfo then name
    else if major > 0 then name + " >= " + version + ", <" + IntToString(major + 1)
    else name + " == " + version
  }

  /** Split at spaces, a pinned requirement reads back as the name, the
      operator and the bound(s). */
  lemma CoreRequirementWords(name: string, version: string, major: int)
    requires ' ' !in name && ' ' !in version
    ensures Split(CoreRequirement(name, version, major, false), ' ') ==
      if major > 0 then [name, ">=", version + ",", "<" + IntToString(major + 1)]
      else [name, "==", version]
  {
    if major > 0 {
      RangeWords(name, version, major + 1);
    } else {
      PinWords(name, version);
    }
  }

  lemma RangeWords(name: string, version: string, bound: int)
    requires ' ' !in name && ' ' !in version
    ensures Split(name + " >= " + version + ", <" + IntToString(bound), ' ') ==
      [name, ">=", version + ",", "<" + IntToString(bound)]
  {
    var x := IntToString(bound);
    var parts := [name, ">=", version + ",", "<" + x];
    assert forall i :: 0 <= i < |parts| ==> ' ' !in parts[i] by {
      IntToStringOmits(bound, ' ');
    }
    var t2 := (version + ",") + " " + ("<" + x);
    var t1 := ">=" + " " + t2;
    assert JoinWith(parts, " ") == name + " " + t1 by {
      assert parts[2..] == [version + ",", "<" + x];
      assert parts[1..] == [">=", version + ",", "<" + x];
      assert JoinWith(parts[2..], " ") == t2;
      assert JoinWith(parts[1..], " ") == t1;
    }
    RangeText(name, version, x);
    SplitJoin(parts, ' ');
  }

  lemma RangeText(name: string, version: string, x: string)
    ensures name + " " + (">=" + " " + ((version + ",") + " " + ("<" + x)))
      == name + " >= " + version + ", <" + x
  {
  }

  lemma PinWords(name: string, version: string)
    requires ' ' !in name && ' ' !in version
    ensures Split(name + " == " + version, ' ') == [name, "==", version]
  {
    var parts := [name, "==", version];
    assert JoinWith(parts[2..], " ") == version;
    assert JoinWith(parts[1..], " ") == "== " + version;
    assert JoinWith(parts, " ") == name + " == " + version;
    SplitJoin(parts, ' ');
  }

  /** The requirement written for one line of a requirements file. */
  function RequirementFor(req: string, corePackages: set<string>, coreVersion: string -> (string, int), pipEggInfo: bool): string {
    if ' ' !in req && req in corePackages then
      CoreRequirement(req, coreVersion(req).0, coreVersion(req).1, pipEggInfo)
    else req
  }

  /** `get_requirements(*file)` over the requirements read: each
      space-free name of a core package is pinned, everything else is kept.
      Which names are core packages and their versions come from the file
      system and are parameters. */
  function GetRequirements(reqs: seq<string>, corePackages: set<string>, coreVersion: string -> (string, int), pipEggInfo: bool): (r: seq<string>)
    ensures |r| == |reqs|
    ensures forall i :: 0 <= i < |r| ==> r[i] == RequirementFor(reqs[i], corePackages, coreVersion, pipEggInfo)
  {
    if |reqs| == 0 then []
    else [RequirementFor(reqs[0], corePackages, coreVersion, pipEggInfo)] + GetRequirements(reqs[1..], corePackages, coreVersion, pipEggInfo)
  }

  /** Requirements that are not bare core package names are passed
      through; a bare name keeps being the first word of its requirement. */
  lemma GetRequirementsNames(reqs: seq<string>, corePackages: set<string>, coreVersion: string -> (string, int), pipEggInfo: bool, i: nat)
    requires i < |reqs|
    ensures var r := GetRequirements(reqs, corePackages, coreVersion, pipEggInfo);
      (' ' in reqs[i] || reqs[i] !in corePackages ==> r[i] == reqs[i]) &&
      (' ' !in reqs[i] && ' ' !in coreVersion(reqs[i]).0 ==> Split(r[i], ' ')[0] == reqs[i])
  {
    var q := reqs[i];
    if ' ' !in q && ' ' !in coreVersion(q).0 {
      if q in corePackages && !pipEggInfo {
        CoreRequirementWords(q, coreVersion(q).0, coreVersion(q).1);
      } else {
        assert CharIndex(q, ' ').None?;
      }
    }
  }

  // ---------------------------------------------------------------------
  // _is_schema_file
  // ---------------------------------------------------------------------

  predicate YamlName(filename: string) {
    EndsWith(filename, ".yml") || EndsWith(filename, ".yaml")
  }

  /** Why `_is_schema_file` raises: `path.join(path, filename)` runs on the
      `path` parameter, a `str` that shadows the `os.path` module, and
      `str.join` takes a single argument. */
  datatype SchemaFileError = JoinArity // TypeError: join() takes exactly one argument

  /** `_is_schema_file(package, path, filename)` as written: a YAML name
      outside a `.schemas` package reaches `path.join` before the `try`,
      and that raises, so the file is never loaded. */
  function IsSchemaFileAsWritten(package: string, filename: string): (r: Result<bool, SchemaFileError>)
    ensures r.Success? ==> (r.value <==> YamlName(filename))
  {
    if !YamlName(filename) then Success(false)
    else if EndsWith(package, ".schemas") then Success(true)
    else Failure(JoinArity)
  }

  /** As written, the check raises exactly on the YAML names it would have
      to load; where it answers, it answers as the intended check does,
      whatever the file holds. */
  lemma IsSchemaFileRaises(package: string, filename: string, rootHasSchema: Option<bool>)
    ensures IsSchemaFileAsWritten(package, filename).Failure? <==>
      YamlName(filename) && !EndsWith(package, ".schemas")
    ensures IsSchemaFileAsWritten(package, filename).Success? ==>
      IsSchemaFileAsWritten(package, filename).value == IsSchemaFile(package, filename, rootHasSchema)
  {
  }

  /** `_is_schema_file('roman.data', src_dir, 'x.yml')` raises, where the
      intended check loads the file and keeps it when it has `$schema`. */
  lemma IsSchemaFileRaisesExample()
    ensures IsSchemaFileAsWritten("roman.data", "x.yml") == Failure(JoinArity)
    ensures IsSchemaFile("roman.data", "x.yml", Some(true))
  {
  }

  /** `_is_schema_file(package, path, filename)` as intended, with the file
      loaded from `os.path.join(path, filename)`. Whether the file loads as
      YAML with a `$schema` key at its root is read from the file system:
      `rootHasSchema` is `None` when loading fails. */
  function IsSchemaFile(package: string, filename: string, rootHasSchema: Option<bool>): bool {
    if !YamlName(filename) then false
    else if EndsWith(package, ".schemas") then true
    else rootHasSchema == Some(true)
  }

  /** Only YAML file names qualify; in a `.schemas` package every one does,
      whatever the file holds; elsewhere the file must load and carry a
      `$schema` key. */
  lemma IsSchemaFileCases(package: string, filename: string, rootHasSchema: Option<bool>)
    ensures IsSchemaFile(package, filename, rootHasSchema) ==> YamlName(filename)
    ensures YamlName(filename) && EndsWith(package, ".schemas") ==>
      forall probe :: IsSchemaFile(package, filename, probe)
    ensures !EndsWith(package, ".schemas") && rootHasSchema != Some(true) ==>
      !IsSchemaFile(package, filename, rootHasSchema)
  {
  }

  // ---------------------------------------------------------------------
  // get_version
  // ---------------------------------------------------------------------

  datatype SetupError = VersionNotFound // RuntimeError("Unable to find version string.")

  const VersionPrefix := "__version__ = "

  predicate IsQuote(c: char) {
    c == '\'' || c == '"'
  }

  /** The first quote character. */
  function QuoteIndex(s: string): (r: Option<nat>)
    ensures r.Some? ==> r.value < |s| && IsQuote(s[r.value])
    ensures r.Some? ==> forall k :: 0 <= k < r.value ==> !IsQuote(s[k])
    ensures r.None? ==> forall k :: 0 <= k < |s| ==> !IsQuote(s[k])
  {
    if |s| == 0 then None
    else if IsQuote(s[0]) then Some(0)
    else match QuoteIndex(s[1..]) case None => None case Some(k) => Some(k + 1)
  }

  /** `['\"]([^'\"]*)['\"]` after `__version__ = ` at position `p`: the
      text between the opening quote and the next quote of either kind. */
  function VersionAt(text: string, p: nat): Option<string> {
    var q := p + |VersionPrefix|;
    if OccursAt(text, VersionPrefix, p) && q < |text| && IsQuote(text[q]) then
      match QuoteIndex(text[q + 1..])
      case None => None
      case Some(j) => Some(text[q + 1..][..j])
    else None
  }

  /** Where `^` matches under `re.M`. */
  predicate LineStart(text: string, p: nat) {
    p == 0 || (p <= |text| && text[p - 1] == '\n')
  }

  /** The leftmost match at a line start at or after `p`. */
  function SearchVersion(text: string, p: nat): Option<string>
    requires p <= |text|
    decreases |text| - p
  {
    if LineStart(text, p) && VersionAt(text, p).Some? then VersionAt(text, p)
    else if p == |text| then None
    else SearchVersion(text, p + 1)
  }

  /** `get_version(*file)` given the text of the file, up to the version
      string (its normalisation by `parse_version` is not modelled). */
  function GetVersion(text: string): Result<string, SetupError> {
    match SearchVersion(text, 0)
    case None => Failure(VersionNotFound)
    case Some(v) => Success(v)
  }

  /** The search finds the version at the first line start that matches. */
  lemma {:induction false} SearchVersionFirst(text: string, p: nat, m: nat)
    requires p <= m <= |text| && LineStart(text, m) && VersionAt(text, m).Some?
    requires forall k :: p <= k < m && LineStart(text, k) ==> VersionAt(text, k).None?
    ensures SearchVersion(text, p) == VersionAt(text, m)
    decreases m - p
  {
    if p < m {
      SearchVersionFirst(text, p + 1, m);
    }
  }

  /** A failed search means no line start from `p` on matches. */
  lemma {:induction false} SearchVersionNone(text: string, p: nat, k: nat)
    requires p <= k <= |text| && SearchVersion(text, p).None? && LineStart(text, k)
    ensures VersionAt(text, k).None?
    decreases k - p
  {
    if p < k {
      SearchVersionNone(text, p + 1, k);
    }
  }

  /** `get_version` fails exactly when no line starts with the version
      assignment of a quoted string. */
  lemma GetVersionFails(text: string, k: nat)
    requires k <= |text| && LineStart(text, k)
    ensures GetVersion(text).Failure? ==> VersionAt(text, k).None?
  {
    if GetVersion(text).Failure? {
      SearchVersionNone(text, 0, k);
    }
  }

  /** A module starting with the version assignment gives back the version
      written, when it holds no quote. */
  lemma GetVersionRoundTrip(v: string, rest: string)
    requires forall k :: 0 <= k < |v| ==> !IsQuote(v[k])
    ensures GetVersion(VersionPrefix + "'" + v + "'" + rest) == Success(v)
  {
    var text := VersionPrefix + "'" + v + "'" + rest;
    var q := |VersionPrefix|;
    assert text[..q] == VersionPrefix;
    assert text[q] == '\'';
    var after := text[q + 1..];
    assert after == v + "'" + rest;
    assert after[|v|] == '\'';
    var j := QuoteIndex(after).value;
    assert j == |v| by {
      assert forall k :: 0 <= k < |v| ==> after[k] == v[k];
    }
    assert after[..j] == v;
    assert VersionAt(text, 0) == Some(v);
  }

  // ---------------------------------------------------------------------
  // parse_rst_field
  // ---------------------------------------------------------------------

  datatype RstError = FieldWithoutValue(line: string) // IndexError on `split(':', 2)[2]`

  /** `line.split(':', 2)` for a line starting with `:`: the field name and,
      when there is a second colon, everything after it. */
  function FieldOfLine(line: string): Option<(string, Option<string>)> {
    if |line| == 0 || line[0] != ':' then None
    else
      var rest := line[1..];
      match CharIndex(rest, ':')
      case None => Some((rest, None))
      case Some(i) => Some((rest[..i], Some(rest[i + 1..])))
  }

  /** A line naming one of `fields`, compared in lower case. */
  predicate Selects(line: string, fields: seq<string>) {
    FieldOfLine(line).Some? && Lower(FieldOfLine(line).value.0) in fields
  }

  /** The first line naming one of `fields`. */
  function FirstField(lines: seq<string>, fields: seq<string>): (r: Option<nat>)
    ensures r.Some? ==> r.value < |lines| && Selects(lines[r.value], fields)
    ensures r.Some? ==> forall k :: 0 <= k < r.value ==> !Selects(lines[k], fields)
    ensures r.None? ==> forall k :: 0 <= k < |lines| ==> !Selects(lines[k], fields)
  {
    if |lines| == 0 then None
    else if Selects(lines[0], fields) then Some(0)
    else match FirstField(lines[1..], fields) case None => None case Some(k) => Some(k + 1)
  }

  /** A line that ends a field's continuation: blank, or another field. */
  predicate EndsBlock(line: string) {
    line == "" || line[0] == ':'
  }

  /** The first line from `lo` that ends the block, or the length. */
  function BlockEnd(lines: seq<string>, lo: nat): (r: nat)
    requires lo <= |lines|
    ensures lo <= r <= |lines|
    ensures forall k :: lo <= k < r ==> !EndsBlock(lines[k])
    ensures r < |lines| ==> EndsBlock(lines[r])
    decreases |lines| - lo
  {
    if lo == |lines| || EndsBlock(lines[lo]) then lo else BlockEnd(lines, lo + 1)
  }

  function StripAll(lines: seq<string>): (r: seq<string>)
    ensures |r| == |lines|
    ensures forall i :: 0 <= i < |r| ==> r[i] == Strip(lines[i])
  {
    if |lines| == 0 then [] else [Strip(lines[0])] + StripAll(lines[1..])
  }

  /** `parse_rst_field` over the lines of the text: the value of the first
      line naming one of `fields`, with the continuation lines up to a blank
      line or the next field, each stripped and joined by single spaces;
      `""` without such a line. */
  function ParseFieldLines(lines: seq<string>, fields: seq<string>): (r: Result<string, RstError>)
    ensures FirstField(lines, fields).None? ==> r == Success("")
    ensures r.Failure? <==> FirstField(lines, fields).Some? && FieldOfLine(lines[FirstField(lines, fields).value]).value.1.None?
  {
    match FirstField(lines, fields)
    case None => Success("")
    case Some(i) =>
      match FieldOfLine(lines[i]).value.1
      case None => Failure(FieldWithoutValue(lines[i]))
      case Some(v) =>
        var end := BlockEnd(lines, i + 1);
        Success(JoinWith([Strip(v)] + StripAll(lines[i + 1..end]), " "))
  }

  /** `parse_rst_field(text, *fields)` */
  function ParseRstField(text: string, fields: seq<string>): Result<string, RstError> {
    ParseFieldLines(SplitLines(text), fields)
  }

  /** On the text of lines joined by newlines, the field is read from those
      same lines. */
  lemma ParseRstFieldLines(lines: seq<string>, fields: seq<string>)
    requires |lines| >= 1 && lines[|lines| - 1] != ""
    requires forall i :: 0 <= i < |lines| ==> NoBoundary(lines[i])
    ensures ParseRstField(JoinWith(lines, "\n"), fields) == ParseFieldLines(lines, fields)
  {
    SplitLinesJoin(lines);
  }

  /** A line `:name:value` names `name` and carries `value`. */
  lemma FieldOfLineWritten(name: string, value: string)
    requires ':' !in name
    ensures FieldOfLine(":" + name + ":" + value) == Some((name, Some(value)))
  {
    var rest := (":" + name + ":" + value)[1..];
    assert rest == name + ":" + value;
    assert rest[|name|] == ':' && rest[..|name|] == name;
    assert CharIndex(rest, ':') == Some(|name|);
    assert rest[|name| + 1..] == value;
  }

  /** The first selecting line is found. */
  lemma FirstFieldAt(lines: seq<string>, fields: seq<string>, i: nat)
    requires i < |lines| && Selects(lines[i], fields)
    requires forall k :: 0 <= k < i ==> !Selects(lines[k], fields)
    ensures FirstField(lines, fields) == Some(i)
  {
  }

  /** The block ends at the first blank or field line. */
  lemma BlockEndAt(lines: seq<string>, lo: nat, e: nat)
    requires lo <= e <= |lines|
    requires forall k :: lo <= k < e ==> !EndsBlock(lines[k])
    requires e == |lines| || EndsBlock(lines[e])
    ensures BlockEnd(lines, lo) == e
  {
  }

  /** Continuation lines up to a blank line, another field or the end form
      the block. */
  lemma BlockOfLines(head: seq<string>, more: seq<string>, after: seq<string>)
    requires forall k :: 0 <= k < |more| ==> !EndsBlock(more[k])
    requires |after| == 0 || EndsBlock(after[0])
    ensures BlockEnd(head + more + after, |head|) == |head| + |more|
    ensures (head + more + after)[|head|..|head| + |more|] == more
  {
    var lines := head + more + after;
    var end := |head| + |more|;
    forall k | |head| <= k < end
      ensures !EndsBlock(lines[k])
    {
      assert lines[k] == (head + more)[k] == more[k - |head|];
    }
    if end < |lines| {
      assert lines[end] == after[0];
    }
    BlockEndAt(lines, |head|, end);
    assert lines[..end] == head + more;
  }

  /** A field line after lines naming none of the fields is the first. */
  lemma FirstFieldWritten(before: seq<string>, line: string, more: seq<string>, after: seq<string>, fields: seq<string>)
    requires forall k :: 0 <= k < |before| ==> !Selects(before[k], fields)
    requires Selects(line, fields)
    ensures FirstField(before + [line] + more + after, fields) == Some(|before|)
  {
    var lines := before + [line] + more + after;
    forall k | 0 <= k < |before|
      ensures !Selects(lines[k], fields)
    {
      assert lines[k] == (before + [line] + more)[k] == (before + [line])[k] == before[k];
    }
    assert lines[|before|] == (before + [line] + more)[|before|] == (before + [line])[|before|] == line;
    FirstFieldAt(lines, fields, |before|);
  }

  /** A field written as `:name: value` with continuation lines, after lines
      naming none of the fields and before a blank line, another field or
      the end, reads back as its value and continuation joined by spaces. */
  lemma ParseFieldRoundTrip(before: seq<string>, name: string, value: string, more: seq<string>, after: seq<string>, fields: seq<string>)
    requires forall k :: 0 <= k < |before| ==> !Selects(before[k], fields)
    requires ':' !in name && Lower(name) in fields
    requires forall k :: 0 <= k < |more| ==> !EndsBlock(more[k]) && Strip(more[k]) == more[k]
    requires |after| == 0 || EndsBlock(after[0])
    ensures ParseFieldLines(before + [":" + name + ":" + value] + more + after, fields) ==
      Success(JoinWith([Strip(value)] + more, " "))
  {
    var line := ":" + name + ":" + value;
    var head := before + [line];
    var lines := head + more + after;
    FieldOfLineWritten(name, value);
    FirstFieldWritten(before, line, more, after, fields);
    assert lines[|before|] == (head + more)[|before|] == head[|before|] == line;
    BlockOfLines(head, more, after);
    assert StripAll(more) == more;
  }
}

=== FILE: text.dfy ===
/** String helpers with the semantics of the Python `str` methods the
    source relies on.  Only ASCII is given meaning: `isdigit`, `lower`,
    `upper` and the whitespace set of `strip` are restricted to ASCII. */
module Text {
  import opened Wrappers

  // ---------------------------------------------------------------------
  // Digits and integers
  // ---------------------------------------------------------------------

  predicate IsDigit(c: char) {
    '0' <= c <= '9'
  }

  /** Python `str.isdigit()` on ASCII: non-empty and only digits. */
  predicate IsDigits(s: string) {
    |s| > 0 && forall i :: 0 <= i < |s| ==> IsDigit(s[i])
  }

  predicate AllDigits(s: string) {
    forall i :: 0 <= i < |s| ==> IsDigit(s[i])
  }

  function DigitValue(c: char): nat
    requires IsDigit(c)
  {
    c as int - '0' as int
  }

  function DigitChar(d: nat): (c: char)
    requires d < 10
    ensures IsDigit(c) && DigitValue(c) == d
  {
    ('0' as int + d) as char
  }

  /** The number a digit string denotes, read left to right. */
  function DigitsValue(s: string): nat
    requires AllDigits(s)
  {
    if |s| == 0 then 0 else 10 * DigitsValue(s[..|s| - 1]) + DigitValue(s[|s| - 1])
  }

  /** Decimal rendering of a natural number (`str(n)`, `'%d' % n`). */
  function NatToString(n: nat): (s: string)
    ensures IsDigits(s)
    ensures s[0] == '0' ==> n == 0 && |s| == 1
    ensures DigitsValue(s) == n
  {
    if n < 10 then [DigitChar(n)]
    else
      var prefix := NatToString(n / 10);
      var s := prefix + [DigitChar(n % 10)];
      assert s[..|s| - 1] == prefix;
      s
  }

  /** Decimal rendering of an integer, with a leading `-` when negative. */
  function IntToString(i: int): (s: string)
    ensures |s| > 0
  {
    if i < 0 then "-" + NatToString(-i) else NatToString(i)
  }

  /** A decimal rendering holds digits and at most a leading minus sign,
      nothing else. */
  lemma IntToStringOmits(i: int, c: char)
    requires !IsDigit(c) && c != '-'
    ensures c !in IntToString(i)
  {
    var s := IntToString(i);
    if i >= 0 {
      assert forall k :: 0 <= k < |s| ==> IsDigit(s[k]);
    } else {
      var t := s[1..];
      assert forall k :: 0 <= k < |t| ==> IsDigit(t[k]);
      assert s == "-" + t;
    }
  }

  /** An optional sign followed by ASCII digits. */
  function ParseSigned(s: string): (r: Option<int>)
    ensures r.Some? ==> |s| > 0
    ensures IsDigits(s) ==> r == Some(DigitsValue(s) as int)
  {
    if |s| > 0 && (s[0] == '-' || s[0] == '+') then
      if IsDigits(s[1..]) then
        Some(if s[0] == '-' then -(DigitsValue(s[1..]) as int) else DigitsValue(s[1..]) as int)
      else None
    else if IsDigits(s) then Some(DigitsValue(s) as int)
    else None
  }

  /** Python `int(s)` on a string: surrounding whitespace is ignored, then
      an optional sign and ASCII digits (digit-group underscores are not
      accepted). */
  function ParseInt(s: string): (r: Option<int>)
    ensures r.Some? ==> |s| > 0
    ensures IsDigits(s) ==> r == Some(DigitsValue(s) as int)
  {
    StripDigits(s);
    ParseSigned(Strip(s))
  }

  /** Digits carry no surrounding whitespace to strip. */
  lemma StripDigits(s: string)
    ensures IsDigits(s) ==> Strip(s) == s
  {
    if IsDigits(s) {
      DigitNotWhitespace(s[0]);
      DigitNotWhitespace(s[|s| - 1]);
      StripNoWhitespace(s);
    }
  }

  lemma DigitNotWhitespace(c: char)
    requires IsDigit(c)
    ensures c !in Whitespace
  {
  }

  /** Stripping leaves alone a string that neither starts nor ends with
      whitespace. */
  lemma StripNoWhitespace(s: string)
    ensures |s| > 0 && s[0] !in Whitespace && s[|s| - 1] !in Whitespace ==> Strip(s) == s
  {
    if |s| > 0 && s[0] !in Whitespace && s[|s| - 1] !in Whitespace {
      StripSetNoop(s, Whitespace);
    }
  }

  lemma StripSetNoop(s: string, cs: set<char>)
    requires |s| > 0 && s[0] !in cs && s[|s| - 1] !in cs
    ensures StripSet(s, cs) == s
  {
    assert LStripSet(s, cs) == s;
    assert RStripSet(s, cs) == s;
  }

  lemma ParseIntNat(n: nat)
    ensures ParseInt(NatToString(n)) == Some(n)
  {
    StripDigits(NatToString(n));
  }

  /** A minus sign followed by digits reads as the negated digits. */
  lemma ParseIntNegative(s: string)
    requires |s| > 1 && s[0] == '-' && IsDigits(s[1..])
    ensures ParseInt(s) == Some(-(DigitsValue(s[1..]) as int))
  {
    assert s[|s| - 1] == s[1..][|s| - 2];
    DigitNotWhitespace(s[|s| - 1]);
    assert '-' !in Whitespace;
    StripSetNoop(s, Whitespace);
    assert Strip(s) == s;
    assert ParseSigned(s) == Some(-(DigitsValue(s[1..]) as int));
  }

  /** Rendering an integer and reading it back gives the integer. */
  lemma ParseIntRoundTrip(i: int)
    ensures ParseInt(IntToString(i)) == Some(i)
  {
    if i >= 0 {
      assert IntToString(i) == NatToString(i);
      ParseIntNat(i);
    } else {
      IntToStringNegative(i);
      ParseIntNegative(IntToString(i));
    }
  }

  lemma IntToStringNegative(i: int)
    requires i < 0
    ensures var s := IntToString(i);
      |s| > 1 && s[0] == '-' && IsDigits(s[1..]) && DigitsValue(s[1..]) == -i
  {
    var t := NatToString(-i);
    assert IntToString(i) == "-" + t;
    assert IntToString(i)[1..] == t;
  }

  // ---------------------------------------------------------------------
  // Case conversion (ASCII)
  // ---------------------------------------------------------------------

  function LowerChar(c: char): char {
    if 'A' <= c <= 'Z' then (c as int + 32) as char else c
  }

  function UpperChar(c: char): char {
    if 'a' <= c <= 'z' then (c as int - 32) as char else c
  }

  function Lower(s: string): (r: string)
    ensures |r| == |s|
    ensures forall i :: 0 <= i < |s| ==> r[i] == LowerChar(s[i])
  {
    seq(|s|, i requires 0 <= i < |s| => LowerChar(s[i]))
  }

  function Upper(s: string): (r: string)
    ensures |r| == |s|
    ensures forall i :: 0 <= i < |s| ==> r[i] == UpperChar(s[i])
  {
    seq(|s|, i requires 0 <= i < |s| => UpperChar(s[i]))
  }

  /** `s.replace(a, b)` for single characters. */
  function MapChar(s: string, a: char, b: char): (r: string)
    ensures |r| == |s|
    ensures forall i :: 0 <= i < |s| ==> r[i] == (if s[i] == a then b else s[i])
  {
    seq(|s|, i requires 0 <= i < |s| => if s[i] == a then b else s[i])
  }

  // ---------------------------------------------------------------------
  // Prefixes, suffixes and searching
  // ---------------------------------------------------------------------

  predicate StartsWith(s: string, p: string) {
    |p| <= |s| && s[..|p|] == p
  }

  predicate EndsWith(s: string, p: string) {
    |p| <= |s| && s[|s| - |p|..] == p
  }

  predicate OccursAt(s: string, p: string, i: nat) {
    i + |p| <= |s| && s[i..i + |p|] == p
  }

  /** First position at or after `from` where `p` occurs. */
  function IndexOfFrom(s: string, p: string, from: nat): (r: Option<nat>)
    ensures r.Some? ==> from <= r.value && OccursAt(s, p, r.value)
    ensures r.Some? ==> forall k :: from <= k < r.value ==> !OccursAt(s, p, k)
    ensures r.None? ==> forall k :: from <= k ==> !OccursAt(s, p, k)
    decreases |s| - from
  {
    if from + |p| > |s| then None
    else if s[from..from + |p|] == p then Some(from)
    else IndexOfFrom(s, p, from + 1)
  }

  /** `s.index(p)` / `s.find(p)`: the first occurrence of `p`. */
  function IndexOf(s: string, p: string): Option<nat> {
    IndexOfFrom(s, p, 0)
  }

  /** `p in s` for strings. */
  predicate Contains(s: string, p: string) {
    IndexOf(s, p).Some?
  }

  lemma ContainsWitness(s: string, p: string, i: nat)
    requires OccursAt(s, p, i)
    ensures Contains(s, p) && IndexOf(s, p).value <= i
  {
  }

  /** First index of a character. */
  function CharIndex(s: string, c: char): (r: Option<nat>)
    ensures r.Some? ==> r.value < |s| && s[r.value] == c && c !in s[..r.value]
    ensures r.None? <==> c !in s
  {
    if |s| == 0 then None
    else if s[0] == c then Some(0)
    else
      match CharIndex(s[1..], c)
      case None => None
      case Some(k) =>
        assert s[..k + 1] == [s[0]] + s[1..][..k];
        Some(k + 1)
  }

  /** Last index of a character. */
  function LastCharIndex(s: string, c: char): (r: Option<nat>)
    ensures r.Some? ==> r.value < |s| && s[r.value] == c && c !in s[r.value + 1..]
    ensures r.None? <==> c !in s
  {
    if |s| == 0 then None
    else if s[|s| - 1] == c then Some(|s| - 1)
    else
      match LastCharIndex(s[..|s| - 1], c)
      case None =>
        assert s == s[..|s| - 1] + [s[|s| - 1]];
        None
      case Some(k) =>
        assert s[k + 1..] == s[..|s| - 1][k + 1..] + [s[|s| - 1]];
        Some(k)
  }

  // ---------------------------------------------------------------------
  // Replacing
  // ---------------------------------------------------------------------

  /** `r` before every character of `s` and once more at the end: what
      replacing the empty string does. */
  function InsertEverywhere(s: string, r: string): string {
    if |s| == 0 then r else r + [s[0]] + InsertEverywhere(s[1..], r)
  }

  /** Python `s.replace(p, r)`: every non-overlapping occurrence of `p`,
      scanning left to right, is replaced by `r`. */
  function ReplaceAll(s: string, p: string, r: string): string
    decreases |s|
  {
    if |p| == 0 then InsertEverywhere(s, r)
    else if |s| < |p| then s
    else if s[..|p|] == p then r + ReplaceAll(s[|p|..], p, r)
    else [s[0]] + ReplaceAll(s[1..], p, r)
  }

  /** Only the first occurrence of `p` is replaced. */
  function ReplaceFirst(s: string, p: string, r: string): string {
    match IndexOf(s, p)
    case None => s
    case Some(i) => s[..i] + r + s[i + |p|..]
  }

  lemma OccursShift(s: string, p: string, k: nat)
    requires |s| > 0
    ensures OccursAt(s[1..], p, k) <==> OccursAt(s, p, k + 1)
  {
    if k + |p| <= |s| - 1 {
      assert s[1..][k..k + |p|] == s[k + 1..k + 1 + |p|];
    }
  }

  lemma OccursPrefix(s: string, p: string, i: nat, k: nat)
    requires i <= |s|
    ensures OccursAt(s[..i], p, k) ==> OccursAt(s, p, k)
  {
    if k + |p| <= i {
      assert s[..i][k..k + |p|] == s[k..k + |p|];
    }
  }

  lemma {:induction false} ReplaceAllAbsent(s: string, p: string, r: string)
    requires |p| > 0 && !Contains(s, p)
    ensures ReplaceAll(s, p, r) == s
    decreases |s|
  {
    if |s| >= |p| {
      assert !OccursAt(s, p, 0);
      forall k: nat
        ensures !OccursAt(s[1..], p, k)
      {
        OccursShift(s, p, k);
      }
      ReplaceAllAbsent(s[1..], p, r);
      assert s == [s[0]] + s[1..];
    }
  }

  lemma ReplaceAllWhole(p: string, r: string)
    requires |p| > 0
    ensures ReplaceAll(p, p, r) == r
  {
    assert p[|p|..] == [];
    assert ReplaceAll(p[|p|..], p, r) == [];
  }

  // ---------------------------------------------------------------------
  // Splitting, partitioning and joining
  // ---------------------------------------------------------------------

  /** `sep.join(parts)` */
  function JoinWith(parts: seq<string>, sep: string): string {
    if |parts| == 0 then ""
    else if |parts| == 1 then parts[0]
    else parts[0] + sep + JoinWith(parts[1..], sep)
  }

  /** `s.split(c)` for a single-character separator. */
  function Split(s: string, c: char): (parts: seq<string>)
    ensures |parts| >= 1
    ensures forall i :: 0 <= i < |parts| ==> c !in parts[i]
    ensures JoinWith(parts, [c]) == s
    decreases |s|
  {
    match CharIndex(s, c)
    case None => [s]
    case Some(i) =>
      var rest := Split(s[i + 1..], c);
      assert s == s[..i] + [c] + s[i + 1..];
      [s[..i]] + rest
  }

  /** Joining pieces that do not contain the separator and splitting again
      gives the pieces back. */
  lemma {:induction false} SplitJoin(parts: seq<string>, c: char)
    requires |parts| >= 1
    requires forall i :: 0 <= i < |parts| ==> c !in parts[i]
    ensures Split(JoinWith(parts, [c]), c) == parts
    decreases |parts|
  {
    var s := JoinWith(parts, [c]);
    if |parts| == 1 {
      assert s == parts[0];
    } else {
      var tail := JoinWith(parts[1..], [c]);
      assert s == parts[0] + [c] + tail;
      SplitCons(parts[0], c, tail);
      SplitJoin(parts[1..], c);
      assert parts == [parts[0]] + parts[1..];
    }
  }

  /** Splitting at a first piece free of the separator. */
  lemma SplitCons(a: string, c: char, tail: string)
    requires c !in a
    ensures Split(a + [c] + tail, c) == [a] + Split(tail, c)
  {
    var s := a + [c] + tail;
    assert s[|a|] == c;
    assert s[..|a|] == a;
    assert CharIndex(s, c) == Some(|a|);
    assert s[|a| + 1..] == tail;
  }

  /** Python `s.partition(sep)`: the text before the first occurrence of
      `sep`, whether it was found, and the text after it. */
  datatype Parts = Parts(before: string, found: bool, after: string)

  function Partition(s: string, sep: string): (r: Parts)
    requires |sep| > 0
    ensures r.found ==> s == r.before + sep + r.after && !Contains(r.before, sep)
    ensures !r.found ==> r == Parts(s, false, "") && !Contains(s, sep)
  {
    match IndexOf(s, sep)
    case None => Parts(s, false, "")
    case Some(i) =>
      assert s == s[..i] + sep + s[i + |sep|..];
      forall k: nat
        ensures !OccursAt(s[..i], sep, k)
      {
        OccursPrefix(s, sep, i, k);
        if k < i {
          assert !OccursAt(s, sep, k);
        } else {
          assert k + |sep| > i;
        }
      }
      Parts(s[..i], true, s[i + |sep|..])
  }

  /** Partitioning at a single character finds it exactly when it occurs,
      and at its first occurrence. */
  lemma PartitionChar(text: string, c: char)
    ensures Partition(text, [c]).found <==> c in text
    ensures Partition(text, [c]).found ==> c !in Partition(text, [c]).before
  {
    var p := Partition(text, [c]);
    if !p.found {
      forall k | 0 <= k < |text| && text[k] == c ensures false {
        assert text[k..k + 1] == [c];
        ContainsWitness(text, [c], k);
      }
    } else {
      assert text[|p.before|] == c;
      forall k | 0 <= k < |p.before| && p.before[k] == c ensures false {
        assert p.before[k..k + 1] == [c];
        ContainsWitness(p.before, [c], k);
      }
    }
  }

  // ---------------------------------------------------------------------
  // Stripping
  // ---------------------------------------------------------------------

  /** The characters Python's `str.strip()` removes, restricted to ASCII. */
  const Whitespace: set<char> :=
    {' ', '\t', '\n', '\r', 11 as char, 12 as char, 28 as char, 29 as char, 30 as char, 31 as char}

  function LStripSet(s: string, cs: set<char>): (r: string)
    ensures |r| <= |s| && r == s[|s| - |r|..]
    ensures |r| > 0 ==> r[0] !in cs
    ensures forall i :: 0 <= i < |s| - |r| ==> s[i] in cs
  {
    if |s| > 0 && s[0] in cs then LStripSet(s[1..], cs) else s
  }

  function RStripSet(s: string, cs: set<char>): (r: string)
    ensures |r| <= |s| && r == s[..|r|]
    ensures |r| > 0 ==> r[|r| - 1] !in cs
    ensures forall i :: |r| <= i < |s| ==> s[i] in cs
  {
    if |s| > 0 && s[|s| - 1] in cs then RStripSet(s[..|s| - 1], cs) else s
  }

  /** `s.strip(chars)` */
  function StripSet(s: string, cs: set<char>): string {
    RStripSet(LStripSet(s, cs), cs)
  }

  /** `s.strip()` */
  function Strip(s: string): string {
    StripSet(s, Whitespace)
  }

  /** `s.rstrip()` */
  function RStrip(s: string): string {
    RStripSet(s, Whitespace)
  }

  lemma RStripSetAppend(s: string, w: string, cs: set<char>)
    requires forall i :: 0 <= i < |w| ==> w[i] in cs
    ensures RStripSet(s + w, cs) == RStripSet(s, cs)
    decreases |w|
  {
    if |w| > 0 {
      assert (s + w)[..|s + w| - 1] == s + w[..|w| - 1];
      RStripSetAppend(s, w[..|w| - 1], cs);
    } else {
      assert s + w == s;
    }
  }

  // ---------------------------------------------------------------------
  // Paths
  // ---------------------------------------------------------------------

  /** `posixpath.join(path, name)`: an absolute `name` replaces the path;
      a relative one is appended after a `/` unless the path is empty or
      already ends in one. */
  function JoinPath(path: string, name: string): (r: string)
    ensures StartsWith(name, "/") ==> r == name
    ensures !StartsWith(name, "/") ==> StartsWith(r, path) && EndsWith(r, name)
    ensures !StartsWith(name, "/") ==> |r| - |name| - |path| == (if |path| == 0 || EndsWith(path, "/") then 0 else 1)
    ensures !StartsWith(name, "/") && |r| > |path| + |name| ==> r[|path|] == '/'
  {
    if StartsWith(name, "/") then name
    else if |path| == 0 || EndsWith(path, "/") then path + name else path + "/" + name
  }
}

=== FILE: validator.dfy ===
/** Schema lookup: the index of schema files by canonical reference and by
    name and version, the choice of a schema version, and the rendering of
    a validation error's path. */
module Validator {
  import opened Wrappers
  import opened Text
  import opened Versions
  import Assoc

  // ---------------------------------------------------------------------
  // format_path
  // ---------------------------------------------------------------------

  /** An element of a validation error's path: a mapping key or a list
      index. */
  datatype PathPart = Key(name: string) | At(index: int)

  /** `".%s" % p` for a key, `"[%d]" % p` for an index. */
  function PartText(p: PathPart): string {
    match p
    case Key(n) => "." + n
    case At(i) => "[" + IntToString(i) + "]"
  }

  function Concat(parts: seq<PathPart>): string {
    if |parts| == 0 then "" else PartText(parts[0]) + Concat(parts[1..])
  }

  /** `format_path(path)`: the first element is used as it is, so a path
      that starts with an index fails with `TypeError` (`None` here). */
  function FormatPath(path: seq<PathPart>): (r: Option<string>)
    ensures |path| == 0 ==> r == Some("")
    ensures |path| > 0 ==> (r.Some? <==> path[0].Key?)
  {
    if |path| == 0 then Some("")
    else if path[0].At? then None
    else Some(path[0].name + Concat(path[1..]))
  }

  lemma {:induction false} ConcatAppend(parts: seq<PathPart>, p: PathPart)
    ensures Concat(parts + [p]) == Concat(parts) + PartText(p)
    decreases |parts|
  {
    if |parts| > 0 {
      assert (parts + [p])[1..] == parts[1..] + [p];
      ConcatAppend(parts[1..], p);
    }
  }

  /** Each further element extends the rendering by its own text: a key
      by `.key`, an index by `[index]`. */
  lemma FormatPathAppend(path: seq<PathPart>, p: PathPart)
    requires |path| > 0
    ensures FormatPath(path + [p]) == if path[0].At? then None else Some(FormatPath(path).value + PartText(p))
  {
    var q := path + [p];
    assert q[0] == path[0];
    assert q[1..] == path[1..] + [p];
    ConcatAppend(path[1..], p);
    if path[0].Key? {
      assert path[0].name + (Concat(path[1..]) + PartText(p)) == (path[0].name + Concat(path[1..])) + PartText(p);
    }
  }

  lemma FormatPathExample()
    ensures FormatPath([Key("steps"), At(0), Key("img")]) == Some("steps[0].img")
  {
    var p1, p2, p3 := [Key("steps")], [Key("steps"), At(0)], [Key("steps"), At(0), Key("img")];
    assert FormatPath(p1) == Some("steps") by {
      assert p1[1..] == [];
      assert "steps" + "" == "steps";
    }
    assert FormatPath(p2) == Some("steps[0]") by {
      FormatPathAppend(p1, At(0));
      assert p1 + [At(0)] == p2;
      assert PartText(At(0)) == "[0]" by {
        assert IntToString(0) == "0";
      }
      assert "steps" + "[0]" == "steps[0]";
    }
    FormatPathAppend(p2, Key("img"));
    assert p2 + [Key("img")] == p3;
    assert PartText(Key("img")) == ".img";
    assert "steps[0]" + ".img" == "steps[0].img";
  }

  // ---------------------------------------------------------------------
  // get_version
  // ---------------------------------------------------------------------

  datatype LookupError =
    | UnknownSchema(name: string)                             // ValueError: no schemas by that name
    | NoSuchVersion(name: string, major: int, minor: Option<int>) // ValueError: no matching version

  /** A version with the requested major and at least the requested
      minor, when one is given. */
  predicate Candidate(v: Version, major: int, minor: Option<int>) {
    v.major == major && (minor.None? || v.minor >= minor.value)
  }

  /** `max` of the candidates among the versions of one schema. */
  function Newest(vs: seq<(Version, string)>, major: int, minor: Option<int>): (r: Option<Version>)
    ensures r.Some? ==> Candidate(r.value, major, minor) && Assoc.HasKey(vs, r.value)
    ensures r.Some? ==> forall i :: 0 <= i < |vs| && Candidate(vs[i].0, major, minor) ==> vs[i].0.minor <= r.value.minor
    ensures r.None? <==> forall i :: 0 <= i < |vs| ==> !Candidate(vs[i].0, major, minor)
  {
    if |vs| == 0 then None
    else
      var rest := Newest(vs[1..], major, minor);
      assert forall i :: 1 <= i < |vs| ==> vs[i] == vs[1..][i - 1];
      if !Candidate(vs[0].0, major, minor) then rest
      else if rest.Some? && vs[0].0.minor <= rest.value.minor then rest
      else Some(vs[0].0)
  }

  /** `get_version(name, major, minor)`: the version and the reference of
      the schema document. */
  function GetVersion(index: seq<(string, seq<(Version, string)>)>, name: string, major: int, minor: Option<int>): (r: Result<(Version, string), LookupError>)
  {
    match Assoc.Get(index, name)
    case None => Failure(UnknownSchema(name))
    case Some(vs) =>
      if minor.Some? && Assoc.HasKey(vs, Version(major, minor.value)) then
        Success((Version(major, minor.value), Assoc.Get(vs, Version(major, minor.value)).value))
      else
        match Newest(vs, major, minor)
        case None => Failure(NoSuchVersion(name, major, minor))
        case Some(v) => Success((v, Assoc.Get(vs, v).value))
  }

  /** An exact version is taken when it is indexed, even if a newer minor
      exists; otherwise the newest candidate, and an error only when there
      is none. The reference is the one indexed for the version. */
  lemma GetVersionChoice(index: seq<(string, seq<(Version, string)>)>, name: string, major: int, minor: Option<int>)
    ensures var r := GetVersion(index, name, major, minor);
      (!Assoc.HasKey(index, name) <==> r == Failure(UnknownSchema(name))) &&
      (r.Success? ==> var vs := Assoc.Get(index, name).value;
        Assoc.Get(vs, r.value.0) == Some(r.value.1) && Candidate(r.value.0, major, minor) &&
        (minor.Some? && Assoc.HasKey(vs, Version(major, minor.value)) ==> r.value.0 == Version(major, minor.value)) &&
        (!(minor.Some? && Assoc.HasKey(vs, Version(major, minor.value))) ==>
          forall i :: 0 <= i < |vs| && Candidate(vs[i].0, major, minor) ==> vs[i].0.minor <= r.value.0.minor))
    ensures var r := GetVersion(index, name, major, minor);
      Assoc.HasKey(index, name) ==>
        (r.Failure? <==> forall i :: 0 <= i < |Assoc.Get(index, name).value| ==> !Candidate(Assoc.Get(index, name).value[i].0, major, minor))
  {
    if Assoc.HasKey(index, name) {
      var vs := Assoc.Get(index, name).value;
      if minor.Some? && Assoc.HasKey(vs, Version(major, minor.value)) {
        var p := Assoc.IndexOfKey(vs, Version(major, minor.value)).value;
        assert Candidate(vs[p].0, major, minor);
      }
    }
  }

  // ---------------------------------------------------------------------
  // update_indexes
  // ---------------------------------------------------------------------

  /** The number of leading ASCII digits. */
  function LeadingDigits(s: string): (n: nat)
    ensures n <= |s|
  {
    if |s| == 0 || !IsDigit(s[0]) then 0 else 1 + LeadingDigits(s[1..])
  }

  /** The leading run is all digits and is followed by a non-digit. */
  lemma {:induction false} LeadingDigitsRun(s: string)
    ensures var n := LeadingDigits(s);
      AllDigits(s[..n]) && (n < |s| ==> !IsDigit(s[n]))
  {
    if |s| > 0 && IsDigit(s[0]) {
      LeadingDigitsRun(s[1..]);
      var n := LeadingDigits(s);
      assert s[..n] == [s[0]] + s[1..][..n - 1];
    }
  }

  /** `(\d+)[_.](\d+)$` matched against the whole of `t`. Digits are
      never `_` or `.`, so the first group is all the leading digits. */
  function VersionNumbers(t: string): Option<(nat, nat)> {
    var j := LeadingDigits(t);
    if j == 0 || j >= |t| || (t[j] != '_' && t[j] != '.') then None
    else
      var tail := t[j + 1..];
      if |tail| == 0 || LeadingDigits(tail) < |tail| then None
      else
        LeadingDigitsRun(t);
        LeadingDigitsRun(tail);
        assert tail[..|tail|] == tail;
        Some((DigitsValue(t[..j]), DigitsValue(tail)))
  }

  /** `[_-]v?(\d+)[_.](\d+)$` matched against the whole of `t`: the two
      numbers. A `v` is never a digit, so taking it whenever it is there
      loses no match. */
  function VersionSuffix(t: string): Option<(nat, nat)> {
    if |t| == 0 || (t[0] != '_' && t[0] != '-') then None
    else if |t| > 1 && t[1] == 'v' then VersionNumbers(t[2..])
    else VersionNumbers(t[1..])
  }

  /** Where the greedy `(.*)` ends: the largest position up to `i` whose
      suffix matches the version pattern. */
  function SplitFrom(s: string, i: nat): (r: Option<nat>)
    requires i <= |s|
    ensures r.Some? ==> r.value <= i
    decreases i
  {
    if VersionSuffix(s[i..]).Some? then Some(i)
    else if i == 0 then None
    else SplitFrom(s, i - 1)
  }

  /** The split found is a position whose suffix matches. */
  lemma {:induction false} SplitFromMatches(s: string, i: nat)
    requires i <= |s| && SplitFrom(s, i).Some?
    ensures VersionSuffix(s[SplitFrom(s, i).value..]).Some?
    decreases i
  {
    if VersionSuffix(s[i..]).None? {
      SplitFromMatches(s, i - 1);
    }
  }

  /** No position after the split, up to `i`, matches; without a split no
      position up to `i` matches. */
  lemma {:induction false} SplitFromLargest(s: string, i: nat, q: nat)
    requires q <= i <= |s|
    requires SplitFrom(s, i).None? || SplitFrom(s, i).value < q
    ensures VersionSuffix(s[q..]).None?
    decreases i
  {
    assert VersionSuffix(s[i..]).None?;
    if q < i {
      assert SplitFrom(s, i) == SplitFrom(s, i - 1);
      SplitFromLargest(s, i - 1, q);
    }
  }

  /** The version pattern matches the suffix of `s` from `q`. */
  predicate SuffixMatches(s: string, q: nat)
    requires q <= |s|
  {
    VersionSuffix(s[q..]).Some?
  }

  /** A split reaches back to the first matching position below `i`. */
  lemma SplitFromFinds(s: string, i: nat, p: nat)
    requires p <= i <= |s| && SuffixMatches(s, p)
    requires forall q :: p < q <= i ==> !SuffixMatches(s, q)
    ensures SplitFrom(s, i) == Some(p)
  {
    var r := SplitFrom(s, i);
    if r.None? || r.value < p {
      SplitFromLargest(s, i, p);
    } else if r.value > p {
      SplitFromMatches(s, i);
      assert SuffixMatches(s, r.value);
    }
  }

  /** `SCHEMA_FILENAME_RE.match(ref)`: the name, major and minor groups. */
  function MatchSchemaName(ref: string): (r: Option<(string, nat, nat)>)
    ensures r.Some? ==> StartsWith(ref, r.value.0)
  {
    match SplitFrom(ref, |ref|)
    case None => None
    case Some(i) =>
      match VersionSuffix(ref[i..])
      case None => None  // never: the split position matches
      case Some(v) => Some((ref[..i], v.0, v.1))
  }

  /** A match splits the name off at the last position where the version
      pattern matches the rest; no match means no position does. */
  lemma MatchSchemaNameSplits(ref: string)
    ensures var r := MatchSchemaName(ref);
      (r.Some? ==> (|r.value.0| <= |ref| && ref[..|r.value.0|] == r.value.0 &&
                    VersionSuffix(ref[|r.value.0|..]) == Some((r.value.1, r.value.2)))) &&
      (r.Some? ==> forall q :: |r.value.0| < q <= |ref| ==> VersionSuffix(ref[q..]).None?) &&
      (r.None? ==> forall q :: 0 <= q <= |ref| ==> VersionSuffix(ref[q..]).None?)
  {
    var sp := SplitFrom(ref, |ref|);
    if sp.Some? {
      SplitFromMatches(ref, |ref|);
    }
    forall q | 0 <= q <= |ref| && (sp.None? || sp.value < q)
      ensures VersionSuffix(ref[q..]).None?
    {
      SplitFromLargest(ref, |ref|, q);
    }
  }

  /** `"{}-v{}.{}".format(name, major, minor)` */
  function CanonicalRef(name: string, major: nat, minor: nat): string {
    name + "-v" + NatToString(major) + "." + NatToString(minor)
  }

  /** The canonical reference of a schema file, when its name matches. */
  function CanonicalOf(ref: string): Option<string> {
    match MatchSchemaName(ref)
    case None => None
    case Some(m) => Some(CanonicalRef(m.0, m.1, m.2))
  }

  /** Two digit runs around a `.` read back as their values. */
  lemma DottedNumbers(a: string, b: string)
    requires IsDigits(a) && IsDigits(b)
    ensures VersionNumbers(a + "." + b) == Some((DigitsValue(a), DigitsValue(b)))
  {
    var t := a + "." + b;
    assert t[|a|] == '.';
    assert t[..|a|] == a;
    var j := LeadingDigits(t);
    LeadingDigitsRun(t);
    assert j == |a|;
    assert LeadingDigits(b) == |b| by {
      LeadingDigitsRun(b);
    }
    assert t[j + 1..] == b;
  }

  /** The version suffix a canonical reference ends with reads back. */
  lemma CanonicalSuffix(a: string, b: string)
    requires IsDigits(a) && IsDigits(b)
    ensures VersionSuffix("-v" + a + "." + b) == Some((DigitsValue(a), DigitsValue(b)))
  {
    var t := "-v" + a + "." + b;
    assert VersionSuffix(t) == VersionNumbers(t[2..]) by {
      assert t[0] == '-' && t[1] == 'v';
    }
    assert t[2..] == a + "." + b;
    DottedNumbers(a, b);
  }

  /** The greedy split ends at the last position whose suffix matches. */
  lemma SplitAtLast(s: string, p: nat)
    requires p <= |s| && VersionSuffix(s[p..]).Some?
    requires forall q :: p < q <= |s| ==> VersionSuffix(s[q..]).None?
    ensures SplitFrom(s, |s|) == Some(p)
  {
    assert forall q :: p < q <= |s| ==> !SuffixMatches(s, q);
    SplitFromFinds(s, |s|, p);
  }

  /** After the name, a canonical reference holds only `-`, `v`, digits and
      one `.`, and only its first character can start the suffix. */
  lemma CanonicalNoLaterSuffix(name: string, major: nat, minor: nat, q: nat)
    requires |name| < q <= |CanonicalRef(name, major, minor)|
    ensures VersionSuffix(CanonicalRef(name, major, minor)[q..]).None?
  {
    var a, b := NatToString(major), NatToString(minor);
    var s := CanonicalRef(name, major, minor);
    var p := |name|;
    if q < |s| {
      assert s[q..][0] == s[q];
      if q == p + 1 {
        assert s[q] == 'v';
      } else if q < p + 2 + |a| {
        assert s[q] == a[q - p - 2];
      } else if q == p + 2 + |a| {
        assert s[q] == '.';
      } else {
        assert s[q] == b[q - p - 3 - |a|];
      }
    }
  }

  /** A canonical reference is matched as the name and version it was made
      from: no later position can start the version suffix. */
  lemma CanonicalRefRoundTrip(name: string, major: nat, minor: nat)
    ensures MatchSchemaName(CanonicalRef(name, major, minor)) == Some((name, major, minor))
    ensures CanonicalOf(CanonicalRef(name, major, minor)) == Some(CanonicalRef(name, major, minor))
  {
    var s := CanonicalRef(name, major, minor);
    var p := |name|;
    assert s[p..] == "-v" + NatToString(major) + "." + NatToString(minor);
    CanonicalSuffix(NatToString(major), NatToString(minor));
    forall q | p < q <= |s|
      ensures VersionSuffix(s[q..]).None?
    {
      CanonicalNoLaterSuffix(name, major, minor, q);
    }
    SplitAtLast(s, p);
    assert s[..p] == name;
  }

  function HexValue(c: char): Option<nat> {
    if '0' <= c <= '9' then Some(c as int - '0' as int)
    else if 'a' <= c <= 'f' then Some(c as int - 'a' as int + 10)
    else if 'A' <= c <= 'F' then Some(c as int - 'A' as int + 10)
    else None
  }

  /** `unquote_plus` for ASCII escapes: `+` is a space and `%HH` below 80
      hex is the character it codes. */
  function UnquotePlus(s: string): (r: string)
    ensures |r| <= |s|
  {
    if |s| == 0 then ""
    else if s[0] == '+' then " " + UnquotePlus(s[1..])
    else if s[0] == '%' && |s| >= 3 && HexValue(s[1]).Some? && HexValue(s[2]).Some?
      && 16 * HexValue(s[1]).value + HexValue(s[2]).value < 128 then
      [(16 * HexValue(s[1]).value + HexValue(s[2]).value) as char] + UnquotePlus(s[3..])
    else [s[0]] + UnquotePlus(s[1..])
  }

  /** A string with no escapes and no `+` is its own unquoting. */
  lemma {:induction false} UnquotePlusPlain(s: string)
    requires '%' !in s && '+' !in s
    ensures UnquotePlus(s) == s
  {
    if |s| > 0 {
      assert s == [s[0]] + s[1..];
      assert s[0] in s;
      UnquotePlusPlain(s[1..]);
    }
  }

  /** What a reference stands for: a remote schema's loader, or a local
      schema's loader wrapped to carry the reference as its id. */
  datatype RefEntry<L> = Remote(loader: L) | Local(loader: L, id: string)

  /** The reference index and the local index (name to versions, each
      with its canonical reference). */
  datatype Indexes<L> = Indexes(refs: seq<(string, RefEntry<L>)>, local: seq<(string, seq<(Version, string)>)>)

  /** A registry name of a schema downloaded from `http` or `https`. */
  predicate IsRemote(ref: string) {
    StartsWith(ref, "http%3A") || StartsWith(ref, "https%3A")
  }

  /** A remote schema is indexed under its unquoted URL unless that is
      taken (`setdefault`). */
  function AddRemote<L>(ix: Indexes<L>, ref: string, loader: L): Indexes<L> {
    var key := UnquotePlus(ref);
    if Assoc.HasKey(ix.refs, key) then ix else Indexes(ix.refs + [(key, Remote(loader))], ix.local)
  }

  /** A local schema whose file name matched as `name`, `major`, `minor`:
      skipped when its canonical reference is taken; otherwise indexed
      under the canonical reference, under its own name when that differs,
      and in the local index under its name and version unless that
      version is already there. */
  function AddLocal<L>(ix: Indexes<L>, ref: string, loader: L, name: string, major: nat, minor: nat): Indexes<L> {
    var ref1 := CanonicalRef(name, major, minor);
    if Assoc.HasKey(ix.refs, ref1) then ix
    else
      var refs1 := Assoc.Put(ix.refs, ref1, Local(loader, ref1));
      var refs2 := if ref1 != ref then Assoc.Put(refs1, ref, Local(loader, ref)) else refs1;
      var versions := Assoc.Get(ix.local, name).GetOr([]);
      var version := Version(major, minor);
      var versions' := if Assoc.HasKey(versions, version) then versions else versions + [(version, ref1)];
      Indexes(refs2, Assoc.Put(ix.local, name, versions'))
  }

  /** One schema of the registry, as the loop body of `update_indexes`
      handles it; a file name that does not match is skipped. */
  function AddSchema<L>(ix: Indexes<L>, ref: string, loader: L): Indexes<L> {
    if IsRemote(ref) then AddRemote(ix, ref, loader)
    else
      match MatchSchemaName(ref)
      case None => ix
      case Some(m) => AddLocal(ix, ref, loader, m.0, m.1, m.2)
  }

  /** `update_indexes()` over the registry's schemas in order. */
  function UpdateIndexes<L>(schemas: seq<(string, L)>): Indexes<L> {
    if |schemas| == 0 then Indexes([], [])
    else
      var last := schemas[|schemas| - 1];
      AddSchema(UpdateIndexes(schemas[..|schemas| - 1]), last.0, last.1)
  }

  /** A remote reference already indexed keeps its first loader. */
  lemma RemoteFirstWins<L>(ix: Indexes<L>, ref: string, loader: L)
    requires IsRemote(ref) && Assoc.HasKey(ix.refs, UnquotePlus(ref))
    ensures AddSchema(ix, ref, loader) == ix
  {
  }

  /** A remote reference not yet indexed is added under its unquoted URL,
      with nothing else in either index changed. */
  lemma RemoteIndexed<L>(ix: Indexes<L>, ref: string, loader: L)
    requires IsRemote(ref) && !Assoc.HasKey(ix.refs, UnquotePlus(ref))
    ensures Assoc.Get(AddSchema(ix, ref, loader).refs, UnquotePlus(ref)) == Some(Remote(loader))
    ensures forall k :: k != UnquotePlus(ref) ==> Assoc.Get(AddSchema(ix, ref, loader).refs, k) == Assoc.Get(ix.refs, k)
    ensures AddSchema(ix, ref, loader).local == ix.local
  {
    Assoc.AppendGet(ix.refs, UnquotePlus(ref), Remote(loader));
  }

  /** An indexed key other than the file's own name keeps its entry; so
      does the file's own name when the canonical reference is taken. */
  lemma AddLocalKeeps<L>(ix: Indexes<L>, ref: string, loader: L, name: string, major: nat, minor: nat, k: string)
    requires Assoc.HasKey(ix.refs, k)
    requires k != ref || Assoc.HasKey(ix.refs, CanonicalRef(name, major, minor))
    ensures Assoc.Get(AddLocal(ix, ref, loader, name, major, minor).refs, k) == Assoc.Get(ix.refs, k)
  {
  }

  /** A canonical reference once indexed is never replaced: a later file
      with the same canonical reference is skipped, and a later file named
      exactly like it has that canonical reference itself. */
  lemma CanonicalKept<L>(ix: Indexes<L>, ref: string, loader: L, k: string)
    requires Assoc.HasKey(ix.refs, k) && CanonicalOf(k) == Some(k)
    ensures Assoc.Get(AddSchema(ix, ref, loader).refs, k) == Assoc.Get(ix.refs, k)
  {
    if IsRemote(ref) {
      Assoc.GetAppend(ix.refs, UnquotePlus(ref), Remote(loader), k);
    } else if MatchSchemaName(ref).Some? {
      var m := MatchSchemaName(ref).value;
      assert AddSchema(ix, ref, loader) == AddLocal(ix, ref, loader, m.0, m.1, m.2);
      AddLocalKeeps(ix, ref, loader, m.0, m.1, m.2, k);
    }
  }

  /** A file whose canonical reference is new is indexed under it. */
  lemma AddSchemaNew<L>(ix: Indexes<L>, ref: string, loader: L)
    requires !IsRemote(ref) && CanonicalOf(ref).Some?
    requires !Assoc.HasKey(ix.refs, CanonicalOf(ref).value)
    ensures Assoc.Get(AddSchema(ix, ref, loader).refs, CanonicalOf(ref).value) == Some(Local(loader, CanonicalOf(ref).value))
  {
    var m := MatchSchemaName(ref).value;
    assert AddSchema(ix, ref, loader) == AddLocal(ix, ref, loader, m.0, m.1, m.2);
  }

  /** The indexes after `j + 1` files are those after `j` files with file
      `j` added. */
  lemma UpdateIndexesStep<L>(schemas: seq<(string, L)>, j: nat)
    requires j < |schemas|
    ensures UpdateIndexes(schemas[..j + 1]) == AddSchema(UpdateIndexes(schemas[..j]), schemas[j].0, schemas[j].1)
  {
    assert schemas[..j + 1][..j] == schemas[..j];
  }

  /** A canonical reference indexed after the first `j` files keeps its
      entry to the end. */
  lemma {:induction false} CanonicalKeptThrough<L>(schemas: seq<(string, L)>, j: nat, c: string)
    requires j <= |schemas| && CanonicalOf(c) == Some(c)
    requires Assoc.HasKey(UpdateIndexes(schemas[..j]).refs, c)
    ensures Assoc.Get(UpdateIndexes(schemas).refs, c) == Assoc.Get(UpdateIndexes(schemas[..j]).refs, c)
    decreases |schemas| - j
  {
    if j == |schemas| {
      assert schemas[..j] == schemas;
    } else {
      CanonicalKeptStep(schemas, j, c);
      CanonicalKeptThrough(schemas, j + 1, c);
    }
  }

  /** File `j` keeps a canonical reference indexed before it. */
  lemma CanonicalKeptStep<L>(schemas: seq<(string, L)>, j: nat, c: string)
    requires j < |schemas| && CanonicalOf(c) == Some(c)
    requires Assoc.HasKey(UpdateIndexes(schemas[..j]).refs, c)
    ensures Assoc.Get(UpdateIndexes(schemas[..j + 1]).refs, c) == Assoc.Get(UpdateIndexes(schemas[..j]).refs, c)
  {
    UpdateIndexesStep(schemas, j);
    CanonicalKept(UpdateIndexes(schemas[..j]), schemas[j].0, schemas[j].1, c);
  }

  /** The first schema file with a given canonical reference is the one the
      reference leads to after all files are indexed. */
  lemma FirstCanonicalWins<L>(schemas: seq<(string, L)>, i: nat)
    requires i < |schemas| && !IsRemote(schemas[i].0) && CanonicalOf(schemas[i].0).Some?
    requires !Assoc.HasKey(UpdateIndexes(schemas[..i]).refs, CanonicalOf(schemas[i].0).value)
    ensures var c := CanonicalOf(schemas[i].0).value;
      Assoc.Get(UpdateIndexes(schemas).refs, c) == Some(Local(schemas[i].1, c))
  {
    var c := CanonicalOf(schemas[i].0).value;
    UpdateIndexesStep(schemas, i);
    AddSchemaNew(UpdateIndexes(schemas[..i]), schemas[i].0, schemas[i].1);
    var m := MatchSchemaName(schemas[i].0).value;
    CanonicalRefRoundTrip(m.0, m.1, m.2);
    CanonicalKeptThrough(schemas, i + 1, c);
  }

  /** Indexing a file with a new canonical reference records its version
      under its name, unless that version is already recorded there. */
  lemma LocalIndexRecords<L>(ix: Indexes<L>, ref: string, loader: L)
    requires !IsRemote(ref) && MatchSchemaName(ref).Some?
    ensures var m := MatchSchemaName(ref).value;
      var r := AddSchema(ix, ref, loader);
      var before := Assoc.Get(ix.local, m.0).GetOr([]);
      !Assoc.HasKey(ix.refs, CanonicalRef(m.0, m.1, m.2)) ==>
        Assoc.HasKey(r.local, m.0) &&
        Assoc.Get(Assoc.Get(r.local, m.0).value, Version(m.1, m.2)) ==
          if Assoc.HasKey(before, Version(m.1, m.2)) then Assoc.Get(before, Version(m.1, m.2))
          else Some(CanonicalRef(m.0, m.1, m.2))
  {
    var m := MatchSchemaName(ref).value;
    var before := Assoc.Get(ix.local, m.0).GetOr([]);
    if !Assoc.HasKey(before, Version(m.1, m.2)) {
      Assoc.AppendGet(before, Version(m.1, m.2), CanonicalRef(m.0, m.1, m.2));
    }
  }

  lemma UnquoteExample()
    ensures UnquotePlus("a%2Fb+c") == "a/b c"
  {
    assert HexValue('2') == Some(2) && HexValue('F') == Some(15);
    assert UnquotePlus("c") == "c";
    assert UnquotePlus("+c") == " c";
    assert UnquotePlus("b+c") == "b c";
    assert "%2Fb+c"[3..] == "b+c";
    assert UnquotePlus("%2Fb+c") == "/b c";
    assert "a%2Fb+c"[1..] == "%2Fb+c";
  }
}

=== FILE: values.dfy ===
/** The loaded-YAML value tree the roman tools pass around (the output of
    a YAML or JSON loader), Python truthiness over it, and `json.dumps`
    with its default settings (`ensure_ascii=True`, separators `", "` and
    `": "`). */
module Values {
  import opened Wrappers
  import opened Text

  /** A mapping is an insertion-ordered sequence of string keys and values
      (see module Assoc). */
  datatype Value =
    | Null
    | Bool(b: bool)
    | Int(i: int)
    | Str(s: string)
    | List(items: seq<Value>)
    | Dict(fields: seq<(string, Value)>)

  /** Python `bool(v)`. */
  predicate Truthy(v: Value) {
    match v
    case Null => false
    case Bool(b) => b
    case Int(i) => i != 0
    case Str(s) => |s| > 0
    case List(items) => |items| > 0
    case Dict(fields) => |fields| > 0
  }

  // ---------------------------------------------------------------------
  // JSON string escaping
  // ---------------------------------------------------------------------

  predicate Printable(c: char) {
    0x20 <= c as int <= 0x7e
  }

  predicate AllPrintable(s: string) {
    forall i :: 0 <= i < |s| ==> Printable(s[i])
  }

  const HexDigits: string := "0123456789abcdef"

  function HexValue(c: char): Option<nat> {
    if '0' <= c <= '9' then Some(c as int - '0' as int)
    else if 'a' <= c <= 'f' then Some(c as int - 'a' as int + 10)
    else if 'A' <= c <= 'F' then Some(c as int - 'A' as int + 10)
    else None
  }

  /** Four lower-case hexadecimal digits, as `'{0:04x}'.format(n)`. */
  function Hex4(n: nat): (r: string)
    requires n < 0x10000
    ensures |r| == 4 && AllPrintable(r)
  {
    var r1 := n % 0x1000;
    var r2 := r1 % 0x100;
    var a, b, c, d := n / 0x1000, r1 / 0x100, r2 / 0x10, r2 % 0x10;
    assert a < 16 && b < 16 && c < 16 && d < 16;
    HexDigitPrintable(a);
    HexDigitPrintable(b);
    HexDigitPrintable(c);
    HexDigitPrintable(d);
    [HexDigits[a], HexDigits[b], HexDigits[c], HexDigits[d]]
  }

  lemma HexDigitPrintable(d: nat)
    requires d < 16
    ensures Printable(HexDigits[d])
  {
  }

  function ParseHex4(s: string): Option<nat>
    requires |s| == 4
  {
    match (HexValue(s[0]), HexValue(s[1]), HexValue(s[2]), HexValue(s[3]))
    case (Some(a), Some(b), Some(c), Some(d)) => Some(a * 0x1000 + b * 0x100 + c * 0x10 + d)
    case _ => None
  }

  lemma HexDigitRoundTrip(d: nat)
    requires d < 16
    ensures HexValue(HexDigits[d]) == Some(d)
  {
  }

  lemma Hex4RoundTrip(n: nat)
    requires n < 0x10000
    ensures ParseHex4(Hex4(n)) == Some(n)
  {
    var r1 := n % 0x1000;
    var r2 := r1 % 0x100;
    var a, b, c, d := n / 0x1000, r1 / 0x100, r2 / 0x10, r2 % 0x10;
    assert n == a * 0x1000 + r1;
    assert r1 == b * 0x100 + r2;
    assert r2 == c * 0x10 + d;
    HexDigitRoundTrip(a);
    HexDigitRoundTrip(b);
    HexDigitRoundTrip(c);
    HexDigitRoundTrip(d);
    assert Hex4(n) == [HexDigits[a], HexDigits[b], HexDigits[c], HexDigits[d]];
  }

  const Backspace: char := 8 as char
  const FormFeed: char := 12 as char

  /** The UTF-16 surrogate pair of a character outside the Basic
      Multilingual Plane. */
  function HighSurrogate(c: char): (h: nat)
    requires c as int >= 0x10000
    ensures 0xd800 <= h < 0xdc00
  {
    0xd800 + (c as int - 0x10000) / 0x400
  }

  function LowSurrogate(c: char): (l: nat)
    requires c as int >= 0x10000
    ensures 0xdc00 <= l < 0xe000
  {
    0xdc00 + (c as int - 0x10000) % 0x400
  }

  /** The character a UTF-16 surrogate pair stands for. */
  function CombineSurrogates(hi: nat, lo: nat): char
    requires 0xd800 <= hi < 0xdc00 && 0xdc00 <= lo < 0xe000
  {
    (0x10000 + (hi - 0xd800) * 0x400 + (lo - 0xdc00)) as char
  }

  lemma SurrogatesCombine(c: char)
    requires c as int >= 0x10000
    ensures CombineSurrogates(HighSurrogate(c), LowSurrogate(c)) == c
  {
    var x := c as int - 0x10000;
    assert x == x / 0x400 * 0x400 + x % 0x400;
  }

  /** How the ASCII-only JSON encoder writes one character: the short
      escapes for quote, backslash and five control characters, the
      character itself when printable, `\uXXXX` otherwise, and a UTF-16
      surrogate pair above the Basic Multilingual Plane. */
  function EscapeChar(c: char): (r: string)
    ensures 2 <= |r| || r == [c]
    ensures AllPrintable(r)
    ensures r == [c] <==> Printable(c) && c != '"' && c != '\\'
  {
    if c == '"' then "\\\""
    else if c == '\\' then "\\\\"
    else if c == '\n' then "\\n"
    else if c == '\r' then "\\r"
    else if c == '\t' then "\\t"
    else if c == Backspace then "\\b"
    else if c == FormFeed then "\\f"
    else if Printable(c) then [c]
    else if c as int < 0x10000 then "\\u" + Hex4(c as int)
    else "\\u" + Hex4(HighSurrogate(c)) + "\\u" + Hex4(LowSurrogate(c))
  }

  lemma EscapeAstral(c: char)
    requires c as int >= 0x10000
    ensures EscapeChar(c) == "\\u" + Hex4(HighSurrogate(c)) + "\\u" + Hex4(LowSurrogate(c))
  {
  }

  function Escape(s: string): (r: string)
    ensures AllPrintable(r)
  {
    if |s| == 0 then "" else EscapeChar(s[0]) + Escape(s[1..])
  }

  /** A JSON string literal. */
  function Quote(s: string): (r: string)
    ensures AllPrintable(r)
    ensures |r| >= 2 && r[0] == '"' && r[|r| - 1] == '"'
  {
    "\"" + Escape(s) + "\""
  }

  /** Reads back one escape sequence at the head of `s`: the decoded
      character and how many input characters it used. */
  function UnescapeHead(s: string): Option<(char, nat)>
    requires |s| > 0
  {
    if s[0] != '\\' then Some((s[0], 1))
    else if |s| < 2 then None
    else if s[1] == '"' then Some(('"', 2))
    else if s[1] == '\\' then Some(('\\', 2))
    else if s[1] == 'n' then Some(('\n', 2))
    else if s[1] == 'r' then Some(('\r', 2))
    else if s[1] == 't' then Some(('\t', 2))
    else if s[1] == 'b' then Some((Backspace, 2))
    else if s[1] == 'f' then Some((FormFeed, 2))
    else if s[1] != 'u' || |s| < 6 then None
    else
      match ParseHex4(s[2..6])
      case None => None
      case Some(hi) =>
        if hi < 0xd800 || 0xe000 <= hi then Some((hi as char, 6))
        else if 0xdc00 <= hi || |s| < 12 || s[6..8] != "\\u" then None
        else
          match ParseHex4(s[8..12])
          case None => None
          case Some(lo) =>
            if lo < 0xdc00 || 0xe000 <= lo then None
            else Some((CombineSurrogates(hi, lo), 12))
  }

  /** The inverse of `Escape`: decodes the body of a JSON string literal. */
  function Unescape(s: string): Option<string>
    decreases |s|
  {
    if |s| == 0 then Some("")
    else
      match UnescapeHead(s)
      case None => None
      case Some((c, n)) =>
        if n == 0 || n > |s| then None
        else
          match Unescape(s[n..])
          case None => None
          case Some(rest) => Some([c] + rest)
  }

  lemma UnescapeHeadPair(hi: nat, lo: nat, rest: string)
    requires 0xd800 <= hi < 0xdc00 && 0xdc00 <= lo < 0xe000
    ensures UnescapeHead("\\u" + Hex4(hi) + "\\u" + Hex4(lo) + rest)
      == Some((CombineSurrogates(hi, lo), 12))
  {
    var s := "\\u" + Hex4(hi) + "\\u" + Hex4(lo) + rest;
    assert s[0] == '\\' && s[1] == 'u';
    assert s[6..8] == "\\u";
    assert ParseHex4(s[2..6]) == Some(hi) by {
      assert s[2..6] == Hex4(hi);
      Hex4RoundTrip(hi);
    }
    assert ParseHex4(s[8..12]) == Some(lo) by {
      assert s[8..12] == Hex4(lo);
      Hex4RoundTrip(lo);
    }
    UnescapeHeadPairAt(s, hi, lo);
  }

  lemma UnescapeHeadPairAt(s: string, hi: nat, lo: nat)
    requires 0xd800 <= hi < 0xdc00 && 0xdc00 <= lo < 0xe000
    requires |s| >= 12 && s[0] == '\\' && s[1] == 'u' && s[6..8] == "\\u"
    requires ParseHex4(s[2..6]) == Some(hi) && ParseHex4(s[8..12]) == Some(lo)
    ensures UnescapeHead(s) == Some((CombineSurrogates(hi, lo), 12))
  {
  }

  lemma UnescapeHeadAstral(c: char, rest: string)
    requires c as int >= 0x10000
    ensures UnescapeHead(EscapeChar(c) + rest) == Some((c, 12))
  {
    var h, l := HighSurrogate(c), LowSurrogate(c);
    var s := "\\u" + Hex4(h) + "\\u" + Hex4(l) + rest;
    assert EscapeChar(c) + rest == s by {
      EscapeAstral(c);
    }
    UnescapeHeadPair(h, l, rest);
    SurrogatesCombine(c);
  }

  lemma UnescapeHeadBmp(c: char, rest: string)
    requires c as int < 0x10000 && EscapeChar(c) == "\\u" + Hex4(c as int)
    ensures UnescapeHead(EscapeChar(c) + rest) == Some((c, 6))
  {
    var s := EscapeChar(c) + rest;
    assert s[2..6] == Hex4(c as int);
    Hex4RoundTrip(c as int);
  }

  lemma UnescapeHeadEscape(c: char, rest: string)
    ensures UnescapeHead(EscapeChar(c) + rest) == Some((c, |EscapeChar(c)|))
  {
    if c as int >= 0x10000 {
      UnescapeHeadAstral(c, rest);
    } else if c == '"' || c == '\\' || c == '\n' || c == '\r'
      || c == '\t' || c == Backspace || c == FormFeed {
      UnescapeHeadShort(c, rest);
    } else if !Printable(c) {
      UnescapeHeadBmp(c, rest);
    }
  }

  lemma UnescapeHeadShort(c: char, rest: string)
    requires c == '"' || c == '\\' || c == '\n' || c == '\r'
      || c == '\t' || c == Backspace || c == FormFeed
    ensures UnescapeHead(EscapeChar(c) + rest) == Some((c, 2))
  {
    var s := EscapeChar(c) + rest;
    assert |EscapeChar(c)| == 2 && s[0] == '\\';
  }

  /** Decoding an encoded string gives it back. */
  lemma {:induction false} UnescapeEscape(s: string)
    ensures Unescape(Escape(s)) == Some(s)
    decreases |s|
  {
    if |s| > 0 {
      UnescapeEscape(s[1..]);
      UnescapeCons(s[0], Escape(s[1..]), s[1..]);
      assert s == [s[0]] + s[1..];
    }
  }

  /** One escaped character in front of a decodable text decodes to that
      character in front of the text's decoding. */
  lemma UnescapeCons(c: char, rest: string, tail: string)
    requires Unescape(rest) == Some(tail)
    ensures Unescape(EscapeChar(c) + rest) == Some([c] + tail)
  {
    var e := EscapeChar(c);
    UnescapeHeadEscape(c, rest);
    assert (e + rest)[|e|..] == rest;
  }

  // ---------------------------------------------------------------------
  // json.dumps
  // ---------------------------------------------------------------------

  lemma JoinPrintable(parts: seq<string>, sep: string)
    requires forall i :: 0 <= i < |parts| ==> AllPrintable(parts[i])
    requires AllPrintable(sep)
    ensures AllPrintable(JoinWith(parts, sep))
  {
  }

  /** `open`, then the parts separated by `", "`, then `close`. */
  function Enclose(open: string, parts: seq<string>, close: string): (r: string)
    requires AllPrintable(open) && AllPrintable(close)
    requires forall i :: 0 <= i < |parts| ==> AllPrintable(parts[i])
    ensures |r| >= |open| && AllPrintable(r)
  {
    JoinPrintable(parts, ", ");
    open + JoinWith(parts, ", ") + close
  }

  /** One `key: value` member of a dumped object. */
  function Member(key: string, value: string): (r: string)
    requires AllPrintable(value)
    ensures AllPrintable(r)
  {
    Quote(key) + ": " + value
  }

  /** `json.dumps(v)`: ASCII-only output, `", "` between items and `": "`
      after keys. */
  function Dumps(v: Value): (r: string)
    ensures |r| > 0 && AllPrintable(r)
    decreases v
  {
    match v
    case Null => "null"
    case Bool(b) => if b then "true" else "false"
    case Int(i) => IntToString(i)
    case Str(s) => Quote(s)
    case List(items) =>
      Enclose("[", seq(|items|, k requires 0 <= k < |items| => Dumps(items[k])), "]")
    case Dict(fields) =>
      Enclose("{", seq(|fields|, k requires 0 <= k < |fields| => Member(fields[k].0, Dumps(fields[k].1))), "}")
  }

  /** A string value dumps to a literal that reads back as the string. */
  lemma DumpsStrRoundTrip(s: string)
    ensures var d := Dumps(Str(s)); Unescape(d[1..|d| - 1]) == Some(s)
  {
    var d := Dumps(Str(s));
    assert d[1..|d| - 1] == Escape(s);
    UnescapeEscape(s);
  }
}

=== FILE: versions.dfy ===
/** Schema and document versions: a `(major, minor)` pair that prints as
    `"major.minor"` and is parsed leniently from text. */
module Versions {
  import opened Wrappers
  import opened Text

  datatype Version = Version(major: int, minor: int)

  /** The constructor's defaults: `Version()` is 1.0. */
  const DefaultMajor: int := 1
  const DefaultMinor: int := 0

  datatype VersionError =
    | TooManyFields(count: nat)   // TypeError from the two-field constructor
    | NotAVersion(text: string)   // ValueError: no leading integer

  /** `Version(*args)` for zero, one or two integer arguments. */
  function MakeVersion(args: seq<int>): (r: Result<Version, VersionError>)
    ensures |args| <= 2 <==> r.Success?
    ensures r.Success? ==> r.value.major == (if |args| > 0 then args[0] else DefaultMajor)
    ensures r.Success? ==> r.value.minor == (if |args| > 1 then args[1] else DefaultMinor)
  {
    if |args| == 0 then Success(Version(DefaultMajor, DefaultMinor))
    else if |args| == 1 then Success(Version(args[0], DefaultMinor))
    else if |args| == 2 then Success(Version(args[0], args[1]))
    else Failure(TooManyFields(|args|))
  }

  /** `"%d.%d" % version` */
  function VersionString(v: Version): string {
    IntToString(v.major) + "." + IntToString(v.minor)
  }

  /** Tuple order, as Python compares named tuples. */
  predicate VersionLe(a: Version, b: Version) {
    a.major < b.major || (a.major == b.major && a.minor <= b.minor)
  }

  /** What `parse_version` may be given: a version, a tuple of integers, or
      anything else, which is read through its `str()`. */
  datatype VersionInput =
    | AsVersion(v: Version)
    | AsTuple(items: seq<int>)
    | AsText(text: string)

  /** `int(s)` succeeds on `s` with the value `n`. */
  predicate ReadsAsInt(s: string, n: int) {
    ParseInt(s) == Some(n)
  }

  /** The integers at the head of `parts`, up to the first part that is not
      an integer. */
  function LeadingInts(parts: seq<string>): (r: seq<int>)
    ensures |r| <= |parts|
    ensures forall i :: 0 <= i < |r| ==> ReadsAsInt(parts[i], r[i])
    ensures |r| < |parts| ==> ParseInt(parts[|r|]).None?
  {
    if |parts| == 0 then []
    else
      match ParseInt(parts[0])
      case None => []
      case Some(n) =>
        [n] + LeadingInts(parts[1..])
  }

  function ParseVersion(x: VersionInput): (r: Result<Version, VersionError>)
    ensures x.AsVersion? ==> r == Success(x.v)
    ensures x.AsTuple? ==> r.Success?
    ensures x.AsTuple? ==> r.value.major == (if |x.items| > 0 then x.items[0] else DefaultMajor)
    ensures x.AsTuple? ==> r.value.minor == (if |x.items| > 1 then x.items[1] else DefaultMinor)
    ensures x.AsText? ==> (r.Success? <==> ParseInt(Split(x.text, '.')[0]).Some?)
    ensures x.AsText? && r.Success? ==>
      var parts := Split(x.text, '.');
      r.value.major == ParseInt(parts[0]).value
      && r.value.minor == (if |parts| > 1 && ParseInt(parts[1]).Some? then ParseInt(parts[1]).value else DefaultMinor)
  {
    match x
    case AsVersion(v) => Success(v)
    case AsTuple(items) => MakeVersion(if |items| > 2 then items[..2] else items)
    case AsText(text) =>
      var parts := LeadingInts(Split(text, '.'));
      if |parts| == 0 then Failure(NotAVersion(text))
      else MakeVersion(if |parts| > 2 then parts[..2] else parts)
  }

  /** Printing a version and parsing the text gives the version back. */
  lemma ParseVersionString(v: Version)
    ensures ParseVersion(AsText(VersionString(v))) == Success(v)
  {
    var a, b := IntToString(v.major), IntToString(v.minor);
    assert '.' !in a && '.' !in b by {
      IntToStringOmits(v.major, '.');
      IntToStringOmits(v.minor, '.');
    }
    assert JoinWith([a, b], ".") == VersionString(v);
    SplitJoin([a, b], '.');
    ParseIntRoundTrip(v.major);
    ParseIntRoundTrip(v.minor);
  }
}

=== FILE: wrappers.dfy ===
/** Failure-carrying result types shared by every module of the model.
    Python exceptions become `Failure` values; a function that the source
    lets return `None` uses `Option`. */
module Wrappers {

  datatype Option<+T> = None | Some(value: T) {
    function GetOr(default: T): T {
      match this
      case Some(v) => v
      case None => default
    }
  }

  datatype Result<+R, +E> = Success(value: R) | Failure(error: E) {
    predicate IsFailure() {
      Failure?
    }

    function PropagateFailure<U>(): Result<U, E>
      requires Failure?
    {
      Failure(error)
    }

    function Extract(): R
      requires Success?
    {
      value
    }
  }
}
